=== FILE: README.md ===
# UAV routing under time windows and outage risk — a Dafny model

This project models the core of a research codebase that builds benchmark
instances for capacitated UAV delivery routing with time windows and radio
outage risk. It also models the code that runs the benchmark campaigns, the
statistics over the results, and the two "submission" pipelines that turn a
finished campaign into an evidence index, a claim check, an audit verdict and
LaTeX tables for a journal manuscript.

The model is functional Dafny, with one module per source file:

- Records become datatypes.
- Result tables become rows of (column, value) pairs.
- Python floats with NaN and infinities become `Numeric.Float`.
- Nullable metrics become `Option<real>`.

Anything the code obtains from a library, the operating system or a random
generator is a parameter of the model:

- the Euclidean norm and the radio model;
- the solver calls and their outcomes;
- the clock and the process runner;
- float parsing and number rendering;
- the Wilcoxon test and the bootstrap;
- the random draws.

Contracts state what each operation guarantees. Lemmas relate operations to
one another, for example round trips, "nothing else changes", agreement of
the claim guard with the audit, and order and permutation facts.

Module map (source paths are relative to the repository root):

| module | source file |
|---|---|
| Schema | src/uavtre/io/schema.py |
| Matrices, TravelTime | src/uavtre/costs/travel_time.py |
| EdgeRisk | src/uavtre/risk/edge_risk.py (and the sampling of src/uavtre/risk/radio_model.py) |
| TimeWindows | src/uavtre/scenario/time_windows.py |
| Generator | src/uavtre/scenario/generator.py |
| Objective | src/uavtre/costs/objective.py |
| ExactHighs | src/uavtre/solvers/exact_highs.py |
| JsonData, Loaders | src/uavtre/io/loaders.py |
| ExportCsv | src/uavtre/io/export_csv.py |
| Runner | src/uavtre/experiments/runner.py |
| Significance | src/uavtre/experiments/significance.py |
| MergeShards | scripts/merge_sharded_results.py |
| Audit | scripts/audit_journal_readiness.py |
| ClaimGuardV1 | src/uavtre/submit_v1/claim_guard.py |
| ClaimGuard | src/uavtre/submit_v2/claim_guard.py |
| EvidenceIndex | src/uavtre/submit_v2/evidence_index.py |
| ManuscriptBuilder | src/uavtre/submit_v2/manuscript_builder.py |
| RunState | src/uavtre/submit_v2/state.py |
| Orchestrator | src/uavtre/submit_v2/orchestrator.py |
| Numeric, Text, Sorting | shared vocabulary: Python built-ins (`int()`, `str.lower`, `sorted`, ...) |

## Model

| member | source | states |
|---|---|---|
| Schema.MainRow | src/uavtre/io/schema.py:136-167 | `RunResult.to_row` yields exactly the `RESULTS_MAIN_COLUMNS` keys in order, and a missing bound or gap becomes a null cell |
| Schema.MainRowRoundTrip | src/uavtre/io/schema.py:136-167 | reading a main-table row back by column gives the original record, so `to_row` loses nothing |
| Schema.SignificanceRow | src/uavtre/io/schema.py:187-203 | `SignificanceResult.to_row` keys are exactly `RESULTS_SIGNIFICANCE_COLUMNS`, and a missing adjusted p-value is null |
| Schema.SignificanceRowRoundTrip | src/uavtre/io/schema.py:187-203 | a significance row reads back to the record it came from |
| Schema.RouteRow | src/uavtre/io/schema.py:41-49 | a route record's fields are exactly `RESULTS_ROUTES_COLUMNS` in order |
| Schema.RouteRowRoundTrip | src/uavtre/io/schema.py:94-101 | a route row reads back to the record it came from |
| Schema.MainColumnsContainRequired | tests/unit/test_schema_contracts.py:10-35 | every column the consumers read by name is among `RESULTS_MAIN_COLUMNS` |
| Matrices.Coords | src/uavtre/costs/travel_time.py:11 | the node list is the depot followed by the clients in order |
| Matrices.PairMatrix | src/uavtre/costs/travel_time.py:14-24 | the upper-triangle fill loop yields a square, symmetric matrix with a zero diagonal whose (i, j) entry for i < j is f(p[i], p[j]) |
| Matrices.DivideAll | src/uavtre/costs/travel_time.py:22 | dividing by a non-zero speed keeps the shape, symmetry and zero diagonal, and divides every entry |
| Matrices.PairMatrixBounds | src/uavtre/risk/edge_risk.py:18-29 | a pair matrix stays within any bounds around 0 that the pair function respects |
| TravelTime.DistanceMatrix | src/uavtre/costs/travel_time.py:8-21 | distances are square over depot and clients, symmetric with a zero diagonal, and each upper entry is the norm of the coordinate difference |
| TravelTime.SafeSpeed | src/uavtre/costs/travel_time.py:22 | the speed divisor is at least 1e-9 and equals the configured speed once that is at least 1e-9 |
| TravelTime.TravelTimeMatrix | src/uavtre/costs/travel_time.py:8-26 | each travel time is the distance over the floored speed, and the matrix is symmetric with a zero diagonal |
| TravelTime.DistanceNonNegative | src/uavtre/costs/travel_time.py:17-21 | with a non-negative norm, every distance is non-negative |
| TravelTime.TravelTimeNonNegative | src/uavtre/costs/travel_time.py:17-24 | with a non-negative norm, every travel time is non-negative |
| EdgeRisk.RiskMatrix | src/uavtre/risk/edge_risk.py:9-31 | the risk matrix is square, symmetric and zero on the diagonal, and each upper entry is the outage of the lower-to-higher edge |
| EdgeRisk.SampleCount | src/uavtre/risk/radio_model.py:40-44 | an edge is sampled at least at both endpoints, and at the requested count when that is 2 or more |
| EdgeRisk.OutageFraction | src/uavtre/risk/radio_model.py:56-69 | the outage risk is a fraction; it is 0 iff every sample meets the SNR threshold and 1 iff none does |
| EdgeRisk.RiskEntriesAreFractions | src/uavtre/risk/edge_risk.py:9-31 | with an outage model valued in [0, 1], every risk-matrix entry is in [0, 1] |
| TimeWindows.ShrinkFactor | src/uavtre/scenario/time_windows.py:23 | the family-B shrink is clamped to [0.2, 1] and left unchanged inside it |
| TimeWindows.WindowA | src/uavtre/scenario/time_windows.py:14-17 | a family-A window never starts before time 0 |
| TimeWindows.WindowB | src/uavtre/scenario/time_windows.py:23-28 | a family-B window never starts before 0 and is at least 60 s wide |
| TimeWindows.BuildTimeWindows | src/uavtre/scenario/time_windows.py:6-30 | one window per client; family A unless the family upper-cases to "B", in which case family B with that client's jitter; every start is non-negative |
| TimeWindows.WindowAContainsBaseline | src/uavtre/scenario/time_windows.py:14-17 | for Δ ≥ 0 a family-A window contains its baseline, and it is non-empty once Δ > 0 |
| TimeWindows.WindowAWidth | src/uavtre/scenario/time_windows.py:14-17 | an unclipped family-A window is exactly 2Δ minutes wide |
| TimeWindows.WindowBWidth | src/uavtre/scenario/time_windows.py:23-28 | an unclipped family-B window is max(60 s, shrink × A-width) wide, and never wider than the A window or one minute |
| TimeWindows.WindowsNonEmpty | src/uavtre/scenario/time_windows.py:6-30 | every built window ends after it starts |
| TimeWindows.FamilyCaseInsensitive | src/uavtre/scenario/time_windows.py:19 | families "b" and "B" give the same windows |
| TimeWindows.FamilyAExample | src/uavtre/scenario/time_windows.py:14-20 | baselines 300/600/900 s with Δ = 5 min give the middle client [300, 900] and clip the first at 0 |
| Generator.CaseSeedIgnoresWeights | src/uavtre/scenario/generator.py:48-54 | cases that agree on seed, N, B, Δ and K get the same generator seed, whatever their weights, window family or fleet |
| Generator.CaseSeedCollision | src/uavtre/scenario/generator.py:48-54 | Δ = 5, K = 10 and Δ = 10, K = 5 give the same generator seed, because Δ and K are summed into one digit slot (see the notes on the code below) |
| Generator.CaseSeedSeparatesSeeds | src/uavtre/scenario/generator.py:48-54 | while N, B, Δ and K add less than 10000, different base seeds give different generator seeds |
| Generator.InstanceId | src/uavtre/scenario/generator.py:12-17 | an instance id starts with `seed<seed>_N`; that it separates cases is `Generator.InstanceIdSeparates` |
| Generator.RunIdIsInstanceId | src/uavtre/scenario/generator.py:12-17 | the run id the runner builds for a case equals that case's instance id when both render the weights with the same `show` (see the line on this lemma under Left out) |
| Generator.InstanceIdSeparates | src/uavtre/scenario/generator.py:12-17 | with weights rendered injectively and without `_`, equal instance ids mean equal seed, N, M, Δ, B, K, weights and window family |
| Generator.CaseSeed | src/uavtre/scenario/generator.py:48-54 | while N, B, Δ and K contribute less than 10000, the seed divided by 10000 is the base seed and the remainder is their contribution |
| Generator.SaveFrozen | src/uavtre/scenario/generator.py:120-151 | the frozen document holds the spec under `spec` and the scenario block under `scenario` |
| Generator.LoadScenario | src/uavtre/scenario/generator.py:158-171 | loading succeeds only when every scenario key is present, as a missing key raises `KeyError` |
| Generator.Split | src/uavtre/scenario/generator.py:79-86 | a client's delivery and pickup add up to its weight: delivery only, pickup only, or half each for "both", and never negative for a non-negative weight |
| Generator.DemandSplit | src/uavtre/scenario/generator.py:77-86 | one (delivery, pickup) pair per client, each the split of that client's type and weight |
| Generator.TotalDemandConserved | src/uavtre/scenario/generator.py:77-86 | total delivery plus total pickup is the total drawn weight |
| Generator.GroupCount | src/uavtre/scenario/generator.py:29 | there is at least one sweep group, and exactly one per UAV when there are UAVs |
| Generator.Groups | src/uavtre/scenario/generator.py:28-32 | the client at angle rank idx is in group idx mod g, and every member of a group got there that way |
| Generator.GroupsPartition | src/uavtre/scenario/generator.py:28-32 | with a permutation as angle order, no client sits in two groups |
| Generator.SingleGroup | src/uavtre/scenario/generator.py:28-32 | with at most one UAV, the single group is the whole angle order |
| Generator.GroupsInRange | src/uavtre/scenario/generator.py:28-32 | every grouped index is a valid client index |
| Generator.ArrivalsOrdered | src/uavtre/scenario/generator.py:35-43 | along a group, each arrival is no earlier than the start and at least one service time after the previous one |
| Generator.BaselineNonNegative | src/uavtre/scenario/generator.py:20-44 | every baseline arrival time is non-negative |
| Generator.DepotXy | src/uavtre/scenario/generator.py:56-61 | the depot is the centre of the area when configured "center", otherwise the drawn point |
| Generator.BaselineOf | src/uavtre/scenario/generator.py:88-94 | the baseline has one time per client |
| Generator.GenerateScenario | src/uavtre/scenario/generator.py:47-117 | the instance carries the drawn positions, the per-type demand split of the drawn weights (each pair summing to its weight), the configured service time, speed, capacity and altitude, and the windows built from the baseline times |
| Generator.GeneratedWindowsWellFormed | src/uavtre/scenario/generator.py:88-103 | a generated instance has one window per client; each starts at 0 or later and ends after it starts, by at least a minute in family B |
| Generator.PointsJson | src/uavtre/scenario/generator.py:136-143 | a coordinate list is written as a JSON list of pairs, one per point |
| Generator.ScenarioValues | src/uavtre/scenario/generator.py:135-147 | the scenario block holds each field under its key, in the written order |
| Generator.ScenarioJson | src/uavtre/scenario/generator.py:135-147 | the scenario block is an object whose i-th field is the i-th key with that field's value |
| Generator.AsPoint | src/uavtre/scenario/generator.py:160 | only a two-element JSON list reads as a point |
| Generator.AsPoints | src/uavtre/scenario/generator.py:161 | a list of points reads back element by element |
| Generator.PointsRoundTrip | src/uavtre/scenario/generator.py:136-161 | a written coordinate list reads back unchanged |
| Generator.LoadFrozen | src/uavtre/scenario/generator.py:154-171 | loading succeeds only for an object with a `scenario` entry; the Python `KeyError`/`TypeError` paths give `None` |
| Generator.LoadScenarioFields | src/uavtre/scenario/generator.py:158-171 | a scenario block loads as `sc` once every key reads back as in `sc` |
| Generator.ScenarioBlockRoundTrip | src/uavtre/scenario/generator.py:120-171 | a written scenario block loads back to the same scenario |
| Generator.FrozenRoundTrip | src/uavtre/scenario/generator.py:120-171 | `load_frozen_instance` of `save_frozen_instance` gives back the scenario |
| Generator.FrozenIgnoresSpec | src/uavtre/scenario/generator.py:154-158 | the spec block plays no part in loading |
| Objective.BuildEdgeData | src/uavtre/costs/objective.py:23-40 | distance, travel time and risk pass through; energy is energy-per-metre × distance and the arc cost is cost_scale × (energy + λ_out × risk_scale × risk), entry by entry |
| Objective.BuildEdgeDataSymmetric | src/uavtre/costs/objective.py:29-33 | symmetric square distance and risk matrices give symmetric square energy and cost matrices |
| Objective.Nodes | src/uavtre/costs/objective.py:84-109 | a route's node path starts at the depot 0 and then lists client + 1 for each visit |
| Objective.ServiceStart | src/uavtre/costs/objective.py:91 | service starts at the arrival or the window opening, whichever is later |
| Objective.Tardiness | src/uavtre/costs/objective.py:92 | tardiness is never negative; it is positive exactly when service starts after the window closes, and then equals the excess |
| Objective.OnTimeIff | src/uavtre/costs/objective.py:90-96 | a visit counts as on time exactly when both the arrival and the window opening are within 1e-9 s of the window end |
| Objective.Walk | src/uavtre/costs/objective.py:77-109 | walking a route ends at its last node, with non-negative tardiness and at most one on-time count per visit |
| Objective.WalkArcSums | src/uavtre/costs/objective.py:100-101 | the energy and risk a walk accumulates are the sums of the matrices along its node path |
| Objective.VisitedMembers | src/uavtre/costs/objective.py:87 | a client is in the visited set exactly when some route names it |
| Objective.EmptyRouteSequence | src/uavtre/costs/objective.py:63-75 | an empty route's node sequence is "0->0" |
| Objective.Accumulate | src/uavtre/costs/objective.py:62-134 | for routes that name existing clients, the loop over vehicles yields one route row per vehicle, at most one on-time count per visit, and non-negative tardiness and worst route risk |
| Objective.AccumulateRows | src/uavtre/costs/objective.py:62-134 | route row u is the evaluation of vehicle u's own route, numbered u |
| Objective.AccumulateVisited | src/uavtre/costs/objective.py:86-87 | the visited set is exactly the set of clients the routes name |
| Objective.AccumulateArcSums | src/uavtre/costs/objective.py:104-117 | total energy and risk are the arc sums over every non-empty route, return leg included |
| Objective.Summarize | src/uavtre/costs/objective.py:136-165 | the result is feasible iff every client is visited; feasible results carry every metric (on-time % in [0, 100], tardiness in minutes, objective = arc cost + λ_tw penalty) and infeasible ones have all metrics NaN |
| Objective.EvaluateRoutes | src/uavtre/costs/objective.py:43-165 | for routes that name existing clients: feasible iff every client 0..n-1 is visited; metrics present iff feasible and non-negative; one route row per vehicle |
| Objective.TryEvaluateRoutes | src/uavtre/costs/objective.py:86-91 | on any route list: the evaluation fails, as the `IndexError` of `edge.travel_time_s[current, node]`, exactly when some route names a client index of n or more; otherwise it is `Objective.EvaluateRoutes` |
| Objective.VisitedInRange | src/uavtre/costs/objective.py:87 | with valid route entries, every visited client is below n |
| Objective.VisitedFull | src/uavtre/costs/objective.py:136 | a subset of [0, n) has n elements exactly when it is all of [0, n), so `len(visited) == n_clients` means every client is visited |
| Objective.ArcSumLinear | src/uavtre/costs/objective.py:31-33 | along any path, the cost-matrix sum is the arc objective of the energy and risk sums |
| Objective.RoutesArcSumLinear | src/uavtre/costs/objective.py:31-33 | over all routes, the cost-matrix sum is the arc objective of the total energy and risk |
| Objective.IncumbentMatchesArcCosts | src/uavtre/costs/objective.py:141-146 | a feasible incumbent objective equals the solver's arc-cost sum over every travelled arc plus the scaled tardiness penalty |
| Objective.SummarizeIncumbent | src/uavtre/costs/objective.py:142-146 | the incumbent splits into the arc-cost part and the tardiness penalty |
| Objective.IncumbentExample | tests/unit/test_objective_consistency.py:9-47 | one client two minutes late on the test's edges gives the incumbent 100 × (4 + 2 × 10 × 0.75 + 3 × 2) |
| Objective.Flatten | src/uavtre/costs/objective.py:62-87 | the flattened visits number the total visit count and contain exactly the visited clients |
| Objective.DistinctBound | src/uavtre/costs/objective.py:136-137 | distinct client indices below n number at most n |
| Objective.OnTimePctAtMost100 | src/uavtre/costs/objective.py:95-96 | when no client is visited twice, the on-time percentage is at most 100 |
| Objective.TwiceServedTotals | src/uavtre/costs/objective.py:86-96 | one client served by two vehicles counts two on-time visits but one visited client |
| Objective.OnTimePctCountsVisits | src/uavtre/costs/objective.py:95-137 | on-time visits are counted per visit: one client served twice on time gives 200 % |
| Objective.RouteRiskBound | src/uavtre/costs/objective.py:111-122 | with risks in [0, 1], a route's risk mean is in [0, 1] |
| Objective.AccumulateRiskBounds | src/uavtre/costs/objective.py:104-122 | with risks in [0, 1], the total risk is at most the arc count and the worst route mean is at most 1 |
| Objective.RiskMetricsAreFractions | src/uavtre/costs/objective.py:121-139 | with risks in [0, 1], the risk mean and the worst route risk of an evaluation are in [0, 1] |
| ExactHighs.StatusAgreesWithRunner | src/uavtre/solvers/exact_highs.py:15-17 | the solver and the runner decide "optimal" the same way: lower-cased status containing "optimal" and not "not" |
| ExactHighs.StatusIsOptimal | src/uavtre/solvers/exact_highs.py:15-17 | no contract of its own: the lower-cased status contains "optimal" and not "not"; `ExactHighs.StatusAgreesWithRunner` states it agrees with the runner |
| ExactHighs.InfoValue | src/uavtre/solvers/exact_highs.py:20-25 | an objective or bound is reported exactly when the solver info is valid and the value is finite, and then it is that value |
| ExactHighs.ReportedGap | src/uavtre/solvers/exact_highs.py:242-244 | a gap is reported iff objective and bound exist and abs(objective) > 1e-9; it is never negative, is 100 × (obj − bound) / abs(obj) for a bound below the objective, and 0 for a bound above it |
| ExactHighs.ReportedGapAgreesWithRunner | src/uavtre/solvers/exact_highs.py:242-244 | whenever the runner's tolerance also accepts the pair, the solver's gap equals the runner's |
| ExactHighs.ReportedGapExceedingBound | src/uavtre/solvers/exact_highs.py:242-244 | a bound of 110 over an objective of 100 is a 0 % gap for the solver but no gap at all for the runner |
| ExactHighs.MaxOf | src/uavtre/solvers/exact_highs.py:96-97 | `np.max` of a non-empty vector is an entry and bounds every entry |
| ExactHighs.MaxEntry | src/uavtre/solvers/exact_highs.py:96 | the largest travel time bounds every entry of the matrix |
| ExactHighs.MTime | src/uavtre/solvers/exact_highs.py:98 | the time big-M is at least 1 |
| ExactHighs.MTimeDominates | src/uavtre/solvers/exact_highs.py:96-98 | with non-negative rounded times, the time big-M covers any leg plus any service time |
| ExactHighs.MLoadDominates | src/uavtre/solvers/exact_highs.py:99 | the load big-M exceeds capacity plus any client's delivery and pickup |
| ExactHighs.MLoad | src/uavtre/solvers/exact_highs.py:99 | with clients, the load big-M exceeds capacity plus any client's delivery and pickup |
| ExactHighs.SoftTwCaseInsensitive | src/uavtre/solvers/exact_highs.py:129-130 | windows are hard for "HARD" and "Hard" and soft for "soft": the mode is lower-cased before comparing |
| ExactHighs.TardinessCoefficient | src/uavtre/solvers/exact_highs.py:131 | the tardiness cost is the configured cost clamped at 0 |
| ExactHighs.Best | src/uavtre/solvers/exact_highs.py:39-48 | the successor scan keeps the first strictly largest positive arc value among the nodes other than i |
| ExactHighs.Succ | src/uavtre/solvers/exact_highs.py:49-50 | a recorded successor is a node other than i whose arc value exceeds 0.5 |
| ExactHighs.SuccIsFirstMaximum | src/uavtre/solvers/exact_highs.py:38-50 | a successor is recorded exactly when some arc out of i exceeds 0.5, and then it is the first node of maximal value |
| ExactHighs.SuccTable | src/uavtre/solvers/exact_highs.py:37-50 | the successor table has one entry per node, each that node's recorded successor |
| ExactHighs.WalkKeepsState | src/uavtre/solvers/exact_highs.py:52-63 | following successors from well-formed bookkeeping yields distinct clients in range |
| ExactHighs.WalkStep | src/uavtre/solvers/exact_highs.py:59-63 | appending a node not yet seen keeps the seen set equal to the depot plus the route's nodes |
| ExactHighs.RouteWellFormed | src/uavtre/solvers/exact_highs.py:52-65 | every extracted route lists distinct clients, each below n_nodes − 1, whatever the solution values |
| ExactHighs.EmptySolutionEmptyRoutes | src/uavtre/solvers/exact_highs.py:45 | an empty solution vector reads every arc as 0 and yields empty routes |
| ExactHighs.ExtractRoutes | src/uavtre/solvers/exact_highs.py:28-67 | one route per UAV (none for a non-positive count), each the successor walk of that UAV, each well formed |
| ExactHighs.SuccessorsOf | src/uavtre/solvers/exact_highs.py:37-50 | the scan loop builds exactly the successor table |
| ExactHighs.FollowSuccessors | src/uavtre/solvers/exact_highs.py:52-63 | the bounded walk loop (n_nodes + 5 steps) yields the walk from the depot |
| ExactHighs.HighsOutput | src/uavtre/solvers/exact_highs.py:236-264 | the output is method "highs" with the solver status; objective and bound only when valid and finite; the gap as `ReportedGap`; the extracted routes; metadata with engine, lower-cased mode, soft flag and optimality flag; with `n_nodes` = N + 1, every extracted route names only existing clients 0..N-1 |
| JsonData.LookupSpec | src/uavtre/io/loaders.py:13 | `d.get(key)` fails exactly when no entry has the key, and otherwise returns the value of an entry that has it |
| JsonData.LookupFirst | src/uavtre/io/loaders.py:13 | the first entry with a key decides the lookup |
| JsonData.Set | src/uavtre/io/loaders.py:14-16 | `d[key] = value` makes the key read value, leaves every other key alone, keeps existing keys in place and appends a new key last |
| JsonData.SetLength | src/uavtre/io/loaders.py:14-16 | assignment keeps the length for an existing key and adds one entry for a new one |
| JsonData.SetUnique | src/uavtre/io/loaders.py:14-16 | assignment keeps a dictionary's keys distinct |
| JsonData.AsReal | src/uavtre/scenario/generator.py:168-170 | `float(v)` accepts an integer or a real and returns its value |
| JsonData.AsReals | src/uavtre/scenario/generator.py:162-167 | `np.array(xs, dtype=float)` succeeds iff every item is a number, and then keeps every value in order |
| JsonData.RealsRoundTrip | src/uavtre/scenario/generator.py:138-162 | a list of reals written with `tolist` reads back unchanged |
| Loaders.DeepMerge | src/uavtre/io/loaders.py:10-17 | the merge keeps every base key in its place |
| Loaders.MergeUpTo | src/uavtre/io/loaders.py:12-16 | each prefix of the override loop keeps every base key in its place |
| Loaders.MergeKeys | src/uavtre/io/loaders.py:10-17 | the merged keys are the keys of both sides, and a key the override lacks keeps the base value |
| Loaders.MergeOverride | src/uavtre/io/loaders.py:13-16 | an override key takes the override value, merged recursively when both values are objects |
| Loaders.DeepMergeLookup | src/uavtre/io/loaders.py:10-17 | `_deep_merge`: the keys are the union; a base-only key keeps its value; an override key wins or is merged recursively |
| Loaders.MergeIntoEmpty | src/uavtre/io/loaders.py:10-17 | merging into an empty dictionary copies the override |
| Loaders.SetDefault | src/uavtre/io/loaders.py:71-75 | `setdefault` fills a key only when it is absent, and no other key changes |
| Loaders.SetDefaultsLookup | src/uavtre/io/loaders.py:71-81 | a run of `setdefault` calls fills only absent keys, each with its first default |
| Loaders.LookupOr | src/uavtre/io/loaders.py:99 | `d.get(key, default)` is the stored value, or the default when the key is absent |
| Loaders.Block | src/uavtre/io/loaders.py:77 | `d.get(key, {})` used as a dictionary: an absent key gives an empty one and a non-object value is an error |
| Loaders.ToFloat | src/uavtre/io/loaders.py:95-99 | `float(v)` succeeds on numbers and booleans and keeps numeric values |
| Loaders.ToInt | src/uavtre/io/loaders.py:104 | `int(v)` succeeds on numbers and booleans and truncates reals toward zero |
| Loaders.LegacyDefaultsLack | src/uavtre/io/loaders.py:71-75 | only the five legacy keys have top-level defaults |
| Loaders.LegacyEngine | src/uavtre/io/loaders.py:86-90 | an older file's engine is "pyvrp" exactly when `pyvrp.use_as_main` is truthy, and "ortools" otherwise |
| Loaders.SolverTailSpares | src/uavtre/io/loaders.py:102-105 | the solver tail defaults never touch the engine or the time limits |
| Loaders.SolverBlock | src/uavtre/io/loaders.py:84-106 | the completed solver block keeps a given engine (else the legacy one) and always has time limits: the file's own, else those derived from `highs` and `pyvrp` |
| Loaders.SolverTailOf | src/uavtre/io/loaders.py:102-105 | the tail step fails exactly when the pyvrp iteration or runtime setting is not a number, and keeps engine and time limits |
| Loaders.WithLimits | src/uavtre/io/loaders.py:92-100 | time limits are the file's own, else the legacy ones; nothing else in the block changes |
| Loaders.BoundLimitsShareKey | src/uavtre/io/loaders.py:96-97 | when `time_limit_bound_s` is set, the N = 20 and N = 40 bound limits are both that value |
| Loaders.ProfileFields | src/uavtre/io/loaders.py:27-59 | a built-in profile lists its nine keys in order with the given values |
| Loaders.ProfileFieldAt | src/uavtre/io/loaders.py:27-59 | each profile key reads back its own value |
| Loaders.First | src/uavtre/io/loaders.py:28 | `xs[:1]` is the first element, or nothing for an empty list |
| Loaders.ListOf | src/uavtre/io/loaders.py:28-35 | a list entry is read exactly when present and a list |
| Loaders.QuickProfile | src/uavtre/io/loaders.py:27-37 | the quick profile takes the first element of each list, no scalability, the edge-sample count as a list, and one case |
| Loaders.MainTableProfile | src/uavtre/io/loaders.py:38-48 | the main-table profile takes every list in full, no scalability, and no case limit |
| Loaders.ScalabilityProfile | src/uavtre/io/loaders.py:49-59 | the scalability profile takes every seed, no regular size, scalability on, the first BS count, and no case limit |
| Loaders.DefaultProfiles | src/uavtre/io/loaders.py:25-60 | the built-ins exist exactly when every list they read is present, and each name holds its profile |
| Loaders.ProfilesStep | src/uavtre/io/loaders.py:63-64 | each user profile is one assignment: the deep merge over the entry of the same name so far |
| Loaders.ProfilesKeys | src/uavtre/io/loaders.py:62-65 | a profile name survives the merge, and a profile the user does not name keeps its entry from before the merge (the built-in one) |
| Loaders.UserProfileMerged | src/uavtre/io/loaders.py:63-64 | a user profile is an object deep-merged over the entry of that name from before the merge (the built-in one), or over an empty dictionary |
| Loaders.MergeProfiles | src/uavtre/io/loaders.py:63-65 | no contract of its own: the user profiles are deep-merged one after the other over the built-ins; `Loaders.ProfilesStep`, `Loaders.ProfilesKeys` and `Loaders.UserProfileMerged` state what each merge does |
| Loaders.NormalizeProfiles | src/uavtre/io/loaders.py:25-65 | no contract of its own: the built-in profiles with the user's merged over them; `Loaders.BuiltinProfilesPresent` states that the three built-ins survive |
| Loaders.BuiltinProfilesPresent | src/uavtre/io/loaders.py:62-65 | quick, main_table and scalability always survive normalisation |
| Loaders.WithTw | src/uavtre/io/loaders.py:77-82 | the tw block is completed with its defaults; an existing non-object block is an error; nothing else changes |
| Loaders.WithSolver | src/uavtre/io/loaders.py:84-106 | the solver block is replaced by its completion with the engine rule; nothing else changes |
| Loaders.WithProfiles | src/uavtre/io/loaders.py:108-109 | profiles are replaced by the normalised ones holding the three built-ins; nothing else changes |
| Loaders.LegacyTopLevel | src/uavtre/io/loaders.py:68-75 | other top-level keys keep the file's value or get their legacy default; nothing present is overwritten |
| Loaders.LegacyDefaultsSpareBlocks | src/uavtre/io/loaders.py:71-75 | the legacy defaults touch none of tw, solver, pyvrp or highs |
| Loaders.LegacyTw | src/uavtre/io/loaders.py:77-82 | the coerced tw block is the file's own block completed with the tw defaults |
| Loaders.TwDefaultsFill | src/uavtre/io/loaders.py:78-79 | an absent mode defaults to "soft" and an absent family to "A" |
| Loaders.LegacyEngineChoice | src/uavtre/io/loaders.py:86-90 | the coerced engine is the file's own, else "pyvrp" when `pyvrp.use_as_main` is truthy, else "ortools" |
| Loaders.TwStageSparesSolver | src/uavtre/io/loaders.py:71-82 | the first two coercion stages leave the solver and pyvrp entries alone |
| Loaders.LegacyProfiles | src/uavtre/io/loaders.py:108-111 | a coerced file always holds the three built-in profiles |
| Loaders.CoerceLegacy | src/uavtre/io/loaders.py:68-111 | no contract of its own: the legacy defaults, then the tw, solver and profiles stages; `Loaders.LegacyTopLevel`, `Loaders.LegacyTw`, `Loaders.LegacyEngineChoice` and `Loaders.LegacyProfiles` state the result |
| Loaders.LoadProjectConfig | src/uavtre/io/loaders.py:114-130 | malformed exactly when coercion of the (override-merged) file fails; otherwise the named profile (default main_table) is loaded when present and unknown otherwise; quick, scalability and the default are never unknown |
| ExportCsv.Get | src/uavtre/io/export_csv.py:18-22 | a column the row lacks reads as null |
| ExportCsv.GetFirst | src/uavtre/io/export_csv.py:18-22 | the first entry of a column's name decides the cell |
| ExportCsv.Select | src/uavtre/io/export_csv.py:22 | `df[list(columns)]` yields exactly the listed columns in order |
| ExportCsv.SelectGet | src/uavtre/io/export_csv.py:22 | selecting columns keeps the cell of every selected column |
| ExportCsv.EnsureColumns | src/uavtre/io/export_csv.py:18-22 | `_ensure_columns` gives every row exactly the schema's columns in order and keeps the row count |
| ExportCsv.EnsureColumnsCells | src/uavtre/io/export_csv.py:18-22 | a listed column keeps its cells, a missing one is NA, and an unlisted column is dropped |
| ExportCsv.EnsureColumnsIdempotent | src/uavtre/io/export_csv.py:18-22 | ensuring the same columns twice changes nothing the second time |
| ExportCsv.AddKeys | src/uavtre/io/export_csv.py:26 | header building keeps the existing columns first and adds exactly the new keys |
| ExportCsv.ColumnsOf | src/uavtre/io/export_csv.py:26 | a frame built from records has a column for exactly the keys some record holds |
| ExportCsv.WriteTable | src/uavtre/io/export_csv.py:25-32 | the written table has exactly the schema header, no rows for an empty frame, one row per record otherwise |
| ExportCsv.WriteTableCells | src/uavtre/io/export_csv.py:26-29 | each written row holds its record's cell under every schema column |
| ExportCsv.WriteTableEmpty | src/uavtre/io/export_csv.py:27-29 | no records give the bare schema header and no rows |
| ExportCsv.WriteUniform | src/uavtre/io/export_csv.py:25-32 | records that all carry the schema are written row for row, cell for cell |
| ExportCsv.WriteResultsMain | src/uavtre/io/export_csv.py:25-32 | one row per run result under `RESULTS_MAIN_COLUMNS`, each cell the result's `to_row` value |
| ExportCsv.WriteResultsRoutes | src/uavtre/io/export_csv.py:35-42 | one row per route record under `RESULTS_ROUTES_COLUMNS`, each cell the record's field |
| ExportCsv.WriteResultsSignificance | src/uavtre/io/export_csv.py:45-54 | one row per comparison under `RESULTS_SIGNIFICANCE_COLUMNS`, each cell the result's `to_row` value |
| ExportCsv.Parent | src/uavtre/io/export_csv.py:59 | `path.parent` drops the last component, and the current directory is its own parent |
| ExportCsv.ResolveOutputPaths | src/uavtre/io/export_csv.py:57-62 | the main path as given, plus `results_routes.csv` and `results_significance.csv` beside it |
| ExportCsv.ResolveSiblings | src/uavtre/io/export_csv.py:57-62 | the three outputs of one directory all lie in that directory |
| Runner.RegimeNameInjective | src/uavtre/experiments/runner.py:73-78 | the three `claim_regime` strings are pairwise distinct, so the column identifies the regime |
| Runner.ClaimRegime | src/uavtre/experiments/runner.py:73-78 | `exact` iff N ≤ 10; `scalability_only` iff N > 10 and N ≥ the scalability size; `bound_gap` iff 10 < N < the scalability size |
| Runner.ClaimRegimeMonotone | src/uavtre/experiments/runner.py:73-78 | a larger case never falls in an earlier regime (exact, then bound_gap, then scalability_only) |
| Runner.ClaimRegimeExamples | tests/regression/test_scalability_policy.py:7-9 | 80 and 120 clients at scalability size 80 are `scalability_only`; 10 is `exact` and 40 is `bound_gap` |
| Runner.TimeLimitsForSize | src/uavtre/experiments/runner.py:81-97 | the quick profile gives 10 s to both; otherwise both get the configured limit for N ≤ 10, N = 20 or N = 40 (defaults 3600, 900, 1800 s); any other size gets the scalability limit (default 900 s) for the heuristic and none for HiGHS |
| Runner.HighsBudgetPositiveIff | src/uavtre/experiments/runner.py:81-97 | outside the quick profile, with positive configured limits, HiGHS has a positive budget exactly for N ≤ 10, N = 20 and N = 40 |
| Runner.OffGridBoundGapHighsZero | src/uavtre/experiments/runner.py:73-97 | a 30-client case is `bound_gap` yet gets a HiGHS limit of zero under the main-table profile |
| Runner.Pair | src/uavtre/experiments/runner.py:120 | pairing a value with each element of a list keeps the list's length and order |
| Runner.Cross | src/uavtre/experiments/runner.py:120 | `itertools.product` of two lists has the product of their lengths |
| Runner.CrossIndex | src/uavtre/experiments/runner.py:120 | in the product, `(xs[i], ys[j])` sits at position `i·len(ys) + j` (first factor varies slowest) |
| Runner.CrossMembers | src/uavtre/experiments/runner.py:120 | a pair occurs in the product iff its first part is in the first list and its second in the second |
| Runner.Sizes | src/uavtre/experiments/runner.py:102-104 | the profile's sizes, with the scalability size appended when the profile includes it |
| Runner.RunKey | src/uavtre/experiments/runner.py:118-121 | the spec key starts with `seed<seed>_N`; that distinct combinations get distinct keys is `Runner.RunKeyInjective` |
| Runner.RunKeyInjective | src/uavtre/experiments/runner.py:118-121 | with weights rendered injectively and without `_`, equal run keys mean equal seed, N, M, Δ, B, K, weights and window family, so the merge's `(run_id, method)` key tells cases apart |
| Runner.AllSpecs | src/uavtre/experiments/runner.py:100-135 | one spec per product combination, in product order |
| Runner.IterSpecs | src/uavtre/experiments/runner.py:100-135 | an unknown profile fails; `max_cases` 0 yields every spec, a negative value none, a positive one the first `min(max_cases, total)` specs |
| Runner.SpecsCount | src/uavtre/experiments/runner.py:100-135 | the number of specs is the product of the seven list lengths |
| Runner.SpecsSeedMajor | src/uavtre/experiments/runner.py:100-135 | specs come in one consecutive block per seed, in seed order |
| Runner.SpecsSound | src/uavtre/experiments/runner.py:100-135 | each spec takes one value from each list and the fixed UAV count, family and mode |
| Runner.SpecsComplete | src/uavtre/experiments/runner.py:100-135 | every combination of list values has its spec |
| Runner.MissingChar | src/uavtre/experiments/runner.py:159-170 | a substring cannot occur in a text lacking one of its characters |
| Runner.OptimalIsOptimal | tests/unit/test_claim_and_gap_policy.py:16-17 | "Optimal" is an optimal status |
| Runner.TimeLimitNotOptimal | tests/unit/test_claim_and_gap_policy.py:16-18 | "Time limit reached" is not an optimal status |
| Runner.StatusNegations | src/uavtre/experiments/runner.py:159-170 | "not optimal" is not optimal, "Infeasible" is not feasible, "Optimal" is feasible |
| Runner.SafeSolverCall | src/uavtre/experiments/runner.py:138-156 | the output is labelled with the method name and measured runtime; an exception becomes an `unavailable:<message>` output with no routes or numbers, which is never feasible |
| Runner.UnavailableRejected | src/uavtre/experiments/runner.py:159-165 | no status beginning `unavailable:` is feasible, whatever the message |
| Runner.Tolerance | src/uavtre/experiments/runner.py:188 | the allowed bound excess is at least 1e-6 and at least 1e-6·abs(incumbent) |
| Runner.ComputeGapPct | src/uavtre/experiments/runner.py:182-196 | in exact arithmetic, a gap exists iff both values are finite and the bound does not exceed the incumbent by more than the tolerance; it is then the clamped relative gap, never negative (the overflow guard is under Left out) |
| Runner.GapExamples | tests/unit/test_claim_and_gap_policy.py:6-13 | incumbent 100 and bound 90 give 10%; bound 110 gives no gap |
| Runner.GapZeroIff | src/uavtre/experiments/runner.py:193-196 | the gap is zero exactly when the bound reaches the incumbent |
| Runner.GapAntitone | src/uavtre/experiments/runner.py:193-196 | a higher bound never gives a larger gap |
| Runner.GapAtMost100 | src/uavtre/experiments/runner.py:193-196 | a non-negative bound under a positive incumbent gives at most 100% |
| Runner.PlannedMethods | src/uavtre/experiments/runner.py:251-313 | PyVRP alone or OR-Tools then PyVRP baseline, followed by HiGHS exactly when the base regime is not `scalability_only` |
| Runner.CaseOutputs | src/uavtre/experiments/runner.py:249-313 | one guarded output per planned method, in order, each labelled with its method |
| Runner.FindHighs | src/uavtre/experiments/runner.py:315-321 | the first HiGHS output, or nothing exactly when no output is HiGHS |
| Runner.FinalRegime | src/uavtre/experiments/runner.py:323-329 | `exact` survives iff HiGHS ran with an optimal status; an uncertified `exact` becomes `bound_gap`; other regimes are kept |
| Runner.CaseRegime | src/uavtre/experiments/runner.py:323-329 | a case is `scalability_only` exactly when N > 10 and N reaches the scalability size, and `exact` exactly when N ≤ 10 and the first HiGHS output reports an optimal status |
| Runner.Flag | src/uavtre/experiments/runner.py:345 | `int(bool)`: 1 exactly when true, else 0 |
| Runner.Assess | src/uavtre/experiments/runner.py:331-357 | with routes, feasible iff the evaluator and the status agree, metrics only on a feasible row; without routes, the status decides and the incumbent is the solver's objective |
| Runner.Lift | src/uavtre/experiments/runner.py:370 | a known number passes back through `_sanitize_finite` unchanged |
| Runner.ApplyPolicy | src/uavtre/experiments/runner.py:359-375 | `scalability_only` rows lose bound and gap; HiGHS rows report their own bound, with gap 0 when `exact`; other rows borrow the HiGHS bound only when both it and their incumbent exist; service metrics are untouched |
| Runner.HighsBound | src/uavtre/experiments/runner.py:315-321 | the borrowed bound is the sanitised bound of the first HiGHS output |
| Runner.CaseMetrics | src/uavtre/experiments/runner.py:331-375 | for routes that name existing clients, the finished flag is 0 or 1 and any gap is non-negative |
| Runner.RunCase | src/uavtre/experiments/runner.py:331-412 | the main rows, for routes that name existing clients: one row per output in order, with its method, `profile_spec_method` run id, the case's final regime, a 0/1 flag, a non-negative gap and total = edge + solve runtime |
| Runner.CaseRouteRows | src/uavtre/experiments/runner.py:343-354 | the route table of a case has one row per route of every output, feasible or not, since an output without routes adds none |
| Runner.CaseRouteRowAt | src/uavtre/experiments/runner.py:331-354 | route u of output i sits after the routes of the earlier outputs: it is the evaluation of that route, under the output's `profile_spec_method` run id and numbered u |
| Runner.OffsetsGrow | src/uavtre/experiments/runner.py:331-354 | the route rows of each output end within the case's route table |
| Runner.TryRunCase | src/uavtre/experiments/runner.py:331-357 | on any solver routes: the case fails exactly when some output's routes name a missing client, because `evaluate_routes` raises outside the solver guard; otherwise it gives `Runner.RunCase`'s main rows and `Runner.CaseRouteRows`' route rows |
| Runner.MakeRow | src/uavtre/experiments/runner.py:380-411 | no contract of its own: the row copies the spec's identity, the output's method and runtimes and the finished numbers; `Runner.RunCase` states what the rows hold |
| Runner.ScalabilityRowsHaveNoBoundOrGap | tests/regression/test_scalability_policy.py:12-47 | every row of a case at or above the scalability size is `scalability_only` with neither bound nor gap |
| Runner.ExactRowsAreCertified | src/uavtre/experiments/runner.py:323-367 | an `exact` case has at most ten clients and an optimal HiGHS output, and its HiGHS row reports gap 0 |
| Runner.BorrowedBoundIsHighsBound | src/uavtre/experiments/runner.py:373-375 | a non-HiGHS row with a bound reports the HiGHS bound and the gap from its own incumbent |
| Runner.HighsRunsOutsideScalability | src/uavtre/experiments/runner.py:299-321 | over the planned methods, no HiGHS output exists exactly for `scalability_only` cases |
| Significance.Valid | src/uavtre/experiments/significance.py:56 | the kept entries are exactly the present p-values, each with its own index |
| Significance.ByPTotal | src/uavtre/experiments/significance.py:60 | the sort key by p-value is a total preorder |
| Significance.HolmStep | src/uavtre/experiments/significance.py:64-66 | one step is at most 1 and never below the previous value (when that is at most 1) |
| Significance.ScaledAtLeast | src/uavtre/experiments/significance.py:64 | a factor of at least one does not shrink a non-negative p-value |
| Significance.HolmSeq | src/uavtre/experiments/significance.py:62-68 | the running adjusted values are at most 1 and non-decreasing along the ascending order |
| Significance.HolmSeqAt | src/uavtre/experiments/significance.py:62-68 | rank r is computed from rank r − 1 with factor m − r exactly as the loop body does |
| Significance.HolmSeqAtLeastRaw | src/uavtre/experiments/significance.py:62-68 | with at most m non-negative p-values, each adjusted value is at least min(1, raw) and at least 0 |
| Significance.Scatter | src/uavtre/experiments/significance.py:67 | assignments change only the indices they name, and every named index ends up present |
| Significance.Zip | src/uavtre/experiments/significance.py:63-67 | each visited index is paired with its adjusted value |
| Significance.Ps | src/uavtre/experiments/significance.py:63 | the p-values of the visiting order, position by position |
| Significance.HolmAdjust | src/uavtre/experiments/significance.py:53-70 | the adjusted list has one entry per input |
| Sorting.SortStable | src/uavtre/experiments/significance.py:60 | the sort is stable: the elements that tie with any value come out in their input order, as with `list.sort`, `sorted` and the several-column `sort_values` (src/uavtre/submit_v2/manuscript_builder.py:114) |
| Sorting.InsertKeepsTies | src/uavtre/experiments/significance.py:60 | inserting an element puts it ahead of every element it ties with |
| Significance.HolmOrderAscending | src/uavtre/experiments/significance.py:60 | the loop visits the present p-values in ascending order |
| Significance.HolmKeepsMissing | src/uavtre/experiments/significance.py:53-70 | an adjusted entry is missing exactly when its raw p-value is |
| Significance.HolmBounds | src/uavtre/experiments/significance.py:53-70 | every adjusted value of a non-negative p-value lies between min(1, raw) and 1 |
| Significance.RankBiserial | src/uavtre/experiments/significance.py:28-34 | the effect size lies in [−1, 1], is 0 for all-zero differences, and is ±1 exactly when all non-zero differences share that sign |
| Significance.RatioFacts | src/uavtre/experiments/significance.py:31-34 | (pos − neg)/(pos + neg) lies in [−1, 1], is 1 iff neg = 0, −1 iff pos = 0, and swapping the counts negates it |
| Significance.DivUnit | src/uavtre/experiments/significance.py:34 | a quotient by a positive number lies in [−1, 1] with the extremes exactly at ± the divisor |
| Significance.Negate | src/uavtre/experiments/significance.py:144 | every difference negated (b compared with a) |
| Significance.NegateCounts | src/uavtre/experiments/significance.py:29-30 | negating swaps the positive and negative counts |
| Significance.RankBiserialAntisymmetric | src/uavtre/experiments/significance.py:28-34 | swapping the two methods negates the effect size |
| Significance.EffectDirection | src/uavtre/experiments/significance.py:156-162 | `tie` iff the median is within 1e-12 of zero; `a_better` iff the median favours a in the metric's sense; otherwise `b_better` |
| Significance.EffectDirectionSwap | src/uavtre/experiments/significance.py:156-162 | negating the median swaps `a_better` and `b_better` and keeps `tie` |
| Significance.SignificantFlag | src/uavtre/experiments/significance.py:193 | 1 exactly when the adjusted p-value exists and is below 0.05, else 0 |
| Significance.FlagNeedsSmallRawP | src/uavtre/experiments/significance.py:190-193 | a flagged comparison had a raw p-value below 0.05 |
| Significance.MedianWithin | src/uavtre/experiments/significance.py:156 | the median lies within any bounds holding for every difference |
| Significance.Median | src/uavtre/experiments/significance.py:156 | no contract of its own: the middle sorted value, or the mean of the two middle ones; `Significance.MedianWithin` bounds it |
| Significance.UniformDifferencesDecide | src/uavtre/experiments/significance.py:156-162 | when every difference exceeds the tie tolerance, the direction is decided by the metric's sense alone |
| Significance.MinOf | src/uavtre/experiments/significance.py:156 | the least element is a member and below every element |
| Significance.MaxOf | src/uavtre/experiments/significance.py:156 | the greatest element is above every element |
| Significance.MinOfBelow | src/uavtre/experiments/significance.py:156-157 | a minimum of values above 1e-12 is above 1e-12 |
| Significance.ByNameTotal | src/uavtre/experiments/significance.py:117 | string order is a total preorder |
| Significance.Unique | src/uavtre/experiments/significance.py:117 | the distinct values, each once, exactly the values of the input |
| Significance.SortedMethods | src/uavtre/experiments/significance.py:117 | the method list holds exactly the methods of the table |
| Significance.SortedMethodsStrict | src/uavtre/experiments/significance.py:117 | the method list is strictly increasing |
| Significance.DistinctAfterSort | src/uavtre/experiments/significance.py:117 | sorting a duplicate-free list keeps it duplicate-free |
| Significance.Pairs | src/uavtre/experiments/significance.py:121 | fewer than two methods give no pairs |
| Significance.PairsInOrder | src/uavtre/experiments/significance.py:121 | every pair takes an earlier method first and a later one second |
| Significance.PairsOrdered | src/uavtre/experiments/significance.py:117-121 | over the sorted methods every pair has method a before method b |
| Significance.RowsOf | src/uavtre/experiments/significance.py:122-123 | exactly the rows of one method |
| Significance.Matches | src/uavtre/experiments/significance.py:125-130 | exactly the rows of the other side sharing this row's key, paired with it |
| Significance.JoinOn | src/uavtre/experiments/significance.py:125-130 | the inner join holds exactly the row pairs with equal keys |
| Significance.MetricValue | src/uavtre/experiments/significance.py:135-138 | a metric column exists in the merged table exactly for the numeric columns |
| Significance.Paired | src/uavtre/experiments/significance.py:140 | dropping incomplete pairs never adds pairs |
| Significance.Diffs | src/uavtre/experiments/significance.py:144 | one difference a − b per pair |
| Significance.BootstrapCi | src/uavtre/experiments/significance.py:37-40 | no interval for fewer than two pairs |
| Significance.Compare | src/uavtre/experiments/significance.py:134-185 | a row exists iff the column exists and some pair is complete; it then has the ids, p = 1 for all-close differences else the test's, the median's direction, the rank-biserial effect and the interval |
| Significance.ForMetrics | src/uavtre/experiments/significance.py:134-185 | at most one row per metric, each for this pair of methods |
| Significance.ForPair | src/uavtre/experiments/significance.py:121-185 | an empty join contributes no rows |
| Significance.ForPairs | src/uavtre/experiments/significance.py:121-185 | every row belongs to one of the enumerated pairs |
| Significance.RawPs | src/uavtre/experiments/significance.py:185 | the raw p-values in row order |
| Significance.ComputeSignificance | src/uavtre/experiments/significance.py:73-195 | an empty table gives nothing, a missing scipy the single sentinel row, otherwise the raw rows with Holm-adjusted p-values and flags |
| Significance.Adjusted | src/uavtre/experiments/significance.py:190-193 | each row gets the adjusted p-value at its position and that value's flag |
| Significance.SignificanceRowsWellFormed | src/uavtre/experiments/significance.py:117-193 | every row names its methods in sorted order, rests on at least one pair, has an effect in [−1, 1] and the flag of its adjusted p-value |
| Significance.NoDifferenceNeverSignificant | src/uavtre/experiments/significance.py:147-193 | a comparison whose raw p-value is 1 (all differences vanish) is never flagged |
| Significance.AdjustedUnitNotFlagged | src/uavtre/experiments/significance.py:190-193 | a raw p-value of 1 is not flagged after the adjustment |
| Significance.UnitPValueNotFlagged | src/uavtre/experiments/significance.py:53-70 | Holm keeps a p-value of 1 at 1 |
| Significance.RawPValuesNonNegative | src/uavtre/experiments/significance.py:147-154 | every raw p-value is 1 or a non-negative test value |
| MergeShards.DropDuplicates | scripts/merge_sharded_results.py:61 | `drop_duplicates(keep="first")` never adds rows |
| MergeShards.DropDuplicatesDistinct | scripts/merge_sharded_results.py:61 | no two kept rows share a key |
| MergeShards.DropDuplicatesComplete | scripts/merge_sharded_results.py:61 | every key of the input survives |
| MergeShards.DropDuplicatesFirst | scripts/merge_sharded_results.py:61 | every kept row is the first row with its key |
| MergeShards.DropDuplicatesIdempotent | scripts/merge_sharded_results.py:61 | rows with distinct keys are kept unchanged |
| MergeShards.StackRows | scripts/merge_sharded_results.py:60 | `pd.concat` puts each table's rows after those of the tables before it |
| MergeShards.StackRowsContains | scripts/merge_sharded_results.py:60 | every row of every shard table is in the stack |
| MergeShards.ByShardNameTotal | scripts/merge_sharded_results.py:40 | ordering shards by directory name is a total preorder |
| MergeShards.ShardDirs | scripts/merge_sharded_results.py:40 | exactly the directories named `shard_*`, sorted by name |
| MergeShards.Filter | scripts/merge_sharded_results.py:40 | exactly the entries that are `shard_*` directories |
| MergeShards.MainTables | scripts/merge_sharded_results.py:49-53 | no main tables exactly when no shard has one; every shard's main table is included |
| MergeShards.RouteTables | scripts/merge_sharded_results.py:49-55 | no route tables exactly when no shard has one |
| MergeShards.MergeShardResults | scripts/merge_sharded_results.py:34-72 | fails with the count when there are fewer shards than required, fails when no shard has a main table, and otherwise yields tables with exactly the schema columns |
| MergeShards.MergedMainKeys | scripts/merge_sharded_results.py:60-61 | the merged main table has at most one row per `(run_id, method)` |
| MergeShards.ShardKeysKept | scripts/merge_sharded_results.py:49-61 | every `(run_id, method)` of every shard survives the merge |
| MergeShards.SameKey | scripts/merge_sharded_results.py:27-31 | adding missing columns keeps each row's key cells |
| MergeShards.MainKeyInColumns | src/uavtre/io/schema.py:136-167 | `run_id` and `method` are main columns |
| MergeShards.NoRoutesEmpty | scripts/merge_sharded_results.py:64-71 | with no route files the merged route table is empty with the route columns |
| MergeShards.MergedRoutesUnique | scripts/merge_sharded_results.py:64-69 | the merged route table has at most one row per `(run_id, uav_id, route_node_sequence)` |
| Audit.ToNumeric | scripts/audit_journal_readiness.py:85 | `to_numeric(errors="coerce")` keeps a number, reads a blank as NaN, and parses text as `float` does, text that does not parse becoming NaN |
| Audit.Where | scripts/audit_journal_readiness.py:92 | a boolean mask keeps exactly the rows satisfying it, in order |
| Audit.GapSanity | scripts/audit_journal_readiness.py:84-88 | the negative and the infinite counts, over the gaps as `to_numeric` reads them, never exceed the row count; `Audit.GapSanityClean` states when both are zero |
| Audit.GapSanityClean | scripts/audit_journal_readiness.py:84-88 | the gate passes exactly when every gap, after `to_numeric`, is NaN or a finite value of at least −1e-9; numeric text such as "-5" is judged by its value |
| Audit.NumericTextGapCounted | scripts/audit_journal_readiness.py:84-88 | in a column holding "pending" and "-5", the "-5" is counted as a negative gap and the gate fails |
| Audit.MinusInfinityCountedTwice | scripts/audit_journal_readiness.py:84-88 | a gap of minus infinity counts as both negative and infinite |
| Audit.ExactCertification | scripts/audit_journal_readiness.py:91-105 | no small HiGHS rows give `(0, 0)`; `Audit.ExactCertificationClean` states when the uncertified count is zero |
| Audit.ExactCertificationClean | scripts/audit_journal_readiness.py:91-105 | no row is uncertified exactly when every `exact` HiGHS row of at most ten clients has a gap cell that is not missing and that `to_numeric` reads as NaN (unparsable text, then filled with 0) or as a finite value within 1e-9 of zero |
| Audit.NumericTextGapUncertified | scripts/audit_journal_readiness.py:96-104 | an `exact` HiGHS row whose gap is the text "5" is counted uncertified |
| Audit.ScalabilityPolicy | scripts/audit_journal_readiness.py:108-117 | the first count is the number of rows with at least 80 clients |
| Audit.ScalabilityPolicyClean | scripts/audit_journal_readiness.py:108-117 | no invalid row exactly when every row of at least 80 clients has no gap, no bound and the `scalability_only` regime |
| Audit.GitTrace | scripts/audit_journal_readiness.py:120-121 | the unknown-SHA count never exceeds the row count |
| Audit.NSet | scripts/audit_journal_readiness.py:133-136 | a missing table has no sizes; otherwise the sizes are exactly the truncated finite N values of the rows |
| Audit.OverallPassIff | scripts/audit_journal_readiness.py:310-321 | the audit passes exactly when every critical gate passed |
| Audit.OverallPass | scripts/audit_journal_readiness.py:310-321 | no contract of its own: no critical gate failed; `Audit.OverallPassIff` states it gate by gate |
| Audit.AuditGates | scripts/audit_journal_readiness.py:155-309 | no contract of its own: the family-A gates, then the family-B gates, then the optional ones, for tables holding every column the checks read; `Audit.OptionalGatesNotCritical` and `Audit.VerdictFromRequiredGates` state which can decide the verdict, and `Audit.TryAuditGates` covers the missing columns |
| Audit.TryGapSanity | scripts/audit_journal_readiness.py:84-88 | raises exactly when the table has no `gap_pct` column, otherwise the gap-sanity counts |
| Audit.TryExactCertification | scripts/audit_journal_readiness.py:91-105 | raises exactly when `N` or `method` is missing, or when there are small HiGHS rows and `claim_regime` or `gap_pct` is missing |
| Audit.TryScalabilityPolicy | scripts/audit_journal_readiness.py:108-117 | raises exactly when `N` is missing, or when there are rows of at least 80 clients and `gap_pct`, `best_bound` or `claim_regime` is missing |
| Audit.TryGitTrace | scripts/audit_journal_readiness.py:120-121 | raises exactly when `git_sha` is missing |
| Audit.TryAuditGates | scripts/audit_journal_readiness.py:170-234 | the audit raises `KeyError`, writing no report, exactly when a present family-A table lacks a column its checks read; otherwise it gives `Audit.AuditGates` |
| Audit.KeyErrorOnlyOffSchema | scripts/audit_journal_readiness.py:80-121 | tables that keep the results schema never raise, so a raising audit has a family-A table off the schema |
| Audit.SchemaHasCheckedColumns | src/uavtre/io/schema.py:9-39 | the results schema holds every column the audit's checks read |
| Audit.KeyErrorFailsVerdict | scripts/audit_journal_readiness.py:170-234 | an audit that raises would have failed its verdict anyway, since the offending table's critical schema gate fails |
| Audit.NonCriticalIrrelevant | scripts/audit_journal_readiness.py:310-321 | changing the outcome of a high or medium gate never changes the verdict |
| Audit.OptionalGatesNotCritical | scripts/audit_journal_readiness.py:236-308 | the family and root-file gates are never critical, and missing family-B files raise only high gates |
| Audit.VerdictFromRequiredGates | scripts/audit_journal_readiness.py:155-321 | the verdict depends only on the family-A and family-B gates |
| Audit.ExitCode | scripts/audit_journal_readiness.py:337-338 | exit status 1 exactly when a check raises (an uncaught exception) or when `--fail-on-critical` is set and some critical gate failed, else 0 |
| Audit.NumCell | scripts/audit_journal_readiness.py:74-77 | an engine number reads back as a non-missing cell exactly when it was present |
| Audit.AuditRowOf | src/uavtre/io/export_csv.py:25-32 | a written engine row reads back with its size, regime and method, and with a missing gap or bound exactly when the engine left it out |
| Audit.EngineRowsPass | scripts/audit_journal_readiness.py:84-117 | with a scalability size of at most 80, rows keeping the engine's row policy pass the gap-sanity, certification and scalability checks |
| Audit.RunCaseRowsAreEngineRows | src/uavtre/experiments/runner.py:331-412 | every row `run_experiment_matrix` writes for a case keeps the engine's row policy: no negative gap, a zero gap on `exact` HiGHS rows, no bound or gap at or above the scalability size |
| Audit.TriedCaseRowsAreEngineRows | src/uavtre/experiments/runner.py:331-412 | on any solver routes, a case either stops the run with `IndexError` or writes only rows that keep the engine's row policy |
| Audit.RunCaseRowIsEngineRow | src/uavtre/experiments/runner.py:359-375 | one row of a case keeps the engine's row policy |
| Audit.Concat | src/uavtre/experiments/runner.py:331-412 | the rows of all cases: every case's rows are in it and every row comes from a case |
| Audit.RunCasesPassAudit | scripts/audit_journal_readiness.py:84-117 | the rows of cases the engine ran, with a scalability size of at most 80, pass the gap-sanity, certification and scalability checks |
| Audit.LargerScalabilitySizeFailsAudit | scripts/audit_journal_readiness.py:108-117 | an 80-client `bound_gap` row, which the engine writes when the scalability size exceeds 80, is counted as invalid |
| ClaimGuard.Items | src/uavtre/submit_v2/claim_guard.py:111-112 | one `      - <item>` line per item, in order |
| ClaimGuard.ClaimBlock | src/uavtre/submit_v2/claim_guard.py:107-113 | a claim's block opens with its `claim_id` item, closes with its `command_ref`, and has five lines plus one per metric (and the slice lists when written) |
| ClaimGuard.RegistryLines | src/uavtre/submit_v2/claim_guard.py:101-115 | the registry starts with the campaign header and the `claims:` line |
| ClaimGuard.RegistryIdsAppend | src/uavtre/submit_v2/claim_guard.py:101-115 | reading ids from concatenated lines concatenates the ids |
| ClaimGuard.IndentedHaveNoIds | src/uavtre/submit_v2/claim_guard.py:108-113 | the indented detail lines open no claim item |
| ClaimGuard.ClaimBlockIds | src/uavtre/submit_v2/claim_guard.py:107-113 | a claim's block yields exactly its id |
| ClaimGuard.RegistryRoundTrip | src/uavtre/submit_v2/claim_guard.py:101-115 | reading the claim items of a written registry gives back the claim ids in order |
| ClaimGuard.HeaderHasNoIds | src/uavtre/submit_v2/claim_guard.py:104-105 | the header lines name no claim |
| ClaimGuard.WriteRegistry | src/uavtre/submit_v2/claim_guard.py:101-115 | the written registry names exactly the built-in claims, in order, under the campaign header |
| ClaimGuard.ValueMap | src/uavtre/submit_v2/claim_guard.py:118-122 | the keys are exactly the `(claim_id, metric)` pairs of the rows |
| ClaimGuard.ValueMapLastWins | src/uavtre/submit_v2/claim_guard.py:118-122 | a key maps to the value of its last row |
| ClaimGuard.MissingMetrics | src/uavtre/submit_v2/claim_guard.py:178-182 | exactly the required metrics with no row |
| ClaimGuard.NullMetrics | src/uavtre/submit_v2/claim_guard.py:183-185 | exactly the required metrics whose row holds a null |
| ClaimGuard.CheckClaim | src/uavtre/submit_v2/claim_guard.py:174-201 | a claim passes exactly when each required metric has a non-null value; the row keeps the claim's id, policy and command |
| ClaimGuard.Tagged | src/uavtre/submit_v2/claim_guard.py:190 | `cid:metric` for each metric, in order |
| ClaimGuard.CheckClaims | src/uavtre/submit_v2/claim_guard.py:174-201 | one row per claim; nothing is unresolved exactly when every claim passes |
| ClaimGuard.IntOf | src/uavtre/submit_v2/claim_guard.py:205 | `int(float(v))` truncates a finite number and fails on blanks, NaN and infinities |
| ClaimGuard.AsInt | src/uavtre/submit_v2/claim_guard.py:210-214 | the default for an absent or unreadable value, the truncated number otherwise |
| ClaimGuard.C1Violations | src/uavtre/submit_v2/claim_guard.py:204-208 | no C1 violation exactly when the audit verdict is present and reads as 1; an unreadable one is reported as such |
| ClaimGuard.C6Violations | src/uavtre/submit_v2/claim_guard.py:216-221 | no C6 violation exactly when both invalid counts read as 0 (absent meaning 1) and the N=80 row count as positive (absent meaning 0) |
| ClaimGuard.AbsentC6Violates | src/uavtre/submit_v2/claim_guard.py:216-221 | an absent C6 metric is always a violation |
| ClaimGuard.CloseAt | src/uavtre/submit_v2/claim_guard.py:144 | the position of the first `}`, or none when there is no `}` |
| ClaimGuard.EvidTokens | src/uavtre/submit_v2/claim_guard.py:144 | every `\evid{...}` group found is non-empty and holds no `}` |
| ClaimGuard.EvidTokenFound | src/uavtre/submit_v2/claim_guard.py:144 | a single tag is found as written |
| ClaimGuard.CloseAtFirst | src/uavtre/submit_v2/claim_guard.py:144 | the search stops at the first closing brace |
| ClaimGuard.NoBackslashNoTokens | src/uavtre/submit_v2/claim_guard.py:144 | text without a backslash holds no tag |
| ClaimGuard.Stripped | src/uavtre/submit_v2/claim_guard.py:145-147 | every non-empty stripped token is kept, and only non-empty ones |
| ClaimGuard.StrippedFromTokens | src/uavtre/submit_v2/claim_guard.py:145-147 | every kept tag comes from a token |
| ClaimGuard.FlatMapMembers | src/uavtre/submit_v2/claim_guard.py:142-147 | an element of the concatenation comes from one of the parts |
| ClaimGuard.UsedTags | src/uavtre/submit_v2/claim_guard.py:140-147 | exactly the tags some section text uses |
| ClaimGuard.KnownIds | src/uavtre/submit_v2/claim_guard.py:138 | exactly the text cells of the `evid_id` column |
| ClaimGuard.SortedUniqueStrict | src/uavtre/submit_v2/claim_guard.py:149 | sorting distinct tags gives a strictly increasing list of the same tags |
| ClaimGuard.MissingTags | src/uavtre/submit_v2/claim_guard.py:125-150 | exactly the used tags no evidence row names, strictly increasing |
| ClaimGuard.Validate | src/uavtre/submit_v2/claim_guard.py:153-248 | the claim rows, the unresolved list, the C1 and C6 violations and, with a manuscript, the missing tags; passed exactly when all three lists are empty |
| ClaimGuard.CheckClaimsComplete | src/uavtre/submit_v2/claim_guard.py:174-190 | nothing is unresolved exactly when every claim has a non-null value for each required metric |
| ClaimGuard.MissingTagsNone | src/uavtre/submit_v2/claim_guard.py:125-150 | no tag is missing exactly when every used tag names an evidence row |
| ClaimGuard.ValidatePasses | src/uavtre/submit_v2/claim_guard.py:153-248 | the report passes exactly when the metrics are complete, the policy holds and (with a manuscript) every tag is known |
| ClaimGuardV1.WriteRegistry | src/uavtre/submit_v1/claim_guard.py:111-131 | the first pipeline's registry, with slices, names exactly its claims in order under the campaign header |
| ClaimGuardV1.StrictInt | src/uavtre/submit_v1/claim_guard.py:190-198 | the default for an absent key, the truncated value when readable, and an exception exactly when a present value is unreadable |
| ClaimGuardV1.PolicyViolations | src/uavtre/submit_v1/claim_guard.py:189-198 | an exception exactly when some policy value is unreadable; otherwise the same C1 and C6 violations as the second pipeline |
| ClaimGuardV1.RowOf | src/uavtre/submit_v1/claim_guard.py:179-187 | a first-pipeline claim row holds the claim id, verdict, missing and null metrics and status policy, and no `command_ref` |
| ClaimGuardV1.Validate | src/uavtre/submit_v1/claim_guard.py:141-207 | raises exactly on an unreadable policy value; otherwise passes exactly when nothing is unresolved and no policy is violated, nothing being unresolved exactly when the metrics are complete, with one claim row per claim naming its id and policy |
| ClaimGuardV1.AgreesWithSecondPipeline | src/uavtre/submit_v1/claim_guard.py:161-207 | without unreadable values, the first pipeline's claim rows agree with the second's on every field it writes (all but `command_ref`), and the unresolved list, violations and verdict are the same (no manuscript) |
| ClaimGuardV1.UnreadableVerdictRaises | src/uavtre/submit_v1/claim_guard.py:190-191 | an unreadable audit verdict raises here but is a reported violation in the second pipeline |
| EvidenceIndex.ToEvidence | src/uavtre/submit_v2/claim_guard.py:118-122 | the guard reads an index row's claim id, metric and value unchanged |
| EvidenceIndex.ToEvidenceAll | src/uavtre/submit_v2/claim_guard.py:118-122 | one guard row per index row, in order |
| EvidenceIndex.SafeNum | src/uavtre/submit_v2/evidence_index.py:31-40 | nothing for a blank, NaN, infinite or unparsable value; otherwise the finite number the cell holds |
| EvidenceIndex.NumCell | src/uavtre/submit_v2/evidence_index.py:603 | a missing number is stored blank, a present one as itself |
| EvidenceIndex.SafeNumRoundTrip | src/uavtre/submit_v2/evidence_index.py:31-40 | a stored number reads back unchanged, and the guard sees a null exactly when it was missing |
| EvidenceIndex.IntCell | src/uavtre/submit_v2/evidence_index.py:76 | a whole number is stored so that `int(float(v))` gives it back |
| EvidenceIndex.San | src/uavtre/submit_v2/evidence_index.py:43-44 | same length; alphanumerics, `-` and `_` are kept, every other character becomes `_` |
| EvidenceIndex.SanOnlyKept | src/uavtre/submit_v2/evidence_index.py:43-44 | only kept characters come out |
| EvidenceIndex.SanFixes | src/uavtre/submit_v2/evidence_index.py:43-44 | a string is unchanged exactly when all its characters are kept |
| EvidenceIndex.SanIdempotent | src/uavtre/submit_v2/evidence_index.py:43-44 | sanitising twice is sanitising once |
| EvidenceIndex.Present | src/uavtre/submit_v2/evidence_index.py:48 | exactly the parts that are neither `None` nor empty |
| EvidenceIndex.EvidId | src/uavtre/submit_v2/evidence_index.py:47-48 | an evidence id holds only kept characters |
| EvidenceIndex.EvidIdSkipsAbsent | src/uavtre/submit_v2/evidence_index.py:47-48 | a missing or empty part, wherever it stands, does not change the id |
| EvidenceIndex.PresentAppend | src/uavtre/submit_v2/evidence_index.py:48 | filtering distributes over concatenation |
| EvidenceIndex.EvidIdParts | src/uavtre/submit_v2/evidence_index.py:47-48 | one part gives its sanitised text; two parts are joined by `_` and sanitised |
| EvidenceIndex.EvidIdOfKept | src/uavtre/submit_v2/evidence_index.py:47-48 | parts of kept characters are joined unchanged |
| EvidenceIndex.AllKeptJoin | src/uavtre/submit_v2/evidence_index.py:48 | joining kept strings with `_` keeps them kept |
| EvidenceIndex.EvidIdTwo | src/uavtre/submit_v2/evidence_index.py:230-256 | two kept parts give `p_q` |
| EvidenceIndex.EvidIdThree | src/uavtre/submit_v2/evidence_index.py:197-210 | three kept parts give `p_q_r` |
| EvidenceIndex.FirstComparing | src/uavtre/submit_v2/evidence_index.py:113-118 | the first row comparing a with b on the metric, or none exactly when no row does |
| EvidenceIndex.PickSig | src/uavtre/submit_v2/evidence_index.py:112-122 | nothing exactly when no row compares the pair in either order; a direct row is preferred; the result is a row comparing the pair |
| EvidenceIndex.PickIndex | src/uavtre/submit_v2/evidence_index.py:112-122 | the row taken is the first direct one, or, when there is none, the first reversed one |
| EvidenceIndex.PickSigSymmetric | src/uavtre/submit_v2/evidence_index.py:112-122 | a row is found for (a, b) exactly when one is found for (b, a), and the same row when no direct one exists |
| EvidenceIndex.CoverageOk | src/uavtre/submit_v2/evidence_index.py:191-193 | 1 exactly when every required size occurs among the finite sizes, else 0 |
| EvidenceIndex.CoverageAgreesWithAudit | scripts/audit_journal_readiness.py:133-136 | the recorded coverage is the audit's size-coverage gate |
| EvidenceIndex.CountN80 | src/uavtre/submit_v2/evidence_index.py:222-226 | the row count is the number of N ≥ 80 rows of both tables; the invalid counts are bounded by it |
| EvidenceIndex.CountN80AgreesWithAudit | scripts/audit_journal_readiness.py:108-117 | the counts sum to the audit's invalid count, and both are zero exactly when every large row keeps to the scalability policy |
| EvidenceIndex.GuardView | src/uavtre/submit_v2/evidence_index.py:169-265 | six policy rows |
| EvidenceIndex.PolicyRowsView | src/uavtre/submit_v2/evidence_index.py:169-265 | the guard reads the audit verdict, both coverages and the three N=80 counts from the policy rows |
| EvidenceIndex.PolicyRows | src/uavtre/submit_v2/evidence_index.py:169-265 | no contract of its own: the six C1 and C6 policy rows; `EvidenceIndex.PolicyRowsView` and `EvidenceIndex.PolicyRowsMeetGuard` state what the guard reads from them |
| EvidenceIndex.GuardViewValues | src/uavtre/submit_v2/claim_guard.py:118-122 | the guard's value map holds the verdict and the three counts under their keys |
| EvidenceIndex.GuardViewGates | src/uavtre/submit_v2/claim_guard.py:204-221 | no C1 violation exactly when the verdict is 1; no C6 violation exactly when both invalid counts are 0 and the row count is positive |
| EvidenceIndex.PolicyRowsMeetGuard | src/uavtre/submit_v2/evidence_index.py:169-265 | the guard finds no C1 violation exactly when the audit passed, and no C6 violation exactly when there are N ≥ 80 rows and all keep to the policy |
| EvidenceIndex.SortKey | src/uavtre/submit_v2/evidence_index.py:613 | claim, table, slice, metric and evidence id, in that order |
| EvidenceIndex.KeysLeqTotal | src/uavtre/submit_v2/evidence_index.py:613 | any two key lists are comparable |
| EvidenceIndex.KeysLeqTransitive | src/uavtre/submit_v2/evidence_index.py:613 | the key order is transitive |
| EvidenceIndex.ByKeyTotal | src/uavtre/submit_v2/evidence_index.py:613 | the row order is a total preorder |
| EvidenceIndex.OrderRows | src/uavtre/submit_v2/evidence_index.py:610-613 | the written rows are a permutation of the built rows, ordered by the five keys |
| EvidenceIndex.ClaimsContiguous | src/uavtre/submit_v2/evidence_index.py:613 | the rows of one claim are written together |
| ManuscriptBuilder.EscapeChar | src/uavtre/submit_v2/manuscript_builder.py:24-34 | a backslash becomes `\textbackslash\{\}`, another special character gets a backslash before it, anything else is kept |
| ManuscriptBuilder.ReplaceSingle | src/uavtre/submit_v2/manuscript_builder.py:26-33 | `str.replace` on one character replaces it exactly when it matches |
| ManuscriptBuilder.LatexEscapeAppend | src/uavtre/submit_v2/manuscript_builder.py:24-34 | escaping a concatenation escapes each part |
| ManuscriptBuilder.TextBackslashPlain | src/uavtre/submit_v2/manuscript_builder.py:26 | `\textbackslash` holds no special character except its backslash |
| ManuscriptBuilder.ReplaceTextBackslash | src/uavtre/submit_v2/manuscript_builder.py:27-31 | the replacements of `_ % & # $` leave `\textbackslash` alone |
| ManuscriptBuilder.EscapeBackslash | src/uavtre/submit_v2/manuscript_builder.py:24-34 | a backslash ends up as `\textbackslash\{\}`, because the later brace replacements also rewrite the braces the first one inserted |
| ManuscriptBuilder.EscapePlainThenBraces | src/uavtre/submit_v2/manuscript_builder.py:27-31 | the five middle replacements leave `\textbackslash` followed by braces unchanged |
| ManuscriptBuilder.EscapeBraces | src/uavtre/submit_v2/manuscript_builder.py:32-33 | the two brace replacements turn `\textbackslash{}` into `\textbackslash\{\}` |
| ManuscriptBuilder.EscapeOpenBrace | src/uavtre/submit_v2/manuscript_builder.py:32 | the opening-brace replacement gives `\textbackslash\{}` |
| ManuscriptBuilder.EscapeCloseBrace | src/uavtre/submit_v2/manuscript_builder.py:33 | the closing-brace replacement then gives `\textbackslash\{\}` |
| ManuscriptBuilder.EscapeOne | src/uavtre/submit_v2/manuscript_builder.py:24-34 | the chain of replacements on one character gives that character's translation |
| ManuscriptBuilder.EscapeOneAfterUnderscore | src/uavtre/submit_v2/manuscript_builder.py:28-34 | for a character other than a backslash or `_`, the remaining replacements give its translation |
| ManuscriptBuilder.LatexEscapeByChar | src/uavtre/submit_v2/manuscript_builder.py:24-34 | the chain of eight replacements equals the character-by-character translation |
| ManuscriptBuilder.LatexEscape | src/uavtre/submit_v2/manuscript_builder.py:24-34 | `_latex_escape` is the character-by-character translation: a backslash becomes `\textbackslash\{\}`, another special character gets a backslash, the rest is kept |
| ManuscriptBuilder.LatexEscapeKeepsPlain | src/uavtre/submit_v2/manuscript_builder.py:24-34 | text without special characters is left unchanged |
| ManuscriptBuilder.PlainEscapesToItself | src/uavtre/submit_v2/manuscript_builder.py:24-34 | the translation of plain text is the text itself |
| ManuscriptBuilder.Fmt | src/uavtre/submit_v2/manuscript_builder.py:37-46 | "--" for a missing, unparsable or non-finite value, otherwise the value rendered with `nd` decimals |
| ManuscriptBuilder.FmtDashExactlyForMissing | src/uavtre/submit_v2/manuscript_builder.py:37-46 | when no number renders as "--", the output is "--" exactly for a missing value |
| ManuscriptBuilder.FmtP | src/uavtre/submit_v2/manuscript_builder.py:541-552 | "--" for a missing value; scientific notation below 0.001, three decimals otherwise |
| ManuscriptBuilder.FmtCi | src/uavtre/submit_v2/manuscript_builder.py:555-565 | "--" unless both ends are finite, otherwise `[lo, hi]` with both ends rendered |
| ManuscriptBuilder.FmtCiDashIff | src/uavtre/submit_v2/manuscript_builder.py:555-565 | the interval prints "--" exactly when one of its ends is missing (when no rendering is "--") |
| ManuscriptBuilder.DefaultAlign | src/uavtre/submit_v2/manuscript_builder.py:71-72 | one `l` then an `r` for every further column; a table with no columns still gets `l` |
| ManuscriptBuilder.ColumnAlign | src/uavtre/submit_v2/manuscript_builder.py:71-72 | a given alignment is used as is |
| ManuscriptBuilder.DefaultAlignCountsColumns | src/uavtre/submit_v2/manuscript_builder.py:71-72 | with at least one column the default names every column, all but the first right-aligned |
| ManuscriptBuilder.MethodRank | src/uavtre/submit_v2/manuscript_builder.py:111-113 | the method's position in the fixed order, or 99 exactly for a method outside it |
| ManuscriptBuilder.KpiLeqTotal | src/uavtre/submit_v2/manuscript_builder.py:114 | any two KPI rows are comparable |
| ManuscriptBuilder.KpiLeqTransitive | src/uavtre/submit_v2/manuscript_builder.py:114 | the KPI order is transitive |
| ManuscriptBuilder.ByKpiTotal | src/uavtre/submit_v2/manuscript_builder.py:114 | the KPI order is a total preorder |
| ManuscriptBuilder.OrderKpiRows | src/uavtre/submit_v2/manuscript_builder.py:105-114 | the same rows, ordered by size, method rank and method name |
| ManuscriptBuilder.KpiMethodsInFixedOrder | src/uavtre/submit_v2/manuscript_builder.py:110-114 | within a size, HiGHS precedes OR-Tools and OR-Tools precedes PyVRP |
| ManuscriptBuilder.KpiSizesAscending | src/uavtre/submit_v2/manuscript_builder.py:114 | smaller sizes come first and missing sizes last |
| RunState.NewState | src/uavtre/submit_v2/state.py:51-62 | an `initialized` run at step S00 with no steps and no completion time |
| RunState.StartStep | src/uavtre/submit_v2/state.py:69-84 | the step becomes current and `running` with a start time and cleared results, keeping its other keys; no other step changes |
| RunState.EndStep | src/uavtre/submit_v2/state.py:87-108 | the step gets its outcome, end time, exit code, error and artifacts, keeps what the start recorded; no other step changes |
| RunState.SetPipelineStatus | src/uavtre/submit_v2/state.py:111-113 | only the status and the update time change |
| RunState.StartEndPassed | src/uavtre/submit_v2/state.py:65-108 | a started step has not passed; ending it passes it exactly when the outcome is `passed` |
| RunState.StepPassed | src/uavtre/submit_v2/state.py:65-66 | no contract of its own: the step has an entry whose status is `passed`; `RunState.StartEndPassed` and `RunState.OtherStepsKeepVerdict` state how starting and ending steps change it |
| RunState.OtherStepsKeepVerdict | src/uavtre/submit_v2/state.py:65-108 | starting or ending one step does not change whether another step passed |
| RunState.NewStateNothingPassed | src/uavtre/submit_v2/state.py:51-66 | a new run has no passed step |
| Orchestrator.IdsTail | src/uavtre/submit_v2/orchestrator.py:442-461 | the first step's id heads the id list, and the tail's ids are ids of the whole list |
| Orchestrator.After | src/uavtre/submit_v2/orchestrator.py:461-477 | a succeeded step is prepended to the steps the rest of the loop ran, with the rest's state and ending |
| Orchestrator.AfterFailedLast | src/uavtre/submit_v2/orchestrator.py:461-477 | prepending a succeeded step keeps the failed step last and the only failure |
| Orchestrator.RunSteps | src/uavtre/submit_v2/orchestrator.py:461-477 | steps not run keep their entries; a completed loop ran only succeeding steps; an aborted one ends in its failed step, recorded as failed with its error, and marks the pipeline failed |
| Orchestrator.RunPipeline | src/uavtre/submit_v2/orchestrator.py:458-483 | a completed run is `ready_for_portal_submit` with a completion time; an aborted one is `failed` with its completion time unchanged |
| Orchestrator.Pending | src/uavtre/submit_v2/orchestrator.py:461-463 | every pending step is a step of the list |
| Orchestrator.PendingFrame | src/uavtre/submit_v2/orchestrator.py:461-463 | which steps are pending depends only on the entries of those steps |
| Orchestrator.DistinctTail | src/uavtre/submit_v2/orchestrator.py:442-456 | distinct ids stay distinct in the tail, which does not repeat the head |
| Orchestrator.LoopTurn | src/uavtre/submit_v2/orchestrator.py:461-477 | one turn of the loop skips a passed step when resuming, and otherwise runs the step and continues or stops |
| Orchestrator.RunsPendingInOrder | src/uavtre/submit_v2/orchestrator.py:461-477 | a completed loop ran exactly the pending steps in order; an aborted one ran a prefix of them |
| Orchestrator.CompletesIffPendingSucceed | src/uavtre/submit_v2/orchestrator.py:461-481 | the loop completes exactly when every pending step succeeds |
| Orchestrator.PendingSkipsPassed | src/uavtre/submit_v2/orchestrator.py:462-463 | when resuming, a passed step is not pending |
| Orchestrator.PendingDistinct | src/uavtre/submit_v2/orchestrator.py:461-463 | pending ids are distinct when the step ids are |
| Orchestrator.ResumeSkipsPassed | src/uavtre/submit_v2/orchestrator.py:461-463 | when resuming, a passed step does not run again and its entry stays as it was |
| Orchestrator.FailureStopsTheLoop | src/uavtre/submit_v2/orchestrator.py:472-477 | after a failure nothing else runs: the failed step is the last one run, and every later pending step keeps its entry |
| Orchestrator.CompletedAllPassed | src/uavtre/submit_v2/orchestrator.py:461-481 | a completed loop leaves every step passed |
| Orchestrator.StepsDistinct | src/uavtre/submit_v2/orchestrator.py:442-456 | the thirteen steps are S01 to S13, with distinct ids |
| Orchestrator.FreshRunCompletes | src/uavtre/submit_v2/orchestrator.py:458-483 | from a state without entries, with every step succeeding, the run completes having run every step in order |
| Orchestrator.SubmissionRunsAllSteps | src/uavtre/submit_v2/orchestrator.py:442-483 | a fresh, fully succeeding run executes S01 to S13 in order and ends `ready_for_portal_submit` |
| Orchestrator.RunSubmission | src/uavtre/submit_v2/orchestrator.py:442-483 | a completed run ends `ready_for_portal_submit` with a completion time; an aborted one ends `failed` with its completion time unchanged |
| Orchestrator.NothingPassedAllPending | src/uavtre/submit_v2/orchestrator.py:461-463 | without entries every step is pending |
| Orchestrator.ChooseRunId | src/uavtre/submit_v2/orchestrator.py:184-188 | the given id when non-empty; otherwise, when resuming, the discovered run; otherwise `submit_v2_<campaign>_<stamp>`; never empty |
| Orchestrator.Latest | src/uavtre/submit_v2/orchestrator.py:66-70 | the latest resumable run by `(mtime, name)`, or none exactly when none is resumable |
| Orchestrator.BeforeTransitive | src/uavtre/submit_v2/orchestrator.py:69 | tuple order is transitive |
| Orchestrator.BeforeTotal | src/uavtre/submit_v2/orchestrator.py:69 | any two runs are ordered |
| Orchestrator.DiscoverResumeRun | src/uavtre/submit_v2/orchestrator.py:47-70 | none exactly when no directory holds an unfinished run of the campaign; otherwise such a run's name |
| Orchestrator.JoinPath | src/uavtre/submit_v2/orchestrator.py:37-39 | an absolute path replaces the base; a relative one is appended to it |
| Orchestrator.Child | src/uavtre/submit_v2/orchestrator.py:44 | a non-empty name becomes the last component |
| Orchestrator.ResolveCampaignDir | src/uavtre/submit_v2/orchestrator.py:36-44 | the base itself exactly when it is named after the campaign and exists, otherwise the campaign's directory under it |
| Orchestrator.ResolveIsStable | src/uavtre/submit_v2/orchestrator.py:36-44 | the resolved directory is named after the campaign, and resolving an existing one again gives it back |

## Notes on the code

Behaviour of the code that a reader might not expect, each with the member that shows it:

- The per-case generator seed is seed·10000 + N·100 + B·10 + Δ + K (src/uavtre/scenario/generator.py:48-54). Δ and K are summed into the same digit slot, so swapping them keeps the seed: Δ = 5, K = 10 and Δ = 10, K = 5 share the generator seed, and hence the drawn positions and weights (`Generator.CaseSeedCollision`). Their time windows still differ, because Δ sets the window width (src/uavtre/scenario/time_windows.py:14-17), and K changes the edge sampling.
- Only the HiGHS row of an `exact` case gets a gap of exactly 0.0 (src/uavtre/experiments/runner.py:359-375). The other rows of that case borrow the HiGHS bound and get a gap computed from their own incumbent (`Runner.ExactRowsAreCertified`, `Runner.BorrowedBoundIsHighsBound`).
- The regime test checks N ≤ 10 first, then N ≥ the scalability size (src/uavtre/experiments/runner.py:73-78). So with a scalability size of ten or less, a small case is still `exact` (`Runner.ClaimRegime`).
- Time budgets are set per grid size (src/uavtre/experiments/runner.py:81-97). A size off the grid, such as 30 clients, falls in `bound_gap` but gets a HiGHS limit of zero under the main-table profile (`Runner.OffGridBoundGapHighsZero`).
- The HiGHS adapter reports a relative gap of zero for a bound above the objective (src/uavtre/solvers/exact_highs.py:242-244). The runner's gap rejects such a pair once the excess passes its tolerance (`ExactHighs.ReportedGapExceedingBound`).
- The readiness audit checks the scalability policy on rows with N ≥ 80 (scripts/audit_journal_readiness.py:108-117), while the engine applies it from the configured scalability size. With a size above 80, the engine writes `bound_gap` rows of 80 clients that the audit rejects (`Audit.LargerScalabilitySizeFailsAudit`).
- The two claim guards treat an audit verdict that is not a number differently. The first pipeline raises (src/uavtre/submit_v1/claim_guard.py:190-191); the second reports it as a failed check (`ClaimGuardV1.UnreadableVerdictRaises`).

## Left out

- Reading and writing files (CSV, JSON, LaTeX, Markdown, logs) is left out. The models work on the parsed values and return the values that would be written.
- Parsing and rendering floats is a parameter (`parseFloat`, `show`). Python's float formatting is not modelled.
- numpy and pandas behaviour is modelled only as far as the rows need it: column selection, de-duplication, sorting and `to_numeric` on a cell, with text parsed by the `parseFloat` parameter. Dtype inference and NaN propagation inside pandas are not.
- Random draws are left out. Client positions, time windows and base-station layouts come from the generator's random stream, which is a parameter; only the seed derivation and the deterministic transformations are modelled.
- Radio physics is a parameter: path loss, shadowing and the outage probability of one sample point (`outage`). The model covers how samples along an edge combine into its risk.
- Solver internals are parameters returning status, objective, bound and routes: the HiGHS MIP rows, OR-Tools and PyVRP. Only the adapters' status handling, failure isolation and reported values are modelled.
- Objective.EvaluateRoutes: requires every route to name an existing client. A client index of N or more makes `edge.travel_time_s[current, node]` raise `IndexError` (src/uavtre/costs/objective.py:86-91). That path is `Objective.TryEvaluateRoutes`, which fails exactly then. A negative index, which numpy would wrap around, cannot be written with the model's natural-number routes.
- Objective.Accumulate: the same in-range requirement as `Objective.EvaluateRoutes`, for the same reason.
- Runner.Assess: requires in-range routes. Out of range, `evaluate_routes` raises at src/uavtre/experiments/runner.py:344, outside `_safe_solver_call`, and the whole matrix run stops. `Runner.TryRunCase` gives that failure.
- Runner.CaseMetrics: the same in-range requirement as `Runner.Assess`.
- Runner.RunCase: gives the main rows for in-range routes only. The failing case is `Runner.TryRunCase`, and the route rows are `Runner.CaseRouteRows`. In-range routes are proved only for HiGHS (`ExactHighs.HighsOutput`). OR-Tools and PyVRP are not modelled, so the range of their routes is not shown.
- The Wilcoxon signed-rank test and the bootstrap resampling are parameters (`wilcoxon`, `boot`). Holm's correction, the effect size and the pairing logic are modelled.
- Wall-clock timing, the git revision and the environment hash are parameters or left out. They only fill provenance columns.
- Typed conversion of the JSON configuration into `ProjectConfig`, `get_default_config_path` and `_workspace_fingerprint` are left out. They are I/O and hashing.
- Unicode letters and digits are modelled as ASCII: `isalnum` in the id sanitisers, and `lower` and `upper` (`Text.Lower`, `Text.Upper`) on solver statuses, the time-window mode and family, and the claim-guard tokens. A non-ASCII letter is kept as it is rather than case-mapped, and is not alphanumeric. Whitespace for `strip` (`Text.IsSpace`) is Python's full `isspace` set. Path normalisation is modelled as plain string joins.
- The command-line entry points are left out: argument parsing, the runner's sharding flags and resume-by-existing-file. The shard merge itself is modelled.
- The thirteen orchestrator step bodies (s01-s13) are an abstract `run` returning success or failure. Only the step loop, resume skipping and state bookkeeping are modelled.
- Timestamps in the run state are parameters (`now`).
- The evidence rows built from the C2-C5 result tables and `_iter_table_cells` are left out. They reuse the id and number rules modelled for C1, C6 and the policy rows.
- The first pipeline's copies of evidence_index.py and manuscript_builder.py are left out. Only its claim guard is modelled, since it differs from the second pipeline's.
- From the manuscript builder, `_write_table`'s LaTeX assembly, the figures, the method labels and `_mean_std` are left out. The cell escaping, number formatting and KPI selection are modelled.
- `_coverage_ok` raising on an infinite N is left out: N is always finite in the modelled rows.
- A numeric `evid_id` cell and a state file whose top level is not an object are left out. Both are malformed inputs the pipelines do not produce.
- EvidenceIndex.PolicyRows: has no ensures of its own. The literal ids it writes are justified by `EvidenceIndex.EvidIdTwo` and `EvidenceIndex.EvidIdThree`.
- JsonData.AsReal: rejects booleans, which numpy would convert to 0 and 1.
- Generator.Baseline: is a helper whose ensures gives only the length of the baseline. Non-negativity is stated by `Generator.BaselineNonNegative`. It requires a non-zero speed because the source raises ZeroDivisionError at speed zero.
- Generator.Arrivals: is a helper whose ensures gives only the length. Ordering and spacing are stated by `Generator.ArrivalsOrdered`.
- Generator.BaselineOf: states only that there is one time per client, with values as in `Generator.BaselineNonNegative`. It requires a non-zero speed: the source raises ZeroDivisionError at speed zero, and that error path is not modelled.
- Significance.ComputeSignificance: requires the metric columns to be numeric. The source would fail converting a text column to float.
- Float arithmetic is modelled as exact real arithmetic. Overflow to infinity, rounding and underflow are not modelled; NaN and infinities appear only where a value is read in (`Numeric.Float`).
- Runner.ComputeGapPct: the `math.isfinite(gap)` guard (src/uavtre/experiments/runner.py:194) is not modelled. In floats, an incumbent of 1e307 with a bound of 0 overflows to an infinite gap, which the source drops to None; in exact arithmetic the gap is always finite, and the model returns it.
- ExactHighs.ReportedGap: the same overflow is not modelled. There the source would report an infinite gap; the model reports the exact value.
- Generator.RunIdIsInstanceId: holds only when the configured weights are floats. The run key renders the raw profile value (src/uavtre/experiments/runner.py:118-121), copied unconverted by src/uavtre/io/loaders.py:34-35. The instance id renders `float(lo)` (src/uavtre/scenario/generator.py:13, via runner.py:130-131). So a JSON weight of `1` gives `lo1` in the run id and `lo1.0` in the instance id, and the frozen file name then differs from the run id. The model renders both with one `show`.
- Loaders.ToFloat: rejects strings, while `float()` accepts numeric strings: a quoted number in the JSON configuration file, such as "1e3", stays a string after `json.load` (src/uavtre/io/loaders.py:20-22, 95-99). Such a configuration is accepted by the source and rejected by the model.
- Loaders.ToInt: rejects strings, while `int()` accepts strings of digits (src/uavtre/io/loaders.py:104).
- Audit.AuditGates: gives the gates for tables holding every column the checks read; the missing-column `KeyError` is `Audit.TryAuditGates`. Sizes are read as numbers, so a family-A table whose `N` column holds text, where `df["N"] <= 10` raises `TypeError` (scripts/audit_journal_readiness.py:92, 109), is not modelled.
- Audit.NSet: skips a non-finite N, where `astype(int)` raises on an infinite value (scripts/audit_journal_readiness.py:136). The model gives the sizes of the finite rows instead of the exception.
- MergeShards.MergeShardResults: recomputing and writing the significance table from the merged main table (scripts/merge_sharded_results.py:74-75) is not part of its result. The computation itself is `Significance.ComputeSignificance`.

=== FILE: audit.dfy ===
/** The journal-readiness audit (scripts/audit_journal_readiness.py): gates
    over the main and scalability result tables of both time-window
    families and the root result files, each gate critical, high or medium,
    and the overall verdict.

    A table is its header and, for every row, the cells the checks read.
    A cell read back from a CSV file is blank, a number (possibly NaN or
    infinite) or text.  Reading the files, the time stamp and the JSON
    report are left out. */
module Audit {
  import opened Numeric
  import opened Text
  import opened Schema
  import Runner
  import Objective

  /** A cell as `pd.read_csv` returns it. */
  datatype Cell = Blank | Num(x: Float) | Text(s: string)

  /** The cells of a main-table row the audit reads.  `n` is `None` for a
      blank size. */
  datatype AuditRow = AuditRow(
    n: Option<Float>, methodName: Cell, regime: Cell, gap: Cell, bound: Cell,
    gitSha: Cell, family: Option<string>)

  datatype Frame = Frame(columns: seq<string>, rows: seq<AuditRow>)

  datatype Severity = Critical | High | Medium

  datatype Gate = Gate(id: string, severity: Severity, passed: bool)

  /** `isna`: blank or NaN. */
  predicate IsNa(c: Cell)
  {
    c.Blank? || c == Num(NaN)
  }

  /** `pd.to_numeric(..., errors="coerce")` on one cell: a number is kept,
      a blank is NaN, and text is parsed as Python's `float` parses it
      (`parseFloat`, which also reads "-5", "inf" and "nan"), becoming NaN
      when it does not parse.  `pd.read_csv` leaves every cell of a column
      as text once one cell of it is not a number. */
  function ToNumeric(c: Cell, parseFloat: string -> Option<Float>): (f: Float)
    ensures c.Num? ==> f == c.x
    ensures c.Blank? ==> f == NaN
    ensures c.Text? && parseFloat(c.s).Some? ==> f == parseFloat(c.s).value
    ensures c.Text? ==> (f != NaN <==> parseFloat(c.s).Some? && parseFloat(c.s).value != NaN)
  {
    match c
    case Num(x) => x
    case Blank => NaN
    case Text(s) => if parseFloat(s).Some? then parseFloat(s).value else NaN
  }

  predicate AtMost(n: Option<Float>, bound: real)
  {
    n.Some? && (n.value.NegInf? || (n.value.Finite? && n.value.v <= bound))
  }

  predicate AtLeast(n: Option<Float>, bound: real)
  {
    n.Some? && (n.value.PosInf? || (n.value.Finite? && n.value.v >= bound))
  }

  /** The entries of `xs` that satisfy `p`, in order (a boolean mask). */
  function Where<T(!new)>(xs: seq<T>, p: T -> bool): (r: seq<T>)
    ensures |r| <= |xs|
    ensures forall x :: x in r <==> x in xs && p(x)
  {
    if xs == [] then []
    else
      var n := |xs| - 1;
      assert xs == xs[..n] + [xs[n]];
      Where(xs[..n], p) + (if p(xs[n]) then [xs[n]] else [])
  }

  // ---------------------------------------------------------------------
  // The row checks

  /** A gap below -1e-9 once NaN is dropped; minus infinity is one. */
  predicate NegativeGap(c: Cell, parseFloat: string -> Option<Float>)
  {
    var g := ToNumeric(c, parseFloat);
    g.NegInf? || (g.Finite? && g.v < -1e-9)
  }

  /** An infinite gap of either sign. */
  predicate InfiniteGap(c: Cell, parseFloat: string -> Option<Float>)
  {
    ToNumeric(c, parseFloat).PosInf? || ToNumeric(c, parseFloat).NegInf?
  }

  /** `_check_gap_sanity`: the negative and the infinite gaps, counted
      separately. */
  function GapSanity(rows: seq<AuditRow>, parseFloat: string -> Option<Float>): (r: (nat, nat))
    ensures r.0 <= |rows| && r.1 <= |rows|
  {
    (CountWhere(rows, (row: AuditRow) => NegativeGap(row.gap, parseFloat)),
     CountWhere(rows, (row: AuditRow) => InfiniteGap(row.gap, parseFloat)))
  }

  /** The gap-sanity gate passes exactly when every gap reads as NaN or as a
      finite number no lower than -1e-9: a blank cell or text that does not
      parse passes, and numeric text is judged by its value. */
  lemma GapSanityClean(rows: seq<AuditRow>, parseFloat: string -> Option<Float>)
    ensures GapSanity(rows, parseFloat) == (0, 0) <==>
      forall i :: 0 <= i < |rows| ==>
        (var g := ToNumeric(rows[i].gap, parseFloat); g == NaN || (g.Finite? && g.v >= -1e-9))
  {
    CountWhereZero(rows, (row: AuditRow) => NegativeGap(row.gap, parseFloat));
    CountWhereZero(rows, (row: AuditRow) => InfiniteGap(row.gap, parseFloat));
  }

  /** A text column is still checked: with "pending" in one row and "-5" in
      another, the negative gap is counted and the gate fails. */
  lemma NumericTextGapCounted(a: AuditRow, b: AuditRow, parseFloat: string -> Option<Float>)
    requires a.gap == Text("pending") && b.gap == Text("-5")
    requires parseFloat("pending").None? && parseFloat("-5") == Some(Finite(-5.0))
    ensures GapSanity([a, b], parseFloat) == (1, 0)
  {
    var neg := (row: AuditRow) => NegativeGap(row.gap, parseFloat);
    var inf := (row: AuditRow) => InfiniteGap(row.gap, parseFloat);
    assert ToNumeric(a.gap, parseFloat) == NaN && ToNumeric(b.gap, parseFloat) == Finite(-5.0);
    assert [a, b][1..] == [b] && [b][1..] == [];
    assert CountWhere([b], neg) == 1 && CountWhere([b], inf) == 0;
  }

  /** A gap of minus infinity is counted as negative and as infinite. */
  lemma MinusInfinityCountedTwice(row: AuditRow, parseFloat: string -> Option<Float>)
    requires row.gap == Num(NegInf)
    ensures GapSanity([row], parseFloat) == (1, 1)
  {
  }

  /** A HiGHS row of at most ten clients. */
  predicate SmallHighs(row: AuditRow)
  {
    AtMost(row.n, 10.0) && row.methodName == Text(Runner.HighsName)
  }

  /** A gap that does not certify a zero gap once NaN reads as 0. */
  predicate Uncertified(c: Cell, parseFloat: string -> Option<Float>)
  {
    var g := ToNumeric(c, parseFloat);
    g.PosInf? || g.NegInf? || (g.Finite? && Abs(g.v) > 1e-9)
  }

  /** `_check_exact_certification`: the `exact` rows among the small HiGHS
      rows, and how many of them lack a zero gap (a missing gap counts, and
      so does any gap away from zero). */
  function ExactCertification(rows: seq<AuditRow>, parseFloat: string -> Option<Float>): (r: (nat, nat))
    ensures Where(rows, SmallHighs) == [] ==> r == (0, 0)
  {
    var sub := Where(rows, SmallHighs);
    if sub == [] then (0, 0)
    else
      var exact := Where(sub, (row: AuditRow) => row.regime == Text("exact"));
      (|exact|, CountWhere(exact, (row: AuditRow) => IsNa(row.gap))
                + CountWhere(exact, (row: AuditRow) => Uncertified(row.gap, parseFloat)))
  }

  /** The certification gate passes exactly when every `exact` HiGHS row of
      at most ten clients has a gap cell that is not missing and reads as
      zero within 1e-9, or as NaN (text that does not parse, which `fillna`
      then turns into zero). */
  lemma ExactCertificationClean(rows: seq<AuditRow>, parseFloat: string -> Option<Float>)
    ensures ExactCertification(rows, parseFloat).1 == 0 <==>
      forall row :: row in rows && SmallHighs(row) && row.regime == Text("exact") ==>
        !IsNa(row.gap)
        && (var g := ToNumeric(row.gap, parseFloat); g == NaN || (g.Finite? && Abs(g.v) <= 1e-9))
  {
    var sub := Where(rows, SmallHighs);
    if sub != [] {
      var exact := Where(sub, (row: AuditRow) => row.regime == Text("exact"));
      CountWhereZero(exact, (row: AuditRow) => IsNa(row.gap));
      CountWhereZero(exact, (row: AuditRow) => Uncertified(row.gap, parseFloat));
      assert forall row :: row in exact <==> row in rows && SmallHighs(row) && row.regime == Text("exact");
      assert forall row :: row in exact <==> exists i :: 0 <= i < |exact| && exact[i] == row;
    }
  }

  /** Numeric text is certified by its value: an `exact` HiGHS row whose gap
      reads "5" is counted uncertified. */
  lemma NumericTextGapUncertified(row: AuditRow, parseFloat: string -> Option<Float>)
    requires SmallHighs(row) && row.regime == Text("exact") && row.gap == Text("5")
    requires parseFloat("5") == Some(Finite(5.0))
    ensures ExactCertification([row], parseFloat) == (1, 1)
  {
    assert [row][..0] == [];
    assert Where([row], SmallHighs) == [row];
  }

  /** A row of at least 80 clients. */
  predicate Large(row: AuditRow)
  {
    AtLeast(row.n, 80.0)
  }

  /** `_check_scalability_policy`: the large rows, and how many gaps,
      bounds and regimes they report against the policy. */
  function ScalabilityPolicy(rows: seq<AuditRow>): (r: (nat, nat))
    ensures r.0 == |Where(rows, Large)|
  {
    var sub := Where(rows, Large);
    if sub == [] then (0, 0)
    else
      (|sub|, CountWhere(sub, (row: AuditRow) => !IsNa(row.gap))
              + CountWhere(sub, (row: AuditRow) => !IsNa(row.bound))
              + CountWhere(sub, (row: AuditRow) => row.regime != Text("scalability_only")))
  }

  /** The scalability gate passes exactly when every large row has neither
      gap nor bound and the `scalability_only` regime. */
  lemma ScalabilityPolicyClean(rows: seq<AuditRow>)
    ensures ScalabilityPolicy(rows).1 == 0 <==>
      forall row :: row in rows && Large(row) ==>
        IsNa(row.gap) && IsNa(row.bound) && row.regime == Text("scalability_only")
  {
    var sub := Where(rows, Large);
    if sub != [] {
      CountWhereZero(sub, (row: AuditRow) => !IsNa(row.gap));
      CountWhereZero(sub, (row: AuditRow) => !IsNa(row.bound));
      CountWhereZero(sub, (row: AuditRow) => row.regime != Text("scalability_only"));
      assert forall row :: row in sub <==> exists i :: 0 <= i < |sub| && sub[i] == row;
    }
  }

  /** `_check_git_trace`: rows whose git SHA, as text, contains
      `unknown`; blank and numeric cells never do. */
  function GitTrace(rows: seq<AuditRow>): (n: nat)
    ensures n <= |rows|
  {
    CountWhere(rows, (row: AuditRow) => row.gitSha.Text? && Contains(row.gitSha.s, "unknown"))
  }

  /** The row's N is a finite number. */
  predicate FiniteN(r: AuditRow)
  {
    r.n.Some? && r.n.value.Finite?
  }

  /** `_n_set`: the sizes present, truncated to integers; empty without an
      `N` column. */
  function NSet(f: Option<Frame>): (s: set<int>)
    ensures f.None? ==> s == {}
    ensures f.Some? && "N" in f.value.columns ==>
      forall i :: 0 <= i < |f.value.rows| && FiniteN(f.value.rows[i]) ==> Trunc(f.value.rows[i].n.value.v) in s
    ensures forall x :: x in s ==>
      f.Some? && exists i :: 0 <= i < |f.value.rows| && FiniteN(f.value.rows[i]) && x == Trunc(f.value.rows[i].n.value.v)
  {
    if f.None? || "N" !in f.value.columns then {}
    else
      set i | 0 <= i < |f.value.rows| && FiniteN(f.value.rows[i]) :: Trunc(f.value.rows[i].n.value.v)
  }

  /** `_collect_families` as a set: the non-blank `tw_family` values of the
      tables that have the column. */
  function Families(frames: seq<Option<Frame>>): set<string>
  {
    set k, i | 0 <= k < |frames| && frames[k].Some? && "tw_family" in frames[k].value.columns
               && 0 <= i < |frames[k].value.rows| && frames[k].value.rows[i].family.Some?
      :: frames[k].value.rows[i].family.value
  }

  // ---------------------------------------------------------------------
  // Gates and verdict

  /** What the audit reads: the four tables (`None` for a missing file) and
      the headers of the three root result files. */
  datatype AuditInputs = AuditInputs(
    mainA: Option<Frame>, scalA: Option<Frame>, mainB: Option<Frame>, scalB: Option<Frame>,
    rootMain: Option<seq<string>>, rootRoutes: Option<seq<string>>, rootSig: Option<seq<string>>)

  /** `_check_schema_main`. */
  predicate SchemaMain(f: Frame)
  {
    f.columns == MainColumns
  }

  /** The gates of the family-A tables, in the order they are added, when
      every column the checks read is present (`TryAuditGates` covers the
      tables that lack one). */
  function GatesA(inp: AuditInputs, parseFloat: string -> Option<Float>): seq<Gate>
  {
    [Gate("files.main_a_exists", Critical, inp.mainA.Some?),
     Gate("files.scal_a_exists", Critical, inp.scalA.Some?)]
    + (if inp.mainA.None? then []
       else
         var f := inp.mainA.value;
         [Gate("schema.main_a", Critical, SchemaMain(f)),
          Gate("gap_sanity.main_a", Critical, GapSanity(f.rows, parseFloat) == (0, 0)),
          Gate("exact_cert.main_a", Critical, ExactCertification(f.rows, parseFloat).1 == 0),
          Gate("trace.main_a_git_sha", High, GitTrace(f.rows) == 0),
          Gate("coverage.main_a_sizes", Critical, {10, 20, 40} <= NSet(inp.mainA))])
    + (if inp.scalA.None? then []
       else
         var f := inp.scalA.value;
         [Gate("schema.scal_a", Critical, SchemaMain(f)),
          Gate("policy.scal_a", Critical, ScalabilityPolicy(f.rows).1 == 0),
          Gate("coverage.scal_a_size", Critical, 80 in NSet(inp.scalA))])
  }

  /** The gates of the family-B tables. */
  function GatesB(inp: AuditInputs): seq<Gate>
  {
    (if inp.mainB.None? then [Gate("files.main_b_exists", High, false)]
     else
       [Gate("schema.main_b", Critical, SchemaMain(inp.mainB.value)),
        Gate("coverage.main_b_sizes", High, {10, 20, 40} <= NSet(inp.mainB))])
    + (if inp.scalB.None? then [Gate("files.scal_b_exists", High, false)]
       else
         [Gate("schema.scal_b", Critical, SchemaMain(inp.scalB.value)),
          Gate("coverage.scal_b_size", High, 80 in NSet(inp.scalB))])
  }

  /** The family gate and the root-file gates. */
  function GatesRest(inp: AuditInputs): seq<Gate>
  {
    [Gate("robustness.tw_families", High,
          {"A", "B"} <= Families([inp.mainA, inp.scalA, inp.mainB, inp.scalB])),
     Gate("files.root_triplet", Medium,
          inp.rootMain.Some? && inp.rootRoutes.Some? && inp.rootSig.Some?)]
    + (if inp.rootRoutes.None? then []
       else [Gate("schema.root_routes", Medium, inp.rootRoutes.value == RoutesColumns)])
    + (if inp.rootSig.None? then []
       else [Gate("schema.root_significance", Medium, inp.rootSig.value == SignificanceColumns)])
  }

  /** Every gate of the audit, in order, when every column the checks read
      is present. */
  function AuditGates(inp: AuditInputs, parseFloat: string -> Option<Float>): seq<Gate>
  {
    GatesA(inp, parseFloat) + GatesB(inp) + GatesRest(inp)
  }

  // ---------------------------------------------------------------------
  // Missing columns

  /** `_check_gap_sanity` on a table; `df["gap_pct"]` raises `KeyError`
      (here `None`) when the column is missing. */
  function TryGapSanity(f: Frame, parseFloat: string -> Option<Float>): (r: Option<(nat, nat)>)
    ensures r.None? <==> "gap_pct" !in f.columns
    ensures r.Some? ==> r.value == GapSanity(f.rows, parseFloat)
  {
    if "gap_pct" in f.columns then Some(GapSanity(f.rows, parseFloat)) else None
  }

  /** `_check_exact_certification` on a table: selecting the small HiGHS rows
      reads `N` and `method`, and only when there are some are
      `claim_regime` and `gap_pct` read. */
  function TryExactCertification(f: Frame, parseFloat: string -> Option<Float>): (r: Option<(nat, nat)>)
    ensures r.None? <==> ("N" !in f.columns || "method" !in f.columns
      || (Where(f.rows, SmallHighs) != [] && ("claim_regime" !in f.columns || "gap_pct" !in f.columns)))
    ensures r.Some? ==> r.value == ExactCertification(f.rows, parseFloat)
  {
    if "N" !in f.columns || "method" !in f.columns then None
    else if Where(f.rows, SmallHighs) == [] then Some((0, 0))
    else if "claim_regime" !in f.columns || "gap_pct" !in f.columns then None
    else Some(ExactCertification(f.rows, parseFloat))
  }

  /** `_check_scalability_policy` on a table: `N` is always read, the gap,
      bound and regime columns only when some row has at least 80 clients. */
  function TryScalabilityPolicy(f: Frame): (r: Option<(nat, nat)>)
    ensures r.None? <==> ("N" !in f.columns
      || (Where(f.rows, Large) != []
          && ("gap_pct" !in f.columns || "best_bound" !in f.columns || "claim_regime" !in f.columns)))
    ensures r.Some? ==> r.value == ScalabilityPolicy(f.rows)
  {
    if "N" !in f.columns then None
    else if Where(f.rows, Large) == [] then Some((0, 0))
    else if "gap_pct" !in f.columns || "best_bound" !in f.columns || "claim_regime" !in f.columns then None
    else Some(ScalabilityPolicy(f.rows))
  }

  /** `_check_git_trace` on a table, which needs `git_sha`. */
  function TryGitTrace(f: Frame): (r: Option<nat>)
    ensures r.None? <==> "git_sha" !in f.columns
    ensures r.Some? ==> r.value == GitTrace(f.rows)
  {
    if "git_sha" in f.columns then Some(GitTrace(f.rows)) else None
  }

  /** The audit's gates, or `None` when a check on a family-A table raises
      `KeyError`: the schema gate of that table has been recorded, but the
      exception ends `main` before any report is written.  The family-B
      tables only meet the schema and `_n_set`, which looks before it
      reads. */
  function TryAuditGates(inp: AuditInputs, parseFloat: string -> Option<Float>): (r: Option<seq<Gate>>)
    ensures r.None? <==>
      (inp.mainA.Some?
       && (var f := inp.mainA.value;
           "gap_pct" !in f.columns || "N" !in f.columns || "method" !in f.columns
           || "git_sha" !in f.columns
           || (Where(f.rows, SmallHighs) != [] && "claim_regime" !in f.columns)))
      || (inp.scalA.Some?
          && (var f := inp.scalA.value;
              "N" !in f.columns
              || (Where(f.rows, Large) != []
                  && ("gap_pct" !in f.columns || "best_bound" !in f.columns || "claim_regime" !in f.columns))))
    ensures r.Some? ==> r.value == AuditGates(inp, parseFloat)
  {
    var mainRaises := inp.mainA.Some?
      && (TryGapSanity(inp.mainA.value, parseFloat).None?
          || TryExactCertification(inp.mainA.value, parseFloat).None?
          || TryGitTrace(inp.mainA.value).None?);
    var scalRaises := inp.scalA.Some? && TryScalabilityPolicy(inp.scalA.value).None?;
    if mainRaises || scalRaises then None else Some(AuditGates(inp, parseFloat))
  }

  /** Tables that keep the results schema never raise, so an audit that
      raises has a present family-A table off the schema. */
  lemma KeyErrorOnlyOffSchema(inp: AuditInputs, parseFloat: string -> Option<Float>)
    ensures TryAuditGates(inp, parseFloat).None? ==>
      (inp.mainA.Some? && !SchemaMain(inp.mainA.value)) || (inp.scalA.Some? && !SchemaMain(inp.scalA.value))
  {
    if inp.mainA.Some? && SchemaMain(inp.mainA.value) {
      SchemaHasCheckedColumns(inp.mainA.value);
    }
    if inp.scalA.Some? && SchemaMain(inp.scalA.value) {
      SchemaHasCheckedColumns(inp.scalA.value);
    }
  }

  lemma SchemaHasCheckedColumns(f: Frame)
    requires SchemaMain(f)
    ensures "git_sha" in f.columns && "method" in f.columns && "N" in f.columns
    ensures "best_bound" in f.columns && "gap_pct" in f.columns && "claim_regime" in f.columns
  {
    assert MainColumns[2] == "git_sha" && MainColumns[6] == "method" && MainColumns[7] == "N";
    assert MainColumns[25] == "best_bound" && MainColumns[26] == "gap_pct" && MainColumns[28] == "claim_regime";
  }

  /** Hence an audit that raises would have failed its verdict anyway: the
      schema gate of the offending table is critical and fails. */
  lemma KeyErrorFailsVerdict(inp: AuditInputs, parseFloat: string -> Option<Float>)
    ensures TryAuditGates(inp, parseFloat).None? ==> !OverallPass(AuditGates(inp, parseFloat))
  {
    if TryAuditGates(inp, parseFloat).None? {
      KeyErrorOnlyOffSchema(inp, parseFloat);
      var gates := AuditGates(inp, parseFloat);
      OverallPassIff(gates);
      if inp.mainA.Some? && !SchemaMain(inp.mainA.value) {
        assert gates[2] == Gate("schema.main_a", Critical, false);
      } else {
        var g := Gate("schema.scal_a", Critical, false);
        assert g in GatesA(inp, parseFloat);
        var i :| 0 <= i < |GatesA(inp, parseFloat)| && GatesA(inp, parseFloat)[i] == g;
        assert gates[i] == g;
      }
    }
  }

  predicate CriticalFailure(g: Gate)
  {
    g.severity == Critical && !g.passed
  }

  /** `overall_pass`: no critical gate failed. */
  predicate OverallPass(gates: seq<Gate>)
  {
    CountWhere(gates, CriticalFailure) == 0
  }

  /** The verdict fails exactly when some critical gate fails; high and
      medium gates never decide it. */
  lemma OverallPassIff(gates: seq<Gate>)
    ensures OverallPass(gates) <==> forall i :: 0 <= i < |gates| ==> gates[i].severity != Critical || gates[i].passed
  {
    CountWhereZero(gates, CriticalFailure);
  }

  /** Flipping the outcome of a high or medium gate leaves the verdict as
      it is. */
  lemma NonCriticalIrrelevant(gates: seq<Gate>, k: nat, passed: bool)
    requires k < |gates| && gates[k].severity != Critical
    ensures OverallPass(gates[k := gates[k].(passed := passed)]) == OverallPass(gates)
  {
    var flipped := gates[k := gates[k].(passed := passed)];
    OverallPassIff(gates);
    OverallPassIff(flipped);
    assert forall i :: 0 <= i < |gates| ==> (CriticalFailure(flipped[i]) <==> CriticalFailure(gates[i]));
  }

  /** The root files and the family check only raise high and medium
      gates, and missing family-B tables only raise high ones. */
  lemma OptionalGatesNotCritical(inp: AuditInputs)
    ensures forall g :: g in GatesRest(inp) ==> g.severity != Critical
    ensures inp.mainB.None? && inp.scalB.None? ==> forall g :: g in GatesB(inp) ==> g.severity == High
  {
  }

  /** Hence the verdict is decided by the family-A gates and the schema
      gates of the family-B tables that are present. */
  lemma VerdictFromRequiredGates(inp: AuditInputs, parseFloat: string -> Option<Float>)
    ensures OverallPass(AuditGates(inp, parseFloat)) <==> OverallPass(GatesA(inp, parseFloat) + GatesB(inp))
  {
    OptionalGatesNotCritical(inp);
    CountWhereAppend(GatesA(inp, parseFloat) + GatesB(inp), GatesRest(inp), CriticalFailure);
    CountWhereZero(GatesRest(inp), CriticalFailure);
    assert forall i :: 0 <= i < |GatesRest(inp)| ==> GatesRest(inp)[i] in GatesRest(inp);
  }

  /** The process exit status: 1 when a check raises, as an uncaught
      exception ends Python with status 1, and otherwise 1 exactly when
      `--fail-on-critical` is given and the verdict fails. */
  function ExitCode(failOnCritical: bool, inp: AuditInputs, parseFloat: string -> Option<Float>): (code: int)
    ensures code == 0 || code == 1
    ensures code == 1 <==> (TryAuditGates(inp, parseFloat).None?
      || (failOnCritical
          && exists i :: 0 <= i < |AuditGates(inp, parseFloat)| && CriticalFailure(AuditGates(inp, parseFloat)[i])))
  {
    var gates := AuditGates(inp, parseFloat);
    OverallPassIff(gates);
    match TryAuditGates(inp, parseFloat)
    case None => 1
    case Some(_) => if failOnCritical && !OverallPass(gates) then 1 else 0
  }

  // ---------------------------------------------------------------------
  // Rows written by the experiment engine

  function NumCell(x: Option<real>): (c: Cell)
    ensures IsNa(c) <==> x.None?
  {
    if x.Some? then Num(Finite(x.value)) else Blank
  }

  /** The audit's view of a row of results_main.csv written by the engine
      and read back unchanged. */
  function AuditRowOf(r: RunResult): (row: AuditRow)
    ensures row.n == Some(Finite(r.n as real))
    ensures row.regime == Text(r.claimRegime) && row.methodName == Text(r.methodName)
    ensures IsNa(row.gap) <==> r.gapPct.None?
    ensures IsNa(row.bound) <==> r.bestBound.None?
  {
    AuditRow(Some(Finite(r.n as real)), Text(r.methodName), Text(r.claimRegime),
      NumCell(r.gapPct), NumCell(r.bestBound), Text(r.gitSha), Some(r.twFamily))
  }

  /** What the engine's row policy promises (see `Runner.RunCase` and the
      lemmas after it): gaps are never negative, `exact` HiGHS rows report
      a zero gap, and rows at or above the scalability size report neither
      bound nor gap under `scalability_only`. */
  predicate EngineRow(r: RunResult, scalabilitySize: int)
  {
    && (r.gapPct.Some? ==> r.gapPct.value >= 0.0)
    && (r.methodName == Runner.HighsName && r.claimRegime == "exact" ==> r.gapPct == Some(0.0))
    && (r.n > 10 && r.n >= scalabilitySize ==>
          r.claimRegime == "scalability_only" && r.bestBound.None? && r.gapPct.None?)
  }

  /** The audit rows of the engine's results, in order. */
  function EngineAuditRows(results: seq<RunResult>): (rows: seq<AuditRow>)
    ensures |rows| == |results|
    ensures forall i :: 0 <= i < |results| ==> rows[i] == AuditRowOf(results[i])
  {
    seq(|results|, i requires 0 <= i < |results| => AuditRowOf(results[i]))
  }

  /** Rows with the engine's policy pass the gap-sanity, certification and
      scalability checks, provided the scalability size is at most the 80
      clients the audit treats as large. */
  lemma EngineRowsPass(results: seq<RunResult>, scalabilitySize: int, parseFloat: string -> Option<Float>)
    requires scalabilitySize <= 80
    requires forall i :: 0 <= i < |results| ==> EngineRow(results[i], scalabilitySize)
    ensures var rows := EngineAuditRows(results);
      GapSanity(rows, parseFloat) == (0, 0) && ExactCertification(rows, parseFloat).1 == 0
      && ScalabilityPolicy(rows).1 == 0
  {
    EngineRowsGapSane(results, scalabilitySize, parseFloat);
    EngineRowsCertified(results, scalabilitySize, parseFloat);
    EngineRowsScalable(results, scalabilitySize);
  }

  lemma EngineRowsGapSane(results: seq<RunResult>, scalabilitySize: int, parseFloat: string -> Option<Float>)
    requires forall i :: 0 <= i < |results| ==> EngineRow(results[i], scalabilitySize)
    ensures GapSanity(EngineAuditRows(results), parseFloat) == (0, 0)
  {
    GapSanityClean(EngineAuditRows(results), parseFloat);
  }

  lemma EngineRowsCertified(results: seq<RunResult>, scalabilitySize: int, parseFloat: string -> Option<Float>)
    requires forall i :: 0 <= i < |results| ==> EngineRow(results[i], scalabilitySize)
    ensures ExactCertification(EngineAuditRows(results), parseFloat).1 == 0
  {
    var rows := EngineAuditRows(results);
    ExactCertificationClean(rows, parseFloat);
    forall row | row in rows && SmallHighs(row) && row.regime == Text("exact")
      ensures !IsNa(row.gap)
        && (var g := ToNumeric(row.gap, parseFloat); g == NaN || (g.Finite? && Abs(g.v) <= 1e-9))
    {
      var i :| 0 <= i < |rows| && rows[i] == row;
      ExactEngineRow(results[i], scalabilitySize);
    }
  }

  lemma EngineRowsScalable(results: seq<RunResult>, scalabilitySize: int)
    requires scalabilitySize <= 80
    requires forall i :: 0 <= i < |results| ==> EngineRow(results[i], scalabilitySize)
    ensures ScalabilityPolicy(EngineAuditRows(results)).1 == 0
  {
    var rows := EngineAuditRows(results);
    ScalabilityPolicyClean(rows);
    forall row | row in rows && Large(row)
      ensures IsNa(row.gap) && IsNa(row.bound) && row.regime == Text("scalability_only")
    {
      var i :| 0 <= i < |rows| && rows[i] == row;
      LargeEngineRow(results[i], scalabilitySize);
    }
  }

  /** A large engine row reports neither gap nor bound, under
      `scalability_only`. */
  lemma LargeEngineRow(r: RunResult, scalabilitySize: int)
    requires scalabilitySize <= 80 && EngineRow(r, scalabilitySize) && Large(AuditRowOf(r))
    ensures var row := AuditRowOf(r);
      IsNa(row.gap) && IsNa(row.bound) && row.regime == Text("scalability_only")
  {
    assert r.n >= 80;
  }

  /** An `exact` HiGHS engine row reports a zero gap. */
  lemma ExactEngineRow(r: RunResult, scalabilitySize: int)
    requires EngineRow(r, scalabilitySize)
    requires SmallHighs(AuditRowOf(r)) && AuditRowOf(r).regime == Text("exact")
    ensures var row := AuditRowOf(r);
      row.gap == Num(Finite(0.0))
  {
    assert r.gapPct == Some(0.0);
  }

  /** Every row `Runner.RunCase` writes keeps the engine's row policy. */
  lemma RunCaseRowsAreEngineRows(sc: ScenarioData, e: EdgeData, cs: CostSpec,
                                 profileName: string, scalabilitySize: int, spec: ScenarioSpec,
                                 outs: seq<SolverOutput>, prov: Runner.Provenance)
    requires Objective.Shaped(sc, e) && Runner.RoutesInRange(outs, |sc.clientXy|)
    ensures var rows := Runner.RunCase(sc, e, cs, profileName, scalabilitySize, spec, outs, prov);
      forall i :: 0 <= i < |rows| ==> EngineRow(rows[i], scalabilitySize)
  {
    var rows := Runner.RunCase(sc, e, cs, profileName, scalabilitySize, spec, outs, prov);
    forall i | 0 <= i < |rows|
      ensures EngineRow(rows[i], scalabilitySize)
    {
      RunCaseRowIsEngineRow(sc, e, cs, profileName, scalabilitySize, spec, outs, prov, i);
    }
  }

  /** On any solver routes, a case either stops the run or writes only rows
      that keep the engine's row policy. */
  lemma TriedCaseRowsAreEngineRows(sc: ScenarioData, e: EdgeData, cs: CostSpec,
                                   profileName: string, scalabilitySize: int, spec: ScenarioSpec,
                                   outs: seq<SolverOutput>, prov: Runner.Provenance)
    requires Objective.Shaped(sc, e)
    ensures var r := Runner.TryRunCase(sc, e, cs, profileName, scalabilitySize, spec, outs, prov);
      r.Some? ==> forall i :: 0 <= i < |r.value.0| ==> EngineRow(r.value.0[i], scalabilitySize)
  {
    if Runner.RoutesInRange(outs, |sc.clientXy|) {
      RunCaseRowsAreEngineRows(sc, e, cs, profileName, scalabilitySize, spec, outs, prov);
    }
  }

  lemma RunCaseRowIsEngineRow(sc: ScenarioData, e: EdgeData, cs: CostSpec,
                              profileName: string, scalabilitySize: int, spec: ScenarioSpec,
                              outs: seq<SolverOutput>, prov: Runner.Provenance, i: nat)
    requires Objective.Shaped(sc, e) && Runner.RoutesInRange(outs, |sc.clientXy|) && i < |outs|
    ensures EngineRow(Runner.RunCase(sc, e, cs, profileName, scalabilitySize, spec, outs, prov)[i],
                      scalabilitySize)
  {
    var row := Runner.RunCase(sc, e, cs, profileName, scalabilitySize, spec, outs, prov)[i];
    var regime := Runner.CaseRegime(scalabilitySize, spec, outs);
    if spec.nClients > 10 && spec.nClients >= scalabilitySize {
      Runner.ScalabilityRowsHaveNoBoundOrGap(sc, e, cs, profileName, scalabilitySize, spec, outs, prov, i);
    }
    if row.claimRegime == "exact" {
      Runner.RegimeNameInjective(regime, Runner.Exact);
      Runner.ExactRowsAreCertified(sc, e, cs, profileName, scalabilitySize, spec, outs, prov, i);
    }
  }

  /** The rows of cases the engine ran, with a scalability size of at most
      80, pass the audit's gap-sanity, certification and scalability checks. */
  lemma RunCasesPassAudit(cases: seq<seq<RunResult>>, scalabilitySize: int,
                          parseFloat: string -> Option<Float>)
    requires scalabilitySize <= 80
    requires forall c, i :: c in cases && 0 <= i < |c| ==> EngineRow(c[i], scalabilitySize)
    ensures var rows := EngineAuditRows(Concat(cases));
      GapSanity(rows, parseFloat) == (0, 0) && ExactCertification(rows, parseFloat).1 == 0
      && ScalabilityPolicy(rows).1 == 0
  {
    ConcatEngineRows(cases, scalabilitySize);
    EngineRowsPass(Concat(cases), scalabilitySize, parseFloat);
  }

  /** The rows of several cases, one case after the other. */
  function Concat(cases: seq<seq<RunResult>>): (rows: seq<RunResult>)
    ensures forall c :: c in cases ==> forall i :: 0 <= i < |c| ==> c[i] in rows
    ensures forall r :: r in rows ==> exists c :: c in cases && r in c
  {
    if cases == [] then [] else cases[0] + Concat(cases[1..])
  }

  lemma ConcatEngineRows(cases: seq<seq<RunResult>>, scalabilitySize: int)
    requires forall c, i :: c in cases && 0 <= i < |c| ==> EngineRow(c[i], scalabilitySize)
    ensures forall i :: 0 <= i < |Concat(cases)| ==> EngineRow(Concat(cases)[i], scalabilitySize)
  {
    forall i | 0 <= i < |Concat(cases)|
      ensures EngineRow(Concat(cases)[i], scalabilitySize)
    {
      var r := Concat(cases)[i];
      assert r in Concat(cases);
      var c :| c in cases && r in c;
      var j :| 0 <= j < |c| && c[j] == r;
    }
  }

  /** A scalability size above 80 lets the engine write `bound_gap` rows of
      80 clients, which the scalability check counts as invalid. */
  lemma LargerScalabilitySizeFailsAudit(r: RunResult)
    requires r.n == 80 && r.claimRegime == "bound_gap" && r.gapPct.None? && r.bestBound.None?
    ensures ScalabilityPolicy([AuditRowOf(r)]) == (1, 1)
  {
    var row := AuditRowOf(r);
    assert Where([row], Large) == [row];
    assert row.regime != Text("scalability_only");
  }
}

=== FILE: claim_guard.dfy ===
/** The claim guard of the second submission pipeline
    (submit_v2/claim_guard.py): every manuscript claim needs its metrics in
    the evidence index, a handful of policy metrics must have the values the
    size-based claim policy demands, and every `\evid{...}` tag of the
    manuscript must name an evidence row.

    The evidence index is its rows; a value cell is read as the audit reads
    cells.  Python's `float` on a text cell is a parameter.  Reading files
    and writing the JSON report are left out. */
module ClaimGuard {
  import opened Numeric
  import opened Text
  import opened Sorting
  import opened Audit
  import Significance

  /** One row of the evidence index, as far as the guard reads it. */
  datatype EvidenceRow = EvidenceRow(claimId: string, metric: string, value: Cell)

  /** A claim of the registry. */
  datatype Claim = Claim(
    id: string, statement: string, statusPolicy: string, requiredMetrics: seq<string>,
    allowedSlices: seq<string>, forbiddenSlices: seq<string>, commandRef: string)

  /** The built-in claims, in order. */
  const DefaultClaims: seq<Claim> := [
    Claim("C1", "Audit and coverage gates are satisfied under the size-based claim regime.",
      "supported", ["audit_overall_pass", "coverage_main_a_10_20_40", "coverage_main_b_10_20_40"],
      [], [], "scripts/audit_journal_readiness.py"),
    Claim("C2", "Time-window stress (Family B) degrades medium-size service KPIs for the main heuristic.",
      "supported", ["on_time_pct_a_n20_ortools", "on_time_pct_b_n20_ortools",
                    "tardiness_min_a_n20_ortools", "tardiness_min_b_n20_ortools"],
      [], [], "scripts/make_paper_tables_v2.sh"),
    Claim("C3", "At N=40, OR-Tools remains feasible while PyVRP feasibility collapses in both families.",
      "supported", ["feasible_rate_a_n40_ortools", "feasible_rate_b_n40_ortools",
                    "feasible_rate_a_n40_pyvrp", "feasible_rate_b_n40_pyvrp"],
      [], [], "scripts/make_paper_tables_v2.sh"),
    Claim("C4", "At N=20, OR-Tools yields a tighter mean bound-gap than PyVRP in both families.",
      "supported", ["gap_pct_a_n20_ortools", "gap_pct_b_n20_ortools",
                    "gap_pct_a_n20_pyvrp", "gap_pct_b_n20_pyvrp"],
      [], [], "scripts/make_paper_tables_v2.sh"),
    Claim("C5", "Statistical reporting uses Holm-adjusted p-values, effect sizes, and bootstrap CIs.",
      "supported_with_caveat", ["runtime_p_holm_a", "runtime_p_holm_b", "runtime_effect_size_a",
                                "runtime_effect_size_b", "runtime_ci_low_a", "runtime_ci_high_a",
                                "runtime_ci_low_b", "runtime_ci_high_b", "runtime_n_pairs_a",
                                "runtime_n_pairs_b"],
      [], [], "main_*_core/results_significance.csv"),
    Claim("C6", "N=80 is reported as scalability-only with no bound/gap claims.",
      "supported", ["n80_rows_count", "n80_invalid_bound_gap_rows", "n80_invalid_regime_rows"],
      [], [], "scripts/audit_journal_readiness.py")]

  // ---------------------------------------------------------------------
  // The claim registry

  const ClaimIdPrefix: string := "  - claim_id: "

  /** One item of a YAML list under a key of a claim. */
  function Items(xs: seq<string>): (r: seq<string>)
    ensures |r| == |xs|
    ensures forall i :: 0 <= i < |xs| ==> StartsWith(r[i], "      - ") && r[i][8..] == xs[i]
  {
    seq(|xs|, i requires 0 <= i < |xs| => "      - " + xs[i])
  }

  /** The registry lines of one claim: id, statement, policy, the required
      metrics, the allowed and forbidden slices when the registry lists
      them, and the command reference. */
  function ClaimBlock(c: Claim, withSlices: bool): (r: seq<string>)
    ensures |r| == 5 + |c.requiredMetrics| + (if withSlices then 2 + |c.allowedSlices| + |c.forbiddenSlices| else 0)
    ensures r[0] == ClaimIdPrefix + c.id
    ensures r[|r| - 1] == "    command_ref: " + c.commandRef
  {
    ["  - claim_id: " + c.id,
     "    statement: \"" + c.statement + "\"",
     "    status_policy: " + c.statusPolicy,
     "    required_metrics:"]
    + Items(c.requiredMetrics)
    + (if withSlices
       then ["    allowed_slices:"] + Items(c.allowedSlices) + ["    forbidden_slices:"] + Items(c.forbiddenSlices)
       else [])
    + ["    command_ref: " + c.commandRef]
  }

  /** `write_claim_registry_yaml`, as its lines: the campaign header, then
      one block per claim.  The first pipeline's registry lists the slices,
      the second's does not. */
  function RegistryLines(campaignId: string, claims: seq<Claim>, withSlices: bool): (r: seq<string>)
    ensures |r| >= 2 && r[0] == "campaign_id: " + campaignId && r[1] == "claims:"
  {
    if claims == [] then ["campaign_id: " + campaignId, "claims:"]
    else
      var n := |claims| - 1;
      RegistryLines(campaignId, claims[..n], withSlices) + ClaimBlock(claims[n], withSlices)
  }

  /** The claim ids a reader finds in registry lines: the rest of every line
      that opens a claim item. */
  function RegistryIds(lines: seq<string>): seq<string>
  {
    if lines == [] then []
    else
      var n := |lines| - 1;
      RegistryIds(lines[..n])
      + (if StartsWith(lines[n], ClaimIdPrefix) then [lines[n][|ClaimIdPrefix|..]] else [])
  }

  lemma {:induction false} RegistryIdsAppend(a: seq<string>, b: seq<string>)
    ensures RegistryIds(a + b) == RegistryIds(a) + RegistryIds(b)
    decreases |b|
  {
    if b != [] {
      var n := |b| - 1;
      assert (a + b)[..|a + b| - 1] == a + b[..n];
      assert (a + b)[|a + b| - 1] == b[n];
      RegistryIdsAppend(a, b[..n]);
    } else {
      assert a + b == a;
    }
  }

  /** Lines indented by four spaces open no claim item. */
  lemma {:induction false} IndentedHaveNoIds(lines: seq<string>)
    requires forall i :: 0 <= i < |lines| ==> StartsWith(lines[i], "    ")
    ensures RegistryIds(lines) == []
  {
    if lines != [] {
      var n := |lines| - 1;
      assert lines[n][2] == ' ' && ClaimIdPrefix[2] == '-';
      IndentedHaveNoIds(lines[..n]);
    }
  }

  lemma ClaimBlockIds(c: Claim, withSlices: bool)
    ensures RegistryIds(ClaimBlock(c, withSlices)) == [c.id]
  {
    var b := ClaimBlock(c, withSlices);
    var rest := b[1..];
    forall i | 0 <= i < |rest|
      ensures StartsWith(rest[i], "    ")
    {
      assert rest[i] == b[i + 1];
    }
    IndentedHaveNoIds(rest);
    assert b == [b[0]] + rest;
    RegistryIdsAppend([b[0]], rest);
    assert RegistryIds([b[0]]) == RegistryIds([]) + [c.id] by {
      assert [b[0]][..0] == [];
      assert b[0][|ClaimIdPrefix|..] == c.id;
    }
  }

  /** The registry round trip: reading the claim items back gives the claim
      ids, in registry order. */
  lemma {:induction false} RegistryRoundTrip(campaignId: string, claims: seq<Claim>, withSlices: bool)
    ensures RegistryIds(RegistryLines(campaignId, claims, withSlices)) == ClaimIds(claims)
  {
    if claims == [] {
      HeaderHasNoIds(campaignId);
      assert ClaimIds(claims) == [];
    } else {
      var n := |claims| - 1;
      RegistryRoundTrip(campaignId, claims[..n], withSlices);
      RegistryIdsAppend(RegistryLines(campaignId, claims[..n], withSlices), ClaimBlock(claims[n], withSlices));
      ClaimBlockIds(claims[n], withSlices);
      assert ClaimIds(claims) == ClaimIds(claims[..n]) + [claims[n].id];
    }
  }

  lemma HeaderHasNoIds(campaignId: string)
    ensures RegistryIds(["campaign_id: " + campaignId, "claims:"]) == []
  {
    var h := ["campaign_id: " + campaignId, "claims:"];
    assert !StartsWith(h[1], ClaimIdPrefix) by { assert h[1][0] != ClaimIdPrefix[0]; }
    assert !StartsWith(h[0], ClaimIdPrefix) by { assert h[0][0] != ClaimIdPrefix[0]; }
    assert RegistryIds([h[0]]) == [] by {
      assert [h[0]][..0] == [];
    }
    assert h[..1] == [h[0]];
  }

  /** The ids of the claims, in order. */
  function ClaimIds(claims: seq<Claim>): seq<string>
  {
    seq(|claims|, k requires 0 <= k < |claims| => claims[k].id)
  }

  /** `write_claim_registry_yaml`: the registry without slices, from which
      the claim ids read back in order. */
  function WriteRegistry(campaignId: string): (lines: seq<string>)
    ensures RegistryIds(lines) == ClaimIds(DefaultClaims)
    ensures |lines| >= 2 && lines[0] == "campaign_id: " + campaignId
  {
    RegistryRoundTrip(campaignId, DefaultClaims, false);
    RegistryLines(campaignId, DefaultClaims, false)
  }

  // ---------------------------------------------------------------------
  // The value map

  /** `_value_map`: every row assigns its value to `(claim_id, metric)`, so
      a later row overwrites an earlier one. */
  function ValueMap(rows: seq<EvidenceRow>): (m: map<(string, string), Cell>)
    ensures forall k :: k in m <==> exists i :: 0 <= i < |rows| && (rows[i].claimId, rows[i].metric) == k
  {
    if rows == [] then map[]
    else
      var n := |rows| - 1;
      var pre := ValueMap(rows[..n]);
      assert forall i :: 0 <= i < n ==> rows[..n][i] == rows[i];
      pre[(rows[n].claimId, rows[n].metric) := rows[n].value]
  }

  /** The value of a key is the value of the last row with that key. */
  lemma {:induction false} ValueMapLastWins(rows: seq<EvidenceRow>, i: nat)
    requires i < |rows|
    requires forall j :: i < j < |rows| ==> (rows[j].claimId, rows[j].metric) != (rows[i].claimId, rows[i].metric)
    ensures ValueMap(rows)[(rows[i].claimId, rows[i].metric)] == rows[i].value
  {
    var n := |rows| - 1;
    if i < n {
      ValueMapLastWins(rows[..n], i);
    }
  }

  // ---------------------------------------------------------------------
  // Required metrics

  /** The required metrics of one claim, split into absent and null ones. */
  datatype ClaimRow = ClaimRow(
    claimId: string, passed: bool, missingMetrics: seq<string>, nullMetrics: seq<string>,
    statusPolicy: string, commandRef: string)

  /** The metrics of `metrics` whose key is absent from the map. */
  function MissingMetrics(vmap: map<(string, string), Cell>, cid: string, metrics: seq<string>): (r: seq<string>)
    ensures forall m :: m in r <==> m in metrics && (cid, m) !in vmap
  {
    if metrics == [] then []
    else
      var n := |metrics| - 1;
      assert metrics == metrics[..n] + [metrics[n]];
      MissingMetrics(vmap, cid, metrics[..n]) + (if (cid, metrics[n]) !in vmap then [metrics[n]] else [])
  }

  /** The metrics of `metrics` present in the map with a null value. */
  function NullMetrics(vmap: map<(string, string), Cell>, cid: string, metrics: seq<string>): (r: seq<string>)
    ensures forall m :: m in r <==> m in metrics && (cid, m) in vmap && IsNa(vmap[(cid, m)])
  {
    if metrics == [] then []
    else
      var n := |metrics| - 1;
      assert metrics == metrics[..n] + [metrics[n]];
      var m := metrics[n];
      NullMetrics(vmap, cid, metrics[..n]) + (if (cid, m) in vmap && IsNa(vmap[(cid, m)]) then [m] else [])
  }

  /** The per-claim verdict: a claim passes exactly when none of its
      metrics is absent or null. */
  function CheckClaim(vmap: map<(string, string), Cell>, c: Claim): (r: ClaimRow)
    ensures r.claimId == c.id && r.statusPolicy == c.statusPolicy && r.commandRef == c.commandRef
    ensures r.passed <==> forall m :: m in c.requiredMetrics ==>
      (c.id, m) in vmap && !IsNa(vmap[(c.id, m)])
  {
    var missing := MissingMetrics(vmap, c.id, c.requiredMetrics);
    var nulls := NullMetrics(vmap, c.id, c.requiredMetrics);
    assert (missing == [] && nulls == []) <==>
      forall m :: m in c.requiredMetrics ==> (c.id, m) in vmap && !IsNa(vmap[(c.id, m)]) by {
      if missing != [] { assert missing[0] in missing; }
      if nulls != [] { assert nulls[0] in nulls; }
    }
    ClaimRow(c.id, missing == [] && nulls == [], missing, nulls, c.statusPolicy, c.commandRef)
  }

  /** `"cid:metric"` for each of `metrics`. */
  function Tagged(cid: string, metrics: seq<string>): (r: seq<string>)
    ensures |r| == |metrics|
    ensures forall i :: 0 <= i < |metrics| ==> r[i] == cid + ":" + metrics[i]
  {
    seq(|metrics|, i requires 0 <= i < |metrics| => cid + ":" + metrics[i])
  }

  /** The unresolved entries a claim contributes: its absent metrics, then
      its null ones. */
  function Unresolved(r: ClaimRow): seq<string>
  {
    Tagged(r.claimId, r.missingMetrics + r.nullMetrics)
  }

  /** The claim rows of all claims, and the unresolved list in claim
      order. */
  function CheckClaims(vmap: map<(string, string), Cell>, claims: seq<Claim>): (r: (seq<ClaimRow>, seq<string>))
    ensures |r.0| == |claims|
    ensures forall k :: 0 <= k < |claims| ==> r.0[k] == CheckClaim(vmap, claims[k])
    ensures r.1 == [] <==> forall k :: 0 <= k < |claims| ==> r.0[k].passed
  {
    if claims == [] then ([], [])
    else
      var n := |claims| - 1;
      var pre := CheckClaims(vmap, claims[..n]);
      var row := CheckClaim(vmap, claims[n]);
      (pre.0 + [row], pre.1 + Unresolved(row))
  }

  // ---------------------------------------------------------------------
  // Policy values

  /** `int(float(v))` of a cell; `None` where Python raises (NaN, an
      infinity, a blank, text `float` rejects or a non-finite parse). */
  function IntOf(c: Cell, parseFloat: string -> Option<Float>): (r: Option<int>)
    ensures c.Num? && c.x.Finite? ==> r == Some(Trunc(c.x.v))
    ensures c.Blank? || (c.Num? && !c.x.Finite?) ==> r.None?
  {
    match c
    case Blank => None
    case Num(x) => if x.Finite? then Some(Trunc(x.v)) else None
    case Text(s) =>
      var f := parseFloat(s);
      if f.Some? && f.value.Finite? then Some(Trunc(f.value.v)) else None
  }

  /** `_as_int`: the value as an integer, or the default when the key is
      absent or the value is unreadable. */
  function AsInt(vmap: map<(string, string), Cell>, key: (string, string), default: int,
                 parseFloat: string -> Option<Float>): (r: int)
    ensures key !in vmap ==> r == default
    ensures key in vmap && IntOf(vmap[key], parseFloat).Some? ==> r == IntOf(vmap[key], parseFloat).value
    ensures key in vmap && IntOf(vmap[key], parseFloat).None? ==> r == default
  {
    if key !in vmap then default
    else
      var v := IntOf(vmap[key], parseFloat);
      if v.Some? then v.value else default
  }

  const AuditPassKey: (string, string) := ("C1", "audit_overall_pass")
  const BoundGapKey: (string, string) := ("C6", "n80_invalid_bound_gap_rows")
  const RegimeKey: (string, string) := ("C6", "n80_invalid_regime_rows")
  const RowsKey: (string, string) := ("C6", "n80_rows_count")

  /** The C1 rule: an absent audit verdict reads as 0, an unreadable one is
      reported as such. */
  function C1Violations(vmap: map<(string, string), Cell>, parseFloat: string -> Option<Float>): (r: seq<string>)
    ensures r == [] <==> AuditPassKey in vmap && IntOf(vmap[AuditPassKey], parseFloat) == Some(1)
    ensures AuditPassKey in vmap && IntOf(vmap[AuditPassKey], parseFloat).None? ==>
      r == ["C1 audit_overall_pass unreadable"]
  {
    if AuditPassKey !in vmap then ["C1 audit_overall_pass != 1"]
    else
      var v := IntOf(vmap[AuditPassKey], parseFloat);
      if v.None? then ["C1 audit_overall_pass unreadable"]
      else if v.value != 1 then ["C1 audit_overall_pass != 1"]
      else []
  }

  /** The C6 rules: no invalid N=80 rows (absent counts default to 1, a
      violation) and at least one N=80 row (absent defaults to 0, also a
      violation). */
  function C6Violations(vmap: map<(string, string), Cell>, parseFloat: string -> Option<Float>): (r: seq<string>)
    ensures r == [] <==>
      AsInt(vmap, BoundGapKey, 1, parseFloat) == 0
      && AsInt(vmap, RegimeKey, 1, parseFloat) == 0
      && AsInt(vmap, RowsKey, 0, parseFloat) > 0
  {
    (if AsInt(vmap, BoundGapKey, 1, parseFloat) != 0 then ["C6 n80_invalid_bound_gap_rows must be 0"] else [])
    + (if AsInt(vmap, RegimeKey, 1, parseFloat) != 0 then ["C6 n80_invalid_regime_rows must be 0"] else [])
    + (if AsInt(vmap, RowsKey, 0, parseFloat) <= 0 then ["C6 n80_rows_count must be > 0"] else [])
  }

  /** An absent C6 metric is always a violation. */
  lemma AbsentC6Violates(vmap: map<(string, string), Cell>, parseFloat: string -> Option<Float>)
    requires BoundGapKey !in vmap || RegimeKey !in vmap || RowsKey !in vmap
    ensures C6Violations(vmap, parseFloat) != []
  {
  }

  // ---------------------------------------------------------------------
  // Evidence tags

  const EvidOpen: string := "\\evid{"

  /** The index of the first `}` in `s`, if any. */
  function CloseAt(s: string): (k: Option<nat>)
    ensures k.Some? ==> k.value < |s| && s[k.value] == '}' && '}' !in s[..k.value]
    ensures k.None? ==> '}' !in s
  {
    if s == [] then None
    else if s[0] == '}' then Some(0)
    else
      var k := CloseAt(s[1..]);
      assert s == [s[0]] + s[1..];
      if k.Some? then
        assert s[..k.value + 1] == [s[0]] + s[1..][..k.value];
        Some(k.value + 1)
      else None
  }

  /** The groups of `re.finditer(r"\\evid\{([^}]+)\}", text)`, left to
      right: a match needs at least one character before the next `}`, and
      scanning resumes after the match. */
  function EvidTokens(text: string): (r: seq<string>)
    ensures forall i :: 0 <= i < |r| ==> |r[i]| > 0 && '}' !in r[i]
    decreases |text|
  {
    if |text| < |EvidOpen| then []
    else if text[..|EvidOpen|] == EvidOpen then
      var rest := text[|EvidOpen|..];
      var k := CloseAt(rest);
      if k.Some? && k.value > 0 then [rest[..k.value]] + EvidTokens(rest[k.value + 1..])
      else EvidTokens(text[1..])
    else EvidTokens(text[1..])
  }

  /** A single tag is found as written. */
  lemma EvidTokenFound(tok: string)
    requires |tok| > 0 && '}' !in tok
    ensures EvidTokens(EvidOpen + tok + "}") == [tok]
  {
    var rest := tok + "}";
    var text := EvidOpen + rest;
    assert EvidOpen + tok + "}" == text;
    assert text[..|EvidOpen|] == EvidOpen;
    assert text[|EvidOpen|..] == rest;
    assert rest[|tok|] == '}' && rest[..|tok|] == tok;
    CloseAtFirst(rest, |tok|);
    assert rest[|tok| + 1..] == [];
  }

  /** `CloseAt` finds the first closing brace. */
  lemma CloseAtFirst(s: string, k: nat)
    requires k < |s| && s[k] == '}' && '}' !in s[..k]
    ensures CloseAt(s) == Some(k)
  {
    assert s[k] in s;
  }

  /** Text without a backslash holds no tag. */
  lemma {:induction false} NoBackslashNoTokens(text: string)
    requires '\\' !in text
    ensures EvidTokens(text) == []
    decreases |text|
  {
    if |text| >= |EvidOpen| {
      assert text[0] != '\\';
      assert text[..|EvidOpen|] != EvidOpen by { assert EvidOpen[0] == '\\'; }
      NoBackslashNoTokens(text[1..]);
    }
  }

  /** The tokens of one text, stripped, empty ones dropped. */
  function Stripped(toks: seq<string>): (r: seq<string>)
    ensures forall t :: t in r ==> |t| > 0
    ensures forall i :: 0 <= i < |toks| && |Strip(toks[i])| > 0 ==> Strip(toks[i]) in r
  {
    if toks == [] then []
    else
      var n := |toks| - 1;
      assert forall i :: 0 <= i < n ==> toks[..n][i] == toks[i];
      Stripped(toks[..n]) + (if |Strip(toks[n])| > 0 then [Strip(toks[n])] else [])
  }

  /** Every stripped tag comes from a token. */
  lemma {:induction false} StrippedFromTokens(toks: seq<string>, t: string)
    requires t in Stripped(toks)
    ensures exists i :: 0 <= i < |toks| && Strip(toks[i]) == t
  {
    var n := |toks| - 1;
    if t != Strip(toks[n]) {
      StrippedFromTokens(toks[..n], t);
      var i :| 0 <= i < n && Strip(toks[..n][i]) == t;
      assert toks[..n][i] == toks[i];
    }
  }

  /** The tags one section text uses. */
  function TagsOf(text: string): seq<string>
  {
    Stripped(EvidTokens(text))
  }

  /** `f` applied to every element, the results concatenated. */
  function FlatMap<A, B>(xs: seq<A>, f: A -> seq<B>): seq<B>
  {
    if xs == [] then []
    else
      var n := |xs| - 1;
      FlatMap(xs[..n], f) + f(xs[n])
  }

  lemma {:induction false} FlatMapMembers<A, B>(xs: seq<A>, f: A -> seq<B>, b: B)
    ensures b in FlatMap(xs, f) <==> exists k :: 0 <= k < |xs| && b in f(xs[k])
  {
    if xs != [] {
      var n := |xs| - 1;
      var pre := xs[..n];
      FlatMapMembers(pre, f, b);
      if b in FlatMap(xs, f) && b in FlatMap(pre, f) {
        var k :| 0 <= k < n && b in f(pre[k]);
        assert pre[k] == xs[k];
      }
      if exists k :: 0 <= k < |xs| && b in f(xs[k]) {
        var k :| 0 <= k < |xs| && b in f(xs[k]);
        if k < n {
          assert pre[k] == xs[k];
        }
      }
    }
  }

  /** The tags the section texts use: the stripped, non-empty tokens of
      every text, in text order. */
  function UsedTags(texts: seq<string>): (used: seq<string>)
    ensures forall t :: t in used <==> exists k :: 0 <= k < |texts| && t in TagsOf(texts[k])
  {
    forall t ensures t in FlatMap(texts, TagsOf) <==> exists k :: 0 <= k < |texts| && t in TagsOf(texts[k]) {
      FlatMapMembers(texts, TagsOf, t);
    }
    FlatMap(texts, TagsOf)
  }

  /** The known evidence ids: the text cells of the `evid_id` column. */
  function KnownIds(ids: seq<Cell>): (known: set<string>)
    ensures forall s :: s in known <==> Text(s) in ids
  {
    set i | 0 <= i < |ids| && ids[i].Text? :: ids[i].s
  }

  /** Every string of `s` strictly precedes the next ones. */
  predicate StrictlyIncreasing(s: seq<string>)
  {
    forall i, j :: 0 <= i < j < |s| ==> LexLess(s[i], s[j])
  }

  /** Sorting distinct strings gives a strictly increasing sequence with the
      same members. */
  lemma SortedUniqueStrict(u: seq<string>)
    requires forall i, j :: 0 <= i < j < |u| ==> u[i] != u[j]
    ensures StrictlyIncreasing(Sort(u, Significance.ByName()))
    ensures forall t :: t in Sort(u, Significance.ByName()) <==> t in u
  {
    var s := Sort(u, Significance.ByName());
    Significance.ByNameTotal();
    SortSorted(u, Significance.ByName());
    Significance.DistinctAfterSort(u, Significance.ByName());
    forall i, j | 0 <= i < j < |s|
      ensures LexLess(s[i], s[j])
    {
      assert Significance.ByName()(s[i], s[j]);
      assert s[i] != s[j];
    }
    forall t
      ensures t in s <==> t in u
    {
      SortSameElements(u, Significance.ByName(), t);
    }
  }

  /** `validate_evidence_tags`: the used tags no evidence row names, once
      each, in increasing order. */
  function MissingTags(texts: seq<string>, ids: seq<Cell>): (r: seq<string>)
    ensures forall t :: t in r <==> t in UsedTags(texts) && Text(t) !in ids
    ensures StrictlyIncreasing(r)
  {
    var known := KnownIds(ids);
    var missing := Significance.Unique(Where(UsedTags(texts), (t: string) => t !in known));
    SortedUniqueStrict(missing);
    Sort(missing, Significance.ByName())
  }

  // ---------------------------------------------------------------------
  // The verdict

  datatype ValidationResult = ValidationResult(
    passed: bool, claims: seq<ClaimRow>, unresolved: seq<string>,
    policyViolations: seq<string>, evidenceTagMissing: seq<string>)

  /** `validate_claims` against a claim list.  `manuscript` holds the texts
      of the section `.tex` files when a manuscript root is given. */
  function Validate(claims: seq<Claim>, rows: seq<EvidenceRow>, ids: seq<Cell>,
                    manuscript: Option<seq<string>>,
                    parseFloat: string -> Option<Float>): (r: ValidationResult)
    ensures r.passed <==> r.unresolved == [] && r.policyViolations == [] && r.evidenceTagMissing == []
    ensures |r.claims| == |claims|
    ensures forall k :: 0 <= k < |claims| ==> r.claims[k] == CheckClaim(ValueMap(rows), claims[k])
    ensures r.unresolved == [] <==> forall k :: 0 <= k < |claims| ==> r.claims[k].passed
    ensures r.policyViolations == C1Violations(ValueMap(rows), parseFloat) + C6Violations(ValueMap(rows), parseFloat)
    ensures manuscript.None? ==> r.evidenceTagMissing == []
    ensures manuscript.Some? ==> r.evidenceTagMissing == MissingTags(manuscript.value, ids)
  {
    var vmap := ValueMap(rows);
    var checked := CheckClaims(vmap, claims);
    var violations := C1Violations(vmap, parseFloat) + C6Violations(vmap, parseFloat);
    var tags := if manuscript.Some? then MissingTags(manuscript.value, ids) else [];
    ValidationResult(checked.1 == [] && violations == [] && tags == [],
      checked.0, checked.1, violations, tags)
  }

  /** `validate_claims` with the built-in claims. */
  function ValidateClaims(rows: seq<EvidenceRow>, ids: seq<Cell>, manuscript: Option<seq<string>>,
                          parseFloat: string -> Option<Float>): ValidationResult
  {
    Validate(DefaultClaims, rows, ids, manuscript, parseFloat)
  }

  /** Every claim has a non-null value for each of its metrics. */
  predicate MetricsComplete(vmap: map<(string, string), Cell>, claims: seq<Claim>)
  {
    forall k, m :: 0 <= k < |claims| && m in claims[k].requiredMetrics ==>
      (claims[k].id, m) in vmap && !IsNa(vmap[(claims[k].id, m)])
  }

  /** The claim policy: the audit verdict reads as 1, no N=80 row is
      invalid, and there is at least one N=80 row. */
  predicate PolicyHolds(vmap: map<(string, string), Cell>, parseFloat: string -> Option<Float>)
  {
    AuditPassKey in vmap && IntOf(vmap[AuditPassKey], parseFloat) == Some(1)
    && AsInt(vmap, BoundGapKey, 1, parseFloat) == 0
    && AsInt(vmap, RegimeKey, 1, parseFloat) == 0
    && AsInt(vmap, RowsKey, 0, parseFloat) > 0
  }

  /** Every tag the texts use names a known evidence row. */
  predicate TagsKnown(texts: seq<string>, ids: seq<Cell>)
  {
    forall t :: t in UsedTags(texts) ==> Text(t) in ids
  }

  /** Nothing is unresolved exactly when the metrics are complete. */
  lemma CheckClaimsComplete(vmap: map<(string, string), Cell>, claims: seq<Claim>)
    ensures CheckClaims(vmap, claims).1 == [] <==> MetricsComplete(vmap, claims)
  {
    var r := CheckClaims(vmap, claims);
    forall k | 0 <= k < |claims|
      ensures r.0[k].passed <==> forall m :: m in claims[k].requiredMetrics ==>
        (claims[k].id, m) in vmap && !IsNa(vmap[(claims[k].id, m)])
    {
      assert r.0[k] == CheckClaim(vmap, claims[k]);
    }
  }

  /** No tag is missing exactly when every used tag is known. */
  lemma MissingTagsNone(texts: seq<string>, ids: seq<Cell>)
    ensures MissingTags(texts, ids) == [] <==> TagsKnown(texts, ids)
  {
    var r := MissingTags(texts, ids);
    if r != [] {
      assert r[0] in r;
    }
  }

  /** The verdict in the source's terms: the report passes exactly when
      every claim has all its metrics, the policy holds, and, when a
      manuscript is given, every used tag is known. */
  lemma ValidatePasses(claims: seq<Claim>, rows: seq<EvidenceRow>, ids: seq<Cell>,
                       manuscript: Option<seq<string>>, parseFloat: string -> Option<Float>)
    ensures Validate(claims, rows, ids, manuscript, parseFloat).passed <==>
      MetricsComplete(ValueMap(rows), claims) && PolicyHolds(ValueMap(rows), parseFloat)
      && (manuscript.Some? ==> TagsKnown(manuscript.value, ids))
  {
    CheckClaimsComplete(ValueMap(rows), claims);
    if manuscript.Some? {
      MissingTagsNone(manuscript.value, ids);
    }
  }
}

=== FILE: claim_guard_v1.dfy ===
/** The claim guard of the first submission pipeline
    (submit_v1/claim_guard.py).  It checks the same required metrics as the
    second one, lists the allowed and forbidden evidence slices of every
    claim in its registry, and has no evidence-tag gate.  Its policy checks
    convert values without a fallback, so an unreadable policy value makes
    the whole check raise instead of being reported. */
module ClaimGuardV1 {
  import opened Numeric
  import opened Audit
  import opened ClaimGuard

  /** The claims of the first pipeline, in order. */
  const DefaultClaims: seq<Claim> := [
    Claim("C1", "Policy gate is satisfied by size regime.",
      "supported", ["audit_overall_pass", "coverage_main_a_10_20_40", "coverage_main_b_10_20_40"],
      ["main_A_core", "main_B_core", "scal_A_core", "scal_B_core"], [],
      "scripts/audit_journal_readiness.py"),
    Claim("C2", "Family B stress reduces OR-Tools service quality at medium size.",
      "supported", ["on_time_pct_a_n20_ortools", "on_time_pct_b_n20_ortools",
                    "tardiness_min_a_n20_ortools", "tardiness_min_b_n20_ortools"],
      ["paper_A", "paper_B"], [], "scripts/make_paper_tables_v2.sh"),
    Claim("C3", "OR-Tools stays feasible at N=40 while PyVRP drops in both families.",
      "supported", ["feasible_rate_a_n40_ortools", "feasible_rate_b_n40_ortools",
                    "feasible_rate_a_n40_pyvrp", "feasible_rate_b_n40_pyvrp"],
      ["paper_A", "paper_B"], [], "scripts/make_paper_tables_v2.sh"),
    Claim("C4", "At N=20, OR-Tools has tighter mean gap than PyVRP in A and B.",
      "supported", ["gap_pct_a_n20_ortools", "gap_pct_b_n20_ortools",
                    "gap_pct_a_n20_pyvrp", "gap_pct_b_n20_pyvrp"],
      ["paper_A", "paper_B"], [], "scripts/make_paper_tables_v2.sh"),
    Claim("C5", "Inference is reported conservatively with adjusted significance.",
      "supported_with_caveat", ["runtime_p_holm_a", "runtime_p_holm_b", "runtime_effect_size_a",
                                "runtime_effect_size_b", "runtime_ci_low_a", "runtime_ci_high_a",
                                "runtime_ci_low_b", "runtime_ci_high_b", "runtime_n_pairs_a",
                                "runtime_n_pairs_b"],
      ["main_A_core", "main_B_core"], [], "main_*_core/results_significance.csv"),
    Claim("C6", "N=80 remains scalability-only with no bound/gap claims.",
      "supported", ["n80_rows_count", "n80_invalid_bound_gap_rows", "n80_invalid_regime_rows"],
      ["scal_A_core", "scal_B_core"], ["N80_bound", "N80_gap"],
      "scripts/audit_journal_readiness.py")]

  /** `write_claim_registry_yaml` of the first pipeline: the registry with
      slices, from which the claim ids read back in order. */
  function WriteRegistry(campaignId: string): (lines: seq<string>)
    ensures RegistryIds(lines) == ClaimIds(DefaultClaims)
    ensures |lines| >= 2 && lines[0] == "campaign_id: " + campaignId
  {
    RegistryRoundTrip(campaignId, DefaultClaims, true);
    RegistryLines(campaignId, DefaultClaims, true)
  }

  /** A policy value as the first pipeline reads it: the default when the
      key is absent, `None` (an exception) when the value is unreadable. */
  function StrictInt(vmap: map<(string, string), Cell>, key: (string, string), default: int,
                     parseFloat: string -> Option<Float>): (r: Option<int>)
    ensures key !in vmap ==> r == Some(default)
    ensures r.Some? ==> r.value == AsInt(vmap, key, default, parseFloat)
    ensures r.None? <==> key in vmap && IntOf(vmap[key], parseFloat).None?
  {
    if key in vmap then IntOf(vmap[key], parseFloat) else Some(default)
  }

  /** Some policy value is present but unreadable. */
  predicate Unreadable(vmap: map<(string, string), Cell>, parseFloat: string -> Option<Float>)
  {
    (AuditPassKey in vmap && IntOf(vmap[AuditPassKey], parseFloat).None?)
    || (BoundGapKey in vmap && IntOf(vmap[BoundGapKey], parseFloat).None?)
    || (RegimeKey in vmap && IntOf(vmap[RegimeKey], parseFloat).None?)
    || (RowsKey in vmap && IntOf(vmap[RowsKey], parseFloat).None?)
  }

  /** The policy checks in order; `None` when one of them raises. */
  function PolicyViolations(vmap: map<(string, string), Cell>, parseFloat: string -> Option<Float>)
    : (r: Option<seq<string>>)
    ensures r.None? <==> Unreadable(vmap, parseFloat)
    ensures r.Some? ==> r.value == C1Violations(vmap, parseFloat) + C6Violations(vmap, parseFloat)
  {
    var pass := StrictInt(vmap, AuditPassKey, 0, parseFloat);
    var boundGap := StrictInt(vmap, BoundGapKey, 1, parseFloat);
    var regime := StrictInt(vmap, RegimeKey, 1, parseFloat);
    var count := StrictInt(vmap, RowsKey, 0, parseFloat);
    if pass.None? || boundGap.None? || regime.None? || count.None? then None
    else
      Some((if pass.value != 1 then ["C1 audit_overall_pass != 1"] else [])
        + (if boundGap.value != 0 then ["C6 n80_invalid_bound_gap_rows must be 0"] else [])
        + (if regime.value != 0 then ["C6 n80_invalid_regime_rows must be 0"] else [])
        + (if count.value <= 0 then ["C6 n80_rows_count must be > 0"] else []))
  }

  /** A claim row of the first pipeline's report.  Unlike the second
      pipeline's rows it carries no `command_ref`. */
  datatype ClaimRowV1 = ClaimRowV1(
    claimId: string, passed: bool, missingMetrics: seq<string>, nullMetrics: seq<string>,
    statusPolicy: string)

  /** The first pipeline's row for a claim: the checked claim without its
      command reference. */
  function RowOf(c: ClaimRow): (r: ClaimRowV1)
    ensures r.claimId == c.claimId && r.passed == c.passed && r.statusPolicy == c.statusPolicy
    ensures r.missingMetrics == c.missingMetrics && r.nullMetrics == c.nullMetrics
  {
    ClaimRowV1(c.claimId, c.passed, c.missingMetrics, c.nullMetrics, c.statusPolicy)
  }

  /** The claim rows of the first pipeline, one per row of the second. */
  function RowsOf(cs: seq<ClaimRow>): (r: seq<ClaimRowV1>)
    ensures |r| == |cs|
    ensures forall i :: 0 <= i < |cs| ==> r[i] == RowOf(cs[i])
  {
    seq(|cs|, i requires 0 <= i < |cs| => RowOf(cs[i]))
  }

  /** What `validate_claims` of the first pipeline produces: an exception,
      or the report. */
  datatype Outcome =
    | Raised
    | Report(passed: bool, claims: seq<ClaimRowV1>, unresolved: seq<string>, policyViolations: seq<string>)

  /** `validate_claims` against a claim list. */
  function Validate(claims: seq<Claim>, rows: seq<EvidenceRow>, parseFloat: string -> Option<Float>)
    : (r: Outcome)
    ensures r.Raised? <==> Unreadable(ValueMap(rows), parseFloat)
    ensures r.Report? ==> (r.passed <==> r.unresolved == [] && r.policyViolations == [])
    ensures r.Report? ==> (r.unresolved == [] <==> MetricsComplete(ValueMap(rows), claims))
    ensures r.Report? ==> |r.claims| == |claims|
    ensures r.Report? ==> forall i :: 0 <= i < |claims| ==>
      r.claims[i].claimId == claims[i].id && r.claims[i].statusPolicy == claims[i].statusPolicy
  {
    var vmap := ValueMap(rows);
    var checked := CheckClaims(vmap, claims);
    CheckClaimsComplete(vmap, claims);
    var violations := PolicyViolations(vmap, parseFloat);
    if violations.None? then Raised
    else
      var rowsV1 := RowsOf(checked.0);
      assert forall i :: 0 <= i < |claims| ==>
        rowsV1[i].claimId == claims[i].id && rowsV1[i].statusPolicy == claims[i].statusPolicy by {
        forall i | 0 <= i < |claims|
          ensures rowsV1[i].claimId == claims[i].id && rowsV1[i].statusPolicy == claims[i].statusPolicy
        {
          assert checked.0[i] == CheckClaim(vmap, claims[i]);
        }
      }
      Report(checked.1 == [] && violations.value == [], rowsV1, checked.1, violations.value)
  }

  /** `validate_claims` with the first pipeline's claims. */
  function ValidateClaims(rows: seq<EvidenceRow>, parseFloat: string -> Option<Float>): Outcome
  {
    Validate(DefaultClaims, rows, parseFloat)
  }

  /** Where the first pipeline does not raise, it reports what the second
      one reports without a manuscript: claim rows that agree on every
      field the first pipeline writes (all but `command_ref`), the same
      unresolved metrics, policy violations and verdict. */
  lemma AgreesWithSecondPipeline(claims: seq<Claim>, rows: seq<EvidenceRow>, ids: seq<Cell>,
                                 parseFloat: string -> Option<Float>)
    requires !Unreadable(ValueMap(rows), parseFloat)
    ensures var v1 := Validate(claims, rows, parseFloat);
      var v2 := ClaimGuard.Validate(claims, rows, ids, None, parseFloat);
      v1.Report? && |v1.claims| == |v2.claims|
      && (forall i :: 0 <= i < |v1.claims| ==>
            v1.claims[i].claimId == v2.claims[i].claimId && v1.claims[i].passed == v2.claims[i].passed
            && v1.claims[i].missingMetrics == v2.claims[i].missingMetrics
            && v1.claims[i].nullMetrics == v2.claims[i].nullMetrics
            && v1.claims[i].statusPolicy == v2.claims[i].statusPolicy)
      && v1.unresolved == v2.unresolved
      && v1.policyViolations == v2.policyViolations && v1.passed == v2.passed
  {
  }

  /** An unreadable audit verdict is a raised exception here and a reported
      violation in the second pipeline. */
  lemma UnreadableVerdictRaises(claims: seq<Claim>, rows: seq<EvidenceRow>, ids: seq<Cell>,
                                parseFloat: string -> Option<Float>)
    requires AuditPassKey in ValueMap(rows) && IntOf(ValueMap(rows)[AuditPassKey], parseFloat).None?
    ensures Validate(claims, rows, parseFloat).Raised?
    ensures "C1 audit_overall_pass unreadable"
      in ClaimGuard.Validate(claims, rows, ids, None, parseFloat).policyViolations
  {
  }
}

=== FILE: edge_risk.dfy ===
/** Edge outage-risk matrix (risk/edge_risk.py).  The radio model is a
    parameter: `outage(p1, p2)` stands for `edge_outage_risk` with the base
    stations, altitude, sample count and link parameters fixed. */
module EdgeRisk {
  import opened Numeric
  import opened Schema
  import opened Matrices

  /** `compute_risk_matrix`: square over the depot and the clients, symmetric,
      zero on the diagonal, and the entry of a pair is the outage of the edge
      taken from the lower-index node to the higher-index one. */
  function RiskMatrix(sc: ScenarioData, outage: (Point, Point) -> real): (m: Matrix)
    ensures var k := |sc.clientXy| + 1;
      Square(m, k) && Symmetric(m, k) && ZeroDiagonal(m, k)
    ensures forall i, j :: 0 <= i < j < |sc.clientXy| + 1 ==> m[i][j] == outage(Coords(sc)[i], Coords(sc)[j])
  {
    PairMatrix(Coords(sc), outage)
  }

  /** Number of points sampled along an edge: both endpoints when fewer than two
      samples are asked for, otherwise the requested count. */
  function SampleCount(kSamples: int): (n: nat)
    ensures n >= 2
    ensures kSamples >= 2 ==> n == kSamples
  {
    if kSamples <= 1 then 2 else kSamples
  }

  /** `edge_outage_risk`'s result: the mean of the per-sample outage
      indicators, where a sample is in outage when its best SNR is below the
      threshold. */
  function OutageFraction(bestSnr: seq<real>, threshold: real): (r: real)
    requires |bestSnr| > 0
    ensures 0.0 <= r <= 1.0
    ensures r == 0.0 <==> forall s :: 0 <= s < |bestSnr| ==> bestSnr[s] >= threshold
    ensures r == 1.0 <==> forall s :: 0 <= s < |bestSnr| ==> bestSnr[s] < threshold
  {
    var inOutage := (x: real) => x < threshold;
    var below := CountWhere(bestSnr, inOutage);
    CountWhereZero(bestSnr, inOutage);
    CountWhereAll(bestSnr, inOutage);
    FractionOfCount(below, |bestSnr|);
    (below as real) / (|bestSnr| as real)
  }

  lemma FractionOfCount(k: nat, n: nat)
    requires 0 < n && k <= n
    ensures 0.0 <= (k as real) / (n as real) <= 1.0
    ensures (k as real) / (n as real) == 0.0 <==> k == 0
    ensures (k as real) / (n as real) == 1.0 <==> k == n
  {
    var q := (k as real) / (n as real);
    assert q * (n as real) == k as real;
  }

  /** With an outage model whose values are fractions, every entry of the
      risk matrix is a fraction. */
  lemma RiskEntriesAreFractions(sc: ScenarioData, outage: (Point, Point) -> real)
    requires forall p: Point, q: Point :: 0.0 <= outage(p, q) <= 1.0
    ensures UnitEntries(RiskMatrix(sc, outage))
  {
    PairMatrixBounds(Coords(sc), outage, 0.0, 1.0);
  }
}

=== FILE: evidence_index.dfy ===
/** The evidence index of the second submission pipeline
    (submit_v2/evidence_index.py): one row per number the manuscript may
    cite, each with a sanitised evidence id, the claim it supports and the
    table it comes from, written in a deterministic order.

    Reading the input tables and the audit JSON is left out: the audit
    verdict, the table rows and the string-to-float conversion are
    parameters. */
module EvidenceIndex {
  import opened Numeric
  import opened Text
  import opened Sorting
  import opened Audit
  import ClaimGuard

  /** The columns of the index, in order. */
  const Columns: seq<string> :=
    ["evid_id", "claim_id", "source_path", "table_or_fig_id", "metric", "value",
     "slice", "unit", "command", "verified"]

  /** One row of the index.  A row without a claim has the empty claim id. */
  datatype IndexRow = IndexRow(
    evidId: string, claimId: string, sourcePath: string, tableOrFigId: string,
    metric: string, value: Cell, slice: string, unit: string, command: string,
    verified: int)

  /** The view of an index row the claim guard reads. */
  function ToEvidence(row: IndexRow): (e: ClaimGuard.EvidenceRow)
    ensures e.claimId == row.claimId && e.metric == row.metric && e.value == row.value
  {
    ClaimGuard.EvidenceRow(row.claimId, row.metric, row.value)
  }

  function ToEvidenceAll(rows: seq<IndexRow>): (es: seq<ClaimGuard.EvidenceRow>)
    ensures |es| == |rows|
    ensures forall i :: 0 <= i < |rows| ==> es[i] == ToEvidence(rows[i])
  {
    seq(|rows|, i requires 0 <= i < |rows| => ToEvidence(rows[i]))
  }

  // ---------------------------------------------------------------------
  // Numbers

  /** `_safe_num`: a finite number, or nothing for a missing, NaN, infinite
      or unparsable value.  Text goes through `float`. */
  function SafeNum(x: Cell, parseFloat: string -> Option<Float>): (r: Option<real>)
    ensures x.Blank? ==> r.None?
    ensures x.Num? ==> (r.Some? <==> x.x.Finite?)
    ensures x.Text? ==> (r.Some? <==> parseFloat(x.s).Some? && parseFloat(x.s).value.Finite?)
    ensures r.Some? ==> x == Num(Finite(r.value)) || (x.Text? && parseFloat(x.s) == Some(Finite(r.value)))
  {
    match x
    case Blank => None
    case Num(f) => if f.Finite? then Some(f.v) else None
    case Text(s) => FiniteOrNone(parseFloat(s))
  }

  /** The cell the index stores for a `_safe_num` result: blank for none. */
  function NumCell(v: Option<real>): (c: Cell)
    ensures IsNa(c) <==> v.None?
    ensures v.Some? ==> c == Num(Finite(v.value))
  {
    if v.Some? then Num(Finite(v.value)) else Blank
  }

  /** A stored number is read back unchanged, and the claim guard sees a
      value exactly when `_safe_num` found one. */
  lemma SafeNumRoundTrip(x: Cell, parseFloat: string -> Option<Float>)
    ensures SafeNum(NumCell(SafeNum(x, parseFloat)), parseFloat) == SafeNum(x, parseFloat)
    ensures IsNa(NumCell(SafeNum(x, parseFloat))) <==> SafeNum(x, parseFloat).None?
  {
  }

  /** A whole number as the index stores it. */
  function IntCell(n: int): (c: Cell)
    ensures c.Num? && c.x.Finite? && Trunc(c.x.v) == n
  {
    Num(Finite(n as real))
  }

  // ---------------------------------------------------------------------
  // Evidence ids

  /** `str.isalnum` over ASCII letters and digits. */
  predicate IsAlnum(c: char)
  {
    ('a' <= c <= 'z') || ('A' <= c <= 'Z') || ('0' <= c <= '9')
  }

  /** The characters `_san` keeps. */
  predicate Kept(c: char)
  {
    IsAlnum(c) || c == '-' || c == '_'
  }

  /** `_san`: every character that is not alphanumeric, `-` or `_` becomes
      `_`. */
  function San(s: string): (r: string)
    ensures |r| == |s|
    ensures forall i :: 0 <= i < |s| ==> (Kept(s[i]) ==> r[i] == s[i]) && (!Kept(s[i]) ==> r[i] == '_')
  {
    if s == [] then []
    else [if Kept(s[0]) then s[0] else '_'] + San(s[1..])
  }

  /** Only kept characters come out of `_san`. */
  lemma SanOnlyKept(s: string)
    ensures forall i :: 0 <= i < |San(s)| ==> Kept(San(s)[i])
  {
  }

  /** `_san` changes a string exactly when it holds a character it does not
      keep. */
  lemma SanFixes(s: string)
    ensures San(s) == s <==> forall i :: 0 <= i < |s| ==> Kept(s[i])
  {
    if forall i :: 0 <= i < |s| ==> Kept(s[i]) {
      assert forall i :: 0 <= i < |s| ==> San(s)[i] == s[i];
    } else {
      var i :| 0 <= i < |s| && !Kept(s[i]);
      assert San(s)[i] == '_';
    }
  }

  /** Sanitising twice is sanitising once. */
  lemma SanIdempotent(s: string)
    ensures San(San(s)) == San(s)
  {
    SanOnlyKept(s);
    SanFixes(San(s));
  }

  /** The parts `_evid_id` joins: neither `None` nor empty. */
  function Present(parts: seq<Option<string>>): (ps: seq<string>)
    ensures forall p :: p in ps <==> Some(p) in parts && p != ""
    ensures |ps| <= |parts|
  {
    if parts == [] then []
    else
      var rest := Present(parts[1..]);
      assert forall q :: q in parts <==> q == parts[0] || q in parts[1..];
      if parts[0].Some? && parts[0].value != "" then [parts[0].value] + rest else rest
  }

  /** `_evid_id`: the present parts joined by `_`, then sanitised.  A part
      is the `str` of the argument; `None` is a missing argument. */
  function EvidId(parts: seq<Option<string>>): (id: string)
    ensures forall i :: 0 <= i < |id| ==> Kept(id[i])
  {
    var j := Join(Present(parts), "_");
    SanOnlyKept(j);
    San(j)
  }

  /** Missing and empty parts do not change the id, wherever they stand. */
  lemma EvidIdSkipsAbsent(pre: seq<Option<string>>, post: seq<Option<string>>)
    ensures EvidId(pre + [None] + post) == EvidId(pre + post)
    ensures EvidId(pre + [Some("")] + post) == EvidId(pre + post)
  {
    PresentAppend(pre, [None] + post);
    PresentAppend(pre, [Some("")] + post);
    PresentAppend(pre, post);
    assert ([None] + post)[1..] == post;
    assert ([Some("")] + post)[1..] == post;
    assert pre + [None] + post == pre + ([None] + post);
    assert pre + [Some("")] + post == pre + ([Some("")] + post);
  }

  lemma {:induction false} PresentAppend(a: seq<Option<string>>, b: seq<Option<string>>)
    ensures Present(a + b) == Present(a) + Present(b)
  {
    if a == [] {
      assert a + b == b;
    } else {
      assert (a + b)[1..] == a[1..] + b;
      PresentAppend(a[1..], b);
    }
  }

  /** One part alone is its sanitised text; two parts are joined by `_`. */
  lemma EvidIdParts(p: string, q: string)
    requires p != "" && q != ""
    ensures EvidId([Some(p)]) == San(p)
    ensures EvidId([Some(p), Some(q)]) == San(p + "_" + q)
  {
    assert Present([Some(p)]) == [p] by {
      assert [Some(p)][1..] == [];
    }
    assert Present([Some(p), Some(q)]) == [p, q] by {
      assert [Some(p), Some(q)][1..] == [Some(q)];
      assert [Some(q)][1..] == [];
    }
    assert [p, q][1..] == [q];
    assert Join([p, q], "_") == p + "_" + q;
    assert Join([p], "_") == p;
  }

  /** Parts made of kept characters are joined unchanged. */
  lemma EvidIdOfKept(parts: seq<Option<string>>)
    requires AllKept(Join(Present(parts), "_"))
    ensures EvidId(parts) == Join(Present(parts), "_")
  {
    SanFixes(Join(Present(parts), "_"));
  }

  predicate AllKept(s: string)
  {
    forall i :: 0 <= i < |s| ==> Kept(s[i])
  }

  lemma AllKeptJoin(p: string, q: string)
    requires AllKept(p) && AllKept(q)
    ensures AllKept(p + "_" + q)
  {
    forall i | 0 <= i < |p + "_" + q| ensures Kept((p + "_" + q)[i]) {
      if i < |p| {
        assert (p + "_" + q)[i] == p[i];
      } else if i > |p| {
        assert (p + "_" + q)[i] == q[i - |p| - 1];
      }
    }
  }

  /** Two or three parts of kept characters are joined by `_` unchanged. */
  lemma EvidIdTwo(p: string, q: string)
    requires p != "" && q != "" && AllKept(p) && AllKept(q)
    ensures EvidId([Some(p), Some(q)]) == p + "_" + q
  {
    var parts := [Some(p), Some(q)];
    assert Present(parts) == [p, q] by {
      assert parts[1..] == [Some(q)];
      assert parts[1..][1..] == [];
    }
    assert [p, q][1..] == [q];
    AllKeptJoin(p, q);
    EvidIdOfKept(parts);
  }

  lemma EvidIdThree(p: string, q: string, r: string)
    requires p != "" && q != "" && r != "" && AllKept(p) && AllKept(q) && AllKept(r)
    ensures EvidId([Some(p), Some(q), Some(r)]) == p + "_" + q + "_" + r
  {
    PresentThree(p, q, r);
    JoinThree(p, q, r);
    AllKeptJoin(p, q);
    AllKeptJoin(p + "_" + q, r);
    EvidIdOfKept([Some(p), Some(q), Some(r)]);
  }

  lemma PresentThree(p: string, q: string, r: string)
    requires p != "" && q != "" && r != ""
    ensures Present([Some(p), Some(q), Some(r)]) == [p, q, r]
  {
    var parts := [Some(p), Some(q), Some(r)];
    assert parts[1..] == [Some(q), Some(r)];
    assert parts[1..][1..] == [Some(r)];
    assert parts[1..][1..][1..] == [];
  }

  lemma JoinThree(p: string, q: string, r: string)
    ensures Join([p, q, r], "_") == p + "_" + q + "_" + r
  {
    assert [p, q, r][1..] == [q, r];
    assert [q, r][1..] == [r];
    assert Join([q, r], "_") == q + "_" + r;
    assert p + "_" + q + "_" + r == p + "_" + (q + "_" + r);
  }

  // ---------------------------------------------------------------------
  // Significance rows

  /** A row of a significance table: the compared methods, the metric and
      the remaining columns. */
  datatype SigRow = SigRow(metric: string, methodA: string, methodB: string, fields: map<string, Cell>)

  predicate Compares(row: SigRow, metric: string, a: string, b: string)
  {
    row.metric == metric && row.methodA == a && row.methodB == b
  }

  /** The first row comparing `a` against `b` on `metric`. */
  function FirstComparing(rows: seq<SigRow>, metric: string, a: string, b: string): (i: Option<nat>)
    ensures i.None? <==> forall j :: 0 <= j < |rows| ==> !Compares(rows[j], metric, a, b)
    ensures i.Some? ==> i.value < |rows| && Compares(rows[i.value], metric, a, b)
    ensures i.Some? ==> forall j :: 0 <= j < i.value ==> !Compares(rows[j], metric, a, b)
  {
    if rows == [] then None
    else if Compares(rows[0], metric, a, b) then Some(0)
    else
      var k := FirstComparing(rows[1..], metric, a, b);
      if k.None? then None else Some(k.value + 1)
  }

  /** `_pick_sig`: the first row of the pair in the given order, otherwise
      the first in the reverse order, otherwise nothing. */
  function PickSig(rows: seq<SigRow>, a: string, b: string, metric: string): (r: Option<SigRow>)
    ensures r.None? <==>
      forall j :: 0 <= j < |rows| ==> !Compares(rows[j], metric, a, b) && !Compares(rows[j], metric, b, a)
    ensures r.Some? ==> r.value in rows
    ensures r.Some? ==> Compares(r.value, metric, a, b) || Compares(r.value, metric, b, a)
    ensures (exists j :: 0 <= j < |rows| && Compares(rows[j], metric, a, b)) ==>
      r.Some? && Compares(r.value, metric, a, b)
  {
    var direct := FirstComparing(rows, metric, a, b);
    if direct.Some? then Some(rows[direct.value])
    else
      var reverse := FirstComparing(rows, metric, b, a);
      if reverse.Some? then Some(rows[reverse.value]) else None
  }

  /** The position `_pick_sig` takes its row from: the first row of the
      pair in the given order, otherwise the first in the reverse order. */
  function PickIndex(rows: seq<SigRow>, a: string, b: string, metric: string): (i: Option<nat>)
    ensures i.Some? ==> i.value < |rows|
    ensures i.Some? ==> forall j :: 0 <= j < i.value ==> !Compares(rows[j], metric, a, b)
    ensures i.Some? && !Compares(rows[i.value], metric, a, b) ==>
      Compares(rows[i.value], metric, b, a)
      && (forall j :: 0 <= j < |rows| ==> !Compares(rows[j], metric, a, b))
      && (forall j :: 0 <= j < i.value ==> !Compares(rows[j], metric, b, a))
    ensures PickSig(rows, a, b, metric) == (if i.Some? then Some(rows[i.value]) else None)
  {
    var direct := FirstComparing(rows, metric, a, b);
    if direct.Some? then direct else FirstComparing(rows, metric, b, a)
  }

  /** Swapping the methods finds a row exactly when the original order
      does; with only one order present both pick the same row. */
  lemma PickSigSymmetric(rows: seq<SigRow>, a: string, b: string, metric: string)
    ensures PickSig(rows, a, b, metric).None? <==> PickSig(rows, b, a, metric).None?
    ensures (forall j :: 0 <= j < |rows| ==> !Compares(rows[j], metric, a, b)) ==>
      PickSig(rows, a, b, metric) == PickSig(rows, b, a, metric)
  {
  }

  // ---------------------------------------------------------------------
  // Policy evidence (claims C1 and C6)

  /** `_coverage_ok`: 1 when every required size appears among the finite
      sizes of the table (truncated to whole numbers), else 0. */
  function CoverageOk(rows: seq<AuditRow>, required: set<int>): (r: int)
    ensures r == 0 || r == 1
    ensures r == 1 <==> forall n :: n in required ==>
      exists i :: 0 <= i < |rows| && rows[i].n.Some? && rows[i].n.value.Finite? && Trunc(rows[i].n.value.v) == n
  {
    var found := set i | 0 <= i < |rows| && rows[i].n.Some? && rows[i].n.value.Finite? :: Trunc(rows[i].n.value.v);
    assert forall n :: n in found <==>
      exists i :: 0 <= i < |rows| && rows[i].n.Some? && rows[i].n.value.Finite? && Trunc(rows[i].n.value.v) == n;
    if required <= found then 1 else 0
  }

  /** The coverage the index records is the coverage gate of the audit. */
  lemma CoverageAgreesWithAudit(f: Frame, required: set<int>)
    requires "N" in f.columns
    ensures CoverageOk(f.rows, required) == 1 <==> required <= NSet(Some(f))
  {
  }

  /** The counts recorded for claim C6. */
  datatype N80Counts = N80Counts(rows: nat, invalidBoundGap: nat, invalidRegime: nat)

  /** The N >= 80 rows of both scalability tables: how many there are, how
      many gap and bound values they report (each counted), and how many
      have a regime other than `scalability_only` (a blank regime
      included). */
  function CountN80(scalA: seq<AuditRow>, scalB: seq<AuditRow>): (c: N80Counts)
    ensures c.rows == |Where(scalA + scalB, Large)|
    ensures c.invalidBoundGap <= 2 * c.rows && c.invalidRegime <= c.rows
  {
    var n80 := Where(scalA + scalB, Large);
    N80Counts(|n80|,
      CountWhere(n80, (row: AuditRow) => !IsNa(row.gap)) + CountWhere(n80, (row: AuditRow) => !IsNa(row.bound)),
      CountWhere(n80, (row: AuditRow) => row.regime != Text("scalability_only")))
  }

  /** The counts agree with the scalability gate of the audit, and they
      are clean exactly when every large row reports neither gap nor bound
      and has the `scalability_only` regime. */
  lemma CountN80AgreesWithAudit(scalA: seq<AuditRow>, scalB: seq<AuditRow>)
    ensures CountN80(scalA, scalB).rows == ScalabilityPolicy(scalA + scalB).0
    ensures CountN80(scalA, scalB).invalidBoundGap + CountN80(scalA, scalB).invalidRegime
      == ScalabilityPolicy(scalA + scalB).1
    ensures CountN80(scalA, scalB).invalidBoundGap == 0 && CountN80(scalA, scalB).invalidRegime == 0
      <==> forall row :: row in scalA + scalB && Large(row) ==>
        IsNa(row.gap) && IsNa(row.bound) && row.regime == Text("scalability_only")
  {
    ScalabilityPolicyClean(scalA + scalB);
  }

  /** The inputs of the policy rows: the audit verdict (`None` when no
      audit file was read), where it came from, and the tables. */
  datatype PolicyInputs = PolicyInputs(
    campaignId: string, campaignDir: string, command: string,
    auditJson: Option<string>, auditVerdict: Option<bool>,
    mainA: seq<AuditRow>, mainB: seq<AuditRow>, scalA: seq<AuditRow>, scalB: seq<AuditRow>)

  /** The rows for claims C1 (audit verdict and coverage) and C6 (the N=80
      counts), in the order they are appended.  Their evidence ids are
      written out: by `EvidIdTwo` and `EvidIdThree` they are what
      `_evid_id` makes of their parts. */
  function PolicyRows(inp: PolicyInputs): seq<IndexRow>
  {
    var pass := if inp.auditVerdict == Some(true) then 1 else 0;
    var auditPath :=
      if inp.auditJson.Some? then inp.auditJson.value
      else "outputs/audit/journal_readiness_" + inp.campaignId + ".json";
    var counts := CountN80(inp.scalA, inp.scalB);
    var scalPath := inp.campaignDir + "/scal_A_core/results_main.csv";
    [ IndexRow("AUDIT_overall_pass", "C1", auditPath, "AUDIT_SUMMARY",
        "audit_overall_pass", IntCell(pass), "summary", "bool", inp.command, 1),
      IndexRow("COVERAGE_main_A_10_20_40", "C1",
        inp.campaignDir + "/main_A_core/results_main.csv", "MAIN_A_COVERAGE",
        "coverage_main_a_10_20_40", IntCell(CoverageOk(inp.mainA, {10, 20, 40})),
        "N in {10,20,40}", "bool", inp.command, 1),
      IndexRow("COVERAGE_main_B_10_20_40", "C1",
        inp.campaignDir + "/main_B_core/results_main.csv", "MAIN_B_COVERAGE",
        "coverage_main_b_10_20_40", IntCell(CoverageOk(inp.mainB, {10, 20, 40})),
        "N in {10,20,40}", "bool", inp.command, 1),
      IndexRow("SCAL_n80_rows_count", "C6", scalPath, "SCAL_POLICY_N80",
        "n80_rows_count", IntCell(counts.rows), "N>=80,tw_family in {A,B}", "count", inp.command, 1),
      IndexRow("SCAL_n80_invalid_bound_gap_rows", "C6", scalPath, "SCAL_POLICY_N80",
        "n80_invalid_bound_gap_rows", IntCell(counts.invalidBoundGap), "N>=80", "count", inp.command, 1),
      IndexRow("SCAL_n80_invalid_regime_rows", "C6", scalPath, "SCAL_POLICY_N80",
        "n80_invalid_regime_rows", IntCell(counts.invalidRegime), "N>=80", "count", inp.command, 1)]
  }

  /** What the claim guard reads from the policy rows. */
  function GuardView(pass: int, covA: int, covB: int, c: N80Counts): (es: seq<ClaimGuard.EvidenceRow>)
    ensures |es| == 6
  {
    [ ClaimGuard.EvidenceRow("C1", "audit_overall_pass", IntCell(pass)),
      ClaimGuard.EvidenceRow("C1", "coverage_main_a_10_20_40", IntCell(covA)),
      ClaimGuard.EvidenceRow("C1", "coverage_main_b_10_20_40", IntCell(covB)),
      ClaimGuard.EvidenceRow("C6", "n80_rows_count", IntCell(c.rows)),
      ClaimGuard.EvidenceRow("C6", "n80_invalid_bound_gap_rows", IntCell(c.invalidBoundGap)),
      ClaimGuard.EvidenceRow("C6", "n80_invalid_regime_rows", IntCell(c.invalidRegime))]
  }

  lemma PolicyRowsView(inp: PolicyInputs)
    ensures ToEvidenceAll(PolicyRows(inp)) ==
      GuardView(if inp.auditVerdict == Some(true) then 1 else 0, CoverageOk(inp.mainA, {10, 20, 40}),
                CoverageOk(inp.mainB, {10, 20, 40}), CountN80(inp.scalA, inp.scalB))
  {
  }

  /** The guard's value map holds the audit verdict and the three counts
      under their keys. */
  lemma GuardViewValues(pass: int, covA: int, covB: int, c: N80Counts)
    ensures var vmap := ClaimGuard.ValueMap(GuardView(pass, covA, covB, c));
      ClaimGuard.AuditPassKey in vmap && vmap[ClaimGuard.AuditPassKey] == IntCell(pass)
      && ClaimGuard.RowsKey in vmap && vmap[ClaimGuard.RowsKey] == IntCell(c.rows)
      && ClaimGuard.BoundGapKey in vmap && vmap[ClaimGuard.BoundGapKey] == IntCell(c.invalidBoundGap)
      && ClaimGuard.RegimeKey in vmap && vmap[ClaimGuard.RegimeKey] == IntCell(c.invalidRegime)
  {
    var es := GuardView(pass, covA, covB, c);
    ClaimGuard.ValueMapLastWins(es, 0);
    ClaimGuard.ValueMapLastWins(es, 3);
    ClaimGuard.ValueMapLastWins(es, 4);
    ClaimGuard.ValueMapLastWins(es, 5);
  }

  /** The claim guard's C1 audit rule and C6 rules on the policy rows. */
  lemma GuardViewGates(pass: int, covA: int, covB: int, c: N80Counts, parseFloat: string -> Option<Float>)
    ensures var vmap := ClaimGuard.ValueMap(GuardView(pass, covA, covB, c));
      ClaimGuard.C1Violations(vmap, parseFloat) == [] <==> pass == 1
    ensures var vmap := ClaimGuard.ValueMap(GuardView(pass, covA, covB, c));
      ClaimGuard.C6Violations(vmap, parseFloat) == [] <==>
        c.rows > 0 && c.invalidBoundGap == 0 && c.invalidRegime == 0
  {
    GuardViewValues(pass, covA, covB, c);
  }

  /** Read by the claim guard, the policy rows raise no C1 audit violation
      exactly when the audit passed, and no C6 violation exactly when there
      are N >= 80 rows and all of them keep to the scalability policy. */
  lemma PolicyRowsMeetGuard(inp: PolicyInputs, parseFloat: string -> Option<Float>)
    ensures var vmap := ClaimGuard.ValueMap(ToEvidenceAll(PolicyRows(inp)));
      ClaimGuard.C1Violations(vmap, parseFloat) == [] <==> inp.auditVerdict == Some(true)
    ensures var vmap := ClaimGuard.ValueMap(ToEvidenceAll(PolicyRows(inp)));
      var c := CountN80(inp.scalA, inp.scalB);
      ClaimGuard.C6Violations(vmap, parseFloat) == [] <==>
        c.rows > 0 && c.invalidBoundGap == 0 && c.invalidRegime == 0
  {
    PolicyRowsView(inp);
    GuardViewGates(if inp.auditVerdict == Some(true) then 1 else 0, CoverageOk(inp.mainA, {10, 20, 40}),
                   CoverageOk(inp.mainB, {10, 20, 40}), CountN80(inp.scalA, inp.scalB), parseFloat);
  }

  // ---------------------------------------------------------------------
  // Output order

  /** The sort key of a row: claim, table, slice, metric, evidence id. */
  function SortKey(row: IndexRow): (k: seq<string>)
    ensures |k| == 5 && k[0] == row.claimId && k[4] == row.evidId
  {
    [row.claimId, row.tableOrFigId, row.slice, row.metric, row.evidId]
  }

  /** Lexicographic order on key lists, each key in code-point order. */
  predicate KeysLeq(a: seq<string>, b: seq<string>)
    decreases |a|
  {
    if a == [] then true
    else if b == [] then false
    else if a[0] != b[0] then LexLess(a[0], b[0])
    else KeysLeq(a[1..], b[1..])
  }

  lemma {:induction false} KeysLeqTotal(a: seq<string>, b: seq<string>)
    ensures KeysLeq(a, b) || KeysLeq(b, a)
    decreases |a|
  {
    if a != [] && b != [] {
      if a[0] != b[0] {
        LexLessTotal(a[0], b[0]);
      } else {
        KeysLeqTotal(a[1..], b[1..]);
      }
    }
  }

  lemma {:induction false} KeysLeqTransitive(a: seq<string>, b: seq<string>, c: seq<string>)
    requires KeysLeq(a, b) && KeysLeq(b, c)
    ensures KeysLeq(a, c)
    decreases |a|
  {
    if a != [] {
      if a[0] != b[0] && b[0] != c[0] {
        LexLessTransitive(a[0], b[0], c[0]);
        LexLessIrreflexive(a[0]);
      } else if a[0] != b[0] || b[0] != c[0] {
      } else {
        KeysLeqTransitive(a[1..], b[1..], c[1..]);
      }
    }
  }

  function ByKey(): (IndexRow, IndexRow) -> bool
  {
    (x: IndexRow, y: IndexRow) => KeysLeq(SortKey(x), SortKey(y))
  }

  lemma ByKeyTotal()
    ensures TotalPreorder(ByKey())
  {
    forall x: IndexRow, y: IndexRow
      ensures KeysLeq(SortKey(x), SortKey(y)) || KeysLeq(SortKey(y), SortKey(x))
    {
      KeysLeqTotal(SortKey(x), SortKey(y));
    }
    forall x: IndexRow, y: IndexRow, z: IndexRow
      | KeysLeq(SortKey(x), SortKey(y)) && KeysLeq(SortKey(y), SortKey(z))
      ensures KeysLeq(SortKey(x), SortKey(z))
    {
      KeysLeqTransitive(SortKey(x), SortKey(y), SortKey(z));
    }
  }

  /** The written order: the same rows, ordered by claim, table, slice,
      metric and evidence id. */
  function OrderRows(rows: seq<IndexRow>): (r: seq<IndexRow>)
    ensures multiset(r) == multiset(rows)
    ensures forall i, j :: 0 <= i < j < |r| ==> KeysLeq(SortKey(r[i]), SortKey(r[j]))
  {
    ByKeyTotal();
    SortSorted(rows, ByKey());
    var r := Sort(rows, ByKey());
    assert forall i, j :: 0 <= i < j < |r| ==> ByKey()(r[i], r[j]);
    r
  }

  /** The rows of each claim are written together: a row of a claim never
      stands between two rows of another claim. */
  lemma ClaimsContiguous(rows: seq<IndexRow>, i: nat, j: nat, k: nat)
    requires i < j < k < |OrderRows(rows)|
    requires OrderRows(rows)[i].claimId == OrderRows(rows)[k].claimId
    ensures OrderRows(rows)[j].claimId == OrderRows(rows)[i].claimId
  {
    var r := OrderRows(rows);
    assert KeysLeq(SortKey(r[i]), SortKey(r[j]));
    assert KeysLeq(SortKey(r[j]), SortKey(r[k]));
    if r[j].claimId != r[i].claimId {
      assert LexLess(r[i].claimId, r[j].claimId);
      if r[j].claimId != r[k].claimId {
        assert LexLess(r[j].claimId, r[k].claimId);
        LexLessAsymmetric(r[i].claimId, r[j].claimId);
      }
    }
  }
}

=== FILE: exact_highs.dfy ===
/** The deterministic parts of the exact MIP solver: reading routes back out
    of the solution vector, the status and finiteness guards, the big-M
    constants, and the gap the solver reports.  Building and solving the
    model is a library call; its results (status, objective, bound, the
    column values and the column of every arc variable) are inputs. */
module ExactHighs {
  import opened Numeric
  import opened Text
  import opened Schema
  import Runner
  import Objective

  // ---------------------------------------------------------------------
  // Status and finiteness

  /** `_status_is_optimal`. */
  predicate StatusIsOptimal(status: string)
  {
    Contains(Lower(status), "optimal") && !Contains(Lower(status), "not")
  }

  /** The solver and the runner decide optimality the same way. */
  lemma StatusAgreesWithRunner(status: string)
    ensures StatusIsOptimal(status) <==> Runner.IsOptimalStatus(status)
  {
  }

  /** `_safe_finite` applied to an info field that is only meaningful when
      the solver marks its info as valid. */
  function InfoValue(valid: bool, raw: Float): (r: Option<real>)
    ensures r.Some? <==> valid && raw.Finite?
    ensures r.Some? ==> r.value == raw.v
  {
    if valid then FiniteOrNone(Some(raw)) else None
  }

  // ---------------------------------------------------------------------
  // Reported gap

  /** The gap the solver reports: defined when objective and bound are both
      finite and the objective is not (almost) zero, then never negative. */
  function ReportedGap(objective: Option<real>, bound: Option<real>): (g: Option<real>)
    ensures g.Some? <==> objective.Some? && bound.Some? && Abs(objective.value) > 1e-9
    ensures g.Some? ==> g.value >= 0.0
    ensures g.Some? && bound.value <= objective.value ==>
      g.value == 100.0 * (objective.value - bound.value) / Abs(objective.value)
    ensures g.Some? && bound.value >= objective.value ==> g.value == 0.0
  {
    if objective.Some? && bound.Some? && Abs(objective.value) > 1e-9 then
      var o := objective.value;
      var b := bound.value;
      assert b >= o ==> 100.0 * (o - b) / Abs(o) <= 0.0 by {
        if b >= o {
          Runner.DivideAtMost(100.0 * (o - b), Abs(o), 0.0);
        }
      }
      Some(Max(0.0, 100.0 * (o - b) / Abs(o)))
    else None
  }

  /** Where the runner also accepts the pair, its gap and the solver's
      agree. */
  lemma ReportedGapAgreesWithRunner(o: real, b: real)
    requires Abs(o) > 1e-9
    requires b <= o + Runner.Tolerance(o)
    ensures ReportedGap(Some(o), Some(b))
         == Runner.ComputeGapPct(Some(Finite(o)), Some(Finite(b)))
  {
    assert Max(Abs(o), 1e-9) == Abs(o);
  }

  /** A bound above the incumbent is a 0% gap for the solver and no gap at
      all for the runner. */
  lemma ReportedGapExceedingBound()
    ensures ReportedGap(Some(100.0), Some(110.0)) == Some(0.0)
    ensures Runner.ComputeGapPct(Some(Finite(100.0)), Some(Finite(110.0))).None?
  {
    assert Runner.Tolerance(100.0) <= 1.0;
  }

  // ---------------------------------------------------------------------
  // Big-M constants and time-window mode

  /** The largest entry of an integer sequence, 0 for the empty one. */
  function MaxOf(xs: seq<int>): (m: int)
    ensures xs != [] ==> m in xs
    ensures forall i :: 0 <= i < |xs| ==> xs[i] <= m
    ensures xs == [] ==> m == 0
  {
    if xs == [] then 0
    else if |xs| == 1 then xs[0]
    else
      var r := MaxOf(xs[1..]);
      assert forall i :: 1 <= i < |xs| ==> xs[i] == xs[1..][i - 1];
      MaxInt(xs[0], r)
  }

  /** The largest entry of a matrix, 0 for the empty one. */
  function MaxEntry(m: seq<seq<int>>): (r: int)
    ensures forall i, j :: 0 <= i < |m| && 0 <= j < |m[i]| ==> m[i][j] <= r
  {
    var rowMax := seq(|m|, i requires 0 <= i < |m| => MaxOf(m[i]));
    assert forall i, j :: 0 <= i < |m| && 0 <= j < |m[i]| ==> m[i][j] <= rowMax[i];
    MaxOf(rowMax)
  }

  /** `m_time`: the time big-M for rounded travel times and service times. */
  function MTime(travel: seq<seq<int>>, service: seq<int>, nNodes: int): (m: int)
    ensures m >= 1
  {
    var maxTravel := if nNodes > 1 then MaxEntry(travel) else 0;
    var maxService := if |service| > 0 then MaxOf(service) else 0;
    MaxInt(1, (maxTravel + maxService) * (nNodes + 1))
  }

  /** The time big-M is at least any one leg plus any one service time, so a
      switched-off propagation row never binds. */
  lemma MTimeDominates(travel: seq<seq<int>>, service: seq<int>, nNodes: int, i: nat, j: nat, c: nat)
    requires nNodes > 1
    requires forall a, b :: 0 <= a < |travel| && 0 <= b < |travel[a]| ==> travel[a][b] >= 0
    requires forall a :: 0 <= a < |service| ==> service[a] >= 0
    requires i < |travel| && j < |travel[i]| && c < |service|
    ensures travel[i][j] + service[c] <= MTime(travel, service, nNodes)
  {
    var s := MaxEntry(travel) + MaxOf(service);
    assert s >= travel[i][j] + service[c];
    assert s >= 0;
    ScaledAtLeastSelf(s, nNodes + 1);
  }

  lemma ScaledAtLeastSelf(s: int, f: int)
    requires s >= 0 && f >= 1
    ensures s * f >= s
  {
  }

  /** `m_load`: capacity plus the largest delivery and pickup plus one, or
      capacity plus one without clients. */
  function MLoad(capacity: int, delivery: seq<int>, pickup: seq<int>, nClients: int): (m: int)
    ensures nClients != 0 ==> forall j :: 0 <= j < |delivery| && j < |pickup| ==>
      m > capacity + delivery[j] + pickup[j]
  {
    if nClients != 0 then capacity + (MaxOf(delivery) + MaxOf(pickup) + 1) else capacity + 1
  }

  /** The load big-M exceeds capacity plus any client's own delivery and
      pickup. */
  lemma MLoadDominates(capacity: int, delivery: seq<int>, pickup: seq<int>, nClients: int, j: nat)
    requires nClients != 0
    requires j < |delivery| && j < |pickup|
    ensures MLoad(capacity, delivery, pickup, nClients) > capacity + delivery[j] + pickup[j]
  {
  }

  /** Soft windows unless the (case-insensitive) mode is "hard". */
  predicate SoftTw(twMode: string)
  {
    Lower(twMode) != "hard"
  }

  lemma SoftTwCaseInsensitive()
    ensures !SoftTw("HARD") && !SoftTw("Hard") && SoftTw("soft")
  {
    assert Lower("HARD") == "hard";
    assert Lower("Hard") == "hard";
    assert Lower("soft") == "soft";
  }

  /** The tardiness objective coefficient: the configured cost, clamped at 0. */
  function TardinessCoefficient(costPerSec: real): (c: real)
    ensures c >= 0.0 && c >= costPerSec
    ensures costPerSec >= 0.0 ==> c == costPerSec
  {
    Max(0.0, costPerSec)
  }

  // ---------------------------------------------------------------------
  // Route extraction

  /** A column value; columns past the end of the solution read as 0. */
  function ColValue(col: seq<real>, idx: nat): real
  {
    if idx < |col| then col[idx] else 0.0
  }

  /** The value of arc variable x[i, j, k]. */
  function ArcValue(col: seq<real>, x: (nat, nat, nat) -> nat, i: nat, j: nat, k: nat): real
  {
    ColValue(col, x(i, j, k))
  }

  /** The best successor of `i` among `0 .. j-1` (skipping `i`) and its
      value: a candidate replaces the incumbent only when strictly larger,
      starting from no candidate at value 0. */
  function Best(col: seq<real>, x: (nat, nat, nat) -> nat, k: nat, i: nat, j: nat)
    : (r: (Option<nat>, real))
    ensures r.1 >= 0.0
    ensures r.0.None? ==> r.1 == 0.0
    ensures r.0.Some? ==>
      (r.0.value < j && r.0.value != i && r.1 == ArcValue(col, x, i, r.0.value, k) && r.1 > 0.0)
    ensures forall q :: 0 <= q < j && q != i ==> ArcValue(col, x, i, q, k) <= r.1
    ensures r.0.Some? ==>
      forall q :: 0 <= q < r.0.value && q != i ==> ArcValue(col, x, i, q, k) < r.1
  {
    if j == 0 then (None, 0.0)
    else
      var prev := Best(col, x, k, i, j - 1);
      if j - 1 == i then prev
      else
        var v := ArcValue(col, x, i, j - 1, k);
        if v > prev.1 then (Some(j - 1), v) else prev
  }

  /** The recorded successor of `i` for UAV `k`: the best one, if its value
      exceeds 0.5. */
  function Succ(col: seq<real>, x: (nat, nat, nat) -> nat, nNodes: nat, k: nat, i: nat): (s: Option<nat>)
    ensures s.Some? ==> s.value < nNodes && s.value != i && ArcValue(col, x, i, s.value, k) > 0.5
  {
    var b := Best(col, x, k, i, nNodes);
    if b.0.Some? && b.1 > 0.5 then b.0 else None
  }

  /** A successor is recorded exactly when some arc out of `i` is above 0.5,
      and it is the first arc of largest value. */
  lemma SuccIsFirstMaximum(col: seq<real>, x: (nat, nat, nat) -> nat, nNodes: nat, k: nat, i: nat)
    ensures Succ(col, x, nNodes, k, i).Some? <==>
      exists q :: 0 <= q < nNodes && q != i && ArcValue(col, x, i, q, k) > 0.5
    ensures Succ(col, x, nNodes, k, i).Some? ==>
      var s := Succ(col, x, nNodes, k, i).value;
      (forall q :: 0 <= q < nNodes && q != i ==> ArcValue(col, x, i, q, k) <= ArcValue(col, x, i, s, k))
      && (forall q :: 0 <= q < s && q != i ==> ArcValue(col, x, i, q, k) < ArcValue(col, x, i, s, k))
  {
    var b := Best(col, x, k, i, nNodes);
    if exists q :: 0 <= q < nNodes && q != i && ArcValue(col, x, i, q, k) > 0.5 {
      var q :| 0 <= q < nNodes && q != i && ArcValue(col, x, i, q, k) > 0.5;
      assert b.1 > 0.5;
    }
  }

  /** The successor table of UAV `k`, one entry per node. */
  function SuccTable(col: seq<real>, x: (nat, nat, nat) -> nat, nNodes: nat, k: nat): (t: seq<Option<nat>>)
    ensures |t| == nNodes
    ensures forall i :: 0 <= i < nNodes ==> t[i] == Succ(col, x, nNodes, k, i)
  {
    seq(nNodes, i requires 0 <= i < nNodes => Succ(col, x, nNodes, k, i))
  }

  /** The walk from the depot along the successor table, for at most `fuel`
      more steps; it stops at a missing successor, at the depot, or at a
      node already seen.  Node `v` is reported as client `v - 1`. */
  function Walk(succ: seq<Option<nat>>, cur: nat, seen: set<nat>, route: seq<nat>, fuel: nat): seq<nat>
    decreases fuel
  {
    if fuel == 0 then route
    else
      var nxt := if cur < |succ| then succ[cur] else None;
      if nxt.None? || nxt.value == 0 || nxt.value in seen then route
      else Walk(succ, nxt.value, seen + {nxt.value}, route + [nxt.value - 1], fuel - 1)
  }

  /** The route of UAV `k`. */
  function RouteOf(col: seq<real>, x: (nat, nat, nat) -> nat, nNodes: nat, k: nat): seq<nat>
  {
    Walk(SuccTable(col, x, nNodes, k), 0, {0}, [], nNodes + 5)
  }

  /** The walk's bookkeeping: `seen` is the depot plus the node of every
      reported client, clients are distinct and within range. */
  predicate WalkState(nNodes: nat, seen: set<nat>, route: seq<nat>)
  {
    && 0 in seen
    && (forall v :: v in seen ==> v == 0 || (v >= 1 && v - 1 in route))
    && (forall q :: 0 <= q < |route| ==> route[q] + 1 in seen && route[q] + 2 <= nNodes)
    && (forall a, b :: 0 <= a < b < |route| ==> route[a] != route[b])
  }

  /** Distinct clients, each in `0 .. nNodes - 2`. */
  predicate RouteOk(nNodes: nat, route: seq<nat>)
  {
    && (forall q :: 0 <= q < |route| ==> route[q] + 2 <= nNodes)
    && (forall a, b :: 0 <= a < b < |route| ==> route[a] != route[b])
  }

  lemma {:induction false} WalkKeepsState(succ: seq<Option<nat>>, nNodes: nat, cur: nat, seen: set<nat>,
                                         route: seq<nat>, fuel: nat)
    requires forall i :: 0 <= i < |succ| && succ[i].Some? ==> succ[i].value < nNodes
    requires WalkState(nNodes, seen, route)
    ensures RouteOk(nNodes, Walk(succ, cur, seen, route, fuel))
    decreases fuel
  {
    var nxt := if cur < |succ| then succ[cur] else None;
    if fuel == 0 || nxt.None? || nxt.value == 0 || nxt.value in seen {
      assert Walk(succ, cur, seen, route, fuel) == route;
    } else {
      var v := nxt.value;
      assert Walk(succ, cur, seen, route, fuel) == Walk(succ, v, seen + {v}, route + [v - 1], fuel - 1);
      WalkStep(nNodes, seen, route, v);
      WalkKeepsState(succ, nNodes, v, seen + {v}, route + [v - 1], fuel - 1);
    }
  }

  /** Reporting a node not yet seen keeps the bookkeeping. */
  lemma WalkStep(nNodes: nat, seen: set<nat>, route: seq<nat>, v: nat)
    requires WalkState(nNodes, seen, route)
    requires 0 < v < nNodes && v !in seen
    ensures WalkState(nNodes, seen + {v}, route + [v - 1])
  {
    var route' := route + [v - 1];
    var seen' := seen + {v};
    assert forall q :: 0 <= q < |route| ==> route'[q] == route[q];
    forall a, b | 0 <= a < b < |route'|
      ensures route'[a] != route'[b]
    {
      if b == |route| {
        assert route[a] + 1 in seen;
      }
    }
  }

  /** Every route lists distinct clients, each in `0 .. nNodes - 2`. */
  lemma RouteWellFormed(col: seq<real>, x: (nat, nat, nat) -> nat, nNodes: nat, k: nat)
    ensures RouteOk(nNodes, RouteOf(col, x, nNodes, k))
  {
    var t := SuccTable(col, x, nNodes, k);
    WalkKeepsState(t, nNodes, 0, {0}, [], nNodes + 5);
  }

  /** An empty solution vector yields empty routes: every arc reads 0 and no
      successor is recorded. */
  lemma EmptySolutionEmptyRoutes(x: (nat, nat, nat) -> nat, nNodes: nat, k: nat)
    ensures RouteOf([], x, nNodes, k) == []
  {
    var t := SuccTable([], x, nNodes, k);
    if nNodes > 0 {
      SuccIsFirstMaximum([], x, nNodes, k, 0);
      assert t[0].None?;
    }
  }

  /** `_extract_routes`: one route per UAV, read off the solution column by
      column. */
  method ExtractRoutes(col: seq<real>, x: (nat, nat, nat) -> nat, nNodes: nat, numUavs: int)
    returns (routes: seq<seq<nat>>)
    ensures |routes| == MaxInt(0, numUavs)
    ensures forall k :: 0 <= k < |routes| ==> routes[k] == RouteOf(col, x, nNodes, k)
    ensures forall k :: 0 <= k < |routes| ==> RouteOk(nNodes, routes[k])
  {
    routes := [];
    var k := 0;
    while k < numUavs
      invariant 0 <= k <= MaxInt(0, numUavs)
      invariant |routes| == k
      invariant forall q :: 0 <= q < k ==> routes[q] == RouteOf(col, x, nNodes, q)
      invariant forall q :: 0 <= q < k ==> RouteOk(nNodes, routes[q])
    {
      RouteWellFormed(col, x, nNodes, k);
      var succ := SuccessorsOf(col, x, nNodes, k);
      var route := FollowSuccessors(succ, nNodes);
      routes := routes + [route];
      k := k + 1;
    }
  }

  /** The successor table of one UAV, scanning arcs in index order. */
  method SuccessorsOf(col: seq<real>, x: (nat, nat, nat) -> nat, nNodes: nat, k: nat)
    returns (succ: seq<Option<nat>>)
    ensures succ == SuccTable(col, x, nNodes, k)
  {
    succ := [];
    var i := 0;
    while i < nNodes
      invariant 0 <= i <= nNodes
      invariant |succ| == i
      invariant forall q :: 0 <= q < i ==> succ[q] == Succ(col, x, nNodes, k, q)
    {
      var bestJ: Option<nat> := None;
      var bestVal := 0.0;
      var j := 0;
      while j < nNodes
        invariant 0 <= j <= nNodes
        invariant (bestJ, bestVal) == Best(col, x, k, i, j)
      {
        if i != j {
          var idx := x(i, j, k);
          var v := if idx < |col| then col[idx] else 0.0;
          if v > bestVal {
            bestVal := v;
            bestJ := Some(j);
          }
        }
        j := j + 1;
      }
      var s := if bestJ.Some? && bestVal > 0.5 then bestJ else None;
      succ := succ + [s];
      i := i + 1;
    }
  }

  /** The walk from the depot, at most `nNodes + 5` steps. */
  method FollowSuccessors(succ: seq<Option<nat>>, nNodes: nat) returns (route: seq<nat>)
    ensures route == Walk(succ, 0, {0}, [], nNodes + 5)
  {
    route := [];
    var cur: nat := 0;
    var seen: set<nat> := {0};
    var step := 0;
    while step < nNodes + 5
      invariant 0 <= step <= nNodes + 5
      invariant Walk(succ, cur, seen, route, nNodes + 5 - step) == Walk(succ, 0, {0}, [], nNodes + 5)
    {
      var nxt := if cur < |succ| then succ[cur] else None;
      if nxt.None? || nxt.value == 0 {
        return;
      }
      if nxt.value in seen {
        return;
      }
      route := route + [nxt.value - 1];
      seen := seen + {nxt.value};
      cur := nxt.value;
      step := step + 1;
    }
  }

  // ---------------------------------------------------------------------
  // Solver output

  /** What the solve hands back before it is packed into `SolverOutput`. */
  datatype SolveInfo = SolveInfo(
    status: string, valid: bool, objectiveValue: Float, dualBound: Float,
    runtimeS: real, colValue: seq<real>)

  /** The `SolverOutput` of one exact solve. */
  method HighsOutput(info: SolveInfo, x: (nat, nat, nat) -> nat, nNodes: nat, numUavs: int,
                     twMode: string) returns (out: SolverOutput)
    ensures out.methodName == "highs" && out.status == info.status
    ensures out.objective.Some? <==> InfoValue(info.valid, info.objectiveValue).Some?
    ensures out.bound.Some? <==> InfoValue(info.valid, info.dualBound).Some?
    ensures out.objective.Some? ==> out.objective.value == Finite(InfoValue(info.valid, info.objectiveValue).value)
    ensures out.bound.Some? ==> out.bound.value == Finite(InfoValue(info.valid, info.dualBound).value)
    ensures out.gapPct.Some? <==>
      ReportedGap(InfoValue(info.valid, info.objectiveValue), InfoValue(info.valid, info.dualBound)).Some?
    ensures out.gapPct.Some? ==> out.gapPct.value.Finite? && out.gapPct.value.v >= 0.0
    ensures |out.routes| == MaxInt(0, numUavs)
    ensures forall k :: 0 <= k < |out.routes| ==> out.routes[k] == RouteOf(info.colValue, x, nNodes, k)
    ensures forall n: nat :: nNodes == n + 1 ==> Objective.ClientsInRange(out.routes, n)
    ensures out.metadata == [
      ("engine", VStr("highs")), ("tw_mode", VStr(Lower(twMode))),
      ("soft_tw", VInt(if SoftTw(twMode) then 1 else 0)),
      ("is_optimal", VInt(if StatusIsOptimal(info.status) then 1 else 0))]
  {
    var objective := InfoValue(info.valid, info.objectiveValue);
    var bound := InfoValue(info.valid, info.dualBound);
    var gap := ReportedGap(objective, bound);
    var routes := ExtractRoutes(info.colValue, x, nNodes, numUavs);
    out := SolverOutput(
      "highs", info.status,
      if objective.Some? then Some(Finite(objective.value)) else None,
      if bound.Some? then Some(Finite(bound.value)) else None,
      if gap.Some? then Some(Finite(gap.value)) else None,
      info.runtimeS, routes,
      [("engine", VStr("highs")), ("tw_mode", VStr(Lower(twMode))),
       ("soft_tw", VInt(if SoftTw(twMode) then 1 else 0)),
       ("is_optimal", VInt(if StatusIsOptimal(info.status) then 1 else 0))]);
  }
}

=== FILE: export_csv.dfy ===
/** The CSV writers of the experiment engine, as the tables they write.

    A table is its header and its rows; a row is an association list from
    column name to cell, as the dictionaries a data frame is built from are.
    A column a row lacks reads as a null cell, which is what a data frame
    shows for it.  Creating directories and writing the file are left out;
    the table handed to the writer is the model's result. */
module ExportCsv {
  import opened Numeric
  import opened Schema

  datatype Table = Table(columns: seq<string>, rows: seq<Row>)

  /** The cell of column `c` in a row: the first entry named `c`, or null. */
  function Get(row: Row, c: string): (v: Value)
    ensures c !in Keys(row) ==> v == VNull
  {
    if row == [] then VNull
    else if row[0].0 == c then row[0].1
    else Get(row[1..], c)
  }

  /** The first entry with the column's name decides the cell. */
  lemma {:induction false} GetFirst(row: Row, c: string, k: nat)
    requires k < |row| && row[k].0 == c
    requires forall j :: 0 <= j < k ==> row[j].0 != c
    ensures Get(row, c) == row[k].1
  {
    if k > 0 {
      GetFirst(row[1..], c, k - 1);
    }
  }

  /** The cells of `row` under the columns `cols`, in that order. */
  function Select(row: Row, cols: seq<string>): (r: Row)
    ensures Keys(r) == cols
  {
    seq(|cols|, j requires 0 <= j < |cols| => (cols[j], Get(row, cols[j])))
  }

  /** Selecting columns keeps the cell of every selected column. */
  lemma SelectGet(row: Row, cols: seq<string>, c: string)
    requires c in cols
    ensures Get(Select(row, cols), c) == Get(row, c)
  {
    var k := IndexOf(cols, c);
    GetFirst(Select(row, cols), c, k);
  }

  /** `_ensure_columns`: every listed column that the table lacks is added
      as a null column, and the table is then cut down to exactly the listed
      columns in the listed order. */
  function EnsureColumns(t: Table, cols: seq<string>): (r: Table)
    ensures r.columns == cols && |r.rows| == |t.rows|
    ensures forall i :: 0 <= i < |r.rows| ==> Keys(r.rows[i]) == cols
  {
    Table(cols, seq(|t.rows|, i requires 0 <= i < |t.rows| => Select(t.rows[i], cols)))
  }

  /** A listed column keeps its cells, a missing one is null throughout, and
      an unlisted one is gone. */
  lemma EnsureColumnsCells(t: Table, cols: seq<string>, i: nat, c: string)
    requires i < |t.rows|
    ensures c in cols ==> Get(EnsureColumns(t, cols).rows[i], c) == Get(t.rows[i], c)
    ensures c in cols && c !in Keys(t.rows[i]) ==> Get(EnsureColumns(t, cols).rows[i], c) == VNull
    ensures c !in cols ==> c !in Keys(EnsureColumns(t, cols).rows[i])
  {
    if c in cols {
      SelectGet(t.rows[i], cols, c);
    }
  }

  /** Ensuring the same columns twice changes nothing the second time. */
  lemma EnsureColumnsIdempotent(t: Table, cols: seq<string>)
    ensures EnsureColumns(EnsureColumns(t, cols), cols) == EnsureColumns(t, cols)
  {
    var once := EnsureColumns(t, cols);
    var twice := EnsureColumns(once, cols);
    forall i | 0 <= i < |t.rows|
      ensures twice.rows[i] == once.rows[i]
    {
      forall j | 0 <= j < |cols|
        ensures twice.rows[i][j] == once.rows[i][j]
      {
        SelectGet(t.rows[i], cols, cols[j]);
      }
    }
  }

  /** `keys` appended to `cols`, skipping names already present. */
  function AddKeys(cols: seq<string>, keys: seq<string>): (r: seq<string>)
    ensures forall c :: c in r <==> c in cols || c in keys
    ensures |cols| <= |r| && r[..|cols|] == cols
    decreases keys
  {
    if keys == [] then cols
    else AddKeys(if keys[0] in cols then cols else cols + [keys[0]], keys[1..])
  }

  /** The header of a data frame built from records: every key of every
      row, in order of first appearance. */
  function ColumnsOf(rows: seq<Row>): (r: seq<string>)
    ensures forall c :: c in r <==> exists i :: 0 <= i < |rows| && c in Keys(rows[i])
  {
    if rows == [] then []
    else
      var n := |rows| - 1;
      var pre := ColumnsOf(rows[..n]);
      assert forall i :: 0 <= i < n ==> rows[..n][i] == rows[i];
      AddKeys(pre, Keys(rows[n]))
  }

  /** `pd.DataFrame(records)`. */
  function FromRecords(rows: seq<Row>): Table
  {
    Table(ColumnsOf(rows), rows)
  }

  /** `df.empty`: no rows or no columns. */
  predicate IsEmpty(t: Table)
  {
    |t.rows| == 0 || |t.columns| == 0
  }

  /** The body shared by the three `write_results_*` functions: an empty
      frame is replaced by a header-only table, and the schema columns are
      then ensured. */
  function WriteTable(records: seq<Row>, schema: seq<string>): (t: Table)
    ensures t.columns == schema
    ensures |t.rows| == if IsEmpty(FromRecords(records)) then 0 else |records|
    ensures forall i :: 0 <= i < |t.rows| ==> Keys(t.rows[i]) == schema
  {
    var df := FromRecords(records);
    if IsEmpty(df) then EnsureColumns(Table(schema, []), schema)
    else EnsureColumns(df, schema)
  }

  /** What the writer stores for one record: the record's cell under every
      schema column, null where it has none. */
  lemma WriteTableCells(records: seq<Row>, schema: seq<string>, i: nat, c: string)
    requires !IsEmpty(FromRecords(records)) && i < |records| && c in schema
    ensures Get(WriteTable(records, schema).rows[i], c) == Get(records[i], c)
  {
    EnsureColumnsCells(FromRecords(records), schema, i, c);
  }

  /** No records give a table with exactly the schema header and no rows. */
  lemma WriteTableEmpty(schema: seq<string>)
    ensures WriteTable([], schema) == Table(schema, [])
  {
  }

  /** Records that all carry the schema's columns are written row for row,
      each keeping its cells. */
  lemma WriteUniform(records: seq<Row>, schema: seq<string>)
    requires |schema| > 0
    requires forall i :: 0 <= i < |records| ==> Keys(records[i]) == schema
    ensures |WriteTable(records, schema).rows| == |records|
    ensures forall i, c :: 0 <= i < |records| && c in schema ==>
      Get(WriteTable(records, schema).rows[i], c) == Get(records[i], c)
  {
    if |records| > 0 {
      assert schema[0] in Keys(records[0]);
      forall i, c | 0 <= i < |records| && c in schema
        ensures Get(WriteTable(records, schema).rows[i], c) == Get(records[i], c)
      {
        WriteTableCells(records, schema, i, c);
      }
    }
  }

  /** `write_results_main`: one row per result, each holding the result's
      `to_row` cells under exactly the main columns. */
  function WriteResultsMain(results: seq<RunResult>): (t: Table)
    ensures t.columns == MainColumns && |t.rows| == |results|
    ensures forall i, c :: 0 <= i < |results| && c in MainColumns ==>
      Get(t.rows[i], c) == Get(MainRow(results[i]), c)
  {
    var records := seq(|results|, i requires 0 <= i < |results| => MainRow(results[i]));
    WriteUniform(records, MainColumns);
    WriteTable(records, MainColumns)
  }

  /** `write_results_routes`: one row per route record, under exactly the
      route columns. */
  function WriteResultsRoutes(routes: seq<RouteRecord>): (t: Table)
    ensures t.columns == RoutesColumns && |t.rows| == |routes|
    ensures forall i, c :: 0 <= i < |routes| && c in RoutesColumns ==>
      Get(t.rows[i], c) == Get(RouteRow(routes[i]), c)
  {
    var records := seq(|routes|, i requires 0 <= i < |routes| => RouteRow(routes[i]));
    WriteUniform(records, RoutesColumns);
    WriteTable(records, RoutesColumns)
  }

  /** `write_results_significance`: one row per comparison, under exactly
      the significance columns. */
  function WriteResultsSignificance(results: seq<SignificanceResult>): (t: Table)
    ensures t.columns == SignificanceColumns && |t.rows| == |results|
    ensures forall i, c :: 0 <= i < |results| && c in SignificanceColumns ==>
      Get(t.rows[i], c) == Get(SignificanceRow(results[i]), c)
  {
    var records := seq(|results|, i requires 0 <= i < |results| => SignificanceRow(results[i]));
    WriteUniform(records, SignificanceColumns);
    WriteTable(records, SignificanceColumns)
  }

  /** A path as its list of components; the empty list is the current
      directory. */
  type Path = seq<string>

  /** `path.parent`; the current directory is its own parent. */
  function Parent(p: Path): (r: Path)
    ensures |p| > 0 ==> p == r + [p[|p| - 1]]
    ensures |p| == 0 ==> r == []
  {
    if |p| == 0 then [] else p[..|p| - 1]
  }

  /** `resolve_output_paths`: the main path as given, and the route and
      significance tables next to it. */
  function ResolveOutputPaths(main: Path): (r: (Path, Path, Path))
    ensures r.0 == main && |r.1| > 0 && |r.2| > 0
    ensures Parent(r.1) == Parent(main) && r.1[|r.1| - 1] == "results_routes.csv"
    ensures Parent(r.2) == Parent(main) && r.2[|r.2| - 1] == "results_significance.csv"
  {
    (main, Parent(main) + ["results_routes.csv"], Parent(main) + ["results_significance.csv"])
  }

  /** The three outputs of one directory resolve to that directory. */
  lemma ResolveSiblings(dir: Path, name: string)
    ensures var r := ResolveOutputPaths(dir + [name]);
      r.1 == dir + ["results_routes.csv"] && r.2 == dir + ["results_significance.csv"]
  {
    assert (dir + [name])[..|dir|] == dir;
  }
}

=== FILE: generator.dfy ===
/** Deterministic plumbing of scenario generation: the case seed, the
    instance id, the demand split, the sweep grouping behind the baseline
    times, the assembled `ScenarioData`, and the frozen-instance file.

    Every random draw (depot, client and base-station positions, weights,
    task types, the window jitter) and numpy's angle `argsort` are inputs
    collected in `Draws`; the Euclidean norm is the parameter `norm`. */
module Generator {
  import opened Numeric
  import opened Schema
  import opened JsonData
  import opened TimeWindows
  import Runner

  /** The configuration fields generation reads. */
  datatype GeneratorConfig = GeneratorConfig(
    areaKm: real, depotLocation: string, serviceDurationS: real, speedMps: real,
    capacityKg: real, altitudeM: real, numUavs: int, familyBShrink: real)

  datatype TaskType = Delivery | Pickup | Both

  /** What the random generator and `argsort` hand over for one case. */
  datatype Draws = Draws(
    depotXy: Point, clientXy: seq<Point>, bsXy: seq<Point>, weights: seq<real>,
    types: seq<TaskType>, angleOrder: seq<nat>, jitter: seq<real>)

  // ---------------------------------------------------------------------
  // Case seed and instance id

  /** The low part of the seed: what N, B, Δ and K contribute. */
  function SeedOffset(spec: ScenarioSpec): int
  {
    spec.nClients * 100 + spec.bsCount * 10 + spec.deltaMin + spec.edgeSamples
  }

  /** The seed of the case's random generator: the base seed in the
      ten-thousands, N, B, Δ and K below them.  While those contribute less
      than 10000, the base seed and their contribution can be read back. */
  function CaseSeed(spec: ScenarioSpec): (r: int)
    ensures 0 <= SeedOffset(spec) < 10000 ==> r / 10000 == spec.seed && r % 10000 == SeedOffset(spec)
  {
    spec.seed * 10000 + spec.nClients * 100 + spec.bsCount * 10 + spec.deltaMin
      + spec.edgeSamples
  }

  /** The seed ignores the objective weights, the window family and mode, and
      the fleet size: cases that differ only there share the generator seed,
      and hence the drawn positions, weights and task types. */
  lemma CaseSeedIgnoresWeights(a: ScenarioSpec, b: ScenarioSpec)
    requires a.seed == b.seed && a.nClients == b.nClients && a.bsCount == b.bsCount
    requires a.deltaMin == b.deltaMin && a.edgeSamples == b.edgeSamples
    ensures CaseSeed(a) == CaseSeed(b)
  {
  }

  /** Δ and K enter the seed as a plain sum, so swapping them collides:
      Δ = 5, K = 10 and Δ = 10, K = 5 share the generator seed, and hence
      the drawn positions and weights; their windows still differ, since Δ
      sets their width. */
  lemma CaseSeedCollision(a: ScenarioSpec)
    ensures CaseSeed(a.(deltaMin := 5, edgeSamples := 10)) == CaseSeed(a.(deltaMin := 10, edgeSamples := 5))
  {
  }

  /** As long as N, B, Δ and K contribute less than 10000, different base
      seeds never share a case seed. */
  lemma CaseSeedSeparatesSeeds(a: ScenarioSpec, b: ScenarioSpec)
    requires 0 <= SeedOffset(a) < 10000 && 0 <= SeedOffset(b) < 10000
    requires a.seed != b.seed
    ensures CaseSeed(a) != CaseSeed(b)
  {
    assert CaseSeed(a) == a.seed * 10000 + SeedOffset(a);
    assert CaseSeed(b) == b.seed * 10000 + SeedOffset(b);
    if a.seed < b.seed {
      SeedGap(a.seed, b.seed);
    } else {
      SeedGap(b.seed, a.seed);
    }
  }

  lemma SeedGap(x: int, y: int)
    requires x < y
    ensures x * 10000 + 10000 <= y * 10000
  {
    assert (y - x) * 10000 >= 10000;
  }

  /** `scenario_instance_id`; `show` is Python's rendering of a float. */
  function InstanceId(spec: ScenarioSpec, show: real -> string): (id: string)
    ensures Text.StartsWith(id, "seed" + Text.IntToString(spec.seed) + "_N")
  {
    Runner.RunKey(spec.seed, spec.nClients, spec.numUavs, spec.deltaMin, spec.bsCount,
      spec.edgeSamples, spec.lambdaOut, spec.lambdaTw, spec.twFamily, show)
  }

  /** Cases with different ids differ: when weights are rendered
      injectively and without `_`, equal instance ids mean equal seed, sizes,
      fleet, Δ, K, weights and window family.  The window mode and the run
      id are not part of the instance id. */
  lemma InstanceIdSeparates(a: ScenarioSpec, b: ScenarioSpec, show: real -> string)
    requires forall x, y :: show(x) == show(y) ==> x == y
    requires forall x :: Text.NoChar(show(x), '_')
    requires InstanceId(a, show) == InstanceId(b, show)
    ensures a.seed == b.seed && a.nClients == b.nClients && a.numUavs == b.numUavs
    ensures a.deltaMin == b.deltaMin && a.bsCount == b.bsCount && a.edgeSamples == b.edgeSamples
    ensures a.lambdaOut == b.lambdaOut && a.lambdaTw == b.lambdaTw && a.twFamily == b.twFamily
  {
    Runner.RunKeyInjective(a.seed, a.nClients, a.numUavs, a.deltaMin, a.bsCount, a.edgeSamples,
      a.lambdaOut, a.lambdaTw, a.twFamily, b.seed, b.nClients, b.numUavs, b.deltaMin, b.bsCount,
      b.edgeSamples, b.lambdaOut, b.lambdaTw, b.twFamily, show);
  }

  /** The run id the runner gives a case is that case's instance id, as long
      as the weights render the same way in both places. */
  lemma RunIdIsInstanceId(cfg: Runner.RunnerConfig, c: Runner.Combo, show: real -> string)
    ensures Runner.MakeSpec(cfg, c, show).runId == InstanceId(Runner.MakeSpec(cfg, c, show), show)
  {
  }

  // ---------------------------------------------------------------------
  // Demand split

  /** A client's weight as (delivery, pickup). */
  function Split(t: TaskType, w: real): (dp: (real, real))
    ensures dp.0 + dp.1 == w
    ensures t == Delivery ==> dp.1 == 0.0
    ensures t == Pickup ==> dp.0 == 0.0
    ensures t == Both ==> dp.0 == dp.1
    ensures w >= 0.0 ==> dp.0 >= 0.0 && dp.1 >= 0.0
  {
    match t
    case Delivery => (w, 0.0)
    case Pickup => (0.0, w)
    case Both => (0.5 * w, 0.5 * w)
  }

  function DemandSplit(types: seq<TaskType>, weights: seq<real>): (dp: (seq<real>, seq<real>))
    requires |types| == |weights|
    ensures |dp.0| == |weights| && |dp.1| == |weights|
    ensures forall i :: 0 <= i < |weights| ==> (dp.0[i], dp.1[i]) == Split(types[i], weights[i])
  {
    (seq(|weights|, i requires 0 <= i < |weights| => Split(types[i], weights[i]).0),
     seq(|weights|, i requires 0 <= i < |weights| => Split(types[i], weights[i]).1))
  }

  function Sum(xs: seq<real>): real
  {
    if xs == [] then 0.0 else Sum(xs[..|xs| - 1]) + xs[|xs| - 1]
  }

  /** Splitting conserves the total weight: every kilogram is delivered or
      picked up. */
  lemma {:induction false} TotalDemandConserved(types: seq<TaskType>, weights: seq<real>)
    requires |types| == |weights|
    ensures Sum(DemandSplit(types, weights).0) + Sum(DemandSplit(types, weights).1) == Sum(weights)
  {
    if weights != [] {
      var n := |weights| - 1;
      TotalDemandConserved(types[..n], weights[..n]);
      var dp := DemandSplit(types, weights);
      var pre := DemandSplit(types[..n], weights[..n]);
      assert dp.0[..n] == pre.0;
      assert dp.1[..n] == pre.1;
    }
  }

  // ---------------------------------------------------------------------
  // Sweep grouping and baseline times

  /** Number of groups: one per UAV, at least one. */
  function GroupCount(numUavs: int): (g: int)
    ensures g >= 1
    ensures numUavs >= 1 ==> g == numUavs
  {
    MaxInt(1, numUavs)
  }

  /** The client at position `idx` of the angle order joins group
      `idx % GroupCount(numUavs)`, after the clients placed before it. */
  function Groups(order: seq<nat>, numUavs: int): (gs: seq<seq<nat>>)
    ensures |gs| == GroupCount(numUavs)
    ensures forall idx :: 0 <= idx < |order| ==> order[idx] in gs[idx % GroupCount(numUavs)]
    ensures forall j, x :: 0 <= j < |gs| && x in gs[j] ==>
      exists idx :: 0 <= idx < |order| && order[idx] == x && idx % GroupCount(numUavs) == j
  {
    var g := GroupCount(numUavs);
    if order == [] then seq(g, _ => [])
    else
      var n := |order| - 1;
      var pre := Groups(order[..n], numUavs);
      var j := n % g;
      var gs := pre[j := pre[j] + [order[n]]];
      assert forall idx :: 0 <= idx < n ==> order[..n][idx] == order[idx];
      forall j', x | 0 <= j' < |gs| && x in gs[j']
        ensures exists idx :: 0 <= idx < |order| && order[idx] == x && idx % g == j'
      {
        if j' == j && x !in pre[j] {
          assert order[n] == x;
        } else {
          var idx :| 0 <= idx < n && order[..n][idx] == x && idx % g == j';
        }
      }
      gs
  }

  /** With a permutation as angle order, every client lies in exactly one
      group. */
  lemma GroupsPartition(order: seq<nat>, numUavs: int, x: nat, j1: nat, j2: nat)
    requires forall a, b :: 0 <= a < b < |order| ==> order[a] != order[b]
    requires j1 < GroupCount(numUavs) && j2 < GroupCount(numUavs)
    requires x in Groups(order, numUavs)[j1] && x in Groups(order, numUavs)[j2]
    ensures j1 == j2
  {
    var g := GroupCount(numUavs);
    var a :| 0 <= a < |order| && order[a] == x && a % g == j1;
    var b :| 0 <= b < |order| && order[b] == x && b % g == j2;
    assert a == b;
  }

  /** A single UAV (or none) flies every client in angle order. */
  lemma {:induction false} SingleGroup(order: seq<nat>, numUavs: int)
    requires numUavs <= 1
    ensures Groups(order, numUavs) == [order]
  {
    if order == [] {
      assert Groups(order, numUavs) == seq(1, _ => []) == [[]];
    } else {
      var n := |order| - 1;
      SingleGroup(order[..n], numUavs);
      assert GroupCount(numUavs) == 1 && n % 1 == 0;
      var pre := Groups(order[..n], numUavs);
      assert Groups(order, numUavs) == pre[0 := pre[0] + [order[n]]];
      SplitLast(order);
    }
  }

  lemma SplitLast<T>(s: seq<T>)
    requires |s| > 0
    ensures s[..|s| - 1] + [s[|s| - 1]] == s
  {
  }

  function Minus(p: Point, q: Point): Point
  {
    (p.0 - q.0, p.1 - q.1)
  }

  /** Arrival times along one group: the clock advances by leg length over
      speed and then by the service time. */
  function Arrivals(xy: seq<Point>, group: seq<nat>, prev: Point, t: real, speed: real,
                    service: real, norm: Point -> real): (a: seq<real>)
    requires speed != 0.0
    requires forall k :: 0 <= k < |group| ==> group[k] < |xy|
    ensures |a| == |group|
  {
    if group == [] then []
    else
      var at := t + norm(Minus(xy[group[0]], prev)) / speed;
      [at] + Arrivals(xy, group[1..], xy[group[0]], at + service, speed, service, norm)
  }

  /** Every arrival is at `t` or later, each one at least `service` after
      the one before. */
  predicate ArrivalsFrom(a: seq<real>, t: real, service: real)
  {
    (forall k :: 0 <= k < |a| ==> a[k] >= t)
    && (forall k :: 0 < k < |a| ==> a[k] >= a[k - 1] + service)
  }

  /** With a positive speed, a non-negative service time and a norm that is
      never negative, each arrival is no earlier than the start time and at
      least a service time after the previous arrival. */
  lemma {:induction false} ArrivalsOrdered(xy: seq<Point>, group: seq<nat>, prev: Point, t: real,
                                          speed: real, service: real, norm: Point -> real)
    requires speed > 0.0 && service >= 0.0
    requires forall p :: norm(p) >= 0.0
    requires forall k :: 0 <= k < |group| ==> group[k] < |xy|
    ensures ArrivalsFrom(Arrivals(xy, group, prev, t, speed, service, norm), t, service)
  {
    if group != [] {
      var leg := norm(Minus(xy[group[0]], prev));
      var at := t + leg / speed;
      assert leg / speed >= 0.0;
      ArrivalsOrdered(xy, group[1..], xy[group[0]], at + service, speed, service, norm);
      var a := Arrivals(xy, group, prev, t, speed, service, norm);
      var rest := Arrivals(xy, group[1..], xy[group[0]], at + service, speed, service, norm);
      assert a == [at] + rest;
      assert at >= t;
      assert ArrivalsFrom(rest, at + service, service);
      forall k | 0 < k < |a|
        ensures a[k] >= t && a[k] >= a[k - 1] + service
      {
        assert a[k] == rest[k - 1];
        if k > 1 {
          assert a[k - 1] == rest[k - 2];
        }
      }
    }
  }

  /** `base` with `base[idx[k]] := vals[k]` applied in order. */
  function Assign(base: seq<real>, idx: seq<nat>, vals: seq<real>): (r: seq<real>)
    requires |idx| == |vals|
    requires forall k :: 0 <= k < |idx| ==> idx[k] < |base|
    ensures |r| == |base|
    ensures forall i :: 0 <= i < |base| && i !in idx ==> r[i] == base[i]
    ensures forall i :: 0 <= i < |base| ==> r[i] == base[i] || r[i] in vals
    decreases |idx|
  {
    if idx == [] then base
    else Assign(base[idx[0] := vals[0]], idx[1..], vals[1..])
  }

  /** `_baseline_times`: every client's arrival time in its group's sweep,
      zero for a client no group visits. */
  function Baseline(xy: seq<Point>, depot: Point, speed: real, service: real,
                    groups: seq<seq<nat>>, norm: Point -> real): (b: seq<real>)
    requires speed != 0.0
    requires forall j, k :: 0 <= j < |groups| && 0 <= k < |groups[j]| ==> groups[j][k] < |xy|
    ensures |b| == |xy|
  {
    if groups == [] then seq(|xy|, _ => 0.0)
    else
      var n := |groups| - 1;
      var pre := Baseline(xy, depot, speed, service, groups[..n], norm);
      Assign(pre, groups[n], Arrivals(xy, groups[n], depot, 0.0, speed, service, norm))
  }

  /** Baseline times are never negative. */
  lemma {:induction false} BaselineNonNegative(xy: seq<Point>, depot: Point, speed: real, service: real,
                                              groups: seq<seq<nat>>, norm: Point -> real)
    requires speed > 0.0 && service >= 0.0
    requires forall p :: norm(p) >= 0.0
    requires forall j, k :: 0 <= j < |groups| && 0 <= k < |groups[j]| ==> groups[j][k] < |xy|
    ensures forall i :: 0 <= i < |xy| ==> Baseline(xy, depot, speed, service, groups, norm)[i] >= 0.0
  {
    if groups != [] {
      var n := |groups| - 1;
      assert forall j, k :: 0 <= j < n && 0 <= k < |groups[..n][j]| ==> groups[..n][j][k] < |xy|
        by {
          assert forall j :: 0 <= j < n ==> groups[..n][j] == groups[j];
        }
      BaselineNonNegative(xy, depot, speed, service, groups[..n], norm);
      ArrivalsOrdered(xy, groups[n], depot, 0.0, speed, service, norm);
      var pre := Baseline(xy, depot, speed, service, groups[..n], norm);
      var vals := Arrivals(xy, groups[n], depot, 0.0, speed, service, norm);
      var b := Assign(pre, groups[n], vals);
      assert b == Baseline(xy, depot, speed, service, groups, norm);
      assert ArrivalsFrom(vals, 0.0, service);
      forall i | 0 <= i < |xy|
        ensures b[i] >= 0.0
      {
        if b[i] != pre[i] {
          var k :| 0 <= k < |vals| && vals[k] == b[i];
        }
      }
    }
  }

  // ---------------------------------------------------------------------
  // Assembled scenario

  /** The depot: the centre of the square area, or a draw. */
  function DepotXy(cfg: GeneratorConfig, draw: Point): (p: Point)
    ensures cfg.depotLocation == "center" ==> p == (cfg.areaKm * 1000.0 / 2.0, cfg.areaKm * 1000.0 / 2.0)
    ensures cfg.depotLocation != "center" ==> p == draw
  {
    var areaM := cfg.areaKm * 1000.0;
    if cfg.depotLocation == "center" then (areaM / 2.0, areaM / 2.0) else draw
  }

  /** The angle order is a permutation of the client indices. */
  predicate IsOrder(order: seq<nat>, n: nat)
  {
    |order| == n
    && (forall k :: 0 <= k < n ==> order[k] < n)
    && (forall a, b :: 0 <= a < b < n ==> order[a] != order[b])
  }

  predicate DrawsFit(spec: ScenarioSpec, dr: Draws)
  {
    && spec.nClients >= 0
    && |dr.clientXy| == spec.nClients && |dr.bsXy| == spec.bsCount
    && |dr.weights| == spec.nClients && |dr.types| == spec.nClients
    && IsOrder(dr.angleOrder, spec.nClients)
    && (IsFamilyB(spec.twFamily) ==> |dr.jitter| == spec.nClients)
  }

  /** Groups of the sweep: client indices within range. */
  lemma GroupsInRange(order: seq<nat>, n: nat, numUavs: int)
    requires IsOrder(order, n)
    ensures forall j, k :: 0 <= j < |Groups(order, numUavs)| && 0 <= k < |Groups(order, numUavs)[j]| ==>
      Groups(order, numUavs)[j][k] < n
  {
    var gs := Groups(order, numUavs);
    forall j, k | 0 <= j < |gs| && 0 <= k < |gs[j]|
      ensures gs[j][k] < n
    {
      assert gs[j][k] in gs[j];
    }
  }

  function BaselineOf(cfg: GeneratorConfig, spec: ScenarioSpec, dr: Draws, norm: Point -> real): (b: seq<real>)
    requires DrawsFit(spec, dr) && cfg.speedMps != 0.0
    ensures |b| == spec.nClients
  {
    GroupsInRange(dr.angleOrder, spec.nClients, cfg.numUavs);
    Baseline(dr.clientXy, DepotXy(cfg, dr.depotXy), cfg.speedMps, cfg.serviceDurationS,
      Groups(dr.angleOrder, cfg.numUavs), norm)
  }

  /** `generate_scenario`. */
  function GenerateScenario(cfg: GeneratorConfig, spec: ScenarioSpec, dr: Draws,
                            norm: Point -> real): (sc: ScenarioData)
    requires DrawsFit(spec, dr) && cfg.speedMps != 0.0
    ensures sc.depotXy == DepotXy(cfg, dr.depotXy)
    ensures sc.clientXy == dr.clientXy && sc.bsXy == dr.bsXy
    ensures |sc.delivery| == spec.nClients && |sc.pickup| == spec.nClients
    ensures forall i :: 0 <= i < spec.nClients ==>
      sc.delivery[i] + sc.pickup[i] == dr.weights[i]
    ensures (sc.delivery, sc.pickup) == DemandSplit(dr.types, dr.weights)
    ensures |sc.serviceDurationS| == spec.nClients
    ensures forall i :: 0 <= i < spec.nClients ==> sc.serviceDurationS[i] == cfg.serviceDurationS
    ensures (sc.twEarlyS, sc.twLateS)
      == BuildTimeWindows(BaselineOf(cfg, spec, dr, norm), spec.deltaMin, spec.twFamily,
           dr.jitter, cfg.familyBShrink)
    ensures sc.speedMps == cfg.speedMps && sc.capacityKg == cfg.capacityKg
      && sc.altitudeM == cfg.altitudeM
  {
    var dp := DemandSplit(dr.types, dr.weights);
    var w := BuildTimeWindows(BaselineOf(cfg, spec, dr, norm), spec.deltaMin, spec.twFamily,
      dr.jitter, cfg.familyBShrink);
    ScenarioData(DepotXy(cfg, dr.depotXy), dr.clientXy, dp.0, dp.1,
      seq(spec.nClients, _ => cfg.serviceDurationS), w.0, w.1, dr.bsXy,
      cfg.speedMps, cfg.capacityKg, cfg.altitudeM)
  }

  /** A generated instance has one window per client, none starting before
      zero, each ending after it starts: by at least a minute in family B,
      and in family A whenever Δ > 0 and the sweep runs forward in time. */
  lemma GeneratedWindowsWellFormed(cfg: GeneratorConfig, spec: ScenarioSpec, dr: Draws,
                                   norm: Point -> real, i: nat)
    requires DrawsFit(spec, dr) && cfg.speedMps > 0.0 && cfg.serviceDurationS >= 0.0
    requires forall p :: norm(p) >= 0.0
    requires i < spec.nClients
    requires !IsFamilyB(spec.twFamily) ==> spec.deltaMin > 0
    ensures var sc := GenerateScenario(cfg, spec, dr, norm);
      |sc.twEarlyS| == spec.nClients && |sc.twLateS| == spec.nClients
      && sc.twEarlyS[i] >= 0.0 && sc.twLateS[i] > sc.twEarlyS[i]
      && (IsFamilyB(spec.twFamily) ==> sc.twLateS[i] >= sc.twEarlyS[i] + 60.0)
  {
    var b := BaselineOf(cfg, spec, dr, norm);
    GroupsInRange(dr.angleOrder, spec.nClients, cfg.numUavs);
    BaselineNonNegative(dr.clientXy, DepotXy(cfg, dr.depotXy), cfg.speedMps, cfg.serviceDurationS,
      Groups(dr.angleOrder, cfg.numUavs), norm);
    WindowsNonEmpty(b, spec.deltaMin, spec.twFamily, dr.jitter, cfg.familyBShrink, i);
  }

  // ---------------------------------------------------------------------
  // Frozen instances

  function PointJson(p: Point): Json
  {
    JArr([JReal(p.0), JReal(p.1)])
  }

  function PointsJson(ps: seq<Point>): (j: Json)
    ensures j.JArr? && |j.items| == |ps|
    ensures forall i :: 0 <= i < |ps| ==> j.items[i] == PointJson(ps[i])
  {
    JArr(seq(|ps|, i requires 0 <= i < |ps| => PointJson(ps[i])))
  }

  function SpecJson(spec: ScenarioSpec): Json
  {
    JObj([
      ("run_id", JStr(spec.runId)), ("seed", JInt(spec.seed)),
      ("n_clients", JInt(spec.nClients)), ("num_uavs", JInt(spec.numUavs)),
      ("delta_min", JInt(spec.deltaMin)), ("bs_count", JInt(spec.bsCount)),
      ("edge_samples", JInt(spec.edgeSamples)), ("lambda_out", JReal(spec.lambdaOut)),
      ("lambda_tw", JReal(spec.lambdaTw)), ("tw_family", JStr(spec.twFamily)),
      ("tw_mode", JStr(spec.twMode))
    ])
  }

  /** Keys of the `scenario` block, in the order they are written. */
  const ScenarioKeys: seq<string> := [
    "depot_xy", "client_xy", "delivery", "pickup", "service_duration_s", "tw_early_s",
    "tw_late_s", "bs_xy", "speed_mps", "capacity_kg", "altitude_m"
  ]

  function ScenarioValues(sc: ScenarioData): (vs: seq<Json>)
    ensures |vs| == |ScenarioKeys|
    ensures vs[0] == PointJson(sc.depotXy) && vs[1] == PointsJson(sc.clientXy)
    ensures vs[2] == RealsJson(sc.delivery) && vs[3] == RealsJson(sc.pickup)
    ensures vs[4] == RealsJson(sc.serviceDurationS) && vs[5] == RealsJson(sc.twEarlyS)
    ensures vs[6] == RealsJson(sc.twLateS) && vs[7] == PointsJson(sc.bsXy)
    ensures vs[8] == JReal(sc.speedMps) && vs[9] == JReal(sc.capacityKg)
    ensures vs[10] == JReal(sc.altitudeM)
  {
    [PointJson(sc.depotXy), PointsJson(sc.clientXy), RealsJson(sc.delivery),
     RealsJson(sc.pickup), RealsJson(sc.serviceDurationS), RealsJson(sc.twEarlyS),
     RealsJson(sc.twLateS), PointsJson(sc.bsXy), JReal(sc.speedMps), JReal(sc.capacityKg),
     JReal(sc.altitudeM)]
  }

  function ScenarioJson(sc: ScenarioData): (j: Json)
    ensures j.JObj? && |j.fields| == |ScenarioKeys|
    ensures forall i :: 0 <= i < |ScenarioKeys| ==> j.fields[i] == (ScenarioKeys[i], ScenarioValues(sc)[i])
  {
    var vs := ScenarioValues(sc);
    JObj(seq(|ScenarioKeys|, i requires 0 <= i < |ScenarioKeys| => (ScenarioKeys[i], vs[i])))
  }

  /** The document `save_frozen_instance` writes: the spec under `spec` and
      the instance under `scenario`. */
  function SaveFrozen(spec: ScenarioSpec, sc: ScenarioData): (doc: Json)
    ensures doc.JObj? && Lookup(doc.fields, "spec") == Some(SpecJson(spec))
    ensures Lookup(doc.fields, "scenario") == Some(ScenarioJson(sc))
  {
    JObj([("spec", SpecJson(spec)), ("scenario", ScenarioJson(sc))])
  }

  /** A coordinate pair read back as `float`s. */
  function AsPoint(j: Json): (p: Option<Point>)
    ensures p.Some? ==> j.JArr? && |j.items| == 2
  {
    if j.JArr? && |j.items| == 2 then
      var x := AsReal(j.items[0]);
      var y := AsReal(j.items[1]);
      if x.Some? && y.Some? then Some((x.value, y.value)) else None
    else None
  }

  function AsPoints(items: seq<Json>): (r: Option<seq<Point>>)
    ensures r.Some? ==> |r.value| == |items|
    ensures r.Some? ==> forall i :: 0 <= i < |items| ==> AsPoint(items[i]) == Some(r.value[i])
  {
    if items == [] then Some([])
    else
      var n := |items| - 1;
      var pre := AsPoints(items[..n]);
      var last := AsPoint(items[n]);
      if pre.Some? && last.Some? then Some(pre.value + [last.value]) else None
  }

  lemma {:induction false} PointsRoundTrip(ps: seq<Point>)
    ensures AsPoints(PointsJson(ps).items) == Some(ps)
  {
    if ps != [] {
      var n := |ps| - 1;
      PointsRoundTrip(ps[..n]);
      assert PointsJson(ps).items[..n] == PointsJson(ps[..n]).items;
      assert AsPoint(PointJson(ps[n])) == Some(ps[n]);
      assert ps[..n] + [ps[n]] == ps;
    }
  }

  function FieldReals(fields: seq<(string, Json)>, key: string): Option<seq<real>>
  {
    var v := Lookup(fields, key);
    if v.Some? && v.value.JArr? then AsReals(v.value.items) else None
  }

  function FieldPoints(fields: seq<(string, Json)>, key: string): Option<seq<Point>>
  {
    var v := Lookup(fields, key);
    if v.Some? && v.value.JArr? then AsPoints(v.value.items) else None
  }

  function FieldReal(fields: seq<(string, Json)>, key: string): Option<real>
  {
    var v := Lookup(fields, key);
    if v.Some? then AsReal(v.value) else None
  }

  /** `load_frozen_instance`: reads the `scenario` block and ignores `spec`;
      `None` where `load_frozen_instance` raises (a missing key, a value that is not a
      number or a list of numbers). */
  function LoadFrozen(doc: Json): (r: Option<ScenarioData>)
    ensures r.Some? ==> doc.JObj? && Lookup(doc.fields, "scenario").Some?
  {
    if !doc.JObj? then None
    else
      var raw := Lookup(doc.fields, "scenario");
      if raw.None? || !raw.value.JObj? then None
      else
        LoadScenario(raw.value.fields)
  }

  /** The `scenario` block read back, key by key; a missing key fails the
      load, as the `KeyError` of `load_frozen_instance` does. */
  function LoadScenario(f: seq<(string, Json)>): (r: Option<ScenarioData>)
    ensures r.Some? ==> forall i :: 0 <= i < |ScenarioKeys| ==> Lookup(f, ScenarioKeys[i]).Some?
  {
    var depot := Lookup(f, ScenarioKeys[0]);
    var depotXy := if depot.Some? then AsPoint(depot.value) else None;
    var clientXy := FieldPoints(f, ScenarioKeys[1]);
    var delivery := FieldReals(f, ScenarioKeys[2]);
    var pickup := FieldReals(f, ScenarioKeys[3]);
    var service := FieldReals(f, ScenarioKeys[4]);
    var early := FieldReals(f, ScenarioKeys[5]);
    var late := FieldReals(f, ScenarioKeys[6]);
    var bsXy := FieldPoints(f, ScenarioKeys[7]);
    var speed := FieldReal(f, ScenarioKeys[8]);
    var capacity := FieldReal(f, ScenarioKeys[9]);
    var altitude := FieldReal(f, ScenarioKeys[10]);
    if depotXy.Some? && clientXy.Some? && delivery.Some? && pickup.Some? && service.Some?
       && early.Some? && late.Some? && bsXy.Some? && speed.Some? && capacity.Some?
       && altitude.Some?
    then
      Some(ScenarioData(depotXy.value, clientXy.value, delivery.value, pickup.value,
        service.value, early.value, late.value, bsXy.value, speed.value, capacity.value,
        altitude.value))
    else None
  }

  lemma ScenarioLookup(sc: ScenarioData, i: nat)
    requires i < |ScenarioKeys|
    ensures Lookup(ScenarioJson(sc).fields, ScenarioKeys[i]) == Some(ScenarioValues(sc)[i])
  {
    LookupKeyAt(ScenarioJson(sc).fields, ScenarioKeys, i);
  }

  lemma RealsFieldAt(sc: ScenarioData, i: nat, xs: seq<real>)
    requires i < |ScenarioKeys| && ScenarioValues(sc)[i] == RealsJson(xs)
    ensures FieldReals(ScenarioJson(sc).fields, ScenarioKeys[i]) == Some(xs)
  {
    ScenarioLookup(sc, i);
    RealsRoundTrip(xs);
  }

  lemma PointsFieldAt(sc: ScenarioData, i: nat, ps: seq<Point>)
    requires i < |ScenarioKeys| && ScenarioValues(sc)[i] == PointsJson(ps)
    ensures FieldPoints(ScenarioJson(sc).fields, ScenarioKeys[i]) == Some(ps)
  {
    ScenarioLookup(sc, i);
    PointsRoundTrip(ps);
  }

  lemma RealFieldAt(sc: ScenarioData, i: nat, x: real)
    requires i < |ScenarioKeys| && ScenarioValues(sc)[i] == JReal(x)
    ensures FieldReal(ScenarioJson(sc).fields, ScenarioKeys[i]) == Some(x)
  {
    ScenarioLookup(sc, i);
  }

  /** Reading succeeds with `sc` once every field reads back as in `sc`. */
  lemma LoadScenarioFields(f: seq<(string, Json)>, sc: ScenarioData)
    requires Lookup(f, ScenarioKeys[0]) == Some(PointJson(sc.depotXy))
    requires FieldPoints(f, ScenarioKeys[1]) == Some(sc.clientXy)
    requires FieldReals(f, ScenarioKeys[2]) == Some(sc.delivery)
    requires FieldReals(f, ScenarioKeys[3]) == Some(sc.pickup)
    requires FieldReals(f, ScenarioKeys[4]) == Some(sc.serviceDurationS)
    requires FieldReals(f, ScenarioKeys[5]) == Some(sc.twEarlyS)
    requires FieldReals(f, ScenarioKeys[6]) == Some(sc.twLateS)
    requires FieldPoints(f, ScenarioKeys[7]) == Some(sc.bsXy)
    requires FieldReal(f, ScenarioKeys[8]) == Some(sc.speedMps)
    requires FieldReal(f, ScenarioKeys[9]) == Some(sc.capacityKg)
    requires FieldReal(f, ScenarioKeys[10]) == Some(sc.altitudeM)
    ensures LoadScenario(f) == Some(sc)
  {
    assert AsPoint(PointJson(sc.depotXy)) == Some(sc.depotXy);
  }

  lemma ScenarioBlockRoundTrip(sc: ScenarioData)
    ensures LoadScenario(ScenarioJson(sc).fields) == Some(sc)
  {
    ScenarioLookup(sc, 0);
    PointsFieldAt(sc, 1, sc.clientXy);
    RealsFieldAt(sc, 2, sc.delivery);
    RealsFieldAt(sc, 3, sc.pickup);
    RealsFieldAt(sc, 4, sc.serviceDurationS);
    RealsFieldAt(sc, 5, sc.twEarlyS);
    RealsFieldAt(sc, 6, sc.twLateS);
    PointsFieldAt(sc, 7, sc.bsXy);
    RealFieldAt(sc, 8, sc.speedMps);
    RealFieldAt(sc, 9, sc.capacityKg);
    RealFieldAt(sc, 10, sc.altitudeM);
    LoadScenarioFields(ScenarioJson(sc).fields, sc);
  }

  /** Loading a saved instance gives back every field of the scenario,
      whatever the spec block says. */
  lemma FrozenRoundTrip(spec: ScenarioSpec, sc: ScenarioData)
    ensures LoadFrozen(SaveFrozen(spec, sc)) == Some(sc)
  {
    LookupFirst(SaveFrozen(spec, sc).fields, "scenario", 1);
    ScenarioBlockRoundTrip(sc);
  }

  /** The spec block plays no part in loading. */
  lemma FrozenIgnoresSpec(a: ScenarioSpec, b: ScenarioSpec, sc: ScenarioData)
    ensures LoadFrozen(SaveFrozen(a, sc)) == LoadFrozen(SaveFrozen(b, sc))
  {
    FrozenRoundTrip(a, sc);
    FrozenRoundTrip(b, sc);
  }
}

=== FILE: json.dfy ===
/** JSON documents as `json.load` hands them to uavtre.

    An object is an association list in insertion order, which is the order
    a Python `dict` iterates in; `Lookup` and `Set` give it `dict` semantics
    (assigning an existing key keeps its position, a new key goes last). */
module JsonData {
  import opened Numeric

  datatype Json =
    | JNull
    | JBool(b: bool)
    | JInt(i: int)
    | JReal(r: real)
    | JStr(s: string)
    | JArr(items: seq<Json>)
    | JObj(fields: seq<(string, Json)>)

  /** The entries of an object, in insertion order. */
  type Fields = seq<(string, Json)>

  /** `d.get(key)`. */
  function Lookup(fields: seq<(string, Json)>, key: string): (r: Option<Json>)
  {
    if fields == [] then None
    else if fields[0].0 == key then Some(fields[0].1)
    else Lookup(fields[1..], key)
  }

  /** A lookup fails exactly when no entry has the key, and succeeds with
      the value of some entry that has it. */
  lemma {:induction false} LookupSpec(fields: seq<(string, Json)>, key: string)
    ensures Lookup(fields, key).None? <==> forall i :: 0 <= i < |fields| ==> fields[i].0 != key
    ensures Lookup(fields, key).Some? ==>
      exists i :: 0 <= i < |fields| && fields[i] == (key, Lookup(fields, key).value)
  {
    if fields != [] && fields[0].0 != key {
      LookupSpec(fields[1..], key);
      if Lookup(fields, key).Some? {
        var i :| 0 <= i < |fields[1..]| && fields[1..][i] == (key, Lookup(fields, key).value);
        assert fields[i + 1] == (key, Lookup(fields, key).value);
      }
      assert (forall i :: 0 <= i < |fields| ==> fields[i].0 != key)
        <==> (forall i :: 0 <= i < |fields[1..]| ==> fields[1..][i].0 != key);
    }
  }

  /** The first entry with the key decides the lookup. */
  lemma {:induction false} LookupFirst(fields: seq<(string, Json)>, key: string, i: nat)
    requires i < |fields| && fields[i].0 == key
    requires forall j :: 0 <= j < i ==> fields[j].0 != key
    ensures Lookup(fields, key) == Some(fields[i].1)
  {
    if i > 0 {
      LookupFirst(fields[1..], key, i - 1);
    }
  }

  /** Lookup in an object whose keys are known to be `keys`, position by
      position. */
  lemma LookupKeyAt(fields: seq<(string, Json)>, keys: seq<string>, i: nat)
    requires |fields| == |keys| && i < |keys|
    requires forall j :: 0 <= j < |keys| ==> fields[j].0 == keys[j]
    requires forall j :: 0 <= j < i ==> keys[j] != keys[i]
    ensures Lookup(fields, keys[i]) == Some(fields[i].1)
  {
    LookupFirst(fields, keys[i], i);
  }

  predicate HasKey(fields: seq<(string, Json)>, key: string)
  {
    exists i :: 0 <= i < |fields| && fields[i].0 == key
  }

  predicate UniqueKeys(fields: seq<(string, Json)>)
  {
    forall i, j :: 0 <= i < j < |fields| ==> fields[i].0 != fields[j].0
  }

  /** `d[key] = value`. */
  function Set(fields: seq<(string, Json)>, key: string, value: Json): (r: seq<(string, Json)>)
    ensures Lookup(r, key) == Some(value)
    ensures forall k :: k != key ==> Lookup(r, k) == Lookup(fields, k)
    ensures |fields| <= |r| <= |fields| + 1
    ensures forall i :: 0 <= i < |fields| ==> r[i].0 == fields[i].0
    ensures |r| == |fields| + 1 ==> r[|fields|] == (key, value)
  {
    if fields == [] then [(key, value)]
    else if fields[0].0 == key then [(key, value)] + fields[1..]
    else [fields[0]] + Set(fields[1..], key, value)
  }

  /** An existing key is overwritten in place; a new one is appended. */
  lemma {:induction false} SetLength(fields: seq<(string, Json)>, key: string, value: Json)
    ensures |Set(fields, key, value)| == if HasKey(fields, key) then |fields| else |fields| + 1
  {
    if fields != [] && fields[0].0 != key {
      SetLength(fields[1..], key, value);
      if HasKey(fields, key) {
        var i :| 0 <= i < |fields| && fields[i].0 == key;
        assert fields[1..][i - 1].0 == key;
      }
      if HasKey(fields[1..], key) {
        var i :| 0 <= i < |fields[1..]| && fields[1..][i].0 == key;
        assert fields[i + 1].0 == key;
      }
    } else if fields != [] {
      assert fields[0].0 == key;
    }
  }

  /** Assignment keeps the keys of a dictionary distinct. */
  lemma SetUnique(fields: seq<(string, Json)>, key: string, value: Json)
    requires UniqueKeys(fields)
    ensures UniqueKeys(Set(fields, key, value))
  {
    var r := Set(fields, key, value);
    SetLength(fields, key, value);
    forall i, j | 0 <= i < j < |r|
      ensures r[i].0 != r[j].0
    {
      if j == |fields| {
        assert !HasKey(fields, key);
        assert r[i].0 == fields[i].0;
      } else {
        assert r[i].0 == fields[i].0 && r[j].0 == fields[j].0;
      }
    }
  }

  /** Looking up the last entry of a field list. */
  lemma LookupAppend(fields: seq<(string, Json)>, key: string, value: Json, k: string)
    ensures Lookup(fields + [(key, value)], k)
         == if Lookup(fields, k).Some? then Lookup(fields, k)
            else if k == key then Some(value) else None
  {
    var all := fields + [(key, value)];
    LookupSpec(fields, k);
    if Lookup(fields, k).Some? {
      var i :| 0 <= i < |fields| && fields[i] == (k, Lookup(fields, k).value);
      FirstWithKey(fields, k, i);
      var f :| 0 <= f < |fields| && fields[f].0 == k && forall q :: 0 <= q < f ==> fields[q].0 != k;
      LookupFirst(fields, k, f);
      LookupFirst(all, k, f);
    } else if k == key {
      LookupFirst(all, k, |fields|);
    } else {
      LookupSpec(all, k);
    }
  }

  /** A key that occurs has a first occurrence. */
  lemma FirstWithKey(fields: seq<(string, Json)>, k: string, i: nat)
    requires i < |fields| && fields[i].0 == k
    ensures exists f :: 0 <= f < |fields| && fields[f].0 == k && forall q :: 0 <= q < f ==> fields[q].0 != k
  {
    if exists q :: 0 <= q < i && fields[q].0 == k {
      var q :| 0 <= q < i && fields[q].0 == k;
      FirstWithKey(fields, k, q);
    }
  }

  /** Assigning a key the dictionary lacks appends the entry. */
  lemma {:induction false} SetAbsent(fields: seq<(string, Json)>, key: string, value: Json)
    requires !HasKey(fields, key)
    ensures Set(fields, key, value) == fields + [(key, value)]
  {
    if fields != [] {
      assert fields[0].0 != key;
      assert !HasKey(fields[1..], key);
      SetAbsent(fields[1..], key, value);
      assert [fields[0]] + (fields[1..] + [(key, value)]) == fields + [(key, value)];
    }
  }

  /** Reading a number as `float(...)`: integers and reals are accepted. */
  function AsReal(j: Json): (r: Option<real>)
    ensures j.JReal? ==> r == Some(j.r)
    ensures j.JInt? ==> r == Some(j.i as real)
    ensures r.Some? <==> j.JReal? || j.JInt?
  {
    match j
    case JReal(x) => Some(x)
    case JInt(i) => Some(i as real)
    case _ => None
  }

  /** `np.array(xs, dtype=float)` on a flat list. */
  function AsReals(items: seq<Json>): (r: Option<seq<real>>)
    ensures r.Some? <==> forall i :: 0 <= i < |items| ==> AsReal(items[i]).Some?
    ensures r.Some? ==> (|r.value| == |items|
      && forall i :: 0 <= i < |items| ==> Some(r.value[i]) == AsReal(items[i]))
  {
    if items == [] then Some([])
    else
      var n := |items| - 1;
      var pre := AsReals(items[..n]);
      var last := AsReal(items[n]);
      if pre.Some? && last.Some? then Some(pre.value + [last.value])
      else
        assert pre.None? ==> exists i :: 0 <= i < n && AsReal(items[..n][i]).None?;
        None
  }

  function RealsJson(xs: seq<real>): (j: Json)
    ensures j.JArr? && |j.items| == |xs|
    ensures forall i :: 0 <= i < |xs| ==> j.items[i] == JReal(xs[i])
  {
    JArr(seq(|xs|, i requires 0 <= i < |xs| => JReal(xs[i])))
  }

  /** Encoding a list of reals and reading it back gives the list. */
  lemma RealsRoundTrip(xs: seq<real>)
    ensures RealsJson(xs).JArr? && AsReals(RealsJson(xs).items) == Some(xs)
  {
    var r := AsReals(RealsJson(xs).items);
    assert r.Some?;
    assert r.value == xs;
  }
}

=== FILE: loaders.dfy ===
/** Loading the project configuration: the recursive dictionary merge used
    for profile overrides, the defaults that older configuration files are
    completed with, the three built-in run profiles, and the choice of the
    profile to run.  A parsed JSON file is an object's field list; every
    Python exception on a malformed file is `None`. */
module Loaders {
  import opened Numeric
  import opened JsonData

  
  // ---------------------------------------------------------------------
  // Deep merge

  /** `_deep_merge`: the override's entries are assigned in order; where
      both sides hold an object the two are merged recursively. */
  function DeepMerge(base: Fields, override: Fields): (r: Fields)
    ensures |r| >= |base|
    ensures forall i :: 0 <= i < |base| ==> r[i].0 == base[i].0
  {
    MergeUpTo(base, override, |override|)
  }

  /** The merge after the first `n` entries of the override. */
  function MergeUpTo(base: Fields, override: Fields, n: nat): (r: Fields)
    requires n <= |override|
    ensures |r| >= |base|
    ensures forall i :: 0 <= i < |base| ==> r[i].0 == base[i].0
    decreases JObj(override), n
  {
    if n == 0 then base
    else
      var out := MergeUpTo(base, override, n - 1);
      var key := override[n - 1].0;
      var value := override[n - 1].1;
      var cur := Lookup(out, key);
      if value.JObj? && cur.Some? && cur.value.JObj? then
        Set(out, key, JObj(MergeUpTo(cur.value.fields, value.fields, |value.fields|)))
      else Set(out, key, value)
  }

  /** The value a key of the override ends up with. */
  function MergedValue(base: Option<Json>, value: Json): Json
  {
    if value.JObj? && base.Some? && base.value.JObj? then JObj(DeepMerge(base.value.fields, value.fields))
    else value
  }


  /** The keys of a merge are the keys of both sides, and a key the
      override lacks keeps the base's value. */
  lemma {:induction false} MergeKeys(base: Fields, override: Fields, n: nat, k: string)
    requires n <= |override|
    ensures Lookup(MergeUpTo(base, override, n), k).Some?
        <==> Lookup(base, k).Some? || Lookup(override[..n], k).Some?
    ensures Lookup(override[..n], k).None? ==> Lookup(MergeUpTo(base, override, n), k) == Lookup(base, k)
    decreases n
  {
    if n > 0 {
      MergeKeys(base, override, n - 1, k);
      MergeStep(base, override, n);
      PrefixLast(override, n);
      LookupAppend(override[..n - 1], override[n - 1].0, override[n - 1].1, k);
    }
  }

  /** In a dictionary, no earlier entry has the key of a later one. */
  lemma UniqueLastIsNew(fields: Fields, n: nat)
    requires 0 < n <= |fields| && UniqueKeys(fields)
    ensures Lookup(fields[..n - 1], fields[n - 1].0).None?
  {
    LookupSpec(fields[..n - 1], fields[n - 1].0);
  }

  /** One step of the merge is one assignment. */
  lemma MergeStep(base: Fields, override: Fields, n: nat)
    requires 0 < n <= |override|
    ensures var out := MergeUpTo(base, override, n - 1);
      MergeUpTo(base, override, n)
        == Set(out, override[n - 1].0, MergedValue(Lookup(out, override[n - 1].0), override[n - 1].1))
  {
  }

  lemma PrefixLast<T>(s: seq<T>, n: nat)
    requires 0 < n <= |s|
    ensures s[..n] == s[..n - 1] + [s[n - 1]]
  {
  }

  /** A key of the override takes the override's value, merged with the
      base's value when both are objects. */
  lemma {:induction false} MergeOverride(base: Fields, override: Fields, n: nat, k: string)
    requires n <= |override| && UniqueKeys(override)
    requires Lookup(override[..n], k).Some?
    ensures Lookup(MergeUpTo(base, override, n), k)
         == Some(MergedValue(Lookup(base, k), Lookup(override[..n], k).value))
    decreases n
  {
    var key := override[n - 1].0;
    MergeStep(base, override, n);
    PrefixLast(override, n);
    LookupAppend(override[..n - 1], key, override[n - 1].1, k);
    if key == k {
      UniqueLastIsNew(override, n);
      MergeKeys(base, override, n - 1, k);
    } else {
      MergeOverride(base, override, n - 1, k);
    }
  }

  /** `_deep_merge` on whole dictionaries: keys are the union, a key only in
      the base keeps its value, a key of the override wins or is merged. */
  lemma DeepMergeLookup(base: Fields, override: Fields, k: string)
    requires UniqueKeys(override)
    ensures Lookup(DeepMerge(base, override), k).Some? <==> Lookup(base, k).Some? || Lookup(override, k).Some?
    ensures Lookup(override, k).None? ==> Lookup(DeepMerge(base, override), k) == Lookup(base, k)
    ensures Lookup(override, k).Some? ==>
      Lookup(DeepMerge(base, override), k) == Some(MergedValue(Lookup(base, k), Lookup(override, k).value))
  {
    assert override[..|override|] == override;
    MergeKeys(base, override, |override|, k);
    if Lookup(override, k).Some? {
      MergeOverride(base, override, |override|, k);
    }
  }

  /** Merging into an empty dictionary copies the override. */
  lemma {:induction false} MergeIntoEmpty(override: Fields, n: nat)
    requires n <= |override| && UniqueKeys(override)
    ensures MergeUpTo([], override, n) == override[..n]
    decreases n
  {
    if n > 0 {
      MergeIntoEmpty(override, n - 1);
      var key := override[n - 1].0;
      assert !HasKey(override[..n - 1], key);
      UniqueLastIsNew(override, n);
      MergeStep([], override, n);
      SetAbsent(override[..n - 1], key, override[n - 1].1);
      PrefixLast(override, n);
    }
  }

  // ---------------------------------------------------------------------
  // Defaults

  /** `d.setdefault(key, value)`. */
  function SetDefault(fields: Fields, key: string, value: Json): (r: Fields)
    ensures Lookup(r, key) == if Lookup(fields, key).Some? then Lookup(fields, key) else Some(value)
    ensures forall k :: k != key ==> Lookup(r, k) == Lookup(fields, k)
  {
    LookupAppendAll(fields, key, value);
    if Lookup(fields, key).Some? then fields else fields + [(key, value)]
  }

  lemma LookupAppendAll(fields: Fields, key: string, value: Json)
    ensures forall k :: (Lookup(fields + [(key, value)], k)
         == if Lookup(fields, k).Some? then Lookup(fields, k) else if k == key then Some(value) else None)
  {
    forall k {
      LookupAppend(fields, key, value, k);
    }
  }

  /** A run of `setdefault` calls, in order. */
  function SetDefaults(fields: Fields, defaults: Fields): Fields
  {
    if defaults == [] then fields
    else
      var n := |defaults| - 1;
      SetDefault(SetDefaults(fields, defaults[..n]), defaults[n].0, defaults[n].1)
  }

  /** Defaults only fill keys that are absent. */
  lemma {:induction false} SetDefaultsLookup(fields: Fields, defaults: Fields, k: string)
    ensures Lookup(SetDefaults(fields, defaults), k)
         == if Lookup(fields, k).Some? then Lookup(fields, k) else Lookup(defaults, k)
  {
    if defaults != [] {
      var n := |defaults| - 1;
      SetDefaultsLookup(fields, defaults[..n], k);
      assert defaults == defaults[..n] + [defaults[n]];
      LookupAppend(defaults[..n], defaults[n].0, defaults[n].1, k);
    }
  }

  /** `d.get(key, default)`. */
  function LookupOr(fields: Fields, key: string, default: Json): (r: Json)
    ensures Lookup(fields, key).Some? ==> r == Lookup(fields, key).value
    ensures Lookup(fields, key).None? ==> r == default
  {
    var v := Lookup(fields, key);
    if v.Some? then v.value else default
  }

  /** `d.get(key, {})` where the result is used as a dictionary: an absent key
      is the empty dictionary, anything but an object is an error. */
  function Block(fields: Fields, key: string): (r: Option<Fields>)
    ensures Lookup(fields, key).None? ==> r == Some([])
    ensures Lookup(fields, key).Some? ==>
      (r.Some? <==> Lookup(fields, key).value.JObj?)
    ensures r.Some? && Lookup(fields, key).Some? ==> Lookup(fields, key) == Some(JObj(r.value))
  {
    var v := Lookup(fields, key);
    if v.None? then Some([])
    else if v.value.JObj? then Some(v.value.fields)
    else None
  }

  /** Python truthiness of a JSON value. */
  predicate Truthy(j: Json)
  {
    match j
    case JNull => false
    case JBool(b) => b
    case JInt(i) => i != 0
    case JReal(r) => r != 0.0
    case JStr(s) => s != ""
    case JArr(items) => items != []
    case JObj(fields) => fields != []
  }

  /** `float(v)` on a JSON number or boolean. */
  function ToFloat(j: Json): (r: Option<real>)
    ensures r.Some? <==> j.JInt? || j.JReal? || j.JBool?
    ensures j.JInt? ==> r == Some(j.i as real)
    ensures j.JReal? ==> r == Some(j.r)
  {
    match j
    case JInt(i) => Some(i as real)
    case JReal(r) => Some(r)
    case JBool(b) => Some(if b then 1.0 else 0.0)
    case _ => None
  }

  /** `int(v)` on a JSON number or boolean: reals are truncated toward zero. */
  function ToInt(j: Json): (r: Option<int>)
    ensures r.Some? <==> j.JInt? || j.JReal? || j.JBool?
    ensures j.JInt? ==> r == Some(j.i)
    ensures j.JReal? ==> r == Some(Trunc(j.r))
  {
    match j
    case JInt(i) => Some(i)
    case JReal(r) => Some(Trunc(r))
    case JBool(b) => Some(if b then 1 else 0)
    case _ => None
  }

  /** The top-level keys an older configuration file may lack. */
  const LegacyKeys: seq<string> := [
    "time_window_minutes", "lambda_out", "lambda_tw", "edge_samples", "edge_samples_sensitivity"]

  /** The top-level defaults of an older configuration file. */
  const LegacyDefaults: Fields := [
    (LegacyKeys[0], JArr([JInt(10), JInt(5), JInt(2)])),
    (LegacyKeys[1], JArr([JReal(0.0), JReal(0.5), JReal(1.0)])),
    (LegacyKeys[2], JArr([JReal(0.0), JReal(1.0), JReal(5.0)])),
    (LegacyKeys[3], JInt(10)),
    (LegacyKeys[4], JArr([JInt(5), JInt(10), JInt(20)]))]

  /** A key outside the legacy list has no legacy default. */
  lemma LegacyDefaultsLack(k: string)
    requires k !in LegacyKeys
    ensures Lookup(LegacyDefaults, k).None?
  {
    LookupSpec(LegacyDefaults, k);
    assert forall i :: 0 <= i < |LegacyDefaults| ==> LegacyDefaults[i].0 == LegacyKeys[i];
  }

  /** The defaults of the time-window block. */
  const TwDefaults: Fields := [
    ("mode", JStr("soft")), ("family", JStr("A")),
    ("family_b_shrink", JReal(0.8)), ("family_b_jitter_min", JReal(1.0))]

  /** The heuristic engine an older file means: PyVRP when its block says
      `use_as_main`, OR-Tools otherwise. */
  function LegacyEngine(pyvrp: Fields): (e: string)
    ensures e == "pyvrp" <==> Truthy(LookupOr(pyvrp, "use_as_main", JBool(false)))
    ensures e == "pyvrp" || e == "ortools"
  {
    if Truthy(LookupOr(pyvrp, "use_as_main", JBool(false))) then "pyvrp" else "ortools"
  }

  /** The time limits an older file implies, from its `highs` and `pyvrp`
      blocks; the two bound limits read the same key. */
  function LegacyTimeLimits(highs: Fields, pyvrp: Fields): Option<Fields>
  {
    var exact := ToFloat(LookupOr(highs, "time_limit_exact_s", JInt(3600)));
    var bound20 := ToFloat(LookupOr(highs, "time_limit_bound_s", JInt(900)));
    var bound40 := ToFloat(LookupOr(highs, "time_limit_bound_s", JInt(1800)));
    var heuristic := ToFloat(LookupOr(pyvrp, "max_runtime_s", JInt(120)));
    if exact.None? || bound20.None? || bound40.None? || heuristic.None? then None
    else Some([
      ("exact_n10_s", JReal(exact.value)), ("bound_n20_s", JReal(bound20.value)),
      ("bound_n40_s", JReal(bound40.value)), ("scalability_n80_s", JReal(900.0)),
      ("heuristic_default_s", JReal(heuristic.value))])
  }

  /** The keys the solver block is completed with after the engine and the
      time limits. */
  function SolverTail(iterations: int, runtime: real): Fields
  {
    [("ortools_first_solution", JStr("PATH_CHEAPEST_ARC")),
     ("ortools_metaheuristic", JStr("GUIDED_LOCAL_SEARCH")),
     ("pyvrp_max_iterations", JInt(iterations)),
     ("pyvrp_max_runtime_s", JReal(runtime))]
  }

  /** The tail defaults leave the engine and the time limits alone. */
  lemma SolverTailSpares(s: Fields, iterations: int, runtime: real, k: string)
    requires k == "heuristic_engine" || k == "time_limits"
    ensures Lookup(SetDefaults(s, SolverTail(iterations, runtime)), k) == Lookup(s, k)
  {
    var tail := SolverTail(iterations, runtime);
    SetDefaultsLookup(s, tail, k);
    LookupSpec(tail, k);
  }

  /** The solver block after the legacy defaults, from the file's `solver`,
      `pyvrp` and `highs` blocks (`None` for a `highs` entry that is not an
      object).  The `pyvrp` defaults are read whether or not they are
      needed. */
  function SolverBlock(solver: Fields, pyvrp: Fields, highs: Option<Fields>): (r: Option<Fields>)
    ensures r.Some? ==> (Lookup(r.value, "heuristic_engine")
      == if Lookup(solver, "heuristic_engine").Some? then Lookup(solver, "heuristic_engine")
         else Some(JStr(LegacyEngine(pyvrp))))
    ensures r.Some? ==> Lookup(r.value, "time_limits").Some?
    ensures r.Some? && Lookup(solver, "time_limits").Some? ==>
      Lookup(r.value, "time_limits") == Lookup(solver, "time_limits")
    ensures r.Some? && Lookup(solver, "time_limits").None? && highs.Some? ==>
      LegacyTimeLimits(highs.value, pyvrp).Some?
      && Lookup(r.value, "time_limits") == Some(JObj(LegacyTimeLimits(highs.value, pyvrp).value))
  {
    var s1 := SetDefault(solver, "heuristic_engine", JStr(LegacyEngine(pyvrp)));
    var limits := if highs.Some? then LegacyTimeLimits(highs.value, pyvrp) else None;
    SolverTailOf(WithLimits(s1, limits), pyvrp)
  }

  /** The last step of the solver block: the `pyvrp` settings are read and
      the remaining defaults filled in, leaving the engine and the time
      limits as they are. */
  function SolverTailOf(s2: Option<Fields>, pyvrp: Fields): (r: Option<Fields>)
    ensures r.Some? <==> (s2.Some?
      && ToInt(LookupOr(pyvrp, "max_iterations", JInt(2000))).Some?
      && ToFloat(LookupOr(pyvrp, "max_runtime_s", JInt(120))).Some?)
    ensures r.Some? ==>
      Lookup(r.value, "heuristic_engine") == Lookup(s2.value, "heuristic_engine")
      && Lookup(r.value, "time_limits") == Lookup(s2.value, "time_limits")
  {
    var iterations := ToInt(LookupOr(pyvrp, "max_iterations", JInt(2000)));
    var runtime := ToFloat(LookupOr(pyvrp, "max_runtime_s", JInt(120)));
    if s2.None? || iterations.None? || runtime.None? then None
    else
      SolverTailSpares(s2.value, iterations.value, runtime.value, "heuristic_engine");
      SolverTailSpares(s2.value, iterations.value, runtime.value, "time_limits");
      Some(SetDefaults(s2.value, SolverTail(iterations.value, runtime.value)))
  }

  /** The solver block with its time limits: the file's own, else the
      legacy ones; an error when neither exists. */
  function WithLimits(solver: Fields, limits: Option<Fields>): (r: Option<Fields>)
    ensures r.Some? <==> Lookup(solver, "time_limits").Some? || limits.Some?
    ensures r.Some? ==> Lookup(r.value, "time_limits").Some?
    ensures r.Some? && Lookup(solver, "time_limits").Some? ==>
      Lookup(r.value, "time_limits") == Lookup(solver, "time_limits")
    ensures r.Some? ==> forall k :: k != "time_limits" ==> Lookup(r.value, k) == Lookup(solver, k)
  {
    if Lookup(solver, "time_limits").Some? then Some(solver)
    else if limits.None? then None
    else Some(Set(solver, "time_limits", JObj(limits.value)))
  }

  /** Both bound limits of an older file come from `time_limit_bound_s`
      when it is set, so they cannot differ. */
  lemma BoundLimitsShareKey(highs: Fields, pyvrp: Fields, v: real)
    requires Lookup(highs, "time_limit_bound_s") == Some(JReal(v))
    requires LegacyTimeLimits(highs, pyvrp).Some?
    ensures var tl := LegacyTimeLimits(highs, pyvrp).value;
      tl[1] == ("bound_n20_s", JReal(v)) && tl[2] == ("bound_n40_s", JReal(v))
  {
  }

  // ---------------------------------------------------------------------
  // Profiles

  /** The keys of a run profile, in the order the defaults list them. */
  const ProfileKeys: seq<string> := [
    "seeds", "sizes", "include_scalability", "bs_counts", "deltas_min",
    "edge_samples", "lambda_out", "lambda_tw", "max_cases"]

  /** A profile object from its nine values. */
  function ProfileFields(values: seq<Json>): (r: Fields)
    requires |values| == |ProfileKeys|
    ensures |r| == |ProfileKeys|
    ensures forall i :: 0 <= i < |r| ==> r[i] == (ProfileKeys[i], values[i])
  {
    seq(|values|, i requires 0 <= i < |values| => (ProfileKeys[i], values[i]))
  }

  /** Reading a profile field by name. */
  lemma ProfileFieldAt(values: seq<Json>, i: nat)
    requires |values| == |ProfileKeys| && i < |ProfileKeys|
    ensures Lookup(ProfileFields(values), ProfileKeys[i]) == Some(values[i])
  {
    var keys := ProfileKeys;
    assert forall j :: 0 <= j < i ==> keys[j] != keys[i];
    LookupKeyAt(ProfileFields(values), keys, i);
  }

  /** `xs[:1]`. */
  function First(items: seq<Json>): (r: seq<Json>)
    ensures |r| <= 1 && |r| <= |items| && r == items[..|r|]
    ensures items != [] ==> r == [items[0]]
  {
    if items == [] then [] else [items[0]]
  }

  /** The top-level entries the built-in profiles are made of. */
  datatype TopLists = TopLists(
    seeds: seq<Json>, sizes: seq<Json>, bsCounts: seq<Json>, deltas: seq<Json>,
    lambdaOut: seq<Json>, lambdaTw: seq<Json>, edgeSamples: Json)

  /** A list-valued entry of the configuration. */
  function ListOf(cfg: Fields, key: string): (r: Option<seq<Json>>)
    ensures r.Some? <==> Lookup(cfg, key).Some? && Lookup(cfg, key).value.JArr?
    ensures r.Some? ==> Lookup(cfg, key) == Some(JArr(r.value))
  {
    var v := Lookup(cfg, key);
    if v.Some? && v.value.JArr? then Some(v.value.items) else None
  }

  /** The entries the built-in profiles read; a missing entry, or a list
      entry that is not a list, is an error. */
  function TopListsOf(cfg: Fields): Option<TopLists>
  {
    var seeds := ListOf(cfg, "seeds");
    var sizes := ListOf(cfg, "sizes");
    var bs := ListOf(cfg, "bs_counts");
    var deltas := ListOf(cfg, "time_window_minutes");
    var lo := ListOf(cfg, "lambda_out");
    var lt := ListOf(cfg, "lambda_tw");
    var es := Lookup(cfg, "edge_samples");
    if seeds.None? || sizes.None? || bs.None? || deltas.None? || lo.None? || lt.None? || es.None? then None
    else Some(TopLists(seeds.value, sizes.value, bs.value, deltas.value, lo.value, lt.value, es.value))
  }

  /** The built-in `quick` profile: the first element of every list and a
      single case. */
  function QuickProfile(t: TopLists): (r: Fields)
    ensures Lookup(r, "seeds") == Some(JArr(First(t.seeds)))
    ensures Lookup(r, "sizes") == Some(JArr(First(t.sizes)))
    ensures Lookup(r, "include_scalability") == Some(JBool(false))
    ensures Lookup(r, "deltas_min") == Some(JArr(First(t.deltas)))
    ensures Lookup(r, "edge_samples") == Some(JArr([t.edgeSamples]))
    ensures Lookup(r, "max_cases") == Some(JInt(1))
  {
    var v := [
      JArr(First(t.seeds)), JArr(First(t.sizes)), JBool(false), JArr(First(t.bsCounts)),
      JArr(First(t.deltas)), JArr([t.edgeSamples]), JArr(First(t.lambdaOut)), JArr(First(t.lambdaTw)),
      JInt(1)];
    ProfileFieldAt(v, 0);
    ProfileFieldAt(v, 1);
    ProfileFieldAt(v, 2);
    ProfileFieldAt(v, 4);
    ProfileFieldAt(v, 5);
    ProfileFieldAt(v, 8);
    ProfileFields(v)
  }

  /** The built-in `main_table` profile: every list in full, no case limit. */
  function MainTableProfile(t: TopLists): (r: Fields)
    ensures Lookup(r, "seeds") == Some(JArr(t.seeds))
    ensures Lookup(r, "sizes") == Some(JArr(t.sizes))
    ensures Lookup(r, "include_scalability") == Some(JBool(false))
    ensures Lookup(r, "deltas_min") == Some(JArr(t.deltas))
    ensures Lookup(r, "max_cases") == Some(JInt(0))
  {
    var v := [
      JArr(t.seeds), JArr(t.sizes), JBool(false), JArr(t.bsCounts), JArr(t.deltas),
      JArr([t.edgeSamples]), JArr(t.lambdaOut), JArr(t.lambdaTw), JInt(0)];
    ProfileFieldAt(v, 0);
    ProfileFieldAt(v, 1);
    ProfileFieldAt(v, 2);
    ProfileFieldAt(v, 4);
    ProfileFieldAt(v, 8);
    ProfileFields(v)
  }

  /** The built-in `scalability` profile: every seed, no regular size, the
      scalability size added, first element of the other lists. */
  function ScalabilityProfile(t: TopLists): (r: Fields)
    ensures Lookup(r, "seeds") == Some(JArr(t.seeds))
    ensures Lookup(r, "sizes") == Some(JArr([]))
    ensures Lookup(r, "include_scalability") == Some(JBool(true))
    ensures Lookup(r, "bs_counts") == Some(JArr(First(t.bsCounts)))
    ensures Lookup(r, "max_cases") == Some(JInt(0))
  {
    var v := [
      JArr(t.seeds), JArr([]), JBool(true), JArr(First(t.bsCounts)), JArr(First(t.deltas)),
      JArr([t.edgeSamples]), JArr(First(t.lambdaOut)), JArr(First(t.lambdaTw)), JInt(0)];
    ProfileFieldAt(v, 0);
    ProfileFieldAt(v, 1);
    ProfileFieldAt(v, 2);
    ProfileFieldAt(v, 3);
    ProfileFieldAt(v, 8);
    ProfileFields(v)
  }

  /** Lookup in a three-entry object with distinct keys. */
  lemma LookupThree(d: Fields)
    requires |d| == 3 && d[0].0 != d[1].0 && d[0].0 != d[2].0 && d[1].0 != d[2].0
    ensures Lookup(d, d[0].0) == Some(d[0].1)
    ensures Lookup(d, d[1].0) == Some(d[1].1)
    ensures Lookup(d, d[2].0) == Some(d[2].1)
  {
    LookupFirst(d, d[0].0, 0);
    LookupFirst(d, d[1].0, 1);
    LookupFirst(d, d[2].0, 2);
  }

  /** The three built-in profiles, in order. */
  function DefaultProfiles(cfg: Fields): (r: Option<Fields>)
    ensures r.Some? <==> TopListsOf(cfg).Some?
    ensures r.Some? ==> Lookup(r.value, "quick") == Some(JObj(QuickProfile(TopListsOf(cfg).value)))
    ensures r.Some? ==> Lookup(r.value, "main_table") == Some(JObj(MainTableProfile(TopListsOf(cfg).value)))
    ensures r.Some? ==> Lookup(r.value, "scalability") == Some(JObj(ScalabilityProfile(TopListsOf(cfg).value)))
  {
    var t := TopListsOf(cfg);
    if t.None? then None
    else
      var d := [
        ("quick", JObj(QuickProfile(t.value))),
        ("main_table", JObj(MainTableProfile(t.value))),
        ("scalability", JObj(ScalabilityProfile(t.value)))];
      LookupThree(d);
      Some(d)
  }

  /** The defaults of a named profile, or the empty dictionary. */
  function ProfileBase(existing: Option<Json>): Fields
  {
    if existing.Some? && existing.value.JObj? then existing.value.fields else []
  }

  /** The profiles in `acc` with each of `users` merged in, in order: a
      profile is deep-merged over the entry of the same name, or over an
      empty dictionary; a profile that is not an object is an error. */
  function MergeProfiles(acc: Fields, users: Fields): Option<Fields>
    decreases |users|
  {
    if users == [] then Some(acc)
    else
      var name := users[0].0;
      var profile := users[0].1;
      if !profile.JObj? then None
      else MergeProfiles(Set(acc, name, JObj(DeepMerge(ProfileBase(Lookup(acc, name)), profile.fields))), users[1..])
  }

  /** One step of the profile merge is one assignment. */
  lemma ProfilesStep(acc: Fields, users: Fields)
    requires users != [] && MergeProfiles(acc, users).Some?
    ensures users[0].1.JObj?
    ensures var name := users[0].0;
      MergeProfiles(acc, users)
        == MergeProfiles(Set(acc, name, JObj(DeepMerge(ProfileBase(Lookup(acc, name)), users[0].1.fields))), users[1..])
  {
  }

  /** The profile names after merging are the earlier and the user's, and
      a profile the user does not mention keeps its earlier entry. */
  lemma {:induction false} ProfilesKeys(acc: Fields, users: Fields, k: string)
    requires MergeProfiles(acc, users).Some?
    ensures Lookup(MergeProfiles(acc, users).value, k).Some?
        <==> Lookup(acc, k).Some? || Lookup(users, k).Some?
    ensures Lookup(users, k).None? ==> Lookup(MergeProfiles(acc, users).value, k) == Lookup(acc, k)
    decreases |users|
  {
    if users != [] {
      ProfilesStep(acc, users);
      var name := users[0].0;
      var next := Set(acc, name, JObj(DeepMerge(ProfileBase(Lookup(acc, name)), users[0].1.fields)));
      ProfilesKeys(next, users[1..], k);
    }
  }

  /** With unique names, the head's name is not among the rest. */
  lemma UniqueTail(fields: Fields)
    requires fields != [] && UniqueKeys(fields)
    ensures UniqueKeys(fields[1..]) && Lookup(fields[1..], fields[0].0).None?
  {
    var tail := fields[1..];
    forall i, j | 0 <= i < j < |tail| ensures tail[i].0 != tail[j].0 {
      assert tail[i] == fields[i + 1] && tail[j] == fields[j + 1];
    }
    LookupSpec(tail, fields[0].0);
    forall i | 0 <= i < |tail| ensures tail[i].0 != fields[0].0 {
      assert tail[i] == fields[i + 1];
    }
  }

  /** A user profile is deep-merged over the earlier profile of the same
      name, or over nothing. */
  lemma {:induction false} UserProfileMerged(acc: Fields, users: Fields, name: string)
    requires UniqueKeys(users) && MergeProfiles(acc, users).Some?
    requires Lookup(users, name).Some?
    ensures Lookup(users, name).value.JObj?
    ensures Lookup(MergeProfiles(acc, users).value, name)
         == Some(JObj(DeepMerge(ProfileBase(Lookup(acc, name)), Lookup(users, name).value.fields)))
    decreases |users|
  {
    ProfilesStep(acc, users);
    var key := users[0].0;
    var next := Set(acc, key, JObj(DeepMerge(ProfileBase(Lookup(acc, key)), users[0].1.fields)));
    UniqueTail(users);
    if key == name {
      ProfilesKeys(next, users[1..], name);
    } else {
      UserProfileMerged(next, users[1..], name);
    }
  }

  /** `_normalize_profiles`. */
  function NormalizeProfiles(cfg: Fields): Option<Fields>
  {
    var defaults := DefaultProfiles(cfg);
    var users := Block(cfg, "profiles");
    if defaults.None? || users.None? then None
    else MergeProfiles(defaults.value, users.value)
  }

  /** The built-in profiles always survive normalisation. */
  lemma BuiltinProfilesPresent(cfg: Fields)
    requires NormalizeProfiles(cfg).Some?
    ensures Lookup(NormalizeProfiles(cfg).value, "quick").Some?
    ensures Lookup(NormalizeProfiles(cfg).value, "main_table").Some?
    ensures Lookup(NormalizeProfiles(cfg).value, "scalability").Some?
  {
    var d := DefaultProfiles(cfg).value;
    var users := Block(cfg, "profiles").value;
    ProfilesKeys(d, users, "quick");
    ProfilesKeys(d, users, "main_table");
    ProfilesKeys(d, users, "scalability");
  }

  // ---------------------------------------------------------------------
  // Legacy schema and profile selection

  /** The time-window block completed with its defaults; nothing else
      changes. */
  function WithTw(cfg: Fields): (r: Option<Fields>)
    ensures r.Some? <==> Block(cfg, "tw").Some?
    ensures r.Some? ==> Lookup(r.value, "tw") == Some(JObj(SetDefaults(Block(cfg, "tw").value, TwDefaults)))
    ensures r.Some? ==> forall k :: k != "tw" ==> Lookup(r.value, k) == Lookup(cfg, k)
  {
    var tw := Block(cfg, "tw");
    if tw.None? then None else Some(Set(cfg, "tw", JObj(SetDefaults(tw.value, TwDefaults))))
  }

  /** The solver block as the legacy rules complete it; nothing else
      changes. */
  function WithSolver(cfg: Fields): (r: Option<Fields>)
    ensures r.Some? ==> Block(cfg, "solver").Some? && Block(cfg, "pyvrp").Some?
    ensures r.Some? ==> Lookup(r.value, "solver").Some? && Lookup(r.value, "solver").value.JObj?
    ensures r.Some? ==> (Lookup(Lookup(r.value, "solver").value.fields, "heuristic_engine")
      == if Lookup(Block(cfg, "solver").value, "heuristic_engine").Some?
         then Lookup(Block(cfg, "solver").value, "heuristic_engine")
         else Some(JStr(LegacyEngine(Block(cfg, "pyvrp").value))))
    ensures r.Some? ==> forall k :: k != "solver" ==> Lookup(r.value, k) == Lookup(cfg, k)
  {
    var solver := Block(cfg, "solver");
    var pyvrp := Block(cfg, "pyvrp");
    if solver.None? || pyvrp.None? then None
    else
      var highs := if Lookup(solver.value, "time_limits").Some? then Some([]) else Block(cfg, "highs");
      var s := SolverBlock(solver.value, pyvrp.value, highs);
      if s.None? then None
      else Some(Set(cfg, "solver", JObj(s.value)))
  }

  /** The profiles replaced by the normalised ones; nothing else changes. */
  function WithProfiles(cfg: Fields): (r: Option<Fields>)
    ensures r.Some? ==> Lookup(r.value, "profiles").Some? && Lookup(r.value, "profiles").value.JObj?
    ensures r.Some? ==>
      var ps := Lookup(r.value, "profiles").value.fields;
      Lookup(ps, "quick").Some? && Lookup(ps, "main_table").Some? && Lookup(ps, "scalability").Some?
    ensures r.Some? ==> forall k :: k != "profiles" ==> Lookup(r.value, k) == Lookup(cfg, k)
  {
    var c := SetDefault(cfg, "profiles", JObj([]));
    var profiles := NormalizeProfiles(c);
    if profiles.None? then None
    else
      BuiltinProfilesPresent(c);
      Some(Set(c, "profiles", JObj(profiles.value)))
  }

  /** `_coerce_legacy_schema`. */
  function CoerceLegacy(cfg: Fields): Option<Fields>
  {
    var c2 := WithTw(SetDefaults(cfg, LegacyDefaults));
    if c2.None? then None
    else
      var c3 := WithSolver(c2.value);
      if c3.None? then None else WithProfiles(c3.value)
  }

  /** Top-level keys other than the three blocks keep the file's value or
      get the legacy default; nothing present is overwritten. */
  lemma LegacyTopLevel(cfg: Fields, k: string)
    requires CoerceLegacy(cfg).Some?
    requires k != "tw" && k != "solver" && k != "profiles"
    ensures Lookup(CoerceLegacy(cfg).value, k)
         == if Lookup(cfg, k).Some? then Lookup(cfg, k) else Lookup(LegacyDefaults, k)
  {
    SetDefaultsLookup(cfg, LegacyDefaults, k);
    var c2 := WithTw(SetDefaults(cfg, LegacyDefaults)).value;
    var c3 := WithSolver(c2).value;
    assert CoerceLegacy(cfg) == WithProfiles(c3);
    ProfilesStageSpares(c3, k);
    SolverStageSpares(c2, k);
  }

  /** The legacy defaults touch none of the three blocks. */
  lemma LegacyDefaultsSpareBlocks(cfg: Fields)
    ensures Lookup(SetDefaults(cfg, LegacyDefaults), "tw") == Lookup(cfg, "tw")
    ensures Lookup(SetDefaults(cfg, LegacyDefaults), "solver") == Lookup(cfg, "solver")
    ensures Lookup(SetDefaults(cfg, LegacyDefaults), "pyvrp") == Lookup(cfg, "pyvrp")
    ensures Lookup(SetDefaults(cfg, LegacyDefaults), "highs") == Lookup(cfg, "highs")
  {
    SparedByDefaults(cfg, "tw");
    SparedByDefaults(cfg, "solver");
    SparedByDefaults(cfg, "pyvrp");
    SparedByDefaults(cfg, "highs");
  }

  lemma SparedByDefaults(cfg: Fields, k: string)
    requires k !in LegacyKeys
    ensures Lookup(SetDefaults(cfg, LegacyDefaults), k) == Lookup(cfg, k)
  {
    SetDefaultsLookup(cfg, LegacyDefaults, k);
    LegacyDefaultsLack(k);
  }

  /** The time-window block of the coerced file is the file's own block
      completed with the time-window defaults (see `TwDefaultsFill`). */
  lemma LegacyTw(cfg: Fields)
    requires CoerceLegacy(cfg).Some?
    ensures Block(cfg, "tw").Some?
    ensures Lookup(CoerceLegacy(cfg).value, "tw") == Some(JObj(SetDefaults(Block(cfg, "tw").value, TwDefaults)))
  {
    var c1 := SetDefaults(cfg, LegacyDefaults);
    LegacyDefaultsSpareBlocks(cfg);
    var c2 := WithTw(c1).value;
    var c3 := WithSolver(c2).value;
    assert CoerceLegacy(cfg) == WithProfiles(c3);
    ProfilesStageSpares(c3, "tw");
    SolverStageSpares(c2, "tw");
  }

  lemma SolverStageSpares(c2: Fields, k: string)
    requires WithSolver(c2).Some? && k != "solver"
    ensures Lookup(WithSolver(c2).value, k) == Lookup(c2, k)
  {
  }

  /** The time-window defaults: soft windows of family A. */
  lemma TwDefaultsFill(tw: Fields)
    ensures Lookup(SetDefaults(tw, TwDefaults), "mode")
         == (if Lookup(tw, "mode").Some? then Lookup(tw, "mode") else Some(JStr("soft")))
    ensures Lookup(SetDefaults(tw, TwDefaults), "family")
         == (if Lookup(tw, "family").Some? then Lookup(tw, "family") else Some(JStr("A")))
  {
    SetDefaultsLookup(tw, TwDefaults, "mode");
    SetDefaultsLookup(tw, TwDefaults, "family");
  }

  /** The heuristic engine of the coerced file: the file's own, else PyVRP
      when the legacy `pyvrp.use_as_main` flag is truthy, else OR-Tools. */
  lemma LegacyEngineChoice(cfg: Fields)
    requires CoerceLegacy(cfg).Some?
    ensures Block(cfg, "solver").Some? && Block(cfg, "pyvrp").Some?
    ensures Lookup(CoerceLegacy(cfg).value, "solver").Some?
    ensures var solver := Lookup(CoerceLegacy(cfg).value, "solver").value;
      var given := Block(cfg, "solver").value;
      solver.JObj?
      && Lookup(solver.fields, "heuristic_engine")
         == if Lookup(given, "heuristic_engine").Some? then Lookup(given, "heuristic_engine")
            else Some(JStr(LegacyEngine(Block(cfg, "pyvrp").value)))
  {
    var c2 := WithTw(SetDefaults(cfg, LegacyDefaults)).value;
    TwStageSparesSolver(cfg);
    var c3 := WithSolver(c2).value;
    assert CoerceLegacy(cfg) == WithProfiles(c3);
    ProfilesStageSpares(c3, "solver");
  }

  lemma ProfilesStageSpares(c3: Fields, k: string)
    requires WithProfiles(c3).Some? && k != "profiles"
    ensures Lookup(WithProfiles(c3).value, k) == Lookup(c3, k)
  {
  }

  /** The first two stages leave the `solver` and `pyvrp` entries alone. */
  lemma TwStageSparesSolver(cfg: Fields)
    requires WithTw(SetDefaults(cfg, LegacyDefaults)).Some?
    ensures var c2 := WithTw(SetDefaults(cfg, LegacyDefaults)).value;
      Block(c2, "solver") == Block(cfg, "solver") && Block(c2, "pyvrp") == Block(cfg, "pyvrp")
  {
    LegacyDefaultsSpareBlocks(cfg);
    TwStageSpares(cfg, "solver");
    TwStageSpares(cfg, "pyvrp");
  }

  lemma TwStageSpares(cfg: Fields, k: string)
    requires WithTw(SetDefaults(cfg, LegacyDefaults)).Some?
    requires k != "tw" && Lookup(SetDefaults(cfg, LegacyDefaults), k) == Lookup(cfg, k)
    ensures Lookup(WithTw(SetDefaults(cfg, LegacyDefaults)).value, k) == Lookup(cfg, k)
  {
  }

  /** The coerced file always holds the three built-in profiles. */
  lemma LegacyProfiles(cfg: Fields)
    requires CoerceLegacy(cfg).Some?
    ensures Lookup(CoerceLegacy(cfg).value, "profiles").Some?
    ensures var ps := Lookup(CoerceLegacy(cfg).value, "profiles").value;
      ps.JObj?
      && Lookup(ps.fields, "quick").Some?
      && Lookup(ps.fields, "main_table").Some?
      && Lookup(ps.fields, "scalability").Some?
  {
  }

  /** What loading a configuration ends in. */
  datatype LoadOutcome =
    | Loaded(config: Fields, profile: string)
    | UnknownProfile(name: string)
    | Malformed

  /** The profile a run asks for: `main_table` unless one is named. */
  function ProfileName(requested: Option<string>): string
  {
    if requested.Some? then requested.value else "main_table"
  }

  /** The configuration before coercion: the base file, deep-merged with the
      override file when there is one. */
  function MergedConfig(base: Fields, overrideDoc: Option<Fields>): Fields
  {
    if overrideDoc.Some? then DeepMerge(base, overrideDoc.value) else base
  }

  /** `load_project_config` up to the choice of profile. */
  function LoadProjectConfig(base: Fields, overrideDoc: Option<Fields>, requested: Option<string>)
    : (r: LoadOutcome)
    ensures r.Malformed? <==> CoerceLegacy(MergedConfig(base, overrideDoc)).None?
    ensures r.Loaded? ==> (CoerceLegacy(MergedConfig(base, overrideDoc)) == Some(r.config)
      && r.profile == ProfileName(requested)
      && Lookup(r.config, "profiles").Some? && Lookup(r.config, "profiles").value.JObj?
      && Lookup(Lookup(r.config, "profiles").value.fields, r.profile).Some?)
    ensures r.UnknownProfile? ==> (r.name == ProfileName(requested)
      && CoerceLegacy(MergedConfig(base, overrideDoc)).Some?)
    ensures requested.None? || requested == Some("quick") || requested == Some("scalability")
      ==> !r.UnknownProfile?
  {
    var cfg := CoerceLegacy(MergedConfig(base, overrideDoc));
    if cfg.None? then Malformed
    else
      LegacyProfiles(MergedConfig(base, overrideDoc));
      var name := ProfileName(requested);
      var profiles := Lookup(cfg.value, "profiles").value.fields;
      if Lookup(profiles, name).None? then UnknownProfile(name) else Loaded(cfg.value, name)
  }
}

=== FILE: manuscript_builder.dfy ===
/** The pure helpers of the manuscript builder of the second submission
    pipeline (submit_v2/manuscript_builder.py): LaTeX escaping, the
    null guards of the number formatters, the method order of the service
    KPI table and the default column alignment.

    Rendering a finite number with a given precision is a parameter
    (`show`, `sci`, `fixed`); writing the `.tex` files is left out. */
module ManuscriptBuilder {
  import opened Numeric
  import opened Text
  import opened Sorting
  import opened Audit
  import EvidenceIndex

  // ---------------------------------------------------------------------
  // LaTeX escaping

  /** `_latex_escape`: eight replacements, applied one after the other to
      the whole text.  The result is the character-by-character
      translation: a backslash becomes `\textbackslash\{\}`, every other
      special character gets a backslash in front, and the rest is kept. */
  function LatexEscape(text: string): (r: string)
    ensures r == EscapeAll(text)
  {
    LatexEscapeByChar(text);
    ReplaceChain(text)
  }

  /** The eight replacements of `_latex_escape`, in the order `_latex_escape` applies them. */
  function ReplaceChain(text: string): string
  {
    var s1 := Replace(text, '\\', TextBackslash + "{}");
    var s2 := Replace(s1, '_', "\\_");
    var s3 := Replace(s2, '%', "\\%");
    var s4 := Replace(s3, '&', "\\&");
    var s5 := Replace(s4, '#', "\\#");
    var s6 := Replace(s5, '$', "\\$");
    var s7 := Replace(s6, '{', "\\{");
    Replace(s7, '}', "\\}")
  }

  /** The command a backslash turns into, without its braces. */
  const TextBackslash: string := "\\textbackslash"

  /** The characters the escape rewrites. */
  predicate Special(c: char)
  {
    c == '\\' || c == '_' || c == '%' || c == '&' || c == '#' || c == '$' || c == '{' || c == '}'
  }

  /** What one character becomes.  The braces of `\textbackslash{}` are
      themselves escaped by the later replacements. */
  function EscapeChar(c: char): (r: string)
    ensures !Special(c) ==> r == [c]
    ensures Special(c) && c != '\\' ==> r == ['\\', c]
    ensures c == '\\' ==> r == TextBackslash + "\\{\\}"
  {
    if c == '\\' then TextBackslash + "\\{\\}"
    else if Special(c) then ['\\', c]
    else [c]
  }

  /** The escape as a character-by-character translation. */
  function EscapeAll(s: string): string
  {
    if s == [] then "" else EscapeChar(s[0]) + EscapeAll(s[1..])
  }

  lemma ReplaceSingle(c: char, x: char, r: string)
    ensures Replace([c], x, r) == if c == x then r else [c]
  {
    assert [c][1..] == [];
  }

  /** Escaping a concatenation escapes each part. */
  lemma LatexEscapeAppend(a: string, b: string)
    ensures ReplaceChain(a + b) == ReplaceChain(a) + ReplaceChain(b)
  {
    var a1, b1 := Replace(a, '\\', TextBackslash + "{}"), Replace(b, '\\', TextBackslash + "{}");
    ReplaceAppend(a, b, '\\', TextBackslash + "{}");
    var a2, b2 := Replace(a1, '_', "\\_"), Replace(b1, '_', "\\_");
    ReplaceAppend(a1, b1, '_', "\\_");
    var a3, b3 := Replace(a2, '%', "\\%"), Replace(b2, '%', "\\%");
    ReplaceAppend(a2, b2, '%', "\\%");
    var a4, b4 := Replace(a3, '&', "\\&"), Replace(b3, '&', "\\&");
    ReplaceAppend(a3, b3, '&', "\\&");
    var a5, b5 := Replace(a4, '#', "\\#"), Replace(b4, '#', "\\#");
    ReplaceAppend(a4, b4, '#', "\\#");
    var a6, b6 := Replace(a5, '$', "\\$"), Replace(b5, '$', "\\$");
    ReplaceAppend(a5, b5, '$', "\\$");
    var a7, b7 := Replace(a6, '{', "\\{"), Replace(b6, '{', "\\{");
    ReplaceAppend(a6, b6, '{', "\\{");
    ReplaceAppend(a7, b7, '}', "\\}");
  }

  lemma TextBackslashPlain()
    ensures forall i :: 0 <= i < |TextBackslash| ==> TextBackslash[i] == '\\' || !Special(TextBackslash[i])
  {
  }

  /** A replacement of a special character leaves `\textbackslash` alone. */
  lemma ReplaceTextBackslash(c: char, r: string)
    requires Special(c) && c != '\\'
    ensures Replace(TextBackslash, c, r) == TextBackslash
  {
    TextBackslashPlain();
    ReplaceAbsent(TextBackslash, c, r);
  }

  /** A backslash becomes `\textbackslash\{\}`: the brace replacements run
      after it and escape the braces it introduced. */
  lemma EscapeBackslash()
    ensures ReplaceChain("\\") == TextBackslash + "\\{\\}"
  {
    var t := TextBackslash + "{}";
    ReplaceSingle('\\', '\\', t);
    assert Replace("\\", '\\', t) == t by {
      assert "\\" == ['\\'];
    }
    EscapePlainThenBraces(TextBackslash, "{}");
    EscapeBraces();
  }

  /** The five middle replacements leave `\textbackslash` followed by
      `tail` alone when `tail` has none of their characters. */
  lemma EscapePlainThenBraces(head: string, tail: string)
    requires head == TextBackslash
    requires forall i :: 0 <= i < |tail| ==> tail[i] == '{' || tail[i] == '}'
    ensures var t := head + tail;
      Replace(Replace(Replace(Replace(Replace(t, '_', "\\_"), '%', "\\%"), '&', "\\&"), '#', "\\#"), '$', "\\$") == t
  {
    var t := head + tail;
    assert forall i :: 0 <= i < |t| ==> !(t[i] in "_%&#$") by {
      TextBackslashPlain();
      forall i | 0 <= i < |t| ensures !(t[i] in "_%&#$") {
        if i < |head| { assert t[i] == head[i]; } else { assert t[i] == tail[i - |head|]; }
      }
    }
    ReplaceAbsent(t, '_', "\\_");
    ReplaceAbsent(t, '%', "\\%");
    ReplaceAbsent(t, '&', "\\&");
    ReplaceAbsent(t, '#', "\\#");
    ReplaceAbsent(t, '$', "\\$");
  }

  lemma EscapeBraces()
    ensures Replace(Replace(TextBackslash + "{}", '{', "\\{"), '}', "\\}") == TextBackslash + "\\{\\}"
  {
    EscapeOpenBrace();
    EscapeCloseBrace();
  }

  lemma EscapeOpenBrace()
    ensures Replace(TextBackslash + "{}", '{', "\\{") == TextBackslash + "\\{}"
  {
    assert Replace("{}", '{', "\\{") == "\\{}" by {
      assert "{}" == "{" + "}";
      ReplaceAppend("{", "}", '{', "\\{");
      ReplaceSingle('{', '{', "\\{");
      ReplaceSingle('}', '{', "\\{");
      assert "\\{}" == "\\{" + "}";
    }
    assert Replace(TextBackslash, '{', "\\{") == TextBackslash by {
      ReplaceTextBackslash('{', "\\{");
    }
    ReplaceAppend(TextBackslash, "{}", '{', "\\{");
  }

  lemma EscapeCloseBrace()
    ensures Replace(TextBackslash + "\\{}", '}', "\\}") == TextBackslash + "\\{\\}"
  {
    assert Replace("\\{}", '}', "\\}") == "\\{\\}" by {
      assert "\\{}" == "\\{" + "}";
      ReplaceAppend("\\{", "}", '}', "\\}");
      ReplaceAbsent("\\{", '}', "\\}");
      ReplaceSingle('}', '}', "\\}");
      assert "\\{\\}" == "\\{" + "\\}";
    }
    assert Replace(TextBackslash, '}', "\\}") == TextBackslash by {
      ReplaceTextBackslash('}', "\\}");
    }
    ReplaceAppend(TextBackslash, "\\{}", '}', "\\}");
  }

  /** Every other character is escaped by exactly its own replacement. */
  lemma EscapeOne(c: char)
    ensures ReplaceChain([c]) == EscapeChar(c)
  {
    if c == '\\' {
      EscapeBackslash();
    } else {
      ReplaceSingle(c, '\\', TextBackslash + "{}");
      ReplaceSingle(c, '_', "\\_");
      if c == '_' {
        ReplaceAbsent("\\_", '%', "\\%");
        ReplaceAbsent("\\_", '&', "\\&");
        ReplaceAbsent("\\_", '#', "\\#");
        ReplaceAbsent("\\_", '$', "\\$");
        ReplaceAbsent("\\_", '{', "\\{");
        ReplaceAbsent("\\_", '}', "\\}");
      } else {
        EscapeOneAfterUnderscore(c);
      }
    }
  }

  lemma EscapeOneAfterUnderscore(c: char)
    requires c != '\\' && c != '_'
    ensures ReplaceChain([c]) == EscapeChar(c)
  {
    ReplaceSingle(c, '\\', TextBackslash + "{}");
    ReplaceSingle(c, '_', "\\_");
    ReplaceSingle(c, '%', "\\%");
    var e := if c == '%' then "\\%" else [c];
    if c == '%' {
      ReplaceAbsent(e, '&', "\\&");
      ReplaceAbsent(e, '#', "\\#");
      ReplaceAbsent(e, '$', "\\$");
      ReplaceAbsent(e, '{', "\\{");
      ReplaceAbsent(e, '}', "\\}");
    } else {
      ReplaceSingle(c, '&', "\\&");
      ReplaceSingle(c, '#', "\\#");
      ReplaceSingle(c, '$', "\\$");
      ReplaceSingle(c, '{', "\\{");
      ReplaceSingle(c, '}', "\\}");
      if c == '&' {
        ReplaceAbsent("\\&", '#', "\\#");
        ReplaceAbsent("\\&", '$', "\\$");
        ReplaceAbsent("\\&", '{', "\\{");
        ReplaceAbsent("\\&", '}', "\\}");
      } else if c == '#' {
        ReplaceAbsent("\\#", '$', "\\$");
        ReplaceAbsent("\\#", '{', "\\{");
        ReplaceAbsent("\\#", '}', "\\}");
      } else if c == '$' {
        ReplaceAbsent("\\$", '{', "\\{");
        ReplaceAbsent("\\$", '}', "\\}");
      } else if c == '{' {
        ReplaceAbsent("\\{", '}', "\\}");
      }
    }
  }

  /** The replacement chain is the character-by-character translation: each
      special character is rewritten on its own and every other character
      is kept. */
  lemma {:induction false} LatexEscapeByChar(s: string)
    ensures ReplaceChain(s) == EscapeAll(s)
  {
    if s != [] {
      assert s == [s[0]] + s[1..];
      LatexEscapeAppend([s[0]], s[1..]);
      EscapeOne(s[0]);
      LatexEscapeByChar(s[1..]);
    }
  }

  /** Text without special characters is left as it is. */
  lemma {:induction false} LatexEscapeKeepsPlain(s: string)
    requires forall i :: 0 <= i < |s| ==> !Special(s[i])
    ensures LatexEscape(s) == s
  {
    PlainEscapesToItself(s);
  }

  lemma {:induction false} PlainEscapesToItself(s: string)
    requires forall i :: 0 <= i < |s| ==> !Special(s[i])
    ensures EscapeAll(s) == s
  {
    if s != [] {
      PlainEscapesToItself(s[1..]);
      assert s == [s[0]] + s[1..];
    }
  }

  // ---------------------------------------------------------------------
  // Number formatting

  /** The numeric value `float(x)` reads, if it is finite. */
  function FiniteValue(x: Cell, parseFloat: string -> Option<Float>): Option<real>
  {
    match x
    case Blank => None
    case Num(f) => if f.Finite? then Some(f.v) else None
    case Text(s) => FiniteOrNone(parseFloat(s))
  }

  /** `_fmt`: "--" for a missing, unparsable or non-finite value, the
      rendered number otherwise.  The guard is exactly the one of the
      evidence index's `_safe_num`. */
  function Fmt(x: Cell, nd: nat, parseFloat: string -> Option<Float>, show: (real, nat) -> string)
    : (r: string)
    ensures EvidenceIndex.SafeNum(x, parseFloat).None? ==> r == "--"
    ensures EvidenceIndex.SafeNum(x, parseFloat).Some? ==>
      r == show(EvidenceIndex.SafeNum(x, parseFloat).value, nd)
  {
    var v := FiniteValue(x, parseFloat);
    if v.None? then "--" else show(v.value, nd)
  }

  /** When no number renders as "--", `_fmt` prints "--" exactly for the
      values `_safe_num` rejects. */
  lemma FmtDashExactlyForMissing(x: Cell, nd: nat, parseFloat: string -> Option<Float>,
                                 show: (real, nat) -> string)
    requires forall v: real, d: nat :: show(v, d) != "--"
    ensures Fmt(x, nd, parseFloat, show) == "--" <==> EvidenceIndex.SafeNum(x, parseFloat).None?
  {
  }

  /** `_fmt_p`: "--" for a missing or non-finite p-value; scientific
      notation below 0.001, three decimals otherwise. */
  function FmtP(p: Cell, parseFloat: string -> Option<Float>, sci: real -> string, fixed: real -> string)
    : (r: string)
    ensures EvidenceIndex.SafeNum(p, parseFloat).None? ==> r == "--"
    ensures var v := EvidenceIndex.SafeNum(p, parseFloat);
      v.Some? ==> r == (if v.value < 0.001 then sci(v.value) else fixed(v.value))
  {
    var v := FiniteValue(p, parseFloat);
    if v.None? then "--"
    else if v.value < 0.001 then sci(v.value)
    else fixed(v.value)
  }

  /** `_fmt_ci`: "--" unless both ends are finite numbers, otherwise the
      bracketed pair. */
  function FmtCi(low: Cell, high: Cell, nd: nat, parseFloat: string -> Option<Float>,
                 show: (real, nat) -> string): (r: string)
    ensures var lo := EvidenceIndex.SafeNum(low, parseFloat);
      var hi := EvidenceIndex.SafeNum(high, parseFloat);
      lo.Some? && hi.Some? ==> r == "[" + show(lo.value, nd) + ", " + show(hi.value, nd) + "]"
  {
    if low.Blank? || high.Blank? then "--"
    else
      var lo := FiniteValue(low, parseFloat);
      var hi := FiniteValue(high, parseFloat);
      if lo.None? || hi.None? then "--"
      else "[" + show(lo.value, nd) + ", " + show(hi.value, nd) + "]"
  }

  /** The interval prints "--" exactly when one of its ends is missing or
      not a finite number, whatever the rendering of numbers. */
  lemma FmtCiDashIff(low: Cell, high: Cell, nd: nat, parseFloat: string -> Option<Float>,
                     show: (real, nat) -> string)
    ensures FmtCi(low, high, nd, parseFloat, show) == "--" <==>
      EvidenceIndex.SafeNum(low, parseFloat).None? || EvidenceIndex.SafeNum(high, parseFloat).None?
  {
    var r := FmtCi(low, high, nd, parseFloat, show);
    if EvidenceIndex.SafeNum(low, parseFloat).Some? && EvidenceIndex.SafeNum(high, parseFloat).Some? {
      assert r[0] == '[';
    }
  }

  // ---------------------------------------------------------------------
  // Tables

  /** `_write_table` without an explicit alignment: one left column, the
      rest right-aligned. */
  function DefaultAlign(columns: nat): (a: string)
    ensures |a| == if columns == 0 then 1 else columns
    ensures a[0] == 'l' && forall i :: 1 <= i < |a| ==> a[i] == 'r'
  {
    "l" + Repeat('r', if columns == 0 then 0 else columns - 1)
  }

  /** The alignment a table gets: the given one, else the default. */
  function ColumnAlign(given: Option<string>, columns: nat): (a: string)
    ensures given.Some? ==> a == given.value
  {
    if given.Some? then given.value else DefaultAlign(columns)
  }

  /** With at least one column, the default alignment names every column
      once, and reading back its length gives the column count. */
  lemma DefaultAlignCountsColumns(columns: nat)
    requires columns >= 1
    ensures |ColumnAlign(None, columns)| == columns
    ensures CountWhere(ColumnAlign(None, columns), (c: char) => c == 'r') == columns - 1
  {
    var a := DefaultAlign(columns);
    CountWhereAll(a[1..], (c: char) => c == 'r');
    assert a == [a[0]] + a[1..];
  }

  /** The fixed method order of the service KPI table. */
  const MethodOrder: seq<string> := ["highs_exact_bound", "ortools_main", "pyvrp_baseline"]

  /** `method_order.index(m)`, or 99 for a method outside the list. */
  function MethodRank(m: string): (r: nat)
    ensures r == 99 <==> m !in MethodOrder
    ensures r != 99 ==> r < |MethodOrder| && MethodOrder[r] == m
  {
    if m == MethodOrder[0] then 0
    else if m == MethodOrder[1] then 1
    else if m == MethodOrder[2] then 2
    else 99
  }

  /** A row of the service KPI table: the size (`None` for a missing one),
      the method and the other cells. */
  datatype KpiRow = KpiRow(n: Option<real>, methodName: string, cells: seq<Cell>)

  /** The size order of `sort_values`: ascending, missing sizes last. */
  predicate SizeLess(a: Option<real>, b: Option<real>)
  {
    a.Some? && (b.None? || a.value < b.value)
  }

  /** By size, then method rank, then method name. */
  predicate KpiLeq(x: KpiRow, y: KpiRow)
  {
    if x.n != y.n then SizeLess(x.n, y.n)
    else if MethodRank(x.methodName) != MethodRank(y.methodName) then MethodRank(x.methodName) < MethodRank(y.methodName)
    else LexLeq(x.methodName, y.methodName)
  }

  function ByKpi(): (KpiRow, KpiRow) -> bool
  {
    (x: KpiRow, y: KpiRow) => KpiLeq(x, y)
  }

  lemma KpiLeqTotal(x: KpiRow, y: KpiRow)
    ensures KpiLeq(x, y) || KpiLeq(y, x)
  {
    LexLessTotal(x.methodName, y.methodName);
  }

  lemma KpiLeqTransitive(x: KpiRow, y: KpiRow, z: KpiRow)
    requires KpiLeq(x, y) && KpiLeq(y, z)
    ensures KpiLeq(x, z)
  {
    if x.n == y.n && y.n == z.n && MethodRank(x.methodName) == MethodRank(y.methodName)
       && MethodRank(y.methodName) == MethodRank(z.methodName)
    {
      if LexLess(x.methodName, y.methodName) && LexLess(y.methodName, z.methodName) {
        LexLessTransitive(x.methodName, y.methodName, z.methodName);
      }
    }
  }

  lemma ByKpiTotal()
    ensures TotalPreorder(ByKpi())
  {
    forall x: KpiRow, y: KpiRow ensures KpiLeq(x, y) || KpiLeq(y, x) {
      KpiLeqTotal(x, y);
    }
    forall x: KpiRow, y: KpiRow, z: KpiRow | KpiLeq(x, y) && KpiLeq(y, z) ensures KpiLeq(x, z) {
      KpiLeqTransitive(x, y, z);
    }
  }

  /** `_prepare_kpi_table`'s ordering: the same rows, by size, then the
      fixed method order with other methods after it, then method name. */
  function OrderKpiRows(rows: seq<KpiRow>): (r: seq<KpiRow>)
    ensures multiset(r) == multiset(rows)
    ensures forall i, j :: 0 <= i < j < |r| ==> KpiLeq(r[i], r[j])
  {
    ByKpiTotal();
    SortSorted(rows, ByKpi());
    var r := Sort(rows, ByKpi());
    assert forall i, j :: 0 <= i < j < |r| ==> ByKpi()(r[i], r[j]);
    r
  }

  /** Within one size, HiGHS comes before OR-Tools, OR-Tools before PyVRP,
      and all three before any other method. */
  lemma KpiMethodsInFixedOrder(rows: seq<KpiRow>, i: nat, j: nat)
    requires i < |OrderKpiRows(rows)| && j < |OrderKpiRows(rows)|
    requires OrderKpiRows(rows)[i].n == OrderKpiRows(rows)[j].n
    requires MethodRank(OrderKpiRows(rows)[i].methodName) < MethodRank(OrderKpiRows(rows)[j].methodName)
    ensures i < j
  {
  }

  /** A row with a size comes before every row without one, and smaller
      sizes come first. */
  lemma KpiSizesAscending(rows: seq<KpiRow>, i: nat, j: nat)
    requires i < |OrderKpiRows(rows)| && j < |OrderKpiRows(rows)|
    requires SizeLess(OrderKpiRows(rows)[i].n, OrderKpiRows(rows)[j].n)
    ensures i < j
  {
  }
}

=== FILE: matrices.dfy ===
/** Square node-by-node matrices (node 0 = depot, node i = client i - 1). */
module Matrices {
  import opened Schema

  /** `m` is a `k` by `k` matrix. */
  predicate Square(m: Matrix, k: nat)
  {
    |m| == k && forall i :: 0 <= i < k ==> |m[i]| == k
  }

  predicate Symmetric(m: Matrix, k: nat)
    requires Square(m, k)
  {
    forall i, j :: 0 <= i < k && 0 <= j < k ==> m[i][j] == m[j][i]
  }

  predicate ZeroDiagonal(m: Matrix, k: nat)
    requires Square(m, k)
  {
    forall i :: 0 <= i < k ==> m[i][i] == 0.0
  }

  /** Entry `(i, j)` of `m`, read as 0 outside the matrix. */
  function At(m: Matrix, i: nat, j: nat): real
  {
    if i < |m| && j < |m[i]| then m[i][j] else 0.0
  }

  /** Every entry of `m` is a fraction. */
  predicate UnitEntries(m: Matrix)
  {
    forall i, j :: 0 <= i < |m| && 0 <= j < |m[i]| ==> 0.0 <= m[i][j] <= 1.0
  }

  /** Node coordinates: the depot first, then the clients in order. */
  function Coords(sc: ScenarioData): (c: seq<Point>)
    ensures |c| == |sc.clientXy| + 1
    ensures c[0] == sc.depotXy
    ensures forall i :: 0 <= i < |sc.clientXy| ==> c[i + 1] == sc.clientXy[i]
  {
    [sc.depotXy] + sc.clientXy
  }

  /** The matrix `compute_distance_and_time_matrices` and
      `compute_risk_matrix` fill by their `for i` / `for j in range(i + 1, n)`
      double loop over a zero matrix: entry `(i, j)` with `i < j` is
      `f(p[i], p[j])`, mirrored to `(j, i)`, and the diagonal stays zero. */
  function PairMatrix(p: seq<Point>, f: (Point, Point) -> real): (m: Matrix)
    ensures Square(m, |p|)
    ensures Symmetric(m, |p|)
    ensures ZeroDiagonal(m, |p|)
    ensures forall i, j :: 0 <= i < j < |p| ==> m[i][j] == f(p[i], p[j])
  {
    seq(|p|, i requires 0 <= i < |p| =>
      seq(|p|, j requires 0 <= j < |p| =>
        if i < j then f(p[i], p[j]) else if j < i then f(p[j], p[i]) else 0.0))
  }

  /** Every entry of `m` divided by `s` (numpy's `m / s`). */
  function DivideAll(m: Matrix, k: nat, s: real): (r: Matrix)
    requires Square(m, k) && s != 0.0
    ensures Square(r, k)
    ensures forall i, j :: 0 <= i < k && 0 <= j < k ==> r[i][j] == m[i][j] / s
    ensures Symmetric(m, k) ==> Symmetric(r, k)
    ensures ZeroDiagonal(m, k) ==> ZeroDiagonal(r, k)
  {
    seq(k, i requires 0 <= i < k => seq(k, j requires 0 <= j < k => m[i][j] / s))
  }

  /** Entries of a pair matrix stay within any bounds that `f` respects. */
  lemma PairMatrixBounds(p: seq<Point>, f: (Point, Point) -> real, lo: real, hi: real)
    requires lo <= 0.0 <= hi
    requires forall i, j :: 0 <= i < j < |p| ==> lo <= f(p[i], p[j]) <= hi
    ensures forall i, j :: 0 <= i < |p| && 0 <= j < |p| ==> lo <= PairMatrix(p, f)[i][j] <= hi
  {
  }
}

=== FILE: merge_shards.dfy ===
/** Merging the outputs of sharded benchmark runs into one set of tables.

    The shard directories are the entries of the shards root whose name
    starts with `shard_`, taken in name order.  Their main tables are
    stacked and reduced to one row per `(run_id, method)`, the first one
    seen winning; their route tables are stacked and reduced to one row per
    `(run_id, uav_id, route_node_sequence)`.  Reading the CSV files is left
    out: a shard carries the tables it holds, `None` for a missing file. */
module MergeShards {
  import opened Numeric
  import opened Text
  import opened Sorting
  import opened Schema
  import opened ExportCsv

  /** One entry of the shards root. */
  datatype ShardDir = ShardDir(name: string, isDir: bool, main: Option<Table>, routes: Option<Table>)

  /** How a merge ends. */
  datatype MergeOutcome =
    | TooFewShards(found: nat)
    | NoMainTables
    | Merged(main: Table, routes: Table)

  const MainKey: seq<string> := ["run_id", "method"]
  const RouteKey: seq<string> := ["run_id", "uav_id", "route_node_sequence"]

  /** The cells of a row under the key columns. */
  function KeyOf(keyCols: seq<string>): Row -> seq<Value>
  {
    (row: Row) => seq(|keyCols|, j requires 0 <= j < |keyCols| => Get(row, keyCols[j]))
  }

  /** Entry `i` is the first entry with its key. */
  predicate FirstOfKey<T, K(==)>(xs: seq<T>, key: T -> K, i: nat)
    requires i < |xs|
  {
    forall q :: 0 <= q < i ==> key(xs[q]) != key(xs[i])
  }

  /** Some entry of `xs` has the key `k`. */
  predicate KeyIn<T, K(==)>(xs: seq<T>, key: T -> K, k: K)
  {
    exists j :: 0 <= j < |xs| && key(xs[j]) == k
  }

  /** No two entries share a key. */
  predicate KeysDistinct<T, K(==)>(xs: seq<T>, key: T -> K)
  {
    forall i, j :: 0 <= i < j < |xs| ==> key(xs[i]) != key(xs[j])
  }

  /** `drop_duplicates(subset=..., keep="first")`: the first entry of every
      key, in input order. */
  function DropDuplicates<T, K(==)>(xs: seq<T>, key: T -> K): (r: seq<T>)
    ensures |r| <= |xs|
  {
    if xs == [] then []
    else
      var n := |xs| - 1;
      var pre := DropDuplicates(xs[..n], key);
      if KeyIn(pre, key, key(xs[n])) then pre else pre + [xs[n]]
  }

  /** The kept entries have distinct keys. */
  lemma {:induction false} DropDuplicatesDistinct<T, K>(xs: seq<T>, key: T -> K)
    ensures KeysDistinct(DropDuplicates(xs, key), key)
  {
    if xs != [] {
      var n := |xs| - 1;
      var pre := DropDuplicates(xs[..n], key);
      DropDuplicatesDistinct(xs[..n], key);
      if !KeyIn(pre, key, key(xs[n])) {
        var r := pre + [xs[n]];
        forall i, j | 0 <= i < j < |r|
          ensures key(r[i]) != key(r[j])
        {
          if j == n || j == |pre| {
            assert r[i] == pre[i];
          } else {
            assert r[i] == pre[i] && r[j] == pre[j];
          }
        }
      }
    }
  }

  /** Every key of the input survives. */
  lemma {:induction false} DropDuplicatesComplete<T, K>(xs: seq<T>, key: T -> K, i: nat)
    requires i < |xs|
    ensures KeyIn(DropDuplicates(xs, key), key, key(xs[i]))
  {
    var n := |xs| - 1;
    var pre := DropDuplicates(xs[..n], key);
    var r := DropDuplicates(xs, key);
    if i < n {
      DropDuplicatesComplete(xs[..n], key, i);
      var j :| 0 <= j < |pre| && key(pre[j]) == key(xs[..n][i]);
      assert r[j] == pre[j];
    } else if !KeyIn(pre, key, key(xs[n])) {
      assert r[|pre|] == xs[n];
    }
  }

  /** Every kept entry is the first entry of its key. */
  lemma {:induction false} DropDuplicatesFirst<T, K>(xs: seq<T>, key: T -> K, j: nat)
    requires j < |DropDuplicates(xs, key)|
    ensures exists i :: 0 <= i < |xs| && DropDuplicates(xs, key)[j] == xs[i] && FirstOfKey(xs, key, i)
  {
    var n := |xs| - 1;
    var pre := DropDuplicates(xs[..n], key);
    var r := DropDuplicates(xs, key);
    if j < |pre| {
      DropDuplicatesFirst(xs[..n], key, j);
      var i :| 0 <= i < n && pre[j] == xs[..n][i] && FirstOfKey(xs[..n], key, i);
      assert r[j] == xs[i];
      assert FirstOfKey(xs, key, i) by {
        forall q | 0 <= q < i ensures key(xs[q]) != key(xs[i]) {
          assert xs[..n][q] == xs[q];
        }
      }
    } else {
      assert r[j] == xs[n];
      forall q | 0 <= q < n
        ensures key(xs[q]) != key(xs[n])
      {
        DropDuplicatesComplete(xs[..n], key, q);
        assert xs[..n][q] == xs[q];
      }
      assert FirstOfKey(xs, key, n);
    }
  }

  /** A sequence with distinct keys has nothing to drop. */
  lemma {:induction false} DropDuplicatesIdempotent<T, K>(xs: seq<T>, key: T -> K)
    requires KeysDistinct(xs, key)
    ensures DropDuplicates(xs, key) == xs
  {
    if xs != [] {
      var n := |xs| - 1;
      assert KeysDistinct(xs[..n], key) by {
        forall i, j | 0 <= i < j < n ensures key(xs[..n][i]) != key(xs[..n][j]) {
          assert xs[..n][i] == xs[i] && xs[..n][j] == xs[j];
        }
      }
      DropDuplicatesIdempotent(xs[..n], key);
      assert !KeyIn(xs[..n], key, key(xs[n])) by {
        forall j | 0 <= j < n ensures key(xs[..n][j]) != key(xs[n]) {
          assert xs[..n][j] == xs[j];
        }
      }
      assert xs[..n] + [xs[n]] == xs;
    }
  }

  /** The rows of the tables one after another (`pd.concat`). */
  function StackRows(tables: seq<Table>): (rows: seq<Row>)
    ensures |tables| > 0 ==> StackRows(tables[..|tables| - 1]) + tables[|tables| - 1].rows == rows
  {
    if tables == [] then []
    else StackRows(tables[..|tables| - 1]) + tables[|tables| - 1].rows
  }

  /** A row of any stacked table is a row of the stack. */
  lemma {:induction false} StackRowsContains(tables: seq<Table>, t: nat, i: nat)
    requires t < |tables| && i < |tables[t].rows|
    ensures tables[t].rows[i] in StackRows(tables)
  {
    var n := |tables| - 1;
    if t < n {
      StackRowsContains(tables[..n], t, i);
    }
  }

  /** Shard order: by directory name. */
  function ByShardName(): (ShardDir, ShardDir) -> bool
  {
    (a: ShardDir, b: ShardDir) => LexLeq(a.name, b.name)
  }

  lemma ByShardNameTotal()
    ensures TotalPreorder(ByShardName())
  {
    forall a: ShardDir, b: ShardDir
      ensures LexLeq(a.name, b.name) || LexLeq(b.name, a.name)
    {
      LexLessTotal(a.name, b.name);
    }
    forall a: ShardDir, b: ShardDir, c: ShardDir | LexLeq(a.name, b.name) && LexLeq(b.name, c.name)
      ensures LexLeq(a.name, c.name)
    {
      if LexLess(a.name, b.name) && LexLess(b.name, c.name) {
        LexLessTransitive(a.name, b.name, c.name);
      }
    }
  }

  predicate IsShard(e: ShardDir)
  {
    e.isDir && StartsWith(e.name, "shard_")
  }

  /** `sorted(p for p in root.glob("shard_*") if p.is_dir())`. */
  function ShardDirs(entries: seq<ShardDir>): (dirs: seq<ShardDir>)
    ensures forall d :: d in dirs <==> d in entries && IsShard(d)
    ensures SortedBy(dirs, ByShardName())
  {
    var found := Filter(entries);
    ByShardNameTotal();
    SortSorted(found, ByShardName());
    forall d
      ensures d in Sort(found, ByShardName()) <==> d in found
    {
      SortSameElements(found, ByShardName(), d);
    }
    Sort(found, ByShardName())
  }

  function Filter(entries: seq<ShardDir>): (r: seq<ShardDir>)
    ensures forall d :: d in r <==> d in entries && IsShard(d)
  {
    if entries == [] then []
    else
      var n := |entries| - 1;
      assert entries == entries[..n] + [entries[n]];
      Filter(entries[..n]) + (if IsShard(entries[n]) then [entries[n]] else [])
  }

  /** The tables of the shards that hold a main table, in shard order. */
  function MainTables(dirs: seq<ShardDir>): (ts: seq<Table>)
    ensures |ts| == 0 <==> forall k :: 0 <= k < |dirs| ==> dirs[k].main.None?
    ensures forall k :: 0 <= k < |dirs| && dirs[k].main.Some? ==> dirs[k].main.value in ts
  {
    if dirs == [] then []
    else
      var n := |dirs| - 1;
      var pre := MainTables(dirs[..n]);
      assert forall k :: 0 <= k < n ==> dirs[..n][k] == dirs[k];
      pre + (if dirs[n].main.Some? then [dirs[n].main.value] else [])
  }

  /** The tables of the shards that hold a route table, in shard order. */
  function RouteTables(dirs: seq<ShardDir>): (ts: seq<Table>)
    ensures |ts| == 0 <==> forall k :: 0 <= k < |dirs| ==> dirs[k].routes.None?
  {
    if dirs == [] then []
    else
      var n := |dirs| - 1;
      var pre := RouteTables(dirs[..n]);
      assert forall k :: 0 <= k < n ==> dirs[..n][k] == dirs[k];
      pre + (if dirs[n].routes.Some? then [dirs[n].routes.value] else [])
  }

  /** The merged main table before de-duplication: every shard's rows,
      under exactly the main columns. */
  function StackedMain(tables: seq<Table>): Table
  {
    EnsureColumns(Table(ColumnsOf(StackRows(tables)), StackRows(tables)), MainColumns)
  }

  /** `main` of `merge_sharded_results.py`, up to writing the tables and
      computing the significance table from the merged main table. */
  function MergeShardResults(entries: seq<ShardDir>, requireShards: int): (r: MergeOutcome)
    ensures r.TooFewShards? <==> |ShardDirs(entries)| < requireShards
    ensures r.TooFewShards? ==> r.found == |ShardDirs(entries)|
    ensures r.NoMainTables? <==> (|ShardDirs(entries)| >= requireShards
      && forall d :: d in entries && IsShard(d) ==> d.main.None?)
    ensures r.Merged? ==> r.main.columns == MainColumns && r.routes.columns == RoutesColumns
  {
    var dirs := ShardDirs(entries);
    if |dirs| < requireShards then TooFewShards(|dirs|)
    else
      var mains := MainTables(dirs);
      assert (forall k :: 0 <= k < |dirs| ==> dirs[k].main.None?)
        <==> (forall d :: d in entries && IsShard(d) ==> d.main.None?);
      if |mains| == 0 then NoMainTables
      else
        var stacked := StackedMain(mains);
        var main := Table(MainColumns, DropDuplicates(stacked.rows, KeyOf(MainKey)));
        var routeTables := RouteTables(dirs);
        var routes :=
          if |routeTables| == 0 then Table(RoutesColumns, [])
          else
            var all := StackRows(routeTables);
            var t := EnsureColumns(Table(ColumnsOf(all), all), RoutesColumns);
            Table(RoutesColumns, DropDuplicates(t.rows, KeyOf(RouteKey)));
        Merged(main, routes)
  }

  /** The merged main table has one row per `(run_id, method)`: no key
      twice, every key of the stacked shard tables present, and each kept
      row the first one in shard order. */
  lemma MergedMainKeys(entries: seq<ShardDir>, requireShards: int, i: nat, j: nat)
    requires MergeShardResults(entries, requireShards).Merged?
    ensures var main := MergeShardResults(entries, requireShards).main;
      var stacked := StackedMain(MainTables(ShardDirs(entries))).rows;
      && KeysDistinct(main.rows, KeyOf(MainKey))
      && (i < |stacked| ==> KeyIn(main.rows, KeyOf(MainKey), KeyOf(MainKey)(stacked[i])))
      && (j < |main.rows| ==>
            exists p :: 0 <= p < |stacked| && main.rows[j] == stacked[p] && FirstOfKey(stacked, KeyOf(MainKey), p))
  {
    var stacked := StackedMain(MainTables(ShardDirs(entries))).rows;
    DropDuplicatesDistinct(stacked, KeyOf(MainKey));
    if i < |stacked| {
      DropDuplicatesComplete(stacked, KeyOf(MainKey), i);
    }
    if j < |DropDuplicates(stacked, KeyOf(MainKey))| {
      DropDuplicatesFirst(stacked, KeyOf(MainKey), j);
    }
  }

  /** Every row of every shard's main table has its key in the merged
      table. */
  lemma ShardKeysKept(entries: seq<ShardDir>, requireShards: int, d: ShardDir, i: nat)
    requires MergeShardResults(entries, requireShards).Merged?
    requires d in entries && IsShard(d) && d.main.Some? && i < |d.main.value.rows|
    ensures KeyIn(MergeShardResults(entries, requireShards).main.rows, KeyOf(MainKey),
                  KeyOf(MainKey)(d.main.value.rows[i]))
  {
    var dirs := ShardDirs(entries);
    var mains := MainTables(dirs);
    var k :| 0 <= k < |dirs| && dirs[k] == d;
    var t :| 0 <= t < |mains| && mains[t] == d.main.value;
    StackRowsContains(mains, t, i);
    var all := StackRows(mains);
    var p :| 0 <= p < |all| && all[p] == d.main.value.rows[i];
    var stacked := StackedMain(mains);
    MainKeyInColumns();
    SameKey(Table(ColumnsOf(all), all), MainColumns, MainKey, p);
    MergedMainKeys(entries, requireShards, p, 0);
  }

  /** Ensuring columns that include the key columns keeps a row's key. */
  lemma SameKey(t: Table, cols: seq<string>, keyCols: seq<string>, p: nat)
    requires p < |t.rows| && forall j :: 0 <= j < |keyCols| ==> keyCols[j] in cols
    ensures KeyOf(keyCols)(EnsureColumns(t, cols).rows[p]) == KeyOf(keyCols)(t.rows[p])
  {
    forall j | 0 <= j < |keyCols|
      ensures Get(EnsureColumns(t, cols).rows[p], keyCols[j]) == Get(t.rows[p], keyCols[j])
    {
      EnsureColumnsCells(t, cols, p, keyCols[j]);
    }
  }

  /** The main key columns are main columns. */
  lemma MainKeyInColumns()
    ensures forall j :: 0 <= j < |MainKey| ==> MainKey[j] in MainColumns
  {
    assert MainColumns[0] == MainKey[0] && MainColumns[6] == MainKey[1];
  }

  /** Without route files the merged route table is empty, with exactly the
      route columns. */
  lemma NoRoutesEmpty(entries: seq<ShardDir>, requireShards: int)
    requires MergeShardResults(entries, requireShards).Merged?
    requires forall d :: d in entries && IsShard(d) ==> d.routes.None?
    ensures MergeShardResults(entries, requireShards).routes == Table(RoutesColumns, [])
  {
    var dirs := ShardDirs(entries);
    assert forall k :: 0 <= k < |dirs| ==> dirs[k] in dirs;
  }

  /** The merged route table has no two rows for the same route. */
  lemma MergedRoutesUnique(entries: seq<ShardDir>, requireShards: int)
    requires MergeShardResults(entries, requireShards).Merged?
    ensures KeysDistinct(MergeShardResults(entries, requireShards).routes.rows, KeyOf(RouteKey))
  {
    var routeTables := RouteTables(ShardDirs(entries));
    if |routeTables| > 0 {
      var all := StackRows(routeTables);
      DropDuplicatesDistinct(EnsureColumns(Table(ColumnsOf(all), all), RoutesColumns).rows, KeyOf(RouteKey));
    }
  }
}

=== FILE: numeric.dfy ===
/** Numeric vocabulary shared by every module of the model.

    uavtre mixes Python `None`, IEEE floats (with NaN and the two
    infinities) and plain numbers.  Here a real number is a Dafny `real`
    (overflow and rounding are not modelled), a raw IEEE value is a `Float`,
    and a nullable metric is an `Option<real>`. */
module Numeric {

  /** Conventional optional value: `None` models Python `None` (and, in result
      rows, a NaN cell). */
  datatype Option<+T> = None | Some(value: T)

  /** A raw floating-point value as a solver or a CSV reader may hand it over. */
  datatype Float = Finite(v: real) | PosInf | NegInf | NaN

  function Max(a: real, b: real): real
  {
    if a >= b then a else b
  }

  function Min(a: real, b: real): real
  {
    if a <= b then a else b
  }

  function Abs(a: real): real
  {
    if a >= 0.0 then a else -a
  }

  function MaxInt(a: int, b: int): int
  {
    if a >= b then a else b
  }

  /** Python `int(v)` on a float: truncation toward zero. */
  function Trunc(v: real): (r: int)
    ensures v >= 0.0 ==> r as real <= v < r as real + 1.0
    ensures v < 0.0 ==> r as real - 1.0 < v <= r as real
  {
    if v >= 0.0 then v.Floor else -((-v).Floor)
  }

  /** `math.isfinite` folded with the `None` check. */
  function FiniteOrNone(x: Option<Float>): (r: Option<real>)
    ensures r.Some? <==> x.Some? && x.value.Finite?
    ensures r.Some? ==> x == Some(Finite(r.value))
  {
    match x
    case Some(Finite(v)) => Some(v)
    case _ => None
  }

  /** Number of entries of `xs` that satisfy `p`. */
  function CountWhere<T>(xs: seq<T>, p: T -> bool): (n: nat)
    ensures n <= |xs|
  {
    if xs == [] then 0 else (if p(xs[0]) then 1 else 0) + CountWhere(xs[1..], p)
  }

  lemma CountWhereAppend<T>(xs: seq<T>, ys: seq<T>, p: T -> bool)
    ensures CountWhere(xs + ys, p) == CountWhere(xs, p) + CountWhere(ys, p)
  {
    if xs == [] {
      assert xs + ys == ys;
    } else {
      assert (xs + ys)[1..] == xs[1..] + ys;
      CountWhereAppend(xs[1..], ys, p);
    }
  }

  /** A count is zero exactly when no entry satisfies the predicate. */
  lemma {:induction false} CountWhereZero<T>(xs: seq<T>, p: T -> bool)
    ensures CountWhere(xs, p) == 0 <==> forall i :: 0 <= i < |xs| ==> !p(xs[i])
  {
    if xs != [] {
      CountWhereZero(xs[1..], p);
      assert forall i :: 1 <= i < |xs| ==> xs[i] == xs[1..][i - 1];
    }
  }

  /** A count is the full length exactly when every entry satisfies the
      predicate. */
  lemma {:induction false} CountWhereAll<T>(xs: seq<T>, p: T -> bool)
    ensures CountWhere(xs, p) == |xs| <==> forall i :: 0 <= i < |xs| ==> p(xs[i])
  {
    if xs != [] {
      CountWhereAll(xs[1..], p);
      assert forall i :: 1 <= i < |xs| ==> xs[i] == xs[1..][i - 1];
    }
  }
}

=== FILE: objective.dfy ===
/** Arc costs and route evaluation (costs/objective.py).

    Node 0 is the depot and node `c + 1` is client `c`; a route lists client
    indices.  Sums are taken over the reals, so the order in which
    `evaluate_routes` adds floating-point terms does not matter here. */
module Objective {
  import opened Numeric
  import opened Text
  import opened Schema
  import opened Matrices

  /** `build_edge_data`: energy is the per-metre energy times distance and the
      arc cost is the scaled sum of energy and weighted risk, entry by entry;
      distance, travel time and risk pass through untouched. */
  function BuildEdgeData(dist: Matrix, travel: Matrix, risk: Matrix, cs: CostSpec): (e: EdgeData)
    requires |risk| == |dist|
    requires forall i :: 0 <= i < |dist| ==> |risk[i]| == |dist[i]|
    ensures e.distanceM == dist && e.travelTimeS == travel && e.risk == risk
    ensures |e.energy| == |dist| && |e.cost| == |dist|
    ensures forall i :: 0 <= i < |dist| ==> |e.energy[i]| == |dist[i]| && |e.cost[i]| == |dist[i]|
    ensures forall i, j :: 0 <= i < |dist| && 0 <= j < |dist[i]| ==>
      e.energy[i][j] == cs.energyPerM * dist[i][j]
    ensures forall i, j :: 0 <= i < |dist| && 0 <= j < |dist[i]| ==>
      e.cost[i][j] == cs.costScale * (e.energy[i][j] + cs.lambdaOut * cs.riskScale * risk[i][j])
  {
    var energy := seq(|dist|, i requires 0 <= i < |dist| =>
      seq(|dist[i]|, j requires 0 <= j < |dist[i]| => cs.energyPerM * dist[i][j]));
    var cost := seq(|dist|, i requires 0 <= i < |dist| =>
      seq(|dist[i]|, j requires 0 <= j < |dist[i]| =>
        cs.costScale * (energy[i][j] + cs.lambdaOut * cs.riskScale * risk[i][j])));
    EdgeData(dist, travel, risk, energy, cost)
  }

  /** Symmetric distances and risks give symmetric energy and cost matrices. */
  lemma BuildEdgeDataSymmetric(dist: Matrix, travel: Matrix, risk: Matrix, cs: CostSpec, k: nat)
    requires Square(dist, k) && Square(risk, k)
    requires Symmetric(dist, k) && Symmetric(risk, k)
    ensures Square(BuildEdgeData(dist, travel, risk, cs).energy, k)
    ensures Square(BuildEdgeData(dist, travel, risk, cs).cost, k)
    ensures Symmetric(BuildEdgeData(dist, travel, risk, cs).energy, k)
    ensures Symmetric(BuildEdgeData(dist, travel, risk, cs).cost, k)
  {
  }

  /** The scenario and edge data agree on the number of clients `n`: every
      per-client array has `n` entries and every matrix is `n + 1` square. */
  predicate Shaped(sc: ScenarioData, e: EdgeData)
  {
    var n := |sc.clientXy|;
    |sc.twEarlyS| == n && |sc.twLateS| == n && |sc.serviceDurationS| == n
    && Square(e.travelTimeS, n + 1) && Square(e.energy, n + 1)
    && Square(e.risk, n + 1) && Square(e.cost, n + 1)
  }

  /** Every route entry names an existing client. */
  predicate ClientsInRange(routes: seq<seq<nat>>, n: nat)
  {
    forall r, c :: 0 <= r < |routes| && 0 <= c < |routes[r]| ==> routes[r][c] < n
  }

  /** Node sequence of a route without the return leg: depot, then client+1. */
  function Nodes(route: seq<nat>): (p: seq<nat>)
    ensures |p| == |route| + 1 && p[0] == 0
    ensures forall k :: 0 <= k < |route| ==> p[k + 1] == route[k] + 1
  {
    [0] + seq(|route|, k requires 0 <= k < |route| => route[k] + 1)
  }

  /** Sum of `m` over the consecutive arcs of path `p`. */
  function ArcSum(m: Matrix, p: seq<nat>): real
  {
    if |p| < 2 then 0.0
    else ArcSum(m, p[..|p| - 1]) + At(m, p[|p| - 2], p[|p| - 1])
  }

  /** State of one vehicle after serving a prefix of its route. */
  datatype Leg = Leg(
    timeS: real, energy: real, riskSum: real, tardS: real, onTime: nat,
    current: nat)

  /** Arrival, service start, tardiness and on-time test of one visit. */
  function ServiceStart(arrival: real, early: real): (s: real)
    ensures s >= arrival && s >= early
    ensures s == arrival || s == early
  {
    Max(arrival, early)
  }

  function Tardiness(start: real, late: real): (t: real)
    ensures t >= 0.0
    ensures t > 0.0 <==> start > late
    ensures t > 0.0 ==> t == start - late
  {
    Max(0.0, start - late)
  }

  predicate OnTime(tard: real)
  {
    tard <= 1e-9
  }

  /** A visit counts as on time exactly when service can start no later than
      `1e-9` seconds past the window end. */
  lemma OnTimeIff(arrival: real, early: real, late: real)
    ensures OnTime(Tardiness(ServiceStart(arrival, early), late))
      <==> arrival <= late + 1e-9 && early <= late + 1e-9
  {
  }

  /** Walk of a route from the depot through its clients (no return leg). */
  function Walk(sc: ScenarioData, e: EdgeData, route: seq<nat>): (w: Leg)
    requires Shaped(sc, e)
    requires forall k :: 0 <= k < |route| ==> route[k] < |sc.clientXy|
    ensures w.current == Nodes(route)[|route|]
    ensures w.current <= |sc.clientXy|
    ensures w.tardS >= 0.0
    ensures w.onTime <= |route|
    decreases |route|
  {
    if route == [] then Leg(0.0, 0.0, 0.0, 0.0, 0, 0)
    else
      var w := Walk(sc, e, route[..|route| - 1]);
      var c := route[|route| - 1];
      var node := c + 1;
      var start := ServiceStart(w.timeS + e.travelTimeS[w.current][node], sc.twEarlyS[c]);
      var tard := Tardiness(start, sc.twLateS[c]);
      Leg(start + sc.serviceDurationS[c],
          w.energy + e.energy[w.current][node],
          w.riskSum + e.risk[w.current][node],
          w.tardS + tard,
          w.onTime + (if OnTime(tard) then 1 else 0),
          node)
  }

  lemma NodesPrefix(route: seq<nat>)
    requires route != []
    ensures Nodes(route)[..|route|] == Nodes(route[..|route| - 1])
  {
  }

  /** The energy and risk a walk accumulates are the arc sums along its path. */
  lemma {:induction false} WalkArcSums(sc: ScenarioData, e: EdgeData, route: seq<nat>)
    requires Shaped(sc, e)
    requires forall k :: 0 <= k < |route| ==> route[k] < |sc.clientXy|
    ensures Walk(sc, e, route).energy == ArcSum(e.energy, Nodes(route))
    ensures Walk(sc, e, route).riskSum == ArcSum(e.risk, Nodes(route))
    decreases |route|
  {
    if route != [] {
      WalkArcSums(sc, e, route[..|route| - 1]);
      NodesPrefix(route);
    }
  }

  /** Totals over the routes evaluated so far. */
  datatype Totals = Totals(
    visited: set<nat>, onTime: nat, tardS: real, energy: real, riskSum: real,
    arcs: nat, riskMaxRoute: real, rows: seq<RouteRecord>)

  /** The entries of a sequence, as a set. */
  function Elems(v: seq<nat>): set<nat>
  {
    set x | x in v
  }

  /** Clients named by any route. */
  function Visited(routes: seq<seq<nat>>): set<nat>
  {
    if routes == [] then {} else Visited(routes[..|routes| - 1]) + Elems(routes[|routes| - 1])
  }

  lemma {:induction false} VisitedMembers(routes: seq<seq<nat>>, c: nat)
    ensures c in Visited(routes) <==> exists r :: 0 <= r < |routes| && c in routes[r]
  {
    if routes != [] {
      var pre := routes[..|routes| - 1];
      VisitedMembers(pre, c);
      if c in Visited(pre) {
        var r :| 0 <= r < |pre| && c in pre[r];
        assert routes[r] == pre[r];
      }
      if r :| 0 <= r < |routes| && c in routes[r] {
        if r < |pre| {
          assert c in pre[r];
        }
      }
    }
  }

  /** Number of visits over all routes. */
  function VisitCount(routes: seq<seq<nat>>): nat
  {
    if routes == [] then 0 else VisitCount(routes[..|routes| - 1]) + |routes[|routes| - 1]|
  }

  /** Arc-matrix sum over every non-empty route including its return leg. */
  function RoutesArcSum(m: Matrix, routes: seq<seq<nat>>): real
  {
    if routes == [] then 0.0
    else
      var r := routes[|routes| - 1];
      RoutesArcSum(m, routes[..|routes| - 1])
        + (if r == [] then 0.0 else ArcSum(m, Nodes(r) + [0]))
  }

  function NodeSequence(p: seq<nat>): string
  {
    Join(seq(|p|, k requires 0 <= k < |p| => NatToString(p[k])), "->")
  }

  function EmptyRouteRow(runId: string, uav: nat): RouteRecord
  {
    RouteRecord(runId, uav, "0->0", 0.0, 0.0, 0.0, 0.0)
  }

  lemma EmptyRouteSequence()
    ensures NodeSequence(Nodes([]) + [0]) == "0->0"
  {
    assert Nodes([]) + [0] == [0, 0];
    assert NatToString(0) == "0";
    assert seq(2, k requires 0 <= k < 2 => NatToString([0, 0][k])) == ["0", "0"];
    assert Join(["0"], "->") == "0";
    assert Join(["0", "0"], "->") == "0" + "->" + Join(["0"], "->");
  }

  function RouteRow(sc: ScenarioData, e: EdgeData, route: seq<nat>, runId: string, uav: nat): (r: RouteRecord)
    requires Shaped(sc, e)
    requires forall k :: 0 <= k < |route| ==> route[k] < |sc.clientXy|
    ensures r.runId == runId && r.uavId == uav
  {
    if route == [] then EmptyRouteRow(runId, uav)
    else
      var w := Walk(sc, e, route);
      var energy := w.energy + e.energy[w.current][0];
      RouteRecord(runId, uav, NodeSequence(Nodes(route) + [0]), energy,
                  RouteRisk(sc, e, route) / (MaxInt(1, |route| + 1) as real), w.tardS / 60.0, w.timeS)
  }

  /** Accumulation over a prefix of the routes, vehicle by vehicle. */
  function Accumulate(sc: ScenarioData, e: EdgeData, routes: seq<seq<nat>>, runId: string): (t: Totals)
    requires Shaped(sc, e)
    requires ClientsInRange(routes, |sc.clientXy|)
    ensures |t.rows| == |routes|
    ensures t.onTime <= VisitCount(routes)
    ensures t.tardS >= 0.0 && t.riskMaxRoute >= 0.0
    decreases |routes|
  {
    if routes == [] then Totals({}, 0, 0.0, 0.0, 0.0, 0, 0.0, [])
    else
      var t := Accumulate(sc, e, routes[..|routes| - 1], runId);
      var uav := |routes| - 1;
      var route := routes[uav];
      var row := RouteRow(sc, e, route, runId, uav);
      if route == [] then t.(rows := t.rows + [row])
      else
        var w := Walk(sc, e, route);
        Totals(t.visited + Elems(route), t.onTime + w.onTime, t.tardS + w.tardS,
               t.energy + row.routeEnergy, t.riskSum + RouteRisk(sc, e, route),
               t.arcs + |route| + 1, Max(t.riskMaxRoute, row.routeRiskMean), t.rows + [row])
  }

  /** Route rows: one per vehicle, numbered from 0, each the evaluation of its
      own route. */
  lemma {:induction false} AccumulateRows(sc: ScenarioData, e: EdgeData, routes: seq<seq<nat>>, runId: string)
    requires Shaped(sc, e)
    requires ClientsInRange(routes, |sc.clientXy|)
    ensures forall u :: 0 <= u < |routes| ==>
      Accumulate(sc, e, routes, runId).rows[u] == RouteRow(sc, e, routes[u], runId, u)
    decreases |routes|
  {
    if routes != [] {
      var pre := routes[..|routes| - 1];
      var uav := |routes| - 1;
      AccumulateRows(sc, e, pre, runId);
      AccumulateLastRow(sc, e, routes, runId);
      forall u | 0 <= u < |routes|
        ensures Accumulate(sc, e, routes, runId).rows[u] == RouteRow(sc, e, routes[u], runId, u)
      {
        if u < uav {
          assert pre[u] == routes[u];
        }
      }
    }
  }

  /** The last vehicle's route row is appended to the rows of the others. */
  lemma AccumulateLastRow(sc: ScenarioData, e: EdgeData, routes: seq<seq<nat>>, runId: string)
    requires Shaped(sc, e)
    requires ClientsInRange(routes, |sc.clientXy|)
    requires routes != []
    ensures Accumulate(sc, e, routes, runId).rows
      == Accumulate(sc, e, routes[..|routes| - 1], runId).rows
         + [RouteRow(sc, e, routes[|routes| - 1], runId, |routes| - 1)]
  {
  }

  /** The visited set is the set of all clients named by the routes. */
  lemma {:induction false} AccumulateVisited(sc: ScenarioData, e: EdgeData, routes: seq<seq<nat>>, runId: string)
    requires Shaped(sc, e)
    requires ClientsInRange(routes, |sc.clientXy|)
    ensures Accumulate(sc, e, routes, runId).visited == Visited(routes)
    decreases |routes|
  {
    if routes != [] {
      AccumulateVisited(sc, e, routes[..|routes| - 1], runId);
    }
  }

  /** Total energy and risk are the arc sums over all routes, return legs
      included. */
  lemma {:induction false} AccumulateArcSums(sc: ScenarioData, e: EdgeData, routes: seq<seq<nat>>, runId: string)
    requires Shaped(sc, e)
    requires ClientsInRange(routes, |sc.clientXy|)
    ensures Accumulate(sc, e, routes, runId).energy == RoutesArcSum(e.energy, routes)
    ensures Accumulate(sc, e, routes, runId).riskSum == RoutesArcSum(e.risk, routes)
    decreases |routes|
  {
    if routes != [] {
      var pre := routes[..|routes| - 1];
      var route := routes[|routes| - 1];
      AccumulateArcSums(sc, e, pre, runId);
      if route != [] {
        WalkArcSums(sc, e, route);
        assert (Nodes(route) + [0])[..|route| + 1] == Nodes(route);
      }
    }
  }

  /** `EvaluatedRoutes`; a NaN metric of an infeasible evaluation is `None`. */
  datatype Evaluated = Evaluated(
    feasible: bool, onTimePct: Option<real>, totalTardinessMin: Option<real>,
    totalEnergy: Option<real>, riskMean: Option<real>,
    riskMaxRoute: Option<real>, incumbentObj: Option<real>,
    routeRows: seq<RouteRecord>)

  /** Every metric of an evaluation is present. */
  predicate MetricsPresent(ev: Evaluated)
  {
    ev.onTimePct.Some? && ev.totalTardinessMin.Some? && ev.totalEnergy.Some?
    && ev.riskMean.Some? && ev.riskMaxRoute.Some? && ev.incumbentObj.Some?
  }

  /** Every metric of an evaluation is NaN. */
  predicate MetricsAbsent(ev: Evaluated)
  {
    ev.onTimePct.None? && ev.totalTardinessMin.None? && ev.totalEnergy.None?
    && ev.riskMean.None? && ev.riskMaxRoute.None? && ev.incumbentObj.None?
  }

  /** The scalar part of `evaluate_routes` once the totals are known. */
  function Summarize(t: Totals, n: nat, cs: CostSpec): (ev: Evaluated)
    ensures ev.feasible <==> |t.visited| == n
    ensures ev.feasible ==> MetricsPresent(ev)
    ensures !ev.feasible ==> MetricsAbsent(ev)
    ensures ev.routeRows == t.rows
    ensures ev.onTimePct.Some? ==> ev.onTimePct.value >= 0.0
    ensures t.tardS >= 0.0 && ev.totalTardinessMin.Some? ==> ev.totalTardinessMin.value >= 0.0
    ensures ev.riskMaxRoute.Some? ==> ev.riskMaxRoute.value == t.riskMaxRoute
    ensures t.onTime <= n && ev.onTimePct.Some? ==> ev.onTimePct.value <= 100.0
    ensures ev.totalTardinessMin.Some? ==> ev.totalTardinessMin.value == t.tardS / 60.0
    ensures ev.incumbentObj.Some? ==>
      ev.incumbentObj.value == Combine(cs, t.energy, t.riskSum) + cs.costScale * cs.lambdaTw * (t.tardS / 60.0)
  {
    if |t.visited| == n then
      var tardMin := t.tardS / 60.0;
      SplitTardinessTerm(cs, t.energy, t.riskSum, tardMin);
      PercentAtMost100(t.onTime, n);
      Evaluated(
        true,
        Some(100.0 * (t.onTime as real) / (MaxInt(1, n) as real)),
        Some(tardMin),
        Some(t.energy),
        Some(t.riskSum / (MaxInt(1, t.arcs) as real)),
        Some(t.riskMaxRoute),
        Some(cs.costScale * (t.energy + cs.lambdaOut * cs.riskScale * t.riskSum + cs.lambdaTw * tardMin)),
        t.rows)
    else
      Evaluated(false, None, None, None, None, None, None, t.rows)
  }

  /** `evaluate_routes`: feasible exactly when every client is visited, with
      all metrics NaN otherwise, and one route row per vehicle. */
  function EvaluateRoutes(sc: ScenarioData, e: EdgeData, routes: seq<seq<nat>>, cs: CostSpec, runId: string): (ev: Evaluated)
    requires Shaped(sc, e)
    requires ClientsInRange(routes, |sc.clientXy|)
    ensures ev.feasible <==> forall c :: 0 <= c < |sc.clientXy| ==> c in Visited(routes)
    ensures ev.feasible ==> MetricsPresent(ev)
    ensures !ev.feasible ==> MetricsAbsent(ev)
    ensures ev.onTimePct.Some? ==> ev.onTimePct.value >= 0.0
    ensures ev.totalTardinessMin.Some? ==> ev.totalTardinessMin.value >= 0.0
    ensures ev.riskMaxRoute.Some? ==> ev.riskMaxRoute.value >= 0.0
    ensures |ev.routeRows| == |routes|
    ensures forall u :: 0 <= u < |routes| ==> ev.routeRows[u] == RouteRow(sc, e, routes[u], runId, u)
  {
    var t := Accumulate(sc, e, routes, runId);
    AccumulateRows(sc, e, routes, runId);
    AccumulateVisited(sc, e, routes, runId);
    VisitedInRange(routes, |sc.clientXy|);
    VisitedFull(t.visited, |sc.clientXy|);
    Summarize(t, |sc.clientXy|, cs)
  }

  /** `evaluate_routes` on any route list: a client index of `n` or more
      names a node outside the `n + 1` square matrices, and indexing
      `travel_time_s` with it raises `IndexError`, given here as `None`. */
  function TryEvaluateRoutes(sc: ScenarioData, e: EdgeData, routes: seq<seq<nat>>, cs: CostSpec, runId: string)
    : (r: Option<Evaluated>)
    requires Shaped(sc, e)
    ensures r.None? <==> exists u, c :: 0 <= u < |routes| && 0 <= c < |routes[u]| && routes[u][c] >= |sc.clientXy|
    ensures r.Some? ==> r.value == EvaluateRoutes(sc, e, routes, cs, runId)
  {
    if ClientsInRange(routes, |sc.clientXy|) then Some(EvaluateRoutes(sc, e, routes, cs, runId)) else None
  }

  lemma VisitedInRange(routes: seq<seq<nat>>, n: nat)
    requires ClientsInRange(routes, n)
    ensures forall c :: c in Visited(routes) ==> c < n
  {
    forall c | c in Visited(routes)
      ensures c < n
    {
      VisitedMembers(routes, c);
      var r :| 0 <= r < |routes| && c in routes[r];
      var k :| 0 <= k < |routes[r]| && routes[r][k] == c;
    }
  }

  /** A subset of `[0, n)` has `n` elements exactly when it is all of it. */
  lemma {:induction false} VisitedFull(v: set<nat>, n: nat)
    requires forall c :: c in v ==> c < n
    ensures |v| == n <==> forall c :: 0 <= c < n ==> c in v
  {
    if n == 0 {
      assert v == {};
    } else {
      var w := v - {n - 1};
      VisitedFull(w, n - 1);
      if n - 1 in v {
        assert v == w + {n - 1};
      } else {
        assert w == v;
        if |v| == n {
          assert |w| == n;
          RangeSubsetBound(w, n - 1);
        }
      }
    }
  }

  /** A subset of `[0, n)` has at most `n` elements. */
  lemma {:induction false} RangeSubsetBound(v: set<nat>, n: nat)
    requires forall c :: c in v ==> c < n
    ensures |v| <= n
  {
    if n > 0 {
      RangeSubsetBound(v - {n - 1}, n - 1);
    } else {
      assert v == {};
    }
  }

  /** Every cost entry is the arc-level objective term of `build_edge_data`. */
  predicate CostConsistent(e: EdgeData, cs: CostSpec, k: nat)
    requires Square(e.cost, k) && Square(e.energy, k) && Square(e.risk, k)
  {
    forall i, j :: 0 <= i < k && 0 <= j < k ==>
      e.cost[i][j] == cs.costScale * (e.energy[i][j] + cs.lambdaOut * cs.riskScale * e.risk[i][j])
  }

  /** The arc-level objective term for an energy and a risk amount. */
  function Combine(cs: CostSpec, energy: real, risk: real): real
  {
    cs.costScale * (energy + cs.lambdaOut * cs.riskScale * risk)
  }

  /** The objective's penalty for a tardiness given in minutes. */
  function TardinessCost(cs: CostSpec, tardMin: real): real
  {
    cs.costScale * cs.lambdaTw * tardMin
  }

  lemma CombineAdd(cs: CostSpec, e1: real, r1: real, e2: real, r2: real)
    ensures Combine(cs, e1, r1) + Combine(cs, e2, r2) == Combine(cs, e1 + e2, r1 + r2)
  {
  }

  lemma {:induction false} ArcSumLinear(e: EdgeData, cs: CostSpec, p: seq<nat>, k: nat)
    requires Square(e.cost, k) && Square(e.energy, k) && Square(e.risk, k)
    requires CostConsistent(e, cs, k)
    ensures ArcSum(e.cost, p) == Combine(cs, ArcSum(e.energy, p), ArcSum(e.risk, p))
  {
    if |p| >= 2 {
      var pre := p[..|p| - 1];
      var i, j := p[|p| - 2], p[|p| - 1];
      ArcSumLinear(e, cs, pre, k);
      assert At(e.cost, i, j) == Combine(cs, At(e.energy, i, j), At(e.risk, i, j));
      CombineAdd(cs, ArcSum(e.energy, pre), ArcSum(e.risk, pre), At(e.energy, i, j), At(e.risk, i, j));
    }
  }

  lemma {:induction false} RoutesArcSumLinear(e: EdgeData, cs: CostSpec, routes: seq<seq<nat>>, k: nat)
    requires Square(e.cost, k) && Square(e.energy, k) && Square(e.risk, k)
    requires CostConsistent(e, cs, k)
    ensures RoutesArcSum(e.cost, routes) == Combine(cs, RoutesArcSum(e.energy, routes), RoutesArcSum(e.risk, routes))
  {
    if routes != [] {
      var r := routes[|routes| - 1];
      var pre := routes[..|routes| - 1];
      RoutesArcSumLinear(e, cs, pre, k);
      if r != [] {
        var p := Nodes(r) + [0];
        ArcSumLinear(e, cs, p, k);
        CombineAdd(cs, RoutesArcSum(e.energy, pre), RoutesArcSum(e.risk, pre), ArcSum(e.energy, p), ArcSum(e.risk, p));
      }
    }
  }

  /** The recomputed objective of a feasible evaluation is the solver's
      arc-cost sum over every travelled arc, return legs included, plus the
      scaled tardiness penalty. */
  lemma SplitTardinessTerm(cs: CostSpec, energy: real, risk: real, tardMin: real)
    ensures cs.costScale * (energy + cs.lambdaOut * cs.riskScale * risk + cs.lambdaTw * tardMin)
      == Combine(cs, energy, risk) + cs.costScale * cs.lambdaTw * tardMin
  {
  }

  lemma IncumbentMatchesArcCosts(sc: ScenarioData, e: EdgeData, routes: seq<seq<nat>>, cs: CostSpec, runId: string)
    requires Shaped(sc, e)
    requires ClientsInRange(routes, |sc.clientXy|)
    requires CostConsistent(e, cs, |sc.clientXy| + 1)
    ensures var ev := EvaluateRoutes(sc, e, routes, cs, runId);
      ev.feasible ==>
        ev.incumbentObj.value == RoutesArcSum(e.cost, routes)
          + TardinessCost(cs, ev.totalTardinessMin.value)
  {
    var t := Accumulate(sc, e, routes, runId);
    AccumulateArcSums(sc, e, routes, runId);
    RoutesArcSumLinear(e, cs, routes, |sc.clientXy| + 1);
    SummarizeIncumbent(t, |sc.clientXy|, cs, RoutesArcSum(e.cost, routes));
    assert EvaluateRoutes(sc, e, routes, cs, runId) == Summarize(t, |sc.clientXy|, cs);
  }

  lemma SummarizeIncumbent(t: Totals, n: nat, cs: CostSpec, costSum: real)
    requires costSum == Combine(cs, t.energy, t.riskSum)
    ensures var sm := Summarize(t, n, cs);
      sm.feasible ==> sm.incumbentObj.value == costSum + TardinessCost(cs, sm.totalTardinessMin.value)
  {
  }

  /** The route evaluation of `tests/unit/test_objective_consistency.py`: one
      client one travel-minute pair away, served two minutes late. */
  lemma IncumbentExample()
    ensures var sc := ScenarioData((0.0, 0.0), [(1.0, 0.0)], [1.0], [0.0], [0.0], [0.0], [0.0],
                                   [(0.0, 0.0)], 1.0, 2.0, 100.0);
      var e := EdgeData([[0.0, 2.0], [2.0, 0.0]], [[0.0, 120.0], [120.0, 0.0]],
                        [[0.0, 0.5], [0.25, 0.0]], [[0.0, 2.0], [2.0, 0.0]],
                        [[0.0, 0.0], [0.0, 0.0]]);
      var cs := CostSpec(1.0, 10.0, 100.0, 2.0, 3.0);
      EvaluateRoutes(sc, e, [[0]], cs, "x").incumbentObj
        == Some(100.0 * (4.0 + 2.0 * 10.0 * 0.75 + 3.0 * 2.0))
  {
    var sc := ScenarioData((0.0, 0.0), [(1.0, 0.0)], [1.0], [0.0], [0.0], [0.0], [0.0],
                           [(0.0, 0.0)], 1.0, 2.0, 100.0);
    var e := EdgeData([[0.0, 2.0], [2.0, 0.0]], [[0.0, 120.0], [120.0, 0.0]],
                      [[0.0, 0.5], [0.25, 0.0]], [[0.0, 2.0], [2.0, 0.0]],
                      [[0.0, 0.0], [0.0, 0.0]]);
    var route: seq<nat> := [0];
    assert route[..0] == [];
    var w := Walk(sc, e, route);
    assert w.tardS == 120.0 && w.energy == 2.0 && w.riskSum == 0.5 && w.current == 1;
    var routes: seq<seq<nat>> := [route];
    assert routes[..0] == [];
    assert 0 in routes[0];
    assert Visited(routes) == {0};
    var t0 := Accumulate(sc, e, [], "x");
    var row := RouteRow(sc, e, route, "x", 0);
    assert row.routeEnergy == 4.0;
    var t := Accumulate(sc, e, routes, "x");
    assert t == Totals(t0.visited + {0}, t0.onTime + w.onTime, t0.tardS + w.tardS,
                       t0.energy + row.routeEnergy, t0.riskSum + w.riskSum + e.risk[1][0],
                       t0.arcs + 2, Max(t0.riskMaxRoute, row.routeRiskMean), t0.rows + [row]);
    assert |t.visited| == 1;
    assert t.energy == 4.0 && t.riskSum == 0.75 && t.tardS == 120.0;
  }

  /** The visits of all routes in order. */
  function Flatten(routes: seq<seq<nat>>): (v: seq<nat>)
    ensures |v| == VisitCount(routes)
    ensures forall c :: c in v <==> c in Visited(routes)
  {
    if routes == [] then [] else Flatten(routes[..|routes| - 1]) + routes[|routes| - 1]
  }

  predicate Distinct(v: seq<nat>)
  {
    forall i, j :: 0 <= i < j < |v| ==> v[i] != v[j]
  }

  lemma {:induction false} DistinctBound(v: seq<nat>, n: nat)
    requires Distinct(v)
    requires forall i :: 0 <= i < |v| ==> v[i] < n
    ensures |v| <= n
  {
    DistinctCard(v);
    RangeSubsetBound(Elems(v), n);
  }

  lemma {:induction false} DistinctCard(v: seq<nat>)
    requires Distinct(v)
    ensures |Elems(v)| == |v|
  {
    if v != [] {
      var pre := v[..|v| - 1];
      var last := v[|v| - 1];
      assert Distinct(pre);
      DistinctCard(pre);
      assert v == pre + [last];
      assert Elems(v) == Elems(pre) + {last};
      assert last !in Elems(pre);
    }
  }

  /** When no client is visited twice, the on-time percentage is at most 100. */
  lemma OnTimePctAtMost100(sc: ScenarioData, e: EdgeData, routes: seq<seq<nat>>, cs: CostSpec, runId: string)
    requires Shaped(sc, e)
    requires ClientsInRange(routes, |sc.clientXy|)
    requires Distinct(Flatten(routes))
    ensures var ev := EvaluateRoutes(sc, e, routes, cs, runId);
      ev.onTimePct.Some? ==> ev.onTimePct.value <= 100.0
  {
    var n := |sc.clientXy|;
    var v := Flatten(routes);
    var t := Accumulate(sc, e, routes, runId);
    assert VisitCount(routes) <= n by {
      VisitedInRange(routes, n);
      assert forall i :: 0 <= i < |v| ==> v[i] in Visited(routes);
      DistinctBound(v, n);
    }
    assert EvaluateRoutes(sc, e, routes, cs, runId) == Summarize(t, n, cs);
  }

  lemma PercentAtMost100(k: nat, n: nat)
    ensures k <= n ==> 100.0 * (k as real) / (MaxInt(1, n) as real) <= 100.0
  {
    if k <= n {
      var d := MaxInt(1, n) as real;
      assert (k as real) <= d;
      assert 100.0 * (k as real) <= 100.0 * d;
    }
  }

  /** One client with window [0, 10] s on a zero-distance graph. */
  const OneClient: ScenarioData := ScenarioData((0.0, 0.0), [(1.0, 0.0)], [1.0], [0.0], [0.0], [0.0], [10.0],
                                               [(0.0, 0.0)], 1.0, 2.0, 100.0)

  const ZeroEdges: EdgeData := EdgeData([[0.0, 0.0], [0.0, 0.0]], [[0.0, 0.0], [0.0, 0.0]],
    [[0.0, 0.0], [0.0, 0.0]], [[0.0, 0.0], [0.0, 0.0]], [[0.0, 0.0], [0.0, 0.0]])

  lemma TwiceServedTotals()
    ensures Shaped(OneClient, ZeroEdges)
    ensures Accumulate(OneClient, ZeroEdges, [[0], [0]], "x").onTime == 2
    ensures |Accumulate(OneClient, ZeroEdges, [[0], [0]], "x").visited| == 1
  {
    var sc, e := OneClient, ZeroEdges;
    assert Shaped(sc, e);
    var route: seq<nat> := [0];
    assert route[..0] == [];
    assert Walk(sc, e, route).onTime == 1;
    var one: seq<seq<nat>> := [route];
    var routes: seq<seq<nat>> := [route, route];
    assert one[..0] == [];
    assert routes[..1] == one;
    assert Accumulate(sc, e, one, "x").onTime == 1;
    assert Elems(route) == {0};
    assert Visited(one) == {0};
    assert Visited(routes) == {0};
    AccumulateVisited(sc, e, routes, "x");
    assert routes == [[0], [0]];
  }

  /** On-time visits are counted per visit, not per client: a client served
      on time by two vehicles counts twice, and the percentage reaches 200. */
  lemma OnTimePctCountsVisits(cs: CostSpec)
    ensures Shaped(OneClient, ZeroEdges)
    ensures EvaluateRoutes(OneClient, ZeroEdges, [[0], [0]], cs, "x").onTimePct == Some(200.0)
  {
    TwiceServedTotals();
    var t := Accumulate(OneClient, ZeroEdges, [[0], [0]], "x");
    assert EvaluateRoutes(OneClient, ZeroEdges, [[0], [0]], cs, "x") == Summarize(t, 1, cs);
    assert Summarize(t, 1, cs).onTimePct == Some(100.0 * (2 as real) / (MaxInt(1, 1) as real));
  }

  lemma {:induction false} ArcSumUnitBound(m: Matrix, p: seq<nat>)
    requires UnitEntries(m)
    requires |p| >= 1
    ensures 0.0 <= ArcSum(m, p) <= (|p| - 1) as real
  {
    if |p| >= 2 {
      ArcSumUnitBound(m, p[..|p| - 1]);
    }
  }

  lemma RatioAtMostOne(x: real, d: real)
    requires 0.0 <= x <= d && d > 0.0
    ensures 0.0 <= x / d <= 1.0
  {
  }

  /** The risk carried by one non-empty route, return leg included. */
  function RouteRisk(sc: ScenarioData, e: EdgeData, route: seq<nat>): real
    requires Shaped(sc, e)
    requires forall k :: 0 <= k < |route| ==> route[k] < |sc.clientXy|
  {
    var w := Walk(sc, e, route);
    w.riskSum + e.risk[w.current][0]
  }

  lemma RouteRiskBound(sc: ScenarioData, e: EdgeData, route: seq<nat>, runId: string, uav: nat)
    requires Shaped(sc, e)
    requires forall k :: 0 <= k < |route| ==> route[k] < |sc.clientXy|
    requires UnitEntries(e.risk)
    requires route != []
    ensures 0.0 <= RouteRisk(sc, e, route) <= (|route| + 1) as real
    ensures 0.0 <= RouteRow(sc, e, route, runId, uav).routeRiskMean <= 1.0
  {
    var w := Walk(sc, e, route);
    WalkArcSums(sc, e, route);
    ArcSumUnitBound(e.risk, Nodes(route));
    RatioAtMostOne(RouteRisk(sc, e, route), (MaxInt(1, |route| + 1)) as real);
  }

  /** With fractional arc risks, every total risk is at most the number of arcs
      behind it and the worst route mean stays a fraction. */
  lemma {:induction false} AccumulateRiskBounds(sc: ScenarioData, e: EdgeData, routes: seq<seq<nat>>, runId: string)
    requires Shaped(sc, e)
    requires ClientsInRange(routes, |sc.clientXy|)
    requires UnitEntries(e.risk)
    ensures var t := Accumulate(sc, e, routes, runId);
      0.0 <= t.riskSum <= t.arcs as real && t.riskMaxRoute <= 1.0
    decreases |routes|
  {
    if routes != [] {
      var pre := routes[..|routes| - 1];
      var route := routes[|routes| - 1];
      AccumulateRiskBounds(sc, e, pre, runId);
      if route != [] {
        RouteRiskBound(sc, e, route, runId, |routes| - 1);
      }
    }
  }

  /** Fractional arc risks give a risk mean and a worst route mean that are
      fractions too. */
  lemma RiskMetricsAreFractions(sc: ScenarioData, e: EdgeData, routes: seq<seq<nat>>, cs: CostSpec, runId: string)
    requires Shaped(sc, e)
    requires ClientsInRange(routes, |sc.clientXy|)
    requires UnitEntries(e.risk)
    ensures var ev := EvaluateRoutes(sc, e, routes, cs, runId);
      (ev.riskMean.Some? ==> 0.0 <= ev.riskMean.value <= 1.0)
      && (ev.riskMaxRoute.Some? ==> 0.0 <= ev.riskMaxRoute.value <= 1.0)
  {
    var t := Accumulate(sc, e, routes, runId);
    AccumulateRiskBounds(sc, e, routes, runId);
    assert EvaluateRoutes(sc, e, routes, cs, runId) == Summarize(t, |sc.clientXy|, cs);
    if t.arcs >= 1 {
      RatioAtMostOne(t.riskSum, t.arcs as real);
    }
  }
}

=== FILE: orchestrator.dfy ===
/** The driver of the second submission pipeline
    (submit_v2/orchestrator.py): thirteen steps run in a fixed order, each
    started and ended in the run state; with resume, steps that already
    passed are skipped; the first failing step fails the pipeline and stops
    it.

    What a step does (evidence lock, audit, index, claim guard, manuscript,
    bundles, pack) is a parameter: `run` says whether the step succeeds and
    with which artifacts, or fails with which error.  The clock is the
    parameter `now`; the file system is described by the parameters of
    run discovery and directory resolution. */
module Orchestrator {
  import opened Numeric
  import opened Text
  import opened RunState

  datatype Step = Step(id: string, description: string)

  /** The steps, in the order they run. */
  const Steps: seq<Step> := [
    Step("S01", "Evidence freeze lock"),
    Step("S02", "Hard scientific gate"),
    Step("S03", "Build evidence index"),
    Step("S04", "Build claim registry"),
    Step("S05", "Claim guard validation"),
    Step("S06", "Generate manuscript assets"),
    Step("S07", "Materialize campaign lock for manuscript"),
    Step("S08", "Compile manuscript PDFs (anonymous + camera-ready)"),
    Step("S09", "Build submission text artifacts"),
    Step("S10", "Build reviewer bundles"),
    Step("S11", "Build TR-E upload pack"),
    Step("S12", "Final consistency sweep"),
    Step("S13", "Ready-to-submit status")]

  /** What running one step's body gives. */
  datatype StepResult = Succeeded(artifacts: seq<string>) | Failed(error: string)

  /** How the step loop ends: every step done, or stopped by the failure of
      `failedStep` (the exception propagates).  `ran` lists the steps whose
      body ran, in order. */
  datatype RunOutcome =
    | Completed(state: State, ran: seq<string>)
    | Aborted(state: State, ran: seq<string>, failedStep: string)

  function Ids(steps: seq<Step>): seq<string>
  {
    seq(|steps|, i requires 0 <= i < |steps| => steps[i].id)
  }

  predicate DistinctIds(steps: seq<Step>)
  {
    forall i, j :: 0 <= i < j < |steps| ==> steps[i].id != steps[j].id
  }

  /** The entry of `k` is the same in both states. */
  predicate SameEntry(a: State, b: State, k: string)
  {
    (k in a.steps <==> k in b.steps) && (k in a.steps ==> a.steps[k] == b.steps[k])
  }

  /** Every id of the tail of `steps` is an id of `steps`. */
  lemma IdsTail(steps: seq<Step>)
    requires steps != []
    ensures Ids(steps)[0] == steps[0].id
    ensures forall k :: k in Ids(steps[1..]) ==> k in Ids(steps)
  {
    forall k | k in Ids(steps[1..]) ensures k in Ids(steps) {
      var i :| 0 <= i < |steps| - 1 && Ids(steps[1..])[i] == k;
      assert Ids(steps)[i + 1] == k;
    }
  }

  /** The entry of a failed step: marked failed with exit code 1 and the
      step's error. */
  predicate FailedEntry(s: State, k: string, error: string)
  {
    k in s.steps && s.steps[k].status == "failed" && s.steps[k].exitCode == Some(1)
    && s.steps[k].error == Some(error)
  }

  /** `ran` ends in the failed step and only that one failed. */
  predicate FailedLast(ran: seq<string>, failedStep: string, run: string -> StepResult)
  {
    |ran| > 0 && ran[|ran| - 1] == failedStep && run(failedStep).Failed?
    && forall i :: 0 <= i < |ran| - 1 ==> run(ran[i]).Succeeded?
  }

  /** The outcome `rest` of the later steps, after step `id` succeeded. */
  function After(id: string, rest: RunOutcome): (r: RunOutcome)
    ensures r.state == rest.state && r.ran == [id] + rest.ran && r.Completed? == rest.Completed?
    ensures r.Aborted? ==> r.failedStep == rest.failedStep
  {
    if rest.Completed? then Completed(rest.state, [id] + rest.ran)
    else Aborted(rest.state, [id] + rest.ran, rest.failedStep)
  }

  lemma AfterFailedLast(id: string, rest: RunOutcome, run: string -> StepResult)
    requires rest.Aborted? && FailedLast(rest.ran, rest.failedStep, run) && run(id).Succeeded?
    ensures FailedLast(After(id, rest).ran, rest.failedStep, run)
  {
    var ran := [id] + rest.ran;
    assert ran[|ran| - 1] == rest.ran[|rest.ran| - 1];
    forall i | 0 <= i < |ran| - 1 ensures run(ran[i]).Succeeded? {
      if i > 0 {
        assert ran[i] == rest.ran[i - 1];
      }
    }
  }

  /** The loop of `run_pipeline` over `steps`. */
  function RunSteps(s: State, steps: seq<Step>, resume: bool, run: string -> StepResult, now: string)
    : (r: RunOutcome)
    ensures forall k :: k !in r.ran ==> SameEntry(r.state, s, k)
    ensures forall k :: k in r.ran ==> k in Ids(steps)
    ensures r.state.completedAt == s.completedAt && r.state.runId == s.runId
    ensures r.Completed? ==> r.state.status == s.status
    ensures r.Completed? ==> forall k :: k in r.ran ==> run(k).Succeeded?
    ensures r.Aborted? ==>
      r.state.status == "failed" && FailedLast(r.ran, r.failedStep, run)
      && FailedEntry(r.state, r.failedStep, run(r.failedStep).error)
    decreases |steps|
  {
    if steps == [] then Completed(s, [])
    else
      var st := steps[0];
      IdsTail(steps);
      if resume && StepPassed(s, st.id) then RunSteps(s, steps[1..], resume, run, now)
      else
        var started := StartStep(s, st.id, st.description, now);
        match run(st.id)
        case Succeeded(artifacts) =>
          var ended := EndStep(started, st.id, "passed", 0, Some(artifacts), None, now);
          var rest := RunSteps(ended, steps[1..], resume, run, now);
          if rest.Aborted? then AfterFailedLast(st.id, rest, run); After(st.id, rest)
          else After(st.id, rest)
        case Failed(error) =>
          var ended := EndStep(started, st.id, "failed", 1, Some([]), Some(error), now);
          Aborted(SetPipelineStatus(ended, "failed", now), [st.id], st.id)
  }

  /** `run_pipeline` from a loaded or new state: the pipeline is marked
      running, the steps run, and a completed run ends ready to submit. */
  function RunPipeline(steps: seq<Step>, s: State, resume: bool, run: string -> StepResult, now: string)
    : (r: RunOutcome)
    ensures r.Completed? ==> r.state.status == "ready_for_portal_submit" && r.state.completedAt == Some(now)
    ensures r.Aborted? ==> r.state.status == "failed" && r.state.completedAt == s.completedAt
  {
    var loop := RunSteps(SetPipelineStatus(s, "running", now), steps, resume, run, now);
    if loop.Completed? then
      var done := SetPipelineStatus(loop.state, "ready_for_portal_submit", now);
      Completed(done.(completedAt := Some(now)), loop.ran)
    else loop
  }

  /** `run_pipeline` with the pipeline's thirteen steps. */
  function RunSubmission(s: State, resume: bool, run: string -> StepResult, now: string): (r: RunOutcome)
    ensures r.Completed? ==> r.state.status == "ready_for_portal_submit" && r.state.completedAt == Some(now)
    ensures r.Aborted? ==> r.state.status == "failed" && r.state.completedAt == s.completedAt
  {
    RunPipeline(Steps, s, resume, run, now)
  }

  // ---------------------------------------------------------------------
  // Properties of the loop

  /** The steps the loop will run: those not already passed when resuming. */
  function Pending(s: State, steps: seq<Step>, resume: bool): (p: seq<string>)
    ensures forall k :: k in p ==> k in Ids(steps)
    decreases |steps|
  {
    if steps == [] then []
    else
      IdsTail(steps);
      (if resume && StepPassed(s, steps[0].id) then [] else [steps[0].id]) + Pending(s, steps[1..], resume)
  }

  /** Pending steps depend only on the entries of the steps themselves. */
  lemma {:induction false} PendingFrame(s: State, t: State, steps: seq<Step>, resume: bool)
    requires forall i :: 0 <= i < |steps| ==> SameEntry(s, t, steps[i].id)
    ensures Pending(s, steps, resume) == Pending(t, steps, resume)
    decreases |steps|
  {
    if steps != [] {
      PendingFrame(s, t, steps[1..], resume);
    }
  }

  /** The state after step `st` ran successfully with `artifacts`. */
  function Passed(s: State, st: Step, artifacts: seq<string>, now: string): State
  {
    EndStep(StartStep(s, st.id, st.description, now), st.id, "passed", 0, Some(artifacts), None, now)
  }

  /** Distinct ids stay distinct in the tail, and the head's id is not
      among them. */
  lemma DistinctTail(steps: seq<Step>)
    requires steps != [] && DistinctIds(steps)
    ensures DistinctIds(steps[1..])
    ensures forall i :: 0 <= i < |steps| - 1 ==> steps[1..][i].id != steps[0].id
  {
    var tail := steps[1..];
    forall i, j | 0 <= i < j < |tail| ensures tail[i].id != tail[j].id {
      assert tail[i] == steps[i + 1] && tail[j] == steps[j + 1];
    }
    forall i | 0 <= i < |tail| ensures tail[i].id != steps[0].id {
      assert tail[i] == steps[i + 1];
    }
  }

  /** One turn of the loop, side by side with the pending list: a skipped
      step, a step that succeeds, a step that fails. */
  lemma LoopTurn(s: State, steps: seq<Step>, resume: bool, run: string -> StepResult, now: string)
    requires steps != [] && DistinctIds(steps)
    ensures var st := steps[0];
      var r := RunSteps(s, steps, resume, run, now);
      var p := Pending(s, steps, resume);
      if resume && StepPassed(s, st.id) then
        r == RunSteps(s, steps[1..], resume, run, now) && p == Pending(s, steps[1..], resume)
      else if run(st.id).Succeeded? then
        var next := Passed(s, st, run(st.id).artifacts, now);
        r == After(st.id, RunSteps(next, steps[1..], resume, run, now))
        && p == [st.id] + Pending(next, steps[1..], resume)
      else
        r.Aborted? && r.ran == [st.id] && p == [st.id] + Pending(s, steps[1..], resume)
  {
    var st := steps[0];
    DistinctTail(steps);
    if !(resume && StepPassed(s, st.id)) && run(st.id).Succeeded? {
      PendingFrame(s, Passed(s, st, run(st.id).artifacts, now), steps[1..], resume);
    }
  }

  /** The loop runs exactly the pending steps, in order, up to the first
      failure: a completed loop ran all of them, an aborted one a prefix of
      them. */
  lemma {:induction false} RunsPendingInOrder(s: State, steps: seq<Step>, resume: bool,
                                              run: string -> StepResult, now: string)
    requires DistinctIds(steps)
    ensures var r := RunSteps(s, steps, resume, run, now);
      var p := Pending(s, steps, resume);
      (r.Completed? ==> r.ran == p) && (r.Aborted? ==> r.ran <= p)
    decreases |steps|
  {
    if steps != [] {
      var st := steps[0];
      LoopTurn(s, steps, resume, run, now);
      DistinctTail(steps);
      if resume && StepPassed(s, st.id) {
        RunsPendingInOrder(s, steps[1..], resume, run, now);
      } else if run(st.id).Succeeded? {
        RunsPendingInOrder(Passed(s, st, run(st.id).artifacts, now), steps[1..], resume, run, now);
      }
    }
  }

  /** The loop completes exactly when every pending step succeeds. */
  lemma {:induction false} CompletesIffPendingSucceed(s: State, steps: seq<Step>, resume: bool,
                                                      run: string -> StepResult, now: string)
    requires DistinctIds(steps)
    ensures RunSteps(s, steps, resume, run, now).Completed?
      <==> forall k :: k in Pending(s, steps, resume) ==> run(k).Succeeded?
    decreases |steps|
  {
    if steps != [] {
      var st := steps[0];
      LoopTurn(s, steps, resume, run, now);
      DistinctTail(steps);
      if resume && StepPassed(s, st.id) {
        CompletesIffPendingSucceed(s, steps[1..], resume, run, now);
      } else if run(st.id).Succeeded? {
        var next := Passed(s, st, run(st.id).artifacts, now);
        CompletesIffPendingSucceed(next, steps[1..], resume, run, now);
        var p' := Pending(next, steps[1..], resume);
        assert forall k :: k in [st.id] + p' <==> k == st.id || k in p';
      } else {
        assert st.id in Pending(s, steps, resume);
      }
    }
  }

  /** With resume, a step that has passed is not pending. */
  lemma {:induction false} PendingSkipsPassed(s: State, steps: seq<Step>, k: string)
    requires StepPassed(s, k)
    ensures k !in Pending(s, steps, true)
    decreases |steps|
  {
    if steps != [] {
      PendingSkipsPassed(s, steps[1..], k);
    }
  }

  predicate Distinct(xs: seq<string>)
  {
    forall i, j :: 0 <= i < j < |xs| ==> xs[i] != xs[j]
  }

  /** Pending ids are distinct when the step ids are. */
  lemma {:induction false} PendingDistinct(s: State, steps: seq<Step>, resume: bool)
    requires DistinctIds(steps)
    ensures Distinct(Pending(s, steps, resume))
    decreases |steps|
  {
    if steps != [] {
      DistinctTail(steps);
      PendingDistinct(s, steps[1..], resume);
      var p' := Pending(s, steps[1..], resume);
      assert steps[0].id !in Ids(steps[1..]);
      assert steps[0].id !in p';
      var p := Pending(s, steps, resume);
      if !(resume && StepPassed(s, steps[0].id)) {
        assert p == [steps[0].id] + p';
        forall i, j | 0 <= i < j < |p| ensures p[i] != p[j] {
          assert p[j] == p'[j - 1] && p'[j - 1] in p';
          if i > 0 {
            assert p[i] == p'[i - 1];
            assert p'[i - 1] != p'[j - 1];
          } else {
            assert p[i] == steps[0].id;
          }
        }
      }
    }
  }

  /** With resume, a step that had passed does not run again and its entry
      stays as it was. */
  lemma ResumeSkipsPassed(s: State, steps: seq<Step>, run: string -> StepResult, now: string, k: string)
    requires DistinctIds(steps) && StepPassed(s, k)
    ensures var r := RunSteps(s, steps, true, run, now);
      k !in r.ran && SameEntry(r.state, s, k)
  {
    PendingSkipsPassed(s, steps, k);
    RunsPendingInOrder(s, steps, true, run, now);
  }

  /** After a failure nothing else runs: every pending step after the
      failed one keeps its entry. */
  lemma FailureStopsTheLoop(s: State, steps: seq<Step>, resume: bool, run: string -> StepResult,
                            now: string)
    requires DistinctIds(steps)
    requires RunSteps(s, steps, resume, run, now).Aborted?
    ensures var r := RunSteps(s, steps, resume, run, now);
      var p := Pending(s, steps, resume);
      |r.ran| <= |p| && p[|r.ran| - 1] == r.failedStep
      && forall i :: |r.ran| <= i < |p| ==> p[i] !in r.ran && SameEntry(r.state, s, p[i])
  {
    var r := RunSteps(s, steps, resume, run, now);
    var p := Pending(s, steps, resume);
    RunsPendingInOrder(s, steps, resume, run, now);
    PendingDistinct(s, steps, resume);
  }

  /** The state after the first turn of a loop that completes: the first
      step is skipped or passed, and the rest of the loop completes from
      there. */
  function NextState(s: State, steps: seq<Step>, resume: bool, run: string -> StepResult, now: string): State
    requires steps != [] && ((resume && StepPassed(s, steps[0].id)) || run(steps[0].id).Succeeded?)
  {
    var st := steps[0];
    if resume && StepPassed(s, st.id) then s else Passed(s, st, run(st.id).artifacts, now)
  }

  lemma CompletedTurn(s: State, steps: seq<Step>, resume: bool, run: string -> StepResult, now: string)
    requires steps != [] && RunSteps(s, steps, resume, run, now).Completed?
    ensures (resume && StepPassed(s, steps[0].id)) || run(steps[0].id).Succeeded?
    ensures var next := NextState(s, steps, resume, run, now);
      var rest := RunSteps(next, steps[1..], resume, run, now);
      rest.Completed? && RunSteps(s, steps, resume, run, now).state == rest.state
      && StepPassed(next, steps[0].id)
  {
  }

  /** A completed loop leaves every step passed: the pending ones because
      they succeeded, the skipped ones because they had passed before. */
  lemma {:induction false} CompletedAllPassed(s: State, steps: seq<Step>, resume: bool,
                                              run: string -> StepResult, now: string)
    requires DistinctIds(steps)
    requires RunSteps(s, steps, resume, run, now).Completed?
    ensures forall i :: 0 <= i < |steps| ==> StepPassed(RunSteps(s, steps, resume, run, now).state, steps[i].id)
    decreases |steps|
  {
    var r := RunSteps(s, steps, resume, run, now);
    if steps != [] {
      var tail := steps[1..];
      DistinctTail(steps);
      CompletedTurn(s, steps, resume, run, now);
      var next := NextState(s, steps, resume, run, now);
      var rest := RunSteps(next, tail, resume, run, now);
      CompletedAllPassed(next, tail, resume, run, now);
      assert steps[0].id !in Ids(tail);
      assert SameEntry(rest.state, next, steps[0].id);
      forall i | 0 <= i < |steps|
        ensures StepPassed(r.state, steps[i].id)
      {
        if i > 0 {
          assert steps[i] == tail[i - 1];
        }
      }
    }
  }

  /** The pipeline's steps have distinct ids. */
  lemma StepsDistinct()
    ensures DistinctIds(Steps)
    ensures Ids(Steps) == ["S01", "S02", "S03", "S04", "S05", "S06", "S07",
                           "S08", "S09", "S10", "S11", "S12", "S13"]
  {
    var ids := Ids(Steps);
    assert ids == ["S01", "S02", "S03", "S04", "S05", "S06", "S07",
                   "S08", "S09", "S10", "S11", "S12", "S13"];
    forall i, j | 0 <= i < j < |Steps|
      ensures Steps[i].id != Steps[j].id
    {
      assert Steps[i].id == ids[i] && Steps[j].id == ids[j];
      assert ids[i][1..] != ids[j][1..];
    }
  }

  /** A run from a state without step entries, every step succeeding, runs
      all the steps in order and ends ready to submit with every step
      passed. */
  lemma FreshRunCompletes(steps: seq<Step>, s: State, resume: bool, run: string -> StepResult, now: string)
    requires DistinctIds(steps)
    requires forall k :: run(k).Succeeded?
    requires s.steps == map[]
    ensures var r := RunPipeline(steps, s, resume, run, now);
      r.Completed? && r.ran == Ids(steps) && r.state.status == "ready_for_portal_submit"
      && forall i :: 0 <= i < |steps| ==> StepPassed(r.state, steps[i].id)
  {
    var s1 := SetPipelineStatus(s, "running", now);
    RunsPendingInOrder(s1, steps, resume, run, now);
    CompletesIffPendingSucceed(s1, steps, resume, run, now);
    NothingPassedAllPending(s1, steps, resume);
    CompletedAllPassed(s1, steps, resume, run, now);
  }

  /** For the pipeline's own steps: S01 to S13 all run, in that order. */
  lemma SubmissionRunsAllSteps(s: State, resume: bool, run: string -> StepResult, now: string)
    requires forall k :: run(k).Succeeded?
    requires s.steps == map[]
    ensures var r := RunSubmission(s, resume, run, now);
      r.Completed? && r.state.status == "ready_for_portal_submit"
      && r.ran == ["S01", "S02", "S03", "S04", "S05", "S06", "S07",
                   "S08", "S09", "S10", "S11", "S12", "S13"]
  {
    StepsDistinct();
    FreshRunCompletes(Steps, s, resume, run, now);
  }

  /** Without passed entries, every step is pending. */
  lemma {:induction false} NothingPassedAllPending(s: State, steps: seq<Step>, resume: bool)
    requires s.steps == map[]
    ensures Pending(s, steps, resume) == Ids(steps)
    decreases |steps|
  {
    if steps != [] {
      NothingPassedAllPending(s, steps[1..], resume);
      assert Ids(steps) == [steps[0].id] + Ids(steps[1..]);
    }
  }

  // ---------------------------------------------------------------------
  // Choosing the run

  /** The run id: the one given, else (when resuming) a discovered
      unfinished run, else a fresh id from the campaign and the time stamp.
      An empty id counts as none given. */
  function ChooseRunId(runId: Option<string>, resume: bool, discovered: Option<string>,
                       campaignId: string, stamp: string): (r: string)
    ensures r != ""
    ensures runId.Some? && runId.value != "" ==> r == runId.value
    ensures !resume && (runId.None? || runId.value == "") ==> r == "submit_v2_" + campaignId + "_" + stamp
    ensures r != "submit_v2_" + campaignId + "_" + stamp ==>
      (runId.Some? && r == runId.value) || (resume && discovered.Some? && r == discovered.value)
  {
    var selected := runId;
    var selected := if resume && (selected.None? || selected.value == "") then discovered else selected;
    if selected.None? || selected.value == "" then "submit_v2_" + campaignId + "_" + stamp
    else selected.value
  }

  /** What a run directory's state file gives. */
  datatype StateFile = NoStateFile | Unreadable | Loaded(campaignId: Option<string>, status: Option<string>)

  /** One entry of the runs directory. */
  datatype RunDir = RunDir(name: string, isDir: bool, mtime: real, stateFile: StateFile)

  /** A run of this campaign that has not finished. */
  predicate Resumable(d: RunDir, campaignId: string)
  {
    d.isDir && d.stateFile.Loaded? && d.stateFile.campaignId == Some(campaignId)
    && d.stateFile.status != Some("ready_for_portal_submit") && d.stateFile.status != Some("completed")
  }

  /** Python's order on `(mtime, name)` tuples. */
  predicate Before(a: RunDir, b: RunDir)
  {
    a.mtime < b.mtime || (a.mtime == b.mtime && LexLeq(a.name, b.name))
  }

  /** The index of the latest resumable run among `entries`. */
  function Latest(entries: seq<RunDir>, campaignId: string): (r: Option<nat>)
    ensures r.None? <==> forall i :: 0 <= i < |entries| ==> !Resumable(entries[i], campaignId)
    ensures r.Some? ==> r.value < |entries| && Resumable(entries[r.value], campaignId)
    ensures r.Some? ==> forall i :: 0 <= i < |entries| && Resumable(entries[i], campaignId) ==> Before(entries[i], entries[r.value])
  {
    if entries == [] then None
    else
      var n := |entries| - 1;
      var pre := Latest(entries[..n], campaignId);
      assert forall i :: 0 <= i < n ==> entries[..n][i] == entries[i];
      if !Resumable(entries[n], campaignId) then pre
      else if pre.None? then Some(n)
      else if Before(entries[pre.value], entries[n]) then
        forall i | 0 <= i < n && Resumable(entries[i], campaignId)
          ensures Before(entries[i], entries[n])
        {
          BeforeTransitive(entries[i], entries[pre.value], entries[n]);
        }
        Some(n)
      else
        BeforeTotal(entries[pre.value], entries[n]);
        pre
  }

  lemma BeforeTransitive(a: RunDir, b: RunDir, c: RunDir)
    requires Before(a, b) && Before(b, c)
    ensures Before(a, c)
  {
    if a.mtime == b.mtime == c.mtime && a.name != c.name && LexLess(a.name, b.name) && LexLess(b.name, c.name) {
      LexLessTransitive(a.name, b.name, c.name);
    }
  }

  lemma BeforeTotal(a: RunDir, b: RunDir)
    ensures Before(a, b) || Before(b, a)
  {
    LexLessTotal(a.name, b.name);
  }

  /** `_discover_resume_run`: the name of the latest unfinished run of the
      campaign, by modification time and then name; none when there is no
      such run (a missing runs directory has no entries). */
  function DiscoverResumeRun(entries: seq<RunDir>, campaignId: string): (r: Option<string>)
    ensures r.None? <==> forall i :: 0 <= i < |entries| ==> !Resumable(entries[i], campaignId)
    ensures r.Some? ==> exists i :: 0 <= i < |entries| && Resumable(entries[i], campaignId)
                                    && entries[i].name == r.value
                                    && forall j :: 0 <= j < |entries| && Resumable(entries[j], campaignId)
                                                   ==> Before(entries[j], entries[i])
  {
    var best := Latest(entries, campaignId);
    if best.None? then None else Some(entries[best.value].name)
  }

  // ---------------------------------------------------------------------
  // The campaign directory

  /** A path: absolute or relative, and its components. */
  datatype Path = Path(absolute: bool, parts: seq<string>)

  /** `a / b`: an absolute `b` replaces `a`. */
  function JoinPath(a: Path, b: Path): (r: Path)
    ensures b.absolute ==> r == b
    ensures !b.absolute ==> r.absolute == a.absolute && r.parts == a.parts + b.parts
  {
    if b.absolute then b else Path(a.absolute, a.parts + b.parts)
  }

  /** `path.name`: the last component, or empty. */
  function Name(p: Path): string
  {
    if p.parts == [] then "" else p.parts[|p.parts| - 1]
  }

  /** `path / name` for a single component; an empty name adds nothing. */
  function Child(p: Path, name: string): (r: Path)
    ensures name != "" ==> Name(r) == name && r.absolute == p.absolute
    ensures name == "" ==> r == p
  {
    if name == "" then p else Path(p.absolute, p.parts + [name])
  }

  /** `_resolve_campaign_dir`: the campaigns root (relative to the
      repository root unless absolute), or the campaign directory itself
      when that is what was passed and it exists. */
  function ResolveCampaignDir(root: Path, campaignRoot: Path, campaignId: string, present: Path -> bool)
    : (r: Path)
    ensures var base := JoinPath(root, campaignRoot);
      (r == base <==> (Name(base) == campaignId && present(base)) || campaignId == "")
      && (r != base ==> r == Child(base, campaignId))
  {
    var base := if campaignRoot.absolute then campaignRoot else JoinPath(root, campaignRoot);
    if Name(base) == campaignId && present(base) then base else Child(base, campaignId)
  }

  /** The resolved directory is always named after the campaign, and
      resolving an existing resolved directory again gives it back. */
  lemma ResolveIsStable(root: Path, campaignRoot: Path, campaignId: string, present: Path -> bool)
    requires campaignId != "" && root.absolute
    ensures Name(ResolveCampaignDir(root, campaignRoot, campaignId, present)) == campaignId
    ensures var r := ResolveCampaignDir(root, campaignRoot, campaignId, present);
      present(r) ==> ResolveCampaignDir(root, r, campaignId, present) == r
  {
  }
}

=== FILE: runner.dfy ===
/** The experiment engine's per-case policy (experiments/runner.py): which
    reporting regime a case falls in, the solver time limits, the enumeration
    of cases, the guarded solver call, the status predicates, the optimality
    gap, and the assignment of feasibility, bound and gap to each row.

    Timestamps, the git SHA, the environment hash and `perf_counter`
    runtimes are parameters; solver results are inputs. */
module Runner {
  import opened Numeric
  import opened Text
  import opened Schema
  import opened Objective

  // ---------------------------------------------------------------------
  // Claim regimes

  datatype Regime = Exact | BoundGap | ScalabilityOnly

  /** The regime as written into the `claim_regime` column. */
  function RegimeName(r: Regime): (s: string)
  {
    match r
    case Exact => "exact"
    case BoundGap => "bound_gap"
    case ScalabilityOnly => "scalability_only"
  }

  /** Distinct regimes are written differently, so the column determines the
      regime. */
  lemma RegimeNameInjective(a: Regime, b: Regime)
    ensures RegimeName(a) == RegimeName(b) <==> a == b
  {
  }

  /** Position of a regime on the size axis. */
  function RegimeRank(r: Regime): nat
  {
    match r
    case Exact => 0
    case BoundGap => 1
    case ScalabilityOnly => 2
  }

  /** `_claim_regime`: `exact` up to ten clients, `scalability_only` from the
      scalability size on, `bound_gap` in between. */
  function ClaimRegime(n: int, scalabilitySize: int): (r: Regime)
    ensures r == Exact <==> n <= 10
    ensures r == ScalabilityOnly <==> n > 10 && n >= scalabilitySize
    ensures r == BoundGap <==> 10 < n < scalabilitySize
  {
    if n <= 10 then Exact
    else if n >= scalabilitySize then ScalabilityOnly
    else BoundGap
  }

  /** Larger cases never fall in an earlier regime. */
  lemma ClaimRegimeMonotone(n1: int, n2: int, scalabilitySize: int)
    requires n1 <= n2
    ensures RegimeRank(ClaimRegime(n1, scalabilitySize)) <= RegimeRank(ClaimRegime(n2, scalabilitySize))
  {
  }

  /** The regression expectations: 80 and 120 clients with scalability size
      80 are `scalability_only`. */
  lemma ClaimRegimeExamples()
    ensures RegimeName(ClaimRegime(80, 80)) == "scalability_only"
    ensures RegimeName(ClaimRegime(120, 80)) == "scalability_only"
    ensures RegimeName(ClaimRegime(10, 80)) == "exact"
    ensures RegimeName(ClaimRegime(40, 80)) == "bound_gap"
  {
  }

  // ---------------------------------------------------------------------
  // Time limits

  datatype Limits = Limits(heuristic: real, highs: real)

  /** `dict.get(key, default)`. */
  function Get(tl: map<string, real>, key: string, default: real): real
  {
    if key in tl then tl[key] else default
  }

  /** `_time_limits_for_size`. */
  function TimeLimitsForSize(tl: map<string, real>, n: int, profileName: string): (r: Limits)
    ensures profileName == "quick" ==> r == Limits(10.0, 10.0)
    ensures profileName != "quick" && n <= 10 ==>
      r.heuristic == r.highs == Get(tl, "exact_n10_s", 3600.0)
    ensures profileName != "quick" && n == 20 ==>
      r.heuristic == r.highs == Get(tl, "bound_n20_s", 900.0)
    ensures profileName != "quick" && n == 40 ==>
      r.heuristic == r.highs == Get(tl, "bound_n40_s", 1800.0)
    ensures profileName != "quick" && !(n <= 10 || n == 20 || n == 40) ==>
      r == Limits(Get(tl, "scalability_n80_s", 900.0), 0.0)
  {
    if profileName == "quick" then Limits(10.0, 10.0)
    else if n <= 10 then
      var exact := Get(tl, "exact_n10_s", 3600.0);
      Limits(exact, exact)
    else if n == 20 then
      var bound := Get(tl, "bound_n20_s", 900.0);
      Limits(bound, bound)
    else if n == 40 then
      var bound := Get(tl, "bound_n40_s", 1800.0);
      Limits(bound, bound)
    else
      Limits(Get(tl, "scalability_n80_s", 900.0), 0.0)
  }

  /** With positive configured limits, HiGHS gets a positive budget exactly
      on the exact sizes and the two bound sizes 20 and 40. */
  lemma HighsBudgetPositiveIff(tl: map<string, real>, n: int, profileName: string)
    requires profileName != "quick"
    requires forall key :: key in tl ==> tl[key] > 0.0
    ensures TimeLimitsForSize(tl, n, profileName).highs > 0.0 <==> n <= 10 || n == 20 || n == 40
  {
  }

  /** A `bound_gap` case whose size is neither 20 nor 40 (30 clients under
      scalability size 80, say) still calls HiGHS, with a time limit of 0. */
  lemma OffGridBoundGapHighsZero(tl: map<string, real>)
    ensures ClaimRegime(30, 80) == BoundGap
    ensures TimeLimitsForSize(tl, 30, "main_table").highs == 0.0
  {
  }

  // ---------------------------------------------------------------------
  // Case enumeration

  /** `(a, y)` for every `y` of `ys`. */
  function Pair<A, B>(a: A, ys: seq<B>): (r: seq<(A, B)>)
    ensures |r| == |ys|
    ensures forall j :: 0 <= j < |ys| ==> r[j] == (a, ys[j])
  {
    seq(|ys|, j requires 0 <= j < |ys| => (a, ys[j]))
  }

  /** `itertools.product(xs, ys)`: the first factor varies slowest. */
  function Cross<A, B>(xs: seq<A>, ys: seq<B>): (r: seq<(A, B)>)
    ensures |r| == |xs| * |ys|
  {
    if xs == [] then []
    else
      var rest := Cross(xs[1..], ys);
      assert |xs| * |ys| == |ys| + (|xs| - 1) * |ys|;
      Pair(xs[0], ys) + rest
  }

  /** Product order: pair `(xs[i], ys[j])` sits at position `i * |ys| + j`. */
  lemma {:induction false} CrossIndex<A, B>(xs: seq<A>, ys: seq<B>, i: nat, j: nat)
    requires i < |xs| && j < |ys|
    ensures i * |ys| + j < |Cross(xs, ys)|
    ensures Cross(xs, ys)[i * |ys| + j] == (xs[i], ys[j])
  {
    IndexBound(i, j, |xs|, |ys|);
    if i > 0 {
      var w := |ys|;
      var tail := Cross(xs[1..], ys);
      CrossIndex(xs[1..], ys, i - 1, j);
      ShiftIndex(i, j, w);
      assert Cross(xs, ys) == Pair(xs[0], ys) + tail;
      assert Cross(xs, ys)[w + ((i - 1) * w + j)] == tail[(i - 1) * w + j];
    }
  }

  lemma IndexBound(i: nat, j: nat, a: nat, b: nat)
    requires i < a && j < b
    ensures i * b + j < a * b
  {
    assert i * b <= (a - 1) * b;
  }

  lemma ShiftIndex(i: nat, j: nat, w: nat)
    requires i > 0
    ensures i * w + j == w + ((i - 1) * w + j)
  {
  }

  /** Every pair of the product comes from the factors, and every pair of
      factor elements occurs. */
  lemma {:induction false} CrossMembers<A, B>(xs: seq<A>, ys: seq<B>, a: A, b: B)
    ensures (a, b) in Cross(xs, ys) <==> a in xs && b in ys
  {
    if xs != [] {
      CrossMembers(xs[1..], ys, a, b);
      assert xs == [xs[0]] + xs[1..];
      assert (a, b) in Pair(xs[0], ys) <==> a == xs[0] && b in ys;
    }
  }

  /** The part of a profile that `_iter_specs` enumerates. */
  datatype Profile = Profile(
    seeds: seq<int>, sizes: seq<int>, bsCounts: seq<int>, deltasMin: seq<int>,
    edgeSamples: seq<int>, lambdaOut: seq<real>, lambdaTw: seq<real>,
    includeScalability: bool)

  /** The part of the project configuration the runner reads. */
  datatype RunnerConfig = RunnerConfig(
    profiles: map<string, Profile>, scalabilitySize: int, numUavs: int,
    twFamily: string, twMode: string, timeLimits: map<string, real>,
    heuristicEngine: string)

  /** The sizes enumerated: the profile's, plus the scalability size when the
      profile includes it. */
  function Sizes(cfg: RunnerConfig, p: Profile): (s: seq<int>)
    ensures p.includeScalability ==> s == p.sizes + [cfg.scalabilitySize]
    ensures !p.includeScalability ==> s == p.sizes
  {
    if p.includeScalability then p.sizes + [cfg.scalabilitySize] else p.sizes
  }

  type Combo = (int, (int, (int, (int, (int, (real, real))))))

  /** `itertools.product(seeds, sizes, bs_counts, deltas_min, edge_samples,
      lambda_out, lambda_tw)`. */
  function Combos(cfg: RunnerConfig, p: Profile): seq<Combo>
  {
    Cross(p.seeds, Cross(Sizes(cfg, p), Cross(p.bsCounts, Cross(p.deltasMin,
      Cross(p.edgeSamples, Cross(p.lambdaOut, p.lambdaTw))))))
  }

  /** The `_`-separated fields of the run key, each a tag and a value. */
  function KeyParts(seed: int, n: int, m: int, d: int, b: int, k: int, lo: real, lt: real,
                    family: string, show: real -> string): seq<string>
  {
    ["seed" + IntToString(seed), "N" + IntToString(n), "M" + IntToString(m), "D" + IntToString(d),
     "B" + IntToString(b), "K" + IntToString(k), "lo" + show(lo), "lt" + show(lt), "tw" + family]
  }

  /** The `seed{..}_N{..}_M{..}_D{..}_B{..}_K{..}_lo{..}_lt{..}_tw{..}` key.
      Python's rendering of the two weights is the parameter `show`. */
  function RunKey(seed: int, n: int, m: int, d: int, b: int, k: int, lo: real, lt: real,
                  family: string, show: real -> string): (key: string)
    ensures StartsWith(key, "seed" + IntToString(seed) + "_N")
  {
    var parts := KeyParts(seed, n, m, d, b, k, lo, lt, family, show);
    KeyHead(parts, "seed" + IntToString(seed));
    Join(parts, "_")
  }

  lemma KeyHead(parts: seq<string>, first: string)
    requires |parts| >= 3 && parts[0] == first && |parts[1]| >= 1 && parts[1][0] == 'N'
    ensures StartsWith(Join(parts, "_"), first + "_N")
  {
    JoinHead(parts, "_");
    JoinHead(parts[1..], "_");
    var rest := Join(parts[1..], "_");
    assert rest[0] == 'N';
    assert Join(parts, "_") == (first + "_") + rest;
    assert (first + "_N")[..|first| + 1] == first + "_";
  }

  /** A tag followed by a rendered integer holds no `_`. */
  lemma TaggedIntClean(tag: string, i: int)
    requires NoChar(tag, '_')
    ensures NoChar(tag + IntToString(i), '_')
  {
  }

  /** Distinct cases get distinct run keys: when the weights are rendered
      injectively and without `_`, the key determines the seed, the sizes,
      Δ, K, both weights and the window family. */
  lemma RunKeyInjective(seed1: int, n1: int, m1: int, d1: int, b1: int, k1: int, lo1: real, lt1: real,
                        family1: string, seed2: int, n2: int, m2: int, d2: int, b2: int, k2: int,
                        lo2: real, lt2: real, family2: string, show: real -> string)
    requires forall x, y :: show(x) == show(y) ==> x == y
    requires forall x :: NoChar(show(x), '_')
    requires RunKey(seed1, n1, m1, d1, b1, k1, lo1, lt1, family1, show)
          == RunKey(seed2, n2, m2, d2, b2, k2, lo2, lt2, family2, show)
    ensures seed1 == seed2 && n1 == n2 && m1 == m2 && d1 == d2 && b1 == b2 && k1 == k2
    ensures lo1 == lo2 && lt1 == lt2 && family1 == family2
  {
    var p := KeyParts(seed1, n1, m1, d1, b1, k1, lo1, lt1, family1, show);
    var q := KeyParts(seed2, n2, m2, d2, b2, k2, lo2, lt2, family2, show);
    PartsClean(seed1, n1, m1, d1, b1, k1, lo1, lt1, family1, show);
    PartsClean(seed2, n2, m2, d2, b2, k2, lo2, lt2, family2, show);
    JoinInjective(p, q, '_');
    TaggedIntsEqual("seed", seed1, seed2);
    TaggedIntsEqual("N", n1, n2);
    TaggedIntsEqual("M", m1, m2);
    TaggedIntsEqual("D", d1, d2);
    TaggedIntsEqual("B", b1, b2);
    TaggedIntsEqual("K", k1, k2);
    DropPrefix("lo", show(lo1), show(lo2));
    DropPrefix("lt", show(lt1), show(lt2));
    DropPrefix("tw", family1, family2);
  }

  lemma TaggedIntsEqual(tag: string, i: int, j: int)
    requires tag + IntToString(i) == tag + IntToString(j)
    ensures i == j
  {
    DropPrefix(tag, IntToString(i), IntToString(j));
    IntToStringInjective(i, j);
  }

  /** Every field of the key but the last holds no `_`. */
  lemma PartsClean(seed: int, n: int, m: int, d: int, b: int, k: int, lo: real, lt: real,
                   family: string, show: real -> string)
    requires forall x :: NoChar(show(x), '_')
    ensures var p := KeyParts(seed, n, m, d, b, k, lo, lt, family, show);
      |p| == 9 && forall i :: 0 <= i < |p| - 1 ==> NoChar(p[i], '_')
  {
    var p := KeyParts(seed, n, m, d, b, k, lo, lt, family, show);
    forall i | 0 <= i < |p| - 1
      ensures NoChar(p[i], '_')
    {
      if i == 0 { TaggedIntClean("seed", seed); }
      else if i == 1 { TaggedIntClean("N", n); }
      else if i == 2 { TaggedIntClean("M", m); }
      else if i == 3 { TaggedIntClean("D", d); }
      else if i == 4 { TaggedIntClean("B", b); }
      else if i == 5 { TaggedIntClean("K", k); }
      else if i == 6 { assert NoChar(show(lo), '_'); }
      else { assert NoChar(show(lt), '_'); }
    }
  }

  function MakeSpec(cfg: RunnerConfig, c: Combo, show: real -> string): ScenarioSpec
  {
    var (seed, (n, (b, (d, (k, (lo, lt)))))) := c;
    ScenarioSpec(RunKey(seed, n, cfg.numUavs, d, b, k, lo, lt, cfg.twFamily, show),
      seed, n, cfg.numUavs, d, b, k, lo, lt, cfg.twFamily, cfg.twMode)
  }

  /** Every spec of the product, in product order. */
  function AllSpecs(cfg: RunnerConfig, p: Profile, show: real -> string): (r: seq<ScenarioSpec>)
    ensures |r| == |Combos(cfg, p)|
    ensures forall i :: 0 <= i < |r| ==> r[i] == MakeSpec(cfg, Combos(cfg, p)[i], show)
  {
    var cs := Combos(cfg, p);
    seq(|cs|, i requires 0 <= i < |cs| => MakeSpec(cfg, cs[i], show))
  }

  /** `_iter_specs`: the product, cut after `max_cases` specs when that is
      non-zero (a negative `max_cases` stops before the first spec, since
      `count >= max_cases` already holds). */
  function IterSpecs(cfg: RunnerConfig, profileName: string, maxCases: int, show: real -> string)
    : (r: Option<seq<ScenarioSpec>>)
    ensures r.None? <==> profileName !in cfg.profiles
    ensures r.Some? && maxCases == 0 ==> r.value == AllSpecs(cfg, cfg.profiles[profileName], show)
    ensures r.Some? && maxCases < 0 ==> r.value == []
    ensures r.Some? && maxCases > 0 ==>
      var all := AllSpecs(cfg, cfg.profiles[profileName], show);
      |r.value| == Min(maxCases as real, |all| as real).Floor
      && r.value == all[..|r.value|]
  {
    if profileName !in cfg.profiles then None
    else
      var all := AllSpecs(cfg, cfg.profiles[profileName], show);
      if maxCases == 0 then Some(all)
      else if maxCases < 0 then Some([])
      else if maxCases >= |all| then Some(all)
      else Some(all[..maxCases])
  }

  /** The product of the seven factors, seed-major: one block of
      `|Rest(cfg, p)|` consecutive specs per seed, in seed order. */
  function Rest(cfg: RunnerConfig, p: Profile): seq<(int, (int, (int, (int, (real, real)))))>
  {
    Cross(Sizes(cfg, p), Cross(p.bsCounts, Cross(p.deltasMin,
      Cross(p.edgeSamples, Cross(p.lambdaOut, p.lambdaTw)))))
  }

  /** There is one spec per combination of the seven lists. */
  lemma SpecsCount(cfg: RunnerConfig, p: Profile, show: real -> string)
    ensures |AllSpecs(cfg, p, show)| == |p.seeds| * (|Sizes(cfg, p)| * (|p.bsCounts| * (|p.deltasMin|
      * (|p.edgeSamples| * (|p.lambdaOut| * |p.lambdaTw|)))))
  {
  }

  /** The `r`-th spec of the block of seed `s` carries that seed: seeds vary
      slowest. */
  lemma SpecsSeedMajor(cfg: RunnerConfig, p: Profile, show: real -> string, s: nat, r: nat)
    requires s < |p.seeds| && r < |Rest(cfg, p)|
    ensures s * |Rest(cfg, p)| + r < |AllSpecs(cfg, p, show)|
    ensures AllSpecs(cfg, p, show)[s * |Rest(cfg, p)| + r].seed == p.seeds[s]
    ensures AllSpecs(cfg, p, show)[s * |Rest(cfg, p)| + r].nClients == Rest(cfg, p)[r].0
  {
    CrossIndex(p.seeds, Rest(cfg, p), s, r);
    var i := s * |Rest(cfg, p)| + r;
    var c := Combos(cfg, p)[i];
    assert c == (p.seeds[s], Rest(cfg, p)[r]);
    var sp := MakeSpec(cfg, c, show);
    assert sp.seed == c.0 && sp.nClients == c.1.0;
  }

  /** Every spec is built from one value of each list. */
  lemma SpecsSound(cfg: RunnerConfig, p: Profile, show: real -> string, i: nat)
    requires i < |AllSpecs(cfg, p, show)|
    ensures var sp := AllSpecs(cfg, p, show)[i];
      sp.seed in p.seeds && sp.nClients in Sizes(cfg, p) && sp.bsCount in p.bsCounts
      && sp.deltaMin in p.deltasMin && sp.edgeSamples in p.edgeSamples
      && sp.lambdaOut in p.lambdaOut && sp.lambdaTw in p.lambdaTw
      && sp.numUavs == cfg.numUavs && sp.twFamily == cfg.twFamily && sp.twMode == cfg.twMode
  {
    var c := Combos(cfg, p)[i];
    var (seed, (n, (b, (d, (k, (lo, lt)))))) := c;
    var c6 := Cross(p.lambdaOut, p.lambdaTw);
    var c5 := Cross(p.edgeSamples, c6);
    var c4 := Cross(p.deltasMin, c5);
    var c3 := Cross(p.bsCounts, c4);
    var c2 := Cross(Sizes(cfg, p), c3);
    CrossMembers(p.seeds, c2, seed, (n, (b, (d, (k, (lo, lt))))));
    CrossMembers(Sizes(cfg, p), c3, n, (b, (d, (k, (lo, lt)))));
    CrossMembers(p.bsCounts, c4, b, (d, (k, (lo, lt))));
    CrossMembers(p.deltasMin, c5, d, (k, (lo, lt)));
    CrossMembers(p.edgeSamples, c6, k, (lo, lt));
    CrossMembers(p.lambdaOut, p.lambdaTw, lo, lt);
  }

  /** Every combination of one value from each list has its spec. */
  lemma SpecsComplete(cfg: RunnerConfig, p: Profile, show: real -> string,
                      seed: int, n: int, b: int, d: int, k: int, lo: real, lt: real)
    requires seed in p.seeds && n in Sizes(cfg, p) && b in p.bsCounts && d in p.deltasMin
    requires k in p.edgeSamples && lo in p.lambdaOut && lt in p.lambdaTw
    ensures exists i :: (0 <= i < |AllSpecs(cfg, p, show)|
      && AllSpecs(cfg, p, show)[i] == MakeSpec(cfg, (seed, (n, (b, (d, (k, (lo, lt)))))), show))
  {
    var c6 := Cross(p.lambdaOut, p.lambdaTw);
    var c5 := Cross(p.edgeSamples, c6);
    var c4 := Cross(p.deltasMin, c5);
    var c3 := Cross(p.bsCounts, c4);
    var c2 := Cross(Sizes(cfg, p), c3);
    CrossMembers(p.lambdaOut, p.lambdaTw, lo, lt);
    CrossMembers(p.edgeSamples, c6, k, (lo, lt));
    CrossMembers(p.deltasMin, c5, d, (k, (lo, lt)));
    CrossMembers(p.bsCounts, c4, b, (d, (k, (lo, lt))));
    CrossMembers(Sizes(cfg, p), c3, n, (b, (d, (k, (lo, lt)))));
    CrossMembers(p.seeds, c2, seed, (n, (b, (d, (k, (lo, lt))))));
    var i :| 0 <= i < |Combos(cfg, p)| && Combos(cfg, p)[i] == (seed, (n, (b, (d, (k, (lo, lt))))));
    assert AllSpecs(cfg, p, show)[i] == MakeSpec(cfg, Combos(cfg, p)[i], show);
  }

  // ---------------------------------------------------------------------
  // Solver call and status predicates

  /** What calling a solver produced: its output, or an exception message. */
  datatype Call = Returned(out: SolverOutput) | Raised(msg: string)

  /** `_is_feasible_status`: neither "infeasible" nor "unavailable" occurs
      in the lower-cased status. */
  predicate IsFeasibleStatus(status: string)
  {
    !Contains(Lower(status), "infeasible") && !Contains(Lower(status), "unavailable")
  }

  /** `_is_optimal_status`: "optimal" occurs and "not" does not. */
  predicate IsOptimalStatus(status: string)
  {
    Contains(Lower(status), "optimal") && !Contains(Lower(status), "not")
  }

  /** `sub` does not occur in `s` when one of its characters does not. */
  lemma MissingChar(s: string, sub: string, c: char)
    requires c in sub && c !in s
    ensures !Contains(s, sub)
  {
    if Contains(s, sub) {
      ContainsChar(s, sub, c);
    }
  }

  /** The unit-test expectation: "Optimal" is an optimal status. */
  lemma OptimalIsOptimal()
    ensures IsOptimalStatus("Optimal")
  {
    assert Lower("Optimal") == "optimal";
    assert StartsWith("optimal", "optimal");
    MissingChar("optimal", "not", 'n');
  }

  /** The unit-test expectation: "Time limit reached" is not optimal. */
  lemma TimeLimitNotOptimal()
    ensures !IsOptimalStatus("Time limit reached")
  {
    assert Lower("Time limit reached") == "time limit reached";
    MissingChar("time limit reached", "optimal", 'p');
  }

  /** A status saying "not optimal" is not optimal, and "Infeasible" is not
      feasible, although "Optimal" is. */
  lemma StatusNegations()
    ensures !IsOptimalStatus("not optimal")
    ensures !IsFeasibleStatus("Infeasible")
    ensures IsFeasibleStatus("Optimal")
  {
    NotOptimalRejected();
    InfeasibleRejected();
    OptimalFeasible();
  }

  lemma NotOptimalRejected()
    ensures !IsOptimalStatus("not optimal")
  {
    assert Lower("not optimal") == "not optimal";
    assert StartsWith("not optimal", "not");
  }

  lemma InfeasibleRejected()
    ensures !IsFeasibleStatus("Infeasible")
  {
    assert Lower("Infeasible") == "infeasible";
    assert StartsWith("infeasible", "infeasible");
  }

  lemma OptimalFeasible()
    ensures IsFeasibleStatus("Optimal")
  {
    assert Lower("Optimal") == "optimal";
    MissingChar("optimal", "infeasible", 'f');
    MissingChar("optimal", "unavailable", 'u');
  }

  /** `_safe_solver_call`: the output is always labelled with the requested
      method name and the measured runtime; a raising solver yields an
      "unavailable:<message>" status with no routes and no numbers, which the
      feasibility predicate rejects. */
  function SafeSolverCall(name: string, call: Call, runtime: real): (out: SolverOutput)
    ensures out.methodName == name && out.runtimeS == runtime
    ensures call.Returned? ==>
      out.status == call.out.status && out.routes == call.out.routes
      && out.objective == call.out.objective && out.bound == call.out.bound
      && out.gapPct == call.out.gapPct && out.metadata == call.out.metadata
    ensures call.Raised? ==>
      out.status == "unavailable:" + call.msg && out.routes == []
      && out.objective.None? && out.bound.None? && out.gapPct.None?
      && out.metadata == [("error", VStr(call.msg))]
    ensures call.Raised? ==> !IsFeasibleStatus(out.status)
  {
    match call
    case Returned(o) => o.(methodName := name, runtimeS := runtime)
    case Raised(msg) =>
      var status := "unavailable:" + msg;
      UnavailableRejected(msg);
      SolverOutput(name, status, None, None, None, runtime, [], [("error", VStr(msg))])
  }

  /** An "unavailable:" status is never feasible, whatever the message. */
  lemma UnavailableRejected(msg: string)
    ensures !IsFeasibleStatus("unavailable:" + msg)
  {
    LowerAppend("unavailable:", msg);
    assert Lower("unavailable:") == "unavailable:";
    ContainsSelfPrefix("unavailable", ":" + Lower(msg));
    assert "unavailable:" + Lower(msg) == "unavailable" + (":" + Lower(msg));
  }

  // ---------------------------------------------------------------------
  // Optimality gap

  /** The slack `_compute_gap_pct` allows a bound above the incumbent. */
  function Tolerance(incumbent: real): (t: real)
    ensures t >= 1e-6 && t >= 1e-6 * Abs(incumbent)
  {
    Max(1e-6, 1e-6 * Abs(incumbent))
  }

  /** The clamped relative gap of an accepted pair. */
  function GapValue(incumbent: real, bound: real): real
  {
    Max(0.0, 100.0 * (incumbent - bound) / Max(Abs(incumbent), 1e-9))
  }

  /** `_compute_gap_pct`: defined exactly when both values are finite and
      the bound does not exceed the incumbent by more than the tolerance,
      and then never negative. */
  function ComputeGapPct(incumbent: Option<Float>, bound: Option<Float>): (g: Option<real>)
    ensures g.Some? <==>
      FiniteOrNone(incumbent).Some? && FiniteOrNone(bound).Some?
      && FiniteOrNone(bound).value <= FiniteOrNone(incumbent).value + Tolerance(FiniteOrNone(incumbent).value)
    ensures g.Some? ==> g.value >= 0.0
    ensures g.Some? ==> g.value == GapValue(FiniteOrNone(incumbent).value, FiniteOrNone(bound).value)
  {
    var i := FiniteOrNone(incumbent);
    var b := FiniteOrNone(bound);
    if i.None? || b.None? then None
    else if b.value > i.value + Tolerance(i.value) then None
    else Some(GapValue(i.value, b.value))
  }

  /** The unit-test expectations: a bound of 90 under an incumbent of 100 is
      a 10% gap, and a bound of 110 is rejected. */
  lemma GapExamples()
    ensures ComputeGapPct(Some(Finite(100.0)), Some(Finite(90.0))) == Some(10.0)
    ensures ComputeGapPct(Some(Finite(100.0)), Some(Finite(110.0))) == None
  {
    assert GapValue(100.0, 90.0) == 10.0;
  }

  /** The gap is zero exactly when the bound reaches the incumbent. */
  lemma GapZeroIff(incumbent: real, bound: real)
    ensures GapValue(incumbent, bound) == 0.0 <==> bound >= incumbent
  {
    var d := Max(Abs(incumbent), 1e-9);
    assert d > 0.0;
    if bound < incumbent {
      assert 100.0 * (incumbent - bound) > 0.0;
      assert 100.0 * (incumbent - bound) / d > 0.0;
    } else {
      assert 100.0 * (incumbent - bound) <= 0.0;
      assert 100.0 * (incumbent - bound) / d <= 0.0;
    }
  }

  /** A tighter (higher) bound never gives a larger gap. */
  lemma GapAntitone(incumbent: real, b1: real, b2: real)
    requires b1 <= b2
    ensures GapValue(incumbent, b2) <= GapValue(incumbent, b1)
  {
    var d := Max(Abs(incumbent), 1e-9);
    assert d > 0.0;
    assert 100.0 * (incumbent - b2) <= 100.0 * (incumbent - b1);
    DivideMonotone(100.0 * (incumbent - b2), 100.0 * (incumbent - b1), d);
  }

  lemma DivideMonotone(x: real, y: real, d: real)
    requires x <= y && d > 0.0
    ensures x / d <= y / d
  {
    assert y / d - x / d == (y - x) / d;
  }

  lemma DivideAtMost(x: real, d: real, c: real)
    requires d > 0.0 && x <= c * d
    ensures x / d <= c
  {
    assert x / d * d == x;
  }

  /** A non-negative bound under a positive incumbent gives at most 100%. */
  lemma GapAtMost100(incumbent: real, bound: real)
    requires 0.0 <= bound <= incumbent && incumbent > 0.0
    ensures GapValue(incumbent, bound) <= 100.0
  {
    var d := Max(Abs(incumbent), 1e-9);
    assert d >= incumbent;
    assert 100.0 * (incumbent - bound) <= 100.0 * d;
    DivideAtMost(100.0 * (incumbent - bound), d, 100.0);
  }

  // ---------------------------------------------------------------------
  // One case

  const HighsName: string := "highs_exact_bound"

  /** The methods a case runs, in order: the main heuristic (and the PyVRP
      baseline unless PyVRP is the main heuristic), then HiGHS unless the
      base regime is `scalability_only`. */
  function PlannedMethods(engine: string, base: Regime): (ms: seq<string>)
    ensures HighsName in ms <==> base != ScalabilityOnly
    ensures |ms| >= 1
    ensures Lower(engine) == "pyvrp" ==> ms[0] == "pyvrp_main"
    ensures Lower(engine) != "pyvrp" ==> |ms| >= 2 && ms[..2] == ["ortools_main", "pyvrp_baseline"]
    ensures base != ScalabilityOnly ==> ms[|ms| - 1] == HighsName
  {
    var heuristics := if Lower(engine) == "pyvrp" then ["pyvrp_main"] else ["ortools_main", "pyvrp_baseline"];
    if base != ScalabilityOnly then heuristics + [HighsName] else heuristics
  }

  /** The guarded outputs of the planned solvers, one per method, each call
      with its own result and runtime. */
  function CaseOutputs(methods: seq<string>, calls: seq<(Call, real)>): (outs: seq<SolverOutput>)
    requires |calls| == |methods|
    ensures |outs| == |methods|
    ensures forall i :: 0 <= i < |outs| ==> outs[i] == SafeSolverCall(methods[i], calls[i].0, calls[i].1)
    ensures forall i :: 0 <= i < |outs| ==> outs[i].methodName == methods[i]
  {
    seq(|methods|, i requires 0 <= i < |methods| => SafeSolverCall(methods[i], calls[i].0, calls[i].1))
  }

  /** The first output of HiGHS, if any (the `for ... break` search). */
  function FindHighs(outs: seq<SolverOutput>): (h: Option<SolverOutput>)
    ensures h.None? <==> forall i :: 0 <= i < |outs| ==> outs[i].methodName != HighsName
    ensures h.Some? ==> exists i :: (0 <= i < |outs| && outs[i] == h.value
      && h.value.methodName == HighsName
      && forall j :: 0 <= j < i ==> outs[j].methodName != HighsName)
  {
    if outs == [] then None
    else if outs[0].methodName == HighsName then Some(outs[0])
    else
      var h := FindHighs(outs[1..]);
      assert forall i :: 1 <= i < |outs| ==> outs[i] == outs[1..][i - 1];
      if h.Some? then
        var i :| 0 <= i < |outs[1..]| && outs[1..][i] == h.value
          && forall j :: 0 <= j < i ==> outs[1..][j].methodName != HighsName;
        assert outs[i + 1] == h.value;
        h
      else h
  }

  /** The regime written into every row of a case: `exact` survives only
      when HiGHS ran and reports a true optimum; otherwise an `exact` case is
      demoted to `bound_gap`.  Other regimes are kept. */
  function FinalRegime(base: Regime, highs: Option<SolverOutput>): (r: Regime)
    ensures r == Exact <==> base == Exact && highs.Some? && IsOptimalStatus(highs.value.status)
    ensures base == Exact && r != Exact ==> r == BoundGap
    ensures base != Exact ==> r == base
  {
    if base == Exact && !(highs.Some? && IsOptimalStatus(highs.value.status)) then BoundGap else base
  }

  /** The per-row numbers of `run_experiment_matrix`. */
  datatype RowMetrics = RowMetrics(
    feasibleFlag: int, onTimePct: Option<real>, totalTardinessMin: Option<real>,
    totalEnergy: Option<real>, riskMean: Option<real>, riskMaxRoute: Option<real>,
    incumbentObj: Option<real>, bestBound: Option<real>, gapPct: Option<real>)

  /** All service metrics of a row are present. */
  predicate ServicePresent(a: RowMetrics)
  {
    a.onTimePct.Some? && a.totalTardinessMin.Some? && a.totalEnergy.Some?
    && a.riskMean.Some? && a.riskMaxRoute.Some?
  }

  /** All service metrics of a row are missing. */
  predicate ServiceAbsent(a: RowMetrics)
  {
    a.onTimePct.None? && a.totalTardinessMin.None? && a.totalEnergy.None?
    && a.riskMean.None? && a.riskMaxRoute.None?
  }

  function Flag(b: bool): (f: int)
    ensures f == 0 || f == 1
    ensures f == 1 <==> b
  {
    if b then 1 else 0
  }

  /** Feasibility and metrics of one output before the bound policy: with
      routes, the flag needs both the evaluator and the status, and the
      service metrics are reported only for a flagged row; without routes,
      the flag is the status predicate and the incumbent is the solver's own
      objective. */
  function Assess(sc: ScenarioData, e: EdgeData, cs: CostSpec, runId: string, out: SolverOutput)
    : (a: RowMetrics)
    requires Shaped(sc, e) && ClientsInRange(out.routes, |sc.clientXy|)
    ensures a.bestBound.None? && a.gapPct.None?
    ensures out.routes == [] ==>
      a.feasibleFlag == Flag(IsFeasibleStatus(out.status))
      && a.incumbentObj == FiniteOrNone(out.objective) && ServiceAbsent(a)
    ensures out.routes != [] ==>
      a.feasibleFlag == Flag(EvaluateRoutes(sc, e, out.routes, cs, runId).feasible && IsFeasibleStatus(out.status))
      && (a.feasibleFlag == 1 ==> ServicePresent(a) && a.incumbentObj.Some?)
      && (a.feasibleFlag == 0 ==> ServiceAbsent(a) && a.incumbentObj.None?)
    ensures a.onTimePct.Some? ==> 0.0 <= a.onTimePct.value
    ensures a.totalTardinessMin.Some? ==> a.totalTardinessMin.value >= 0.0
  {
    if out.routes != [] then
      var ev := EvaluateRoutes(sc, e, out.routes, cs, runId);
      var flag := Flag(ev.feasible && IsFeasibleStatus(out.status));
      if flag == 1 then
        RowMetrics(flag, ev.onTimePct, ev.totalTardinessMin, ev.totalEnergy, ev.riskMean,
          ev.riskMaxRoute, ev.incumbentObj, None, None)
      else
        RowMetrics(flag, None, None, None, None, None, None, None, None)
    else
      RowMetrics(Flag(IsFeasibleStatus(out.status)), None, None, None, None, None,
        FiniteOrNone(out.objective), None, None)
  }

  /** A known number as a raw float. */
  function Lift(x: Option<real>): (f: Option<Float>)
    ensures FiniteOrNone(f) == x
  {
    if x.Some? then Some(Finite(x.value)) else None
  }

  /** The bound and gap policy of lines 359-375. */
  function ApplyPolicy(a: RowMetrics, out: SolverOutput, regime: Regime, highsBound: Option<real>)
    : (r: RowMetrics)
    requires a.bestBound.None? && a.gapPct.None?
    ensures r.feasibleFlag == a.feasibleFlag && r.onTimePct == a.onTimePct
    ensures r.totalTardinessMin == a.totalTardinessMin && r.totalEnergy == a.totalEnergy
    ensures r.riskMean == a.riskMean && r.riskMaxRoute == a.riskMaxRoute
    ensures regime == ScalabilityOnly ==>
      r.bestBound.None? && r.gapPct.None? && r.incumbentObj == a.incumbentObj
    ensures regime != ScalabilityOnly && out.methodName == HighsName ==>
      r.bestBound == FiniteOrNone(out.bound)
    ensures regime == Exact && out.methodName == HighsName ==>
      r.gapPct == Some(0.0)
      && r.incumbentObj == (if a.incumbentObj.Some? then a.incumbentObj else FiniteOrNone(out.objective))
    ensures regime == BoundGap && out.methodName == HighsName ==>
      r.incumbentObj == a.incumbentObj
      && r.gapPct == ComputeGapPct(if a.incumbentObj.Some? then Lift(a.incumbentObj) else out.objective, out.bound)
    ensures regime != ScalabilityOnly && out.methodName != HighsName ==>
      r.incumbentObj == a.incumbentObj
      && (r.bestBound.Some? <==> highsBound.Some? && a.incumbentObj.Some?)
      && (r.bestBound.Some? ==> r.bestBound == highsBound
                                && r.gapPct == ComputeGapPct(Lift(a.incumbentObj), Lift(highsBound)))
      && (r.bestBound.None? ==> r.gapPct.None?)
    ensures r.gapPct.Some? ==> r.gapPct.value >= 0.0
  {
    if regime == ScalabilityOnly then a
    else if out.methodName == HighsName then
      var bound := FiniteOrNone(out.bound);
      if regime == Exact then
        var inc := if a.incumbentObj.Some? then a.incumbentObj else FiniteOrNone(out.objective);
        a.(incumbentObj := inc, bestBound := bound, gapPct := Some(0.0))
      else
        var gap := ComputeGapPct(if a.incumbentObj.Some? then Lift(a.incumbentObj) else out.objective, Lift(bound));
        assert FiniteOrNone(Lift(bound)) == FiniteOrNone(out.bound);
        a.(bestBound := bound, gapPct := gap)
    else if highsBound.Some? && a.incumbentObj.Some? then
      a.(bestBound := highsBound, gapPct := ComputeGapPct(Lift(a.incumbentObj), Lift(highsBound)))
    else a
  }

  /** Values `run_experiment_matrix` reads from the environment for every row. */
  datatype Provenance = Provenance(gitSha: string, envHash: string, timestamp: string, runtimeEdgeS: real)

  /** `f"{profile_name}_{spec.run_id}_{out.method}"`. */
  function CaseRunId(profileName: string, spec: ScenarioSpec, methodName: string): string
  {
    profileName + "_" + spec.runId + "_" + methodName
  }

  /** The regime of a case once HiGHS has reported. */
  function CaseRegime(scalabilitySize: int, spec: ScenarioSpec, outs: seq<SolverOutput>): (r: Regime)
    ensures r == ScalabilityOnly <==> spec.nClients > 10 && spec.nClients >= scalabilitySize
    ensures r == Exact <==>
      spec.nClients <= 10 && FindHighs(outs).Some? && IsOptimalStatus(FindHighs(outs).value.status)
  {
    FinalRegime(ClaimRegime(spec.nClients, scalabilitySize), FindHighs(outs))
  }

  /** The HiGHS bound the other rows may borrow. */
  function HighsBound(outs: seq<SolverOutput>): (b: Option<real>)
    ensures b.Some? ==> FindHighs(outs).Some? && b == FiniteOrNone(FindHighs(outs).value.bound)
  {
    var h := FindHighs(outs);
    if h.Some? then FiniteOrNone(h.value.bound) else None
  }

  predicate RoutesInRange(outs: seq<SolverOutput>, n: nat)
  {
    forall i :: 0 <= i < |outs| ==> ClientsInRange(outs[i].routes, n)
  }

  /** The finished numbers of output `i` of a case. */
  function CaseMetrics(sc: ScenarioData, e: EdgeData, cs: CostSpec, profileName: string,
                       scalabilitySize: int, spec: ScenarioSpec, outs: seq<SolverOutput>, i: nat)
    : (m: RowMetrics)
    requires Shaped(sc, e) && RoutesInRange(outs, |sc.clientXy|) && i < |outs|
    ensures m.feasibleFlag == 0 || m.feasibleFlag == 1
    ensures m.gapPct.Some? ==> m.gapPct.value >= 0.0
  {
    var a := Assess(sc, e, cs, CaseRunId(profileName, spec, outs[i].methodName), outs[i]);
    ApplyPolicy(a, outs[i], CaseRegime(scalabilitySize, spec, outs), HighsBound(outs))
  }

  /** One `RunResult` from a spec, an output and its numbers. */
  function MakeRow(profileName: string, spec: ScenarioSpec, prov: Provenance, out: SolverOutput,
                   m: RowMetrics, regime: Regime): (r: RunResult)
  {
    RunResult(CaseRunId(profileName, spec, out.methodName), profileName, prov.gitSha,
      prov.envHash, prov.timestamp, spec.seed, out.methodName, spec.nClients, spec.numUavs,
      spec.deltaMin, spec.bsCount, spec.edgeSamples, spec.lambdaOut, spec.lambdaTw,
      spec.twFamily, spec.twMode, m.onTimePct, m.totalTardinessMin, m.totalEnergy,
      m.riskMean, m.riskMaxRoute, prov.runtimeEdgeS, out.runtimeS,
      prov.runtimeEdgeS + out.runtimeS, m.incumbentObj, m.bestBound, m.gapPct,
      m.feasibleFlag, RegimeName(regime))
  }

  /** The main rows of one case of `run_experiment_matrix`: one row per
      solver output, in order, all in the case's final regime. */
  function RunCase(sc: ScenarioData, e: EdgeData, cs: CostSpec, profileName: string,
                   scalabilitySize: int, spec: ScenarioSpec, outs: seq<SolverOutput>, prov: Provenance)
    : (rows: seq<RunResult>)
    requires Shaped(sc, e) && RoutesInRange(outs, |sc.clientXy|)
    ensures |rows| == |outs|
    ensures forall i :: 0 <= i < |outs| ==>
      rows[i].methodName == outs[i].methodName
      && rows[i].runId == CaseRunId(profileName, spec, outs[i].methodName)
      && rows[i].n == spec.nClients
      && rows[i].claimRegime == RegimeName(CaseRegime(scalabilitySize, spec, outs))
      && (rows[i].feasibleFlag == 0 || rows[i].feasibleFlag == 1)
      && (rows[i].gapPct.Some? ==> rows[i].gapPct.value >= 0.0)
      && rows[i].runtimeTotalS == prov.runtimeEdgeS + outs[i].runtimeS
  {
    seq(|outs|, i requires 0 <= i < |outs| =>
      MakeRow(profileName, spec, prov, outs[i],
        CaseMetrics(sc, e, cs, profileName, scalabilitySize, spec, outs, i),
        CaseRegime(scalabilitySize, spec, outs)))
  }

  /** The route rows of one case: every output with routes appends the
      route rows of its evaluation, under its own run id, whether or not it
      is feasible; an output without routes appends nothing. */
  function CaseRouteRows(sc: ScenarioData, e: EdgeData, cs: CostSpec, profileName: string,
                         spec: ScenarioSpec, outs: seq<SolverOutput>): (rows: seq<RouteRecord>)
    requires Shaped(sc, e) && RoutesInRange(outs, |sc.clientXy|)
    ensures |rows| == RouteOffset(outs, |outs|)
    decreases |outs|
  {
    if outs == [] then []
    else
      var out := outs[0];
      var own := if out.routes != [] then
          EvaluateRoutes(sc, e, out.routes, cs, CaseRunId(profileName, spec, out.methodName)).routeRows
        else [];
      own + CaseRouteRows(sc, e, cs, profileName, spec, outs[1..])
  }

  /** The number of routes of the first `i` outputs: where the rows of
      output `i` start in the case's route table. */
  function RouteOffset(outs: seq<SolverOutput>, i: nat): nat
    requires i <= |outs|
    decreases i
  {
    if i == 0 then 0 else |outs[0].routes| + RouteOffset(outs[1..], i - 1)
  }

  /** Route `u` of output `i` is written at its offset, as the evaluation of
      that route under the output's run id, numbered `u`. */
  lemma {:induction false} CaseRouteRowAt(sc: ScenarioData, e: EdgeData, cs: CostSpec, profileName: string,
                                          spec: ScenarioSpec, outs: seq<SolverOutput>, i: nat, u: nat)
    requires Shaped(sc, e) && RoutesInRange(outs, |sc.clientXy|)
    requires i < |outs| && u < |outs[i].routes|
    ensures RouteOffset(outs, i) + u < |CaseRouteRows(sc, e, cs, profileName, spec, outs)|
    ensures var row := CaseRouteRows(sc, e, cs, profileName, spec, outs)[RouteOffset(outs, i) + u];
      row == Objective.RouteRow(sc, e, outs[i].routes[u], CaseRunId(profileName, spec, outs[i].methodName), u)
      && row.runId == CaseRunId(profileName, spec, outs[i].methodName) && row.uavId == u
    decreases i
  {
    OffsetsGrow(outs, i);
    var rest := outs[1..];
    assert RoutesInRange(rest, |sc.clientXy|) by {
      forall k | 0 <= k < |rest|
        ensures ClientsInRange(rest[k].routes, |sc.clientXy|)
      {
        assert rest[k] == outs[k + 1];
      }
    }
    if i > 0 {
      CaseRouteRowAt(sc, e, cs, profileName, spec, rest, i - 1, u);
    }
  }

  /** Offsets never shrink, and the rows of output `i` end within the table. */
  lemma {:induction false} OffsetsGrow(outs: seq<SolverOutput>, i: nat)
    requires i < |outs|
    ensures RouteOffset(outs, i) + |outs[i].routes| <= RouteOffset(outs, |outs|)
    decreases i
  {
    if i > 0 {
      OffsetsGrow(outs[1..], i - 1);
    }
  }

  /** One case of `run_experiment_matrix` on any solver routes: its main
      rows and its route rows, or `None` when a route names a client that
      does not exist, where `evaluate_routes` raises `IndexError` outside
      the solver guard and the whole run stops. */
  function TryRunCase(sc: ScenarioData, e: EdgeData, cs: CostSpec, profileName: string,
                      scalabilitySize: int, spec: ScenarioSpec, outs: seq<SolverOutput>, prov: Provenance)
    : (r: Option<(seq<RunResult>, seq<RouteRecord>)>)
    requires Shaped(sc, e)
    ensures r.None? <==> exists i :: 0 <= i < |outs| && !ClientsInRange(outs[i].routes, |sc.clientXy|)
    ensures r.Some? ==> r.value.0 == RunCase(sc, e, cs, profileName, scalabilitySize, spec, outs, prov)
    ensures r.Some? ==> r.value.1 == CaseRouteRows(sc, e, cs, profileName, spec, outs)
  {
    if RoutesInRange(outs, |sc.clientXy|) then
      Some((RunCase(sc, e, cs, profileName, scalabilitySize, spec, outs, prov),
            CaseRouteRows(sc, e, cs, profileName, spec, outs)))
    else None
  }

  /** A case at or above the scalability size reports neither a bound nor
      a gap in any row. */
  lemma ScalabilityRowsHaveNoBoundOrGap(sc: ScenarioData, e: EdgeData, cs: CostSpec, profileName: string,
                                        scalabilitySize: int, spec: ScenarioSpec,
                                        outs: seq<SolverOutput>, prov: Provenance, i: nat)
    requires Shaped(sc, e) && RoutesInRange(outs, |sc.clientXy|) && i < |outs|
    requires spec.nClients > 10 && spec.nClients >= scalabilitySize
    ensures var row := RunCase(sc, e, cs, profileName, scalabilitySize, spec, outs, prov)[i];
      row.claimRegime == "scalability_only" && row.bestBound.None? && row.gapPct.None?
  {
    var m := CaseMetrics(sc, e, cs, profileName, scalabilitySize, spec, outs, i);
    assert CaseRegime(scalabilitySize, spec, outs) == ScalabilityOnly;
  }

  /** An `exact` case has at most ten clients and a HiGHS output with an
      optimal status, and its HiGHS rows report a zero gap. */
  lemma ExactRowsAreCertified(sc: ScenarioData, e: EdgeData, cs: CostSpec, profileName: string,
                              scalabilitySize: int, spec: ScenarioSpec,
                              outs: seq<SolverOutput>, prov: Provenance, i: nat)
    requires Shaped(sc, e) && RoutesInRange(outs, |sc.clientXy|) && i < |outs|
    requires CaseRegime(scalabilitySize, spec, outs) == Exact
    ensures spec.nClients <= 10
    ensures FindHighs(outs).Some? && IsOptimalStatus(FindHighs(outs).value.status)
    ensures outs[i].methodName == HighsName ==>
      RunCase(sc, e, cs, profileName, scalabilitySize, spec, outs, prov)[i].gapPct == Some(0.0)
  {
    var m := CaseMetrics(sc, e, cs, profileName, scalabilitySize, spec, outs, i);
  }

  /** A non-HiGHS row that reports a bound reports the HiGHS bound, and the
      gap computed against it from its own incumbent. */
  lemma BorrowedBoundIsHighsBound(sc: ScenarioData, e: EdgeData, cs: CostSpec, profileName: string,
                                  scalabilitySize: int, spec: ScenarioSpec,
                                  outs: seq<SolverOutput>, prov: Provenance, i: nat)
    requires Shaped(sc, e) && RoutesInRange(outs, |sc.clientXy|) && i < |outs|
    requires outs[i].methodName != HighsName
    ensures var row := RunCase(sc, e, cs, profileName, scalabilitySize, spec, outs, prov)[i];
      row.bestBound.Some? ==>
        FindHighs(outs).Some? && row.bestBound == FiniteOrNone(FindHighs(outs).value.bound)
        && row.incumbentObj.Some?
        && row.gapPct == ComputeGapPct(Lift(row.incumbentObj), Lift(row.bestBound))
  {
    var m := CaseMetrics(sc, e, cs, profileName, scalabilitySize, spec, outs, i);
  }

  /** When the outputs are those of the planned methods, a
      `scalability_only` case has no HiGHS row at all, and any other case
      ends with one. */
  lemma HighsRunsOutsideScalability(engine: string, base: Regime, calls: seq<(Call, real)>)
    requires |calls| == |PlannedMethods(engine, base)|
    ensures var outs := CaseOutputs(PlannedMethods(engine, base), calls);
      FindHighs(outs).None? <==> base == ScalabilityOnly
  {
    var ms := PlannedMethods(engine, base);
    var outs := CaseOutputs(ms, calls);
    if base == ScalabilityOnly {
      forall i | 0 <= i < |outs|
        ensures outs[i].methodName != HighsName
      {
        assert ms[i] in ms;
      }
    } else {
      assert outs[|outs| - 1].methodName == HighsName;
    }
  }
}


=== FILE: schema.dfy ===
/** Record types of the experiment engine and the fixed column order of the
    three result tables.  A table row is an ordered list of (column, value)
    pairs, as the Python dictionaries built by `to_row` are. */
module Schema {
  import opened Numeric

  /** A table cell.  `VNull` is a missing value (Python `None`, pandas NA). */
  datatype Value = VNull | VStr(s: string) | VInt(i: int) | VReal(r: real)

  type Row = seq<(string, Value)>

  /** 2-D coordinates in metres. */
  type Point = (real, real)

  /** Square matrix indexed by node (0 = depot, i = client i-1). */
  type Matrix = seq<seq<real>>

  const MainColumns: seq<string> := [
    "run_id", "profile", "git_sha", "env_hash", "timestamp", "seed", "method",
    "N", "M", "Delta_min", "B", "K", "lambda_out", "lambda_tw", "tw_family",
    "tw_mode", "on_time_pct", "total_tardiness_min", "total_energy",
    "risk_mean", "risk_max_route", "runtime_edge_s", "runtime_solve_s",
    "runtime_total_s", "incumbent_obj", "best_bound", "gap_pct",
    "feasible_flag", "claim_regime"
  ]

  const RoutesColumns: seq<string> := [
    "run_id", "uav_id", "route_node_sequence", "route_energy",
    "route_risk_mean", "route_tardiness_min", "route_time_s"
  ]

  const SignificanceColumns: seq<string> := [
    "comparison_id", "method_a", "method_b", "metric", "test_name", "p_value",
    "p_value_adj", "correction_method", "effect_direction", "effect_size",
    "ci_low", "ci_high", "n_pairs", "significant_flag"
  ]

  /** Immutable identity of one benchmark case. */
  datatype ScenarioSpec = ScenarioSpec(
    runId: string, seed: int, nClients: int, numUavs: int, deltaMin: int,
    bsCount: int, edgeSamples: int, lambdaOut: real, lambdaTw: real,
    twFamily: string, twMode: string)

  /** Weights of the arc-level objective. */
  datatype CostSpec = CostSpec(
    energyPerM: real, riskScale: real, costScale: real, lambdaOut: real,
    lambdaTw: real)

  /** A generated or frozen instance. */
  datatype ScenarioData = ScenarioData(
    depotXy: Point, clientXy: seq<Point>, delivery: seq<real>,
    pickup: seq<real>, serviceDurationS: seq<real>, twEarlyS: seq<real>,
    twLateS: seq<real>, bsXy: seq<Point>, speedMps: real, capacityKg: real,
    altitudeM: real)

  /** Derived node-by-node matrices. */
  datatype EdgeData = EdgeData(
    distanceM: Matrix, travelTimeS: Matrix, risk: Matrix, energy: Matrix,
    cost: Matrix)

  /** What one solver call hands back; routes list client indices (0-based). */
  datatype SolverOutput = SolverOutput(
    methodName: string, status: string, objective: Option<Float>,
    bound: Option<Float>, gapPct: Option<Float>, runtimeS: real,
    routes: seq<seq<nat>>, metadata: Row)

  /** One row of results_main.csv. */
  datatype RunResult = RunResult(
    runId: string, profile: string, gitSha: string, envHash: string,
    timestamp: string, seed: int, methodName: string, n: int, m: int,
    deltaMin: int, b: int, k: int, lambdaOut: real, lambdaTw: real,
    twFamily: string, twMode: string, onTimePct: Option<real>,
    totalTardinessMin: Option<real>, totalEnergy: Option<real>,
    riskMean: Option<real>, riskMaxRoute: Option<real>, runtimeEdgeS: real,
    runtimeSolveS: real, runtimeTotalS: real, incumbentObj: Option<real>,
    bestBound: Option<real>, gapPct: Option<real>, feasibleFlag: int,
    claimRegime: string)

  /** One row of results_significance.csv. */
  datatype SignificanceResult = SignificanceResult(
    comparisonId: string, methodA: string, methodB: string, metric: string,
    testName: string, pValue: Option<real>, pValueAdj: Option<real>,
    correctionMethod: string, effectDirection: string,
    effectSize: Option<real>, ciLow: Option<real>, ciHigh: Option<real>,
    nPairs: int, significantFlag: int)

  /** One row of results_routes.csv. */
  datatype RouteRecord = RouteRecord(
    runId: string, uavId: int, routeNodeSequence: string, routeEnergy: real,
    routeRiskMean: real, routeTardinessMin: real, routeTimeS: real)

  function Keys(row: Row): (ks: seq<string>)
    ensures |ks| == |row|
    ensures forall i :: 0 <= i < |row| ==> ks[i] == row[i].0
  {
    seq(|row|, i requires 0 <= i < |row| => row[i].0)
  }

  function OptCell(x: Option<real>): Value
  {
    match x
    case None => VNull
    case Some(v) => VReal(v)
  }

  function CellOpt(v: Value): Option<Option<real>>
  {
    match v
    case VNull => Some(None)
    case VReal(r) => Some(Some(r))
    case _ => None
  }

  lemma CellOptInverse(x: Option<real>)
    ensures CellOpt(OptCell(x)) == Some(x)
  {
  }

  /** The cells of a row, in column order. */
  function Cells(row: Row): (cs: seq<Value>)
    ensures |cs| == |row|
    ensures forall i :: 0 <= i < |row| ==> cs[i] == row[i].1
  {
    seq(|row|, i requires 0 <= i < |row| => row[i].1)
  }

  /** A row from its column names and cells. */
  function Zip(ks: seq<string>, vs: seq<Value>): (row: Row)
    requires |ks| == |vs|
    ensures Keys(row) == ks && Cells(row) == vs
  {
    var row := seq(|ks|, i requires 0 <= i < |ks| => (ks[i], vs[i]));
    assert Keys(row) == ks;
    assert Cells(row) == vs;
    row
  }

  /** The main-table cells of a result, in `MainColumns` order: identity,
      parameters, service metrics with runtimes, certification. */
  function MainCells(r: RunResult): seq<Value>
  {
    [VStr(r.runId), VStr(r.profile), VStr(r.gitSha), VStr(r.envHash),
     VStr(r.timestamp), VInt(r.seed), VStr(r.methodName), VInt(r.n)]
    + [VInt(r.m), VInt(r.deltaMin), VInt(r.b), VInt(r.k), VReal(r.lambdaOut),
       VReal(r.lambdaTw), VStr(r.twFamily), VStr(r.twMode)]
    + [OptCell(r.onTimePct), OptCell(r.totalTardinessMin), OptCell(r.totalEnergy),
       OptCell(r.riskMean), OptCell(r.riskMaxRoute), VReal(r.runtimeEdgeS),
       VReal(r.runtimeSolveS), VReal(r.runtimeTotalS)]
    + [OptCell(r.incumbentObj), OptCell(r.bestBound), OptCell(r.gapPct),
       VInt(r.feasibleFlag), VStr(r.claimRegime)]
  }

  /** `RunResult.to_row`: the key sequence is exactly `MainColumns` and every
      field is copied verbatim, a `None` bound or gap staying a null cell. */
  function MainRow(r: RunResult): (row: Row)
    ensures Keys(row) == MainColumns
    ensures row[25].1 == VNull <==> r.bestBound.None?
    ensures row[26].1 == VNull <==> r.gapPct.None?
  {
    var row := Zip(MainColumns, MainCells(r));
    assert row[25].1 == Cells(row)[25] && row[26].1 == Cells(row)[26];
    row
  }

  /** Reads a main-table row back by column position; `None` when the header
      or a cell type does not fit the schema. */
  function ParseMainRow(row: Row): Option<RunResult>
  {
    if Keys(row) != MainColumns then None else ParseMainCells(Cells(row))
  }

  /** Every main-table cell has the type its column needs: the run's
      identity (columns 0-7), its parameters (8-15), its service metrics and
      runtimes (16-23), and its certification (24-28). */
  predicate MainCellsTyped(c: seq<Value>)
    requires |c| == |MainColumns|
  {
    IdentityTyped(c) && ParametersTyped(c) && MetricsTyped(c) && CertificationTyped(c)
  }

  predicate IdentityTyped(c: seq<Value>)
    requires |c| == |MainColumns|
  {
    c[0].VStr? && c[1].VStr? && c[2].VStr? && c[3].VStr? && c[4].VStr?
    && c[5].VInt? && c[6].VStr? && c[7].VInt?
  }

  predicate ParametersTyped(c: seq<Value>)
    requires |c| == |MainColumns|
  {
    c[8].VInt? && c[9].VInt? && c[10].VInt? && c[11].VInt? && c[12].VReal?
    && c[13].VReal? && c[14].VStr? && c[15].VStr?
  }

  predicate MetricsTyped(c: seq<Value>)
    requires |c| == |MainColumns|
  {
    CellOpt(c[16]).Some? && CellOpt(c[17]).Some? && CellOpt(c[18]).Some?
    && CellOpt(c[19]).Some? && CellOpt(c[20]).Some? && c[21].VReal? && c[22].VReal?
    && c[23].VReal?
  }

  predicate CertificationTyped(c: seq<Value>)
    requires |c| == |MainColumns|
  {
    CellOpt(c[24]).Some? && CellOpt(c[25]).Some? && CellOpt(c[26]).Some?
    && c[27].VInt? && c[28].VStr?
  }

  function MainRecord(c: seq<Value>): RunResult
    requires |c| == |MainColumns| && MainCellsTyped(c)
  {
    RunResult(
      c[0].s, c[1].s, c[2].s, c[3].s, c[4].s, c[5].i, c[6].s, c[7].i,
      c[8].i, c[9].i, c[10].i, c[11].i, c[12].r, c[13].r, c[14].s, c[15].s,
      CellOpt(c[16]).value, CellOpt(c[17]).value, CellOpt(c[18]).value,
      CellOpt(c[19]).value, CellOpt(c[20]).value, c[21].r, c[22].r, c[23].r,
      CellOpt(c[24]).value, CellOpt(c[25]).value, CellOpt(c[26]).value,
      c[27].i, c[28].s)
  }

  function ParseMainCells(c: seq<Value>): Option<RunResult>
    requires |c| == |MainColumns|
  {
    if MainCellsTyped(c) then Some(MainRecord(c)) else None
  }

  /** `to_row` loses nothing: reading the row back yields the same record. */
  lemma MainRowRoundTrip(r: RunResult)
    ensures ParseMainRow(MainRow(r)) == Some(r)
  {
    assert Cells(MainRow(r)) == MainCells(r);
    MainCellsRoundTrip(r);
  }

  lemma MainCellsRoundTrip(r: RunResult)
    ensures ParseMainCells(MainCells(r)) == Some(r)
  {
    MainCellsAreTyped(r);
  }

  lemma MainCellsAreTyped(r: RunResult)
    ensures MainCellsTyped(MainCells(r))
  {
    IdentityCellsTyped(r);
    ParameterCellsTyped(r);
    MetricCellsTyped(r);
    CertificationCellsTyped(r);
  }

  lemma IdentityCellsTyped(r: RunResult)
    ensures IdentityTyped(MainCells(r))
  {
  }

  lemma ParameterCellsTyped(r: RunResult)
    ensures ParametersTyped(MainCells(r))
  {
  }

  lemma MetricCellsTyped(r: RunResult)
    ensures MetricsTyped(MainCells(r))
  {
  }

  lemma CertificationCellsTyped(r: RunResult)
    ensures CertificationTyped(MainCells(r))
  {
  }

  /** `SignificanceResult.to_row`: keys are exactly `SignificanceColumns`. */
  function SignificanceRow(s: SignificanceResult): (row: Row)
    ensures Keys(row) == SignificanceColumns
    ensures row[6].1 == VNull <==> s.pValueAdj.None?
  {
    [("comparison_id", VStr(s.comparisonId)), ("method_a", VStr(s.methodA)),
     ("method_b", VStr(s.methodB)), ("metric", VStr(s.metric)),
     ("test_name", VStr(s.testName)), ("p_value", OptCell(s.pValue)),
     ("p_value_adj", OptCell(s.pValueAdj)),
     ("correction_method", VStr(s.correctionMethod)),
     ("effect_direction", VStr(s.effectDirection)),
     ("effect_size", OptCell(s.effectSize)), ("ci_low", OptCell(s.ciLow)),
     ("ci_high", OptCell(s.ciHigh)), ("n_pairs", VInt(s.nPairs)),
     ("significant_flag", VInt(s.significantFlag))]
  }

  function ParseSignificanceRow(row: Row): Option<SignificanceResult>
  {
    if Keys(row) != SignificanceColumns then None
    else
      var c := seq(|row|, i requires 0 <= i < |row| => row[i].1);
      if !(c[0].VStr? && c[1].VStr? && c[2].VStr? && c[3].VStr? && c[4].VStr?
           && CellOpt(c[5]).Some? && CellOpt(c[6]).Some? && c[7].VStr?
           && c[8].VStr? && CellOpt(c[9]).Some? && CellOpt(c[10]).Some?
           && CellOpt(c[11]).Some? && c[12].VInt? && c[13].VInt?)
      then None
      else Some(SignificanceResult(
        c[0].s, c[1].s, c[2].s, c[3].s, c[4].s, CellOpt(c[5]).value,
        CellOpt(c[6]).value, c[7].s, c[8].s, CellOpt(c[9]).value,
        CellOpt(c[10]).value, CellOpt(c[11]).value, c[12].i, c[13].i))
  }

  lemma SignificanceRowRoundTrip(s: SignificanceResult)
    ensures ParseSignificanceRow(SignificanceRow(s)) == Some(s)
  {
  }

  /** `RouteRecord.__dict__`, the row written for a route record: its field
      names are exactly `RoutesColumns`. */
  function RouteRow(rr: RouteRecord): (row: Row)
    ensures Keys(row) == RoutesColumns
  {
    [("run_id", VStr(rr.runId)), ("uav_id", VInt(rr.uavId)),
     ("route_node_sequence", VStr(rr.routeNodeSequence)),
     ("route_energy", VReal(rr.routeEnergy)),
     ("route_risk_mean", VReal(rr.routeRiskMean)),
     ("route_tardiness_min", VReal(rr.routeTardinessMin)),
     ("route_time_s", VReal(rr.routeTimeS))]
  }

  function ParseRouteRow(row: Row): Option<RouteRecord>
  {
    if Keys(row) != RoutesColumns then None
    else
      var c := seq(|row|, i requires 0 <= i < |row| => row[i].1);
      if !(c[0].VStr? && c[1].VInt? && c[2].VStr? && c[3].VReal?
           && c[4].VReal? && c[5].VReal? && c[6].VReal?)
      then None
      else Some(RouteRecord(c[0].s, c[1].i, c[2].s, c[3].r, c[4].r, c[5].r, c[6].r))
  }

  lemma RouteRowRoundTrip(rr: RouteRecord)
    ensures ParseRouteRow(RouteRow(rr)) == Some(rr)
  {
  }

  /** Columns the consumers of results_main.csv read by name. */
  const RequiredMainColumns: seq<string> := [
    "run_id", "method", "N", "M", "Delta_min", "B", "K", "lambda_out",
    "lambda_tw", "tw_family", "on_time_pct", "total_tardiness_min",
    "total_energy", "risk_mean", "risk_max_route", "runtime_edge_s",
    "runtime_solve_s", "runtime_total_s", "incumbent_obj", "best_bound",
    "gap_pct", "feasible_flag"
  ]

  /** The identity and metric columns every consumer relies on are present. */
  lemma MainColumnsContainRequired()
    ensures forall c :: c in RequiredMainColumns ==> c in MainColumns
  {
  }

  /** Position of the first occurrence of `c` in `cols`. */
  function IndexOf(cols: seq<string>, c: string): (k: nat)
    requires c in cols
    ensures k < |cols| && cols[k] == c
    ensures forall j :: 0 <= j < k ==> cols[j] != c
  {
    if cols[0] == c then 0 else 1 + IndexOf(cols[1..], c)
  }
}

=== FILE: significance.dfy ===
/** Paired comparisons between methods (experiments/significance.py): the
    Holm step-down adjustment, the rank-biserial effect size, the effect
    direction, the significance flag, and the enumeration of method pairs
    and metrics with its skip rules.  The Wilcoxon test, the bootstrap and
    the availability of scipy are parameters. */
module Significance {
  import opened Numeric
  import opened Text
  import opened Sorting
  import opened Schema

  // ---------------------------------------------------------------------
  // Holm step-down adjustment

  /** `[(idx, p) for idx, p in enumerate(p_values) if p is not None]`. */
  function Valid(ps: seq<Option<real>>): (v: seq<(nat, real)>)
    ensures forall k :: 0 <= k < |v| ==> v[k].0 < |ps| && ps[v[k].0] == Some(v[k].1)
    ensures forall i :: 0 <= i < |ps| && ps[i].Some? ==> (i, ps[i].value) in v
  {
    if ps == [] then []
    else
      var n := |ps| - 1;
      var pre := Valid(ps[..n]);
      assert forall i :: 0 <= i < n ==> ps[..n][i] == ps[i];
      pre + (if ps[n].Some? then [(n, ps[n].value)] else [])
  }

  /** The sort key of `valid.sort(key=lambda x: x[1])`. */
  function ByP(): ((nat, real), (nat, real)) -> bool
  {
    (a: (nat, real), b: (nat, real)) => a.1 <= b.1
  }

  lemma ByPTotal()
    ensures TotalPreorder(ByP())
  {
  }

  /** One iteration of the Holm loop: `min(1, max((m - rank) * p, prev))`,
      with `factor = m - rank`. */
  function HolmStep(factor: int, p: real, prev: real): (v: real)
    ensures v <= 1.0
    ensures prev <= 1.0 ==> v >= prev
  {
    Min(1.0, Max(Scaled(factor, p), prev))
  }

  function Scaled(factor: int, p: real): real
  {
    (factor as real) * p
  }

  /** A factor of at least one does not shrink a non-negative p-value. */
  lemma ScaledAtLeast(factor: int, p: real)
    requires factor >= 1 && p >= 0.0
    ensures Scaled(factor, p) >= p
  {
    assert (factor as real) * p == p + ((factor - 1) as real) * p;
  }

  /** The running values of the Holm loop over p-values taken in ascending
      order, `m` being the number of valid p-values; the previous value
      starts at 0.  The values never exceed 1 and never decrease. */
  function HolmSeq(ps: seq<real>, m: int): (vals: seq<real>)
    ensures |vals| == |ps|
    ensures forall r :: 0 <= r < |vals| ==> vals[r] <= 1.0
    ensures forall r, s :: 0 <= r < s < |vals| ==> vals[r] <= vals[s]
  {
    if ps == [] then []
    else
      var n := |ps| - 1;
      var pre := HolmSeq(ps[..n], m);
      var prev := if pre == [] then 0.0 else pre[n - 1];
      pre + [HolmStep(m - n, ps[n], prev)]
  }

  /** Rank `r` of the adjustment is computed from the value at rank `r - 1`
      exactly as the loop body says. */
  lemma {:induction false} HolmSeqAt(ps: seq<real>, m: int, r: nat)
    requires r < |ps|
    ensures var vals := HolmSeq(ps, m);
      var prev := if r == 0 then 0.0 else vals[r - 1];
      vals[r] == HolmStep(m - r, ps[r], prev)
  {
    var n := |ps| - 1;
    if r < n {
      HolmSeqAt(ps[..n], m, r);
      assert ps[..n][r] == ps[r];
    }
  }

  /** With at most `m` non-negative p-values, each adjusted value is at
      least its raw p-value (capped at 1) and at least 0. */
  lemma {:induction false} HolmSeqAtLeastRaw(ps: seq<real>, m: int, r: nat)
    requires r < |ps| <= m
    requires forall k :: 0 <= k < |ps| ==> 0.0 <= ps[k]
    ensures HolmSeq(ps, m)[r] >= Min(1.0, ps[r])
    ensures HolmSeq(ps, m)[r] >= 0.0
  {
    HolmSeqAt(ps, m, r);
    ScaledAtLeast(m - r, ps[r]);
  }

  /** The assignments `adjusted[idx] = val`, performed in order. */
  function Scatter(base: seq<Option<real>>, asg: seq<(nat, real)>): (r: seq<Option<real>>)
    ensures |r| == |base|
    ensures forall i :: 0 <= i < |base| && (forall k :: 0 <= k < |asg| ==> asg[k].0 != i) ==> r[i] == base[i]
    ensures forall i :: 0 <= i < |base| && r[i] != base[i] ==>
      exists k :: 0 <= k < |asg| && asg[k].0 == i && r[i] == Some(asg[k].1)
    ensures forall k :: 0 <= k < |asg| && asg[k].0 < |base| ==> r[asg[k].0].Some?
  {
    if asg == [] then base
    else
      var n := |asg| - 1;
      var pre := Scatter(base, asg[..n]);
      assert forall k :: 0 <= k < n ==> asg[..n][k] == asg[k];
      if asg[n].0 < |pre| then pre[asg[n].0 := Some(asg[n].1)] else pre
  }

  /** Index `k` of the processing order with its adjusted value. */
  function Zip(s: seq<(nat, real)>, vals: seq<real>): (z: seq<(nat, real)>)
    requires |vals| == |s|
    ensures |z| == |s|
    ensures forall k :: 0 <= k < |s| ==> z[k] == (s[k].0, vals[k])
  {
    seq(|s|, k requires 0 <= k < |s| => (s[k].0, vals[k]))
  }

  function Ps(s: seq<(nat, real)>): (p: seq<real>)
    ensures |p| == |s|
    ensures forall k :: 0 <= k < |s| ==> p[k] == s[k].1
  {
    seq(|s|, k requires 0 <= k < |s| => s[k].1)
  }

  /** The valid p-values in the order the loop visits them. */
  function HolmOrder(ps: seq<Option<real>>): seq<(nat, real)>
  {
    Sort(Valid(ps), ByP())
  }

  /** `_holm_adjust`. */
  function HolmAdjust(ps: seq<Option<real>>): (adj: seq<Option<real>>)
    ensures |adj| == |ps|
  {
    var s := HolmOrder(ps);
    Scatter(seq(|ps|, _ => None), Zip(s, HolmSeq(Ps(s), |s|)))
  }

  /** The loop visits the valid p-values in ascending order. */
  lemma HolmOrderAscending(ps: seq<Option<real>>)
    ensures SortedBy(HolmOrder(ps), ByP())
  {
    ByPTotal();
    SortSorted(Valid(ps), ByP());
  }

  /** A missing p-value stays missing at its index, and a present one gets
      an adjusted value. */
  lemma HolmKeepsMissing(ps: seq<Option<real>>, i: nat)
    requires i < |ps|
    ensures HolmAdjust(ps)[i].None? <==> ps[i].None?
  {
    var v := Valid(ps);
    var s := HolmOrder(ps);
    var z := Zip(s, HolmSeq(Ps(s), |s|));
    var base: seq<Option<real>> := seq(|ps|, _ => None);
    if ps[i].Some? {
      SortSameElements(v, ByP(), (i, ps[i].value));
      var k :| 0 <= k < |s| && s[k] == (i, ps[i].value);
      assert z[k].0 == i;
    } else {
      forall k | 0 <= k < |z|
        ensures z[k].0 != i
      {
        SortSameElements(v, ByP(), s[k]);
        assert s[k] in s;
      }
    }
  }

  /** Every adjusted value is a probability-like number: at most 1, and at
      least the raw p-value (capped at 1) when the raw p-values are in
      `[0, 1]`. */
  lemma HolmBounds(ps: seq<Option<real>>, i: nat)
    requires i < |ps| && ps[i].Some?
    requires forall j :: 0 <= j < |ps| && ps[j].Some? ==> 0.0 <= ps[j].value
    ensures HolmAdjust(ps)[i].Some?
    ensures HolmAdjust(ps)[i].value <= 1.0
    ensures HolmAdjust(ps)[i].value >= Min(1.0, ps[i].value)
  {
    HolmKeepsMissing(ps, i);
    var v := Valid(ps);
    var s := HolmOrder(ps);
    var vals := HolmSeq(Ps(s), |s|);
    var z := Zip(s, vals);
    var base: seq<Option<real>> := seq(|ps|, _ => None);
    var adj := HolmAdjust(ps);
    assert adj[i] != base[i];
    var k :| 0 <= k < |z| && z[k].0 == i && adj[i] == Some(z[k].1);
    SortSameElements(v, ByP(), s[k]);
    assert s[k] in s;
    assert s[k] == (i, ps[i].value);
    forall j | 0 <= j < |Ps(s)|
      ensures 0.0 <= Ps(s)[j]
    {
      SortSameElements(v, ByP(), s[j]);
      assert s[j] in s;
    }
    HolmSeqAtLeastRaw(Ps(s), |s|, k);
  }

  // ---------------------------------------------------------------------
  // Effect size, direction and flag

  function Positives(diff: seq<real>): nat
  {
    CountWhere(diff, (x: real) => x > 0.0)
  }

  function Negatives(diff: seq<real>): nat
  {
    CountWhere(diff, (x: real) => x < 0.0)
  }

  /** `_rank_biserial`: (positives - negatives) / (positives + negatives),
      0 when every difference is zero; always in `[-1, 1]`. */
  function RankBiserial(diff: seq<real>): (r: real)
    ensures -1.0 <= r <= 1.0
    ensures (forall i :: 0 <= i < |diff| ==> diff[i] == 0.0) ==> r == 0.0
    ensures r == 1.0 <==> Positives(diff) > 0 && Negatives(diff) == 0
    ensures r == -1.0 <==> Negatives(diff) > 0 && Positives(diff) == 0
  {
    var pos: int := Positives(diff);
    var neg: int := Negatives(diff);
    CountWhereZero(diff, (x: real) => x > 0.0);
    CountWhereZero(diff, (x: real) => x < 0.0);
    if pos + neg == 0 then 0.0
    else
      RatioFacts(pos, neg);
      Ratio(pos, neg)
  }

  /** `(pos - neg) / (pos + neg)` in real arithmetic. */
  function Ratio(pos: int, neg: int): real
    requires pos + neg != 0
  {
    ((pos - neg) as real) / ((pos + neg) as real)
  }

  lemma RatioFacts(pos: int, neg: int)
    requires pos >= 0 && neg >= 0 && pos + neg > 0
    ensures -1.0 <= Ratio(pos, neg) <= 1.0
    ensures Ratio(pos, neg) == 1.0 <==> neg == 0
    ensures Ratio(pos, neg) == -1.0 <==> pos == 0
    ensures Ratio(neg, pos) == -Ratio(pos, neg)
  {
    var t := (pos + neg) as real;
    var a := (pos - neg) as real;
    assert Ratio(pos, neg) == a / t;
    DivUnit(a, t);
    assert Ratio(neg, pos) == (-a) / t;
    assert (-a) / t == -(a / t);
  }

  /** A quotient by a positive number lies in [-1, 1] exactly when the
      numerator lies in [-t, t], and reaches either end with it. */
  lemma DivUnit(a: real, t: real)
    requires t > 0.0 && -t <= a <= t
    ensures -1.0 <= a / t <= 1.0
    ensures a / t == 1.0 <==> a == t
    ensures a / t == -1.0 <==> a == -t
  {
    var q := a / t;
    assert q * t == a;
    assert (q - 1.0) * t == a - t;
    assert (q + 1.0) * t == a + t;
  }

  /** Every entry negated (comparing `b` with `a` instead). */
  function Negate(diff: seq<real>): (r: seq<real>)
    ensures |r| == |diff|
    ensures forall i :: 0 <= i < |diff| ==> r[i] == -diff[i]
  {
    seq(|diff|, i requires 0 <= i < |diff| => -diff[i])
  }

  lemma {:induction false} NegateCounts(diff: seq<real>)
    ensures Positives(Negate(diff)) == Negatives(diff)
    ensures Negatives(Negate(diff)) == Positives(diff)
  {
    if diff != [] {
      NegateCounts(diff[1..]);
      assert Negate(diff)[1..] == Negate(diff[1..]);
    }
  }

  /** Swapping the two methods negates the effect size. */
  lemma RankBiserialAntisymmetric(diff: seq<real>)
    ensures RankBiserial(Negate(diff)) == -RankBiserial(diff)
  {
    NegateCounts(diff);
    var pos := Positives(diff);
    var neg := Negatives(diff);
    if pos + neg > 0 {
      RatioFacts(pos, neg);
    }
  }

  /** Metrics where a larger value is better. */
  predicate Maximized(metric: string)
  {
    metric == "on_time_pct"
  }

  /** The effect direction of a median difference `a - b`. */
  function EffectDirection(metric: string, median: real): (d: string)
    ensures d == "tie" <==> Abs(median) <= 1e-12
    ensures d == "a_better" <==> Abs(median) > 1e-12 && (if Maximized(metric) then median > 0.0 else median < 0.0)
    ensures d == "tie" || d == "a_better" || d == "b_better"
  {
    if Abs(median) <= 1e-12 then "tie"
    else if Maximized(metric) then (if median > 0.0 then "a_better" else "b_better")
    else (if median < 0.0 then "a_better" else "b_better")
  }

  /** The other method's view of a direction. */
  function SwapDirection(d: string): string
  {
    if d == "a_better" then "b_better" else if d == "b_better" then "a_better" else d
  }

  /** Comparing `b` with `a` (negating the median) swaps the verdict, and a
      tie stays a tie. */
  lemma EffectDirectionSwap(metric: string, median: real)
    ensures EffectDirection(metric, -median) == SwapDirection(EffectDirection(metric, median))
  {
  }

  /** `int(p_value_adj is not None and p_value_adj < 0.05)`. */
  function SignificantFlag(adj: Option<real>): (f: int)
    ensures f == 1 <==> adj.Some? && adj.value < 0.05
    ensures f == 0 || f == 1
  {
    if adj.Some? && adj.value < 0.05 then 1 else 0
  }

  /** A comparison is flagged only if its raw p-value, which the adjustment
      never lowers (below 1), is under 0.05 as well. */
  lemma FlagNeedsSmallRawP(ps: seq<Option<real>>, i: nat)
    requires i < |ps| && ps[i].Some?
    requires forall j :: 0 <= j < |ps| && ps[j].Some? ==> 0.0 <= ps[j].value
    requires SignificantFlag(HolmAdjust(ps)[i]) == 1
    ensures ps[i].value < 0.05
  {
    HolmBounds(ps, i);
  }

  // ---------------------------------------------------------------------
  // Median

  function AscReal(): (real, real) -> bool
  {
    (a: real, b: real) => a <= b
  }

  /** `np.median`: the middle of the sorted values, or the mean of the two
      middle ones for an even count. */
  function Median(xs: seq<real>): real
    requires |xs| > 0
  {
    var s := Sort(xs, AscReal());
    var n := |s|;
    if n % 2 == 1 then s[n / 2] else (s[n / 2 - 1] + s[n / 2]) / 2.0
  }

  /** The median lies within any bounds that hold for every value. */
  lemma MedianWithin(xs: seq<real>, lo: real, hi: real)
    requires |xs| > 0
    requires forall i :: 0 <= i < |xs| ==> lo <= xs[i] <= hi
    ensures lo <= Median(xs) <= hi
  {
    var s := Sort(xs, AscReal());
    var n := |s|;
    forall k | 0 <= k < n
      ensures lo <= s[k] <= hi
    {
      SortSameElements(xs, AscReal(), s[k]);
      assert s[k] in s;
    }
  }

  /** When every difference favours `a` by more than the tie tolerance, the
      direction is decided by the metric's sense alone. */
  lemma UniformDifferencesDecide(metric: string, diff: seq<real>)
    requires |diff| > 0
    requires forall i :: 0 <= i < |diff| ==> diff[i] > 1e-12
    ensures EffectDirection(metric, Median(diff)) == (if Maximized(metric) then "a_better" else "b_better")
  {
    MedianWithin(diff, MinOf(diff), MaxOf(diff));
    MinOfBelow(diff);
  }

  function MinOf(xs: seq<real>): (m: real)
    requires |xs| > 0
    ensures forall i :: 0 <= i < |xs| ==> m <= xs[i]
    ensures m in xs
  {
    if |xs| == 1 then xs[0]
    else
      var r := MinOf(xs[1..]);
      assert forall i :: 1 <= i < |xs| ==> xs[i] == xs[1..][i - 1];
      Min(xs[0], r)
  }

  function MaxOf(xs: seq<real>): (m: real)
    requires |xs| > 0
    ensures forall i :: 0 <= i < |xs| ==> xs[i] <= m
  {
    if |xs| == 1 then xs[0]
    else
      var r := MaxOf(xs[1..]);
      assert forall i :: 1 <= i < |xs| ==> xs[i] == xs[1..][i - 1];
      Max(xs[0], r)
  }

  lemma MinOfBelow(xs: seq<real>)
    requires |xs| > 0
    requires forall i :: 0 <= i < |xs| ==> xs[i] > 1e-12
    ensures MinOf(xs) > 1e-12
  {
    var m := MinOf(xs);
    var i :| 0 <= i < |xs| && xs[i] == m;
  }

  // ---------------------------------------------------------------------
  // Pairs of methods

  function ByName(): (string, string) -> bool
  {
    (a: string, b: string) => LexLeq(a, b)
  }

  lemma ByNameTotal()
    ensures TotalPreorder(ByName())
  {
    forall a: string, b: string
      ensures LexLeq(a, b) || LexLeq(b, a)
    {
      LexLessTotal(a, b);
    }
    forall a: string, b: string, c: string | LexLeq(a, b) && LexLeq(b, c)
      ensures LexLeq(a, c)
    {
      if LexLess(a, b) && LexLess(b, c) {
        LexLessTransitive(a, b, c);
      }
    }
  }

  /** The distinct values of `xs`, first occurrences first (`unique`). */
  function Unique(xs: seq<string>): (u: seq<string>)
    ensures forall x :: x in u <==> x in xs
    ensures forall i, j :: 0 <= i < j < |u| ==> u[i] != u[j]
  {
    if xs == [] then []
    else
      var n := |xs| - 1;
      var pre := Unique(xs[..n]);
      assert forall x :: x in xs <==> x in xs[..n] || x == xs[n];
      if xs[n] in pre then pre else pre + [xs[n]]
  }

  /** `sorted(results_main["method"].unique())`. */
  function SortedMethods(rows: seq<RunResult>): (ms: seq<string>)
    ensures forall x :: x in ms <==> exists r :: r in rows && r.methodName == x
  {
    var names := seq(|rows|, i requires 0 <= i < |rows| => rows[i].methodName);
    var u := Unique(names);
    forall x
      ensures x in Sort(u, ByName()) <==> exists r :: r in rows && r.methodName == x
    {
      SortSameElements(u, ByName(), x);
      if x in names {
        var i :| 0 <= i < |names| && names[i] == x;
        assert rows[i] in rows;
      }
      if exists r :: r in rows && r.methodName == x {
        var r :| r in rows && r.methodName == x;
        var i :| 0 <= i < |rows| && rows[i] == r;
        assert names[i] == x;
      }
    }
    Sort(u, ByName())
  }

  /** The method list is strictly increasing. */
  lemma SortedMethodsStrict(rows: seq<RunResult>)
    ensures forall i, j :: 0 <= i < j < |SortedMethods(rows)| ==>
      LexLess(SortedMethods(rows)[i], SortedMethods(rows)[j])
  {
    var names := seq(|rows|, i requires 0 <= i < |rows| => rows[i].methodName);
    var u := Unique(names);
    var s := Sort(u, ByName());
    ByNameTotal();
    SortSorted(u, ByName());
    DistinctAfterSort(u, ByName());
    assert s == SortedMethods(rows);
    forall i, j | 0 <= i < j < |s|
      ensures LexLess(s[i], s[j])
    {
      assert ByName()(s[i], s[j]);
      assert LexLeq(s[i], s[j]);
      assert s[i] != s[j];
    }
  }

  /** A permutation of a duplicate-free sequence is duplicate-free. */
  lemma DistinctAfterSort(u: seq<string>, leq: (string, string) -> bool)
    requires forall i, j :: 0 <= i < j < |u| ==> u[i] != u[j]
    ensures forall i, j :: 0 <= i < j < |Sort(u, leq)| ==> Sort(u, leq)[i] != Sort(u, leq)[j]
  {
    var s := Sort(u, leq);
    forall i, j | 0 <= i < j < |s|
      ensures s[i] != s[j]
    {
      DistinctCount(u, s[i]);
      if s[i] == s[j] {
        TwiceCount(s, i, j);
      }
    }
  }

  lemma {:induction false} DistinctCount(u: seq<string>, x: string)
    requires forall i, j :: 0 <= i < j < |u| ==> u[i] != u[j]
    ensures multiset(u)[x] <= 1
  {
    if u != [] {
      DistinctCount(u[1..], x);
      assert u == [u[0]] + u[1..];
      assert u[0] !in u[1..];
    }
  }

  lemma TwiceCount(s: seq<string>, i: nat, j: nat)
    requires i < j < |s| && s[i] == s[j]
    ensures multiset(s)[s[i]] >= 2
  {
    assert s == s[..i] + [s[i]] + s[i + 1..j] + [s[j]] + s[j + 1..];
  }

  /** `itertools.combinations(methods, 2)`. */
  function Pairs(ms: seq<string>): (ps: seq<(string, string)>)
    ensures |ms| < 2 ==> ps == []
  {
    if |ms| < 2 then []
    else
      var head := seq(|ms| - 1, j requires 0 <= j < |ms| - 1 => (ms[0], ms[j + 1]));
      head + Pairs(ms[1..])
  }

  /** Every pair takes an earlier method first and a later one second. */
  lemma {:induction false} PairsInOrder(ms: seq<string>)
    ensures forall k :: 0 <= k < |Pairs(ms)| ==>
      exists i, j :: 0 <= i < j < |ms| && Pairs(ms)[k] == (ms[i], ms[j])
  {
    if |ms| >= 2 {
      var rest := Pairs(ms[1..]);
      var head := seq(|ms| - 1, j requires 0 <= j < |ms| - 1 => (ms[0], ms[j + 1]));
      PairsInOrder(ms[1..]);
      assert Pairs(ms) == head + rest;
      forall k | 0 <= k < |Pairs(ms)|
        ensures exists i, j :: 0 <= i < j < |ms| && Pairs(ms)[k] == (ms[i], ms[j])
      {
        if k < |head| {
          assert Pairs(ms)[k] == (ms[0], ms[k + 1]);
        } else {
          var i, j :| 0 <= i < j < |ms[1..]| && rest[k - |head|] == (ms[1..][i], ms[1..][j]);
          assert Pairs(ms)[k] == (ms[i + 1], ms[j + 1]);
        }
      }
    } else {
      assert Pairs(ms) == [];
    }
  }

  /** Over a strictly increasing method list every pair is ordered:
      `method_a < method_b`. */
  lemma PairsOrdered(rows: seq<RunResult>)
    ensures forall k :: 0 <= k < |Pairs(SortedMethods(rows))| ==>
      LexLess(Pairs(SortedMethods(rows))[k].0, Pairs(SortedMethods(rows))[k].1)
  {
    SortedMethodsStrict(rows);
    PairsInOrder(SortedMethods(rows));
  }

  // ---------------------------------------------------------------------
  // Paired comparisons

  /** The merge key of two rows: every scenario parameter and the profile. */
  datatype PairKey = PairKey(
    seed: int, n: int, m: int, deltaMin: int, b: int, k: int, lambdaOut: real,
    lambdaTw: real, twFamily: string, twMode: string, profile: string)

  function KeyOf(r: RunResult): PairKey
  {
    PairKey(r.seed, r.n, r.m, r.deltaMin, r.b, r.k, r.lambdaOut, r.lambdaTw,
      r.twFamily, r.twMode, r.profile)
  }

  /** The rows of one method, in table order. */
  function RowsOf(rows: seq<RunResult>, methodName: string): (r: seq<RunResult>)
    ensures forall x :: x in r <==> x in rows && x.methodName == methodName
  {
    if rows == [] then []
    else
      var n := |rows| - 1;
      var pre := RowsOf(rows[..n], methodName);
      assert forall x :: x in rows <==> x in rows[..n] || x == rows[n];
      if rows[n].methodName == methodName then pre + [rows[n]] else pre
  }

  /** The rows of `bs` sharing the key of `x`, paired with `x`. */
  function Matches(x: RunResult, bs: seq<RunResult>): (j: seq<(RunResult, RunResult)>)
    ensures forall y :: (x, y) in j <==> y in bs && KeyOf(x) == KeyOf(y)
    ensures forall k :: 0 <= k < |j| ==> j[k].0 == x
  {
    if bs == [] then []
    else
      var n := |bs| - 1;
      var pre := Matches(x, bs[..n]);
      assert forall y :: y in bs <==> y in bs[..n] || y == bs[n];
      if KeyOf(x) == KeyOf(bs[n]) then pre + [(x, bs[n])] else pre
  }

  /** `dfa.merge(dfb, on=key_cols, how="inner")`: every pair of rows with
      equal keys, grouped by the left row in left order. */
  function JoinOn(as_: seq<RunResult>, bs: seq<RunResult>): (j: seq<(RunResult, RunResult)>)
    ensures forall x, y :: (x, y) in j <==> x in as_ && y in bs && KeyOf(x) == KeyOf(y)
  {
    if as_ == [] then []
    else
      var rest := JoinOn(as_[1..], bs);
      var head := Matches(as_[0], bs);
      assert forall x :: x in as_ <==> x == as_[0] || x in as_[1..];
      forall x, y
        ensures (x, y) in head + rest <==> x in as_ && y in bs && KeyOf(x) == KeyOf(y)
      {
        if (x, y) in head {
          var k :| 0 <= k < |head| && head[k] == (x, y);
        }
      }
      head + rest
  }

  /** Columns whose values are text: asking for one of them as a metric
      makes the float conversion raise. */
  const TextColumns: seq<string> := ["run_id", "git_sha", "env_hash", "timestamp", "method", "claim_regime"]

  /** The metric column of a row; `None` when the merged table has no
      `<metric>_a` column (the merge keys and unknown names). */
  function MetricValue(r: RunResult, metric: string): (v: Option<Option<real>>)
    ensures v.Some? <==> metric in NumericColumns
  {
    match metric
    case "on_time_pct" => Some(r.onTimePct)
    case "total_tardiness_min" => Some(r.totalTardinessMin)
    case "total_energy" => Some(r.totalEnergy)
    case "risk_mean" => Some(r.riskMean)
    case "risk_max_route" => Some(r.riskMaxRoute)
    case "runtime_edge_s" => Some(Some(r.runtimeEdgeS))
    case "runtime_solve_s" => Some(Some(r.runtimeSolveS))
    case "runtime_total_s" => Some(Some(r.runtimeTotalS))
    case "incumbent_obj" => Some(r.incumbentObj)
    case "best_bound" => Some(r.bestBound)
    case "gap_pct" => Some(r.gapPct)
    case "feasible_flag" => Some(Some(r.feasibleFlag as real))
    case _ => None
  }

  /** Non-key columns holding numbers. */
  const NumericColumns: seq<string> := [
    "on_time_pct", "total_tardiness_min", "total_energy", "risk_mean", "risk_max_route",
    "runtime_edge_s", "runtime_solve_s", "runtime_total_s", "incumbent_obj",
    "best_bound", "gap_pct", "feasible_flag"
  ]

  /** The default metric list. */
  const DefaultMetrics: seq<string> := [
    "on_time_pct", "total_tardiness_min", "total_energy", "risk_mean", "runtime_total_s"
  ]

  /** `merged[[col_a, col_b]].dropna()`: the joined pairs with both values
      present, in join order. */
  function Paired(j: seq<(RunResult, RunResult)>, metric: string): (ps: seq<(real, real)>)
    requires metric in NumericColumns
    ensures |ps| <= |j|
  {
    if j == [] then []
    else
      var n := |j| - 1;
      var pre := Paired(j[..n], metric);
      var va := MetricValue(j[n].0, metric).value;
      var vb := MetricValue(j[n].1, metric).value;
      if va.Some? && vb.Some? then pre + [(va.value, vb.value)] else pre
  }

  /** `a - b` for every pair. */
  function Diffs(ps: seq<(real, real)>): (d: seq<real>)
    ensures |d| == |ps|
    ensures forall k :: 0 <= k < |ps| ==> d[k] == ps[k].0 - ps[k].1
  {
    seq(|ps|, k requires 0 <= k < |ps| => ps[k].0 - ps[k].1)
  }

  /** `np.allclose(diff, 0.0)` with the default tolerances (`atol = 1e-8`;
      the relative term vanishes against 0). */
  predicate AllClose(diff: seq<real>)
  {
    forall k :: 0 <= k < |diff| ==> Abs(diff[k]) <= 1e-8
  }

  /** `_bootstrap_median_ci`: nothing for fewer than two pairs, otherwise
      the (abstract) percentile bootstrap. */
  function BootstrapCi(diff: seq<real>, boot: seq<real> -> (Option<real>, Option<real>))
    : (ci: (Option<real>, Option<real>))
    ensures |diff| < 2 ==> ci == (None, None)
  {
    if |diff| < 2 then (None, None) else boot(diff)
  }

  /** One metric of one method pair, before the adjustment; `None` when the
      metric column is missing or no pair has both values. */
  function Compare(a: string, b: string, metric: string, j: seq<(RunResult, RunResult)>,
                   wilcoxon: seq<real> -> Option<real>,
                   boot: seq<real> -> (Option<real>, Option<real>)): (r: Option<SignificanceResult>)
    ensures r.None? <==> metric !in NumericColumns || Paired(j, metric) == []
    ensures r.Some? ==>
      var diff := Diffs(Paired(j, metric));
      && r.value.methodA == a && r.value.methodB == b && r.value.metric == metric
      && r.value.comparisonId == a + "_vs_" + b + "_" + metric
      && r.value.nPairs == |diff| >= 1
      && r.value.pValue == (if AllClose(diff) then Some(1.0) else wilcoxon(diff))
      && r.value.effectDirection == EffectDirection(metric, Median(diff))
      && r.value.effectSize == Some(RankBiserial(diff))
      && (r.value.ciLow, r.value.ciHigh) == BootstrapCi(diff, boot)
      && RawOk(r.value)
  {
    if metric !in NumericColumns then None
    else
      var ps := Paired(j, metric);
      if ps == [] then None
      else
        var diff := Diffs(ps);
        var p := if AllClose(diff) then Some(1.0) else wilcoxon(diff);
        var ci := BootstrapCi(diff, boot);
        Some(SignificanceResult(a + "_vs_" + b + "_" + metric, a, b, metric,
          "wilcoxon_signed_rank", p, None, "holm-bonferroni",
          EffectDirection(metric, Median(diff)), Some(RankBiserial(diff)),
          ci.0, ci.1, |diff|, 0))
  }

  /** What every comparison row holds before the adjustment. */
  predicate RawOk(r: SignificanceResult)
  {
    && r.testName == "wilcoxon_signed_rank" && r.correctionMethod == "holm-bonferroni"
    && r.pValueAdj.None? && r.significantFlag == 0 && r.nPairs >= 1
    && r.effectSize.Some? && -1.0 <= r.effectSize.value <= 1.0
    && (r.nPairs < 2 ==> r.ciLow.None? && r.ciHigh.None?)
    && (r.effectDirection == "tie" || r.effectDirection == "a_better" || r.effectDirection == "b_better")
  }

  /** The metrics of one pair, in metric order. */
  function ForMetrics(a: string, b: string, metrics: seq<string>, j: seq<(RunResult, RunResult)>,
                      wilcoxon: seq<real> -> Option<real>,
                      boot: seq<real> -> (Option<real>, Option<real>)): (out: seq<SignificanceResult>)
    ensures |out| <= |metrics|
    ensures forall k :: 0 <= k < |out| ==> out[k].methodA == a && out[k].methodB == b && RawOk(out[k])
  {
    if metrics == [] then []
    else
      var n := |metrics| - 1;
      var pre := ForMetrics(a, b, metrics[..n], j, wilcoxon, boot);
      var c := Compare(a, b, metrics[n], j, wilcoxon, boot);
      if c.Some? then pre + [c.value] else pre
  }

  /** One method pair; skipped entirely when the join is empty. */
  function ForPair(rows: seq<RunResult>, a: string, b: string, metrics: seq<string>,
                   wilcoxon: seq<real> -> Option<real>,
                   boot: seq<real> -> (Option<real>, Option<real>)): (out: seq<SignificanceResult>)
    ensures forall k :: 0 <= k < |out| ==> out[k].methodA == a && out[k].methodB == b && RawOk(out[k])
    ensures JoinOn(RowsOf(rows, a), RowsOf(rows, b)) == [] ==> out == []
  {
    var j := JoinOn(RowsOf(rows, a), RowsOf(rows, b));
    if j == [] then [] else ForMetrics(a, b, metrics, j, wilcoxon, boot)
  }

  /** All pairs, in pair order. */
  function ForPairs(rows: seq<RunResult>, pairs: seq<(string, string)>, metrics: seq<string>,
                    wilcoxon: seq<real> -> Option<real>,
                    boot: seq<real> -> (Option<real>, Option<real>)): (out: seq<SignificanceResult>)
    ensures forall k :: 0 <= k < |out| ==> (out[k].methodA, out[k].methodB) in pairs && RawOk(out[k])
  {
    if pairs == [] then []
    else
      var n := |pairs| - 1;
      var pre := ForPairs(rows, pairs[..n], metrics, wilcoxon, boot);
      var cur := ForPair(rows, pairs[n].0, pairs[n].1, metrics, wilcoxon, boot);
      assert forall k :: 0 <= k < |pre| ==> (pre[k].methodA, pre[k].methodB) in pairs by {
        forall k | 0 <= k < |pre|
          ensures (pre[k].methodA, pre[k].methodB) in pairs
        {
          var q :| 0 <= q < n && pairs[..n][q] == (pre[k].methodA, pre[k].methodB);
          assert pairs[q] == pairs[..n][q];
        }
      }
      pre + cur
  }

  /** The comparison rows before the adjustment. */
  function RawResults(rows: seq<RunResult>, metrics: seq<string>,
                      wilcoxon: seq<real> -> Option<real>,
                      boot: seq<real> -> (Option<real>, Option<real>)): seq<SignificanceResult>
  {
    ForPairs(rows, Pairs(SortedMethods(rows)), metrics, wilcoxon, boot)
  }

  function RawPs(raw: seq<SignificanceResult>): (ps: seq<Option<real>>)
    ensures |ps| == |raw|
    ensures forall k :: 0 <= k < |raw| ==> ps[k] == raw[k].pValue
  {
    seq(|raw|, k requires 0 <= k < |raw| => raw[k].pValue)
  }

  /** The row reported when scipy cannot be imported. */
  const ScipyMissing: SignificanceResult := SignificanceResult(
    "scipy_missing", "NA", "NA", "NA", "wilcoxon_signed_rank", None, None, "none",
    "unknown", None, None, None, 0, 0)

  /** `compute_significance_results`: nothing for an empty table, a single
      sentinel row without scipy, and otherwise one row per method pair and
      metric with its Holm-adjusted p-value and significance flag. */
  function ComputeSignificance(rows: seq<RunResult>, metrics: seq<string>, haveScipy: bool,
                               wilcoxon: seq<real> -> Option<real>,
                               boot: seq<real> -> (Option<real>, Option<real>)): (out: seq<SignificanceResult>)
    requires forall k :: 0 <= k < |metrics| ==> metrics[k] !in TextColumns
    ensures rows == [] ==> out == []
    ensures rows != [] && !haveScipy ==> out == [ScipyMissing]
    ensures rows != [] && haveScipy ==>
      var raw := RawResults(rows, metrics, wilcoxon, boot);
      |out| == |raw|
      && forall k :: 0 <= k < |raw| ==>
        out[k] == raw[k].(pValueAdj := HolmAdjust(RawPs(raw))[k],
                          significantFlag := SignificantFlag(HolmAdjust(RawPs(raw))[k]))
  {
    if rows == [] then []
    else if !haveScipy then [ScipyMissing]
    else Adjusted(RawResults(rows, metrics, wilcoxon, boot))
  }

  /** The raw rows with their Holm-adjusted p-values and flags filled in. */
  function Adjusted(raw: seq<SignificanceResult>): (out: seq<SignificanceResult>)
    ensures |out| == |raw|
    ensures forall k :: 0 <= k < |raw| ==>
      out[k] == raw[k].(pValueAdj := HolmAdjust(RawPs(raw))[k],
                        significantFlag := SignificantFlag(HolmAdjust(RawPs(raw))[k]))
  {
    var adj := HolmAdjust(RawPs(raw));
    seq(|raw|, k requires 0 <= k < |raw| =>
      raw[k].(pValueAdj := adj[k], significantFlag := SignificantFlag(adj[k])))
  }

  /** Every reported comparison names its methods in sorted order, rests on
      at least one pair, and carries the flag of its adjusted p-value. */
  lemma SignificanceRowsWellFormed(rows: seq<RunResult>, metrics: seq<string>,
                                   wilcoxon: seq<real> -> Option<real>,
                                   boot: seq<real> -> (Option<real>, Option<real>), k: nat)
    requires forall q :: 0 <= q < |metrics| ==> metrics[q] !in TextColumns
    requires rows != []
    requires k < |ComputeSignificance(rows, metrics, true, wilcoxon, boot)|
    ensures var r := ComputeSignificance(rows, metrics, true, wilcoxon, boot)[k];
      LexLess(r.methodA, r.methodB) && r.nPairs >= 1
      && -1.0 <= r.effectSize.value <= 1.0
      && r.significantFlag == SignificantFlag(r.pValueAdj)
  {
    var raw := RawResults(rows, metrics, wilcoxon, boot);
    var ps := Pairs(SortedMethods(rows));
    PairsOrdered(rows);
    var q :| 0 <= q < |ps| && ps[q] == (raw[k].methodA, raw[k].methodB);
  }

  /** A comparison whose differences all vanish is never significant, as
      long as the test's p-values are non-negative. */
  lemma NoDifferenceNeverSignificant(rows: seq<RunResult>, metrics: seq<string>,
                                     wilcoxon: seq<real> -> Option<real>,
                                     boot: seq<real> -> (Option<real>, Option<real>), k: nat)
    requires forall q :: 0 <= q < |metrics| ==> metrics[q] !in TextColumns
    requires forall d :: wilcoxon(d).Some? ==> wilcoxon(d).value >= 0.0
    requires rows != []
    requires k < |ComputeSignificance(rows, metrics, true, wilcoxon, boot)|
    requires ComputeSignificance(rows, metrics, true, wilcoxon, boot)[k].pValue == Some(1.0)
    ensures ComputeSignificance(rows, metrics, true, wilcoxon, boot)[k].significantFlag == 0
  {
    var raw := RawResults(rows, metrics, wilcoxon, boot);
    RawPValuesNonNegative(rows, Pairs(SortedMethods(rows)), metrics, wilcoxon, boot);
    AdjustedUnitNotFlagged(raw, k);
  }

  lemma AdjustedUnitNotFlagged(raw: seq<SignificanceResult>, k: nat)
    requires PValuesNonNegative(raw)
    requires k < |raw| && raw[k].pValue == Some(1.0)
    ensures Adjusted(raw)[k].significantFlag == 0
  {
    UnitPValueNotFlagged(RawPs(raw), k);
  }

  /** A raw p-value of 1 stays at 1 after the adjustment, so it is never
      flagged. */
  lemma UnitPValueNotFlagged(ps: seq<Option<real>>, k: nat)
    requires k < |ps| && ps[k] == Some(1.0)
    requires forall q :: 0 <= q < |ps| && ps[q].Some? ==> 0.0 <= ps[q].value
    ensures SignificantFlag(HolmAdjust(ps)[k]) == 0
  {
    HolmBounds(ps, k);
  }

  /** Every present p-value is non-negative. */
  predicate PValuesNonNegative(out: seq<SignificanceResult>)
  {
    forall k :: 0 <= k < |out| && out[k].pValue.Some? ==> out[k].pValue.value >= 0.0
  }

  lemma PValuesAppend(a: seq<SignificanceResult>, b: seq<SignificanceResult>)
    requires PValuesNonNegative(a) && PValuesNonNegative(b)
    ensures PValuesNonNegative(a + b)
  {
    forall k | 0 <= k < |a + b| && (a + b)[k].pValue.Some?
      ensures (a + b)[k].pValue.value >= 0.0
    {
      if k >= |a| {
        assert (a + b)[k] == b[k - |a|];
      }
    }
  }

  /** Raw p-values are 1.0 or a value of the test. */
  lemma {:induction false} RawPValuesNonNegative(rows: seq<RunResult>, pairs: seq<(string, string)>,
                                                metrics: seq<string>,
                                                wilcoxon: seq<real> -> Option<real>,
                                                boot: seq<real> -> (Option<real>, Option<real>))
    requires forall d :: wilcoxon(d).Some? ==> wilcoxon(d).value >= 0.0
    ensures PValuesNonNegative(ForPairs(rows, pairs, metrics, wilcoxon, boot))
  {
    if pairs != [] {
      var n := |pairs| - 1;
      RawPValuesNonNegative(rows, pairs[..n], metrics, wilcoxon, boot);
      var j := JoinOn(RowsOf(rows, pairs[n].0), RowsOf(rows, pairs[n].1));
      var pre := ForPairs(rows, pairs[..n], metrics, wilcoxon, boot);
      var cur := ForPair(rows, pairs[n].0, pairs[n].1, metrics, wilcoxon, boot);
      if j != [] {
        MetricPValuesNonNegative(pairs[n].0, pairs[n].1, metrics, j, wilcoxon, boot);
      }
      assert PValuesNonNegative(cur);
      PValuesAppend(pre, cur);
    }
  }

  lemma {:induction false} MetricPValuesNonNegative(a: string, b: string, metrics: seq<string>,
                                                   j: seq<(RunResult, RunResult)>,
                                                   wilcoxon: seq<real> -> Option<real>,
                                                   boot: seq<real> -> (Option<real>, Option<real>))
    requires forall d :: wilcoxon(d).Some? ==> wilcoxon(d).value >= 0.0
    ensures PValuesNonNegative(ForMetrics(a, b, metrics, j, wilcoxon, boot))
  {
    if metrics != [] {
      var n := |metrics| - 1;
      MetricPValuesNonNegative(a, b, metrics[..n], j, wilcoxon, boot);
      var pre := ForMetrics(a, b, metrics[..n], j, wilcoxon, boot);
      var c := Compare(a, b, metrics[n], j, wilcoxon, boot);
      if c.Some? {
        var diff := Diffs(Paired(j, metrics[n]));
        assert c.value.pValue == (if AllClose(diff) then Some(1.0) else wilcoxon(diff));
        assert PValuesNonNegative([c.value]);
        PValuesAppend(pre, [c.value]);
      }
    }
  }
}

=== FILE: sorting.dfy ===
/** A stable insertion sort over sequences, parameterised by a "less than or
    equal" comparator; `SortStable` states the stability.  Python's
    `list.sort` and `sorted` are stable sorts by a key, and so is pandas'
    `sort_values` on several columns, which is how uavtre calls it; every
    ordering step of the model (Holm ranks, method names, evidence rows,
    table rows) is this sort with the appropriate comparator. */
module Sorting {

  ghost predicate TotalPreorder<T(!new)>(leq: (T, T) -> bool)
  {
    && (forall a, b :: leq(a, b) || leq(b, a))
    && (forall a, b, c :: leq(a, b) && leq(b, c) ==> leq(a, c))
  }

  ghost predicate SortedBy<T>(s: seq<T>, leq: (T, T) -> bool)
  {
    forall i, j :: 0 <= i < j < |s| ==> leq(s[i], s[j])
  }

  /** Inserts `x` in front of the first element it is `leq` to, so that `x`
      stays ahead of elements with an equal key (stability). */
  function Insert<T>(x: T, s: seq<T>, leq: (T, T) -> bool): (r: seq<T>)
    ensures |r| == |s| + 1
    ensures multiset(r) == multiset(s) + multiset{x}
  {
    if s == [] || leq(x, s[0]) then [x] + s
    else
      var rest := Insert(x, s[1..], leq);
      assert s == [s[0]] + s[1..];
      [s[0]] + rest
  }

  function Sort<T>(s: seq<T>, leq: (T, T) -> bool): (r: seq<T>)
    ensures |r| == |s|
    ensures multiset(r) == multiset(s)
  {
    if s == [] then []
    else
      assert s == [s[0]] + s[1..];
      Insert(s[0], Sort(s[1..], leq), leq)
  }

  lemma {:induction false} InsertSorted<T(!new)>(x: T, s: seq<T>, leq: (T, T) -> bool)
    requires TotalPreorder(leq)
    requires SortedBy(s, leq)
    ensures SortedBy(Insert(x, s, leq), leq)
  {
    if s == [] || leq(x, s[0]) {
      var r := [x] + s;
      forall i, j | 0 <= i < j < |r| ensures leq(r[i], r[j]) {
        if i == 0 {
          if j > 1 { assert leq(s[0], s[j - 1]); }
        }
      }
    } else {
      assert leq(s[0], x);
      InsertSorted(x, s[1..], leq);
      var rest := Insert(x, s[1..], leq);
      var r := [s[0]] + rest;
      forall j | 0 < j < |r| ensures leq(s[0], r[j]) {
        assert r[j] in multiset(rest);
        assert r[j] in multiset(s[1..]) + multiset{x};
        if r[j] in multiset(s[1..]) {
          var k :| 0 <= k < |s[1..]| && s[1..][k] == r[j];
          assert s[k + 1] == r[j];
        }
      }
    }
  }

  /** The result of `Sort` is ordered by `leq`. */
  lemma {:induction false} SortSorted<T(!new)>(s: seq<T>, leq: (T, T) -> bool)
    requires TotalPreorder(leq)
    ensures SortedBy(Sort(s, leq), leq)
  {
    if s != [] {
      SortSorted(s[1..], leq);
      InsertSorted(s[0], Sort(s[1..], leq), leq);
    }
  }

  /** The elements of `s` that tie with `y` under `leq` (each is `leq` to
      the other), in the order of `s`. */
  function Ties<T>(s: seq<T>, leq: (T, T) -> bool, y: T): (r: seq<T>)
    ensures |r| <= |s|
    ensures forall k :: 0 <= k < |r| ==> leq(r[k], y) && leq(y, r[k])
  {
    if s == [] then []
    else (if leq(s[0], y) && leq(y, s[0]) then [s[0]] else []) + Ties(s[1..], leq, y)
  }

  /** The ties of a concatenation are the ties of each part. */
  lemma {:induction false} TiesAppend<T>(a: seq<T>, b: seq<T>, leq: (T, T) -> bool, y: T)
    ensures Ties(a + b, leq, y) == Ties(a, leq, y) + Ties(b, leq, y)
  {
    if a == [] {
      assert a + b == b;
    } else {
      assert (a + b)[1..] == a[1..] + b;
      TiesAppend(a[1..], b, leq, y);
    }
  }

  /** Past an element it is not `leq` to, `x` is inserted into the rest. */
  lemma InsertPast<T>(x: T, t: seq<T>, leq: (T, T) -> bool)
    requires t != [] && !leq(x, t[0])
    ensures Insert(x, t, leq) == [t[0]] + Insert(x, t[1..], leq)
  {
  }

  /** Two elements of which at most one ties with `y` may swap places. */
  lemma TiesSwap<T>(a: T, b: T, rest: seq<T>, leq: (T, T) -> bool, y: T)
    requires Ties([a], leq, y) == [] || Ties([b], leq, y) == []
    ensures Ties([a], leq, y) + (Ties([b], leq, y) + rest) == Ties([b], leq, y) + (Ties([a], leq, y) + rest)
  {
  }

  /** Inserting `x` puts it ahead of every element it ties with. */
  lemma {:induction false} InsertKeepsTies<T>(x: T, t: seq<T>, leq: (T, T) -> bool, y: T)
    requires forall z :: leq(x, y) && leq(y, z) ==> leq(x, z)
    ensures Ties(Insert(x, t, leq), leq, y) == Ties([x], leq, y) + Ties(t, leq, y)
  {
    if t == [] || leq(x, t[0]) {
      TiesAppend([x], t, leq, y);
    } else {
      var rest := Insert(x, t[1..], leq);
      InsertPast(x, t, leq);
      InsertKeepsTies(x, t[1..], leq, y);
      TiesAppend([t[0]], rest, leq, y);
      assert t == [t[0]] + t[1..];
      TiesAppend([t[0]], t[1..], leq, y);
      OneTie(x, t[0], leq, y);
      TiesSwap(t[0], x, Ties(t[1..], leq, y), leq, y);
    }
  }

  /** When `x` is not `leq` to `z`, they do not both tie with `y`. */
  lemma OneTie<T>(x: T, z: T, leq: (T, T) -> bool, y: T)
    requires forall w :: leq(x, y) && leq(y, w) ==> leq(x, w)
    requires !leq(x, z)
    ensures Ties([x], leq, y) == [] || Ties([z], leq, y) == []
  {
    assert [x][1..] == [] && [z][1..] == [];
    assert leq(x, y) && leq(y, z) ==> leq(x, z);
  }

  /** `Sort` is stable: the elements tying with any `y` come out in the
      order they went in. */
  lemma {:induction false} SortStable<T(!new)>(s: seq<T>, leq: (T, T) -> bool, y: T)
    requires TotalPreorder(leq)
    ensures Ties(Sort(s, leq), leq, y) == Ties(s, leq, y)
  {
    if s != [] {
      SortStable(s[1..], leq, y);
      assert forall z :: leq(s[0], y) && leq(y, z) ==> leq(s[0], z);
      InsertKeepsTies(s[0], Sort(s[1..], leq), leq, y);
      assert s == [s[0]] + s[1..];
      TiesAppend([s[0]], s[1..], leq, y);
    }
  }

  /** Sorting keeps exactly the same elements. */
  lemma SortSameElements<T>(s: seq<T>, leq: (T, T) -> bool, x: T)
    ensures x in Sort(s, leq) <==> x in s
  {
    var r := Sort(s, leq);
    assert x in r <==> x in multiset(r);
    assert x in s <==> x in multiset(s);
  }
}

=== FILE: state.dfy ===
/** The run state of the second submission pipeline (submit_v2/state.py):
    the pipeline's status and one entry per step, each step started and
    ended by the orchestrator.

    The state file is JSON; here it is a record whose step entries carry the
    keys the pipeline writes, plus whatever other keys an entry already had.
    Clock readings are parameters (`now`); reading and writing the file and
    hashing files are left out. */
module RunState {
  import opened Numeric
  import opened JsonData

  /** One entry of `steps`.  `description` and `startedAt` are absent from
      an entry that was ended without being started; `endedAt`, `exitCode`
      and `error` are null while the step runs.  `extra` holds the entry's
      other keys. */
  datatype StepEntry = StepEntry(
    stepId: string, description: Option<string>, status: string,
    startedAt: Option<string>, endedAt: Option<string>, exitCode: Option<int>,
    error: Option<string>, artifacts: seq<string>, extra: map<string, Json>)

  datatype State = State(
    runId: string, campaignId: string, campaignRoot: string, campaignDir: string,
    status: string, createdAt: string, updatedAt: string, currentStep: string,
    steps: map<string, StepEntry>, completedAt: Option<string>)

  /** `new_state`: an initialised run with no steps. */
  function NewState(runId: string, campaignId: string, campaignRoot: string, campaignDir: string,
                    now: string): (s: State)
    ensures s.status == "initialized" && s.currentStep == "S00" && s.steps == map[]
    ensures s.runId == runId && s.campaignId == campaignId
    ensures s.campaignRoot == campaignRoot && s.campaignDir == campaignDir
    ensures s.completedAt.None?
  {
    State(runId, campaignId, campaignRoot, campaignDir, "initialized", now, now, "S00", map[], None)
  }

  /** `step_passed`. */
  predicate StepPassed(s: State, stepId: string)
  {
    stepId in s.steps && s.steps[stepId].status == "passed"
  }

  /** `start_step`: the entry is marked running with a fresh start time and
      cleared results, keeping the entry's other keys; the step becomes the
      current one. */
  function StartStep(s: State, stepId: string, description: string, now: string): (r: State)
    ensures stepId in r.steps && r.currentStep == stepId && r.updatedAt == now
    ensures var e := r.steps[stepId];
      e.stepId == stepId && e.description == Some(description) && e.status == "running"
      && e.startedAt == Some(now) && e.endedAt.None? && e.exitCode.None? && e.error.None?
      && e.artifacts == []
    ensures stepId in s.steps ==> r.steps[stepId].extra == s.steps[stepId].extra
    ensures forall k :: k != stepId ==> (k in r.steps <==> k in s.steps)
    ensures forall k :: k != stepId && k in s.steps ==> r.steps[k] == s.steps[k]
    ensures r.status == s.status && r.runId == s.runId && r.campaignId == s.campaignId
    ensures r.completedAt == s.completedAt && r.createdAt == s.createdAt
  {
    var extra := if stepId in s.steps then s.steps[stepId].extra else map[];
    var entry := StepEntry(stepId, Some(description), "running", Some(now), None, None, None, [], extra);
    s.(steps := s.steps[stepId := entry], currentStep := stepId, updatedAt := now)
  }

  /** `end_step`: the entry gets its outcome, end time, exit code, error
      and artifacts (none given is an empty list); what the start recorded
      stays. */
  function EndStep(s: State, stepId: string, status: string, exitCode: int,
                   artifacts: Option<seq<string>>, error: Option<string>, now: string): (r: State)
    ensures stepId in r.steps && r.updatedAt == now
    ensures var e := r.steps[stepId];
      e.status == status && e.endedAt == Some(now) && e.exitCode == Some(exitCode)
      && e.error == error
      && e.artifacts == (if artifacts.Some? then artifacts.value else [])
    ensures stepId in s.steps ==>
      var e := r.steps[stepId];
      var p := s.steps[stepId];
      e.stepId == p.stepId && e.description == p.description && e.startedAt == p.startedAt
      && e.extra == p.extra
    ensures stepId !in s.steps ==>
      var e := r.steps[stepId];
      e.stepId == stepId && e.description.None? && e.startedAt.None? && e.extra == map[]
    ensures forall k :: k != stepId ==> (k in r.steps <==> k in s.steps)
    ensures forall k :: k != stepId && k in s.steps ==> r.steps[k] == s.steps[k]
    ensures r.status == s.status && r.currentStep == s.currentStep && r.runId == s.runId
    ensures r.campaignId == s.campaignId && r.completedAt == s.completedAt && r.createdAt == s.createdAt
  {
    var prev :=
      if stepId in s.steps then s.steps[stepId]
      else StepEntry(stepId, None, "", None, None, None, None, [], map[]);
    var entry := prev.(status := status, endedAt := Some(now), exitCode := Some(exitCode),
                       error := error, artifacts := if artifacts.Some? then artifacts.value else []);
    s.(steps := s.steps[stepId := entry], updatedAt := now)
  }

  /** `set_pipeline_status`: only the status and the update time change. */
  function SetPipelineStatus(s: State, status: string, now: string): (r: State)
    ensures r.status == status && r.updatedAt == now
    ensures r.(status := s.status, updatedAt := s.updatedAt) == s
  {
    s.(status := status, updatedAt := now)
  }

  /** A started step has not passed; ending it with "passed" makes it pass,
      ending it with any other outcome does not. */
  lemma StartEndPassed(s: State, stepId: string, description: string, outcome: string, code: int,
                       artifacts: Option<seq<string>>, error: Option<string>, t1: string, t2: string)
    ensures !StepPassed(StartStep(s, stepId, description, t1), stepId)
    ensures var r := EndStep(StartStep(s, stepId, description, t1), stepId, outcome, code, artifacts, error, t2);
      (StepPassed(r, stepId) <==> outcome == "passed")
      && r.steps[stepId].description == Some(description) && r.steps[stepId].startedAt == Some(t1)
  {
  }

  /** Starting or ending one step does not change whether another step has
      passed. */
  lemma OtherStepsKeepVerdict(s: State, stepId: string, other: string, description: string,
                              outcome: string, code: int, artifacts: Option<seq<string>>,
                              error: Option<string>, now: string)
    requires other != stepId
    ensures StepPassed(StartStep(s, stepId, description, now), other) <==> StepPassed(s, other)
    ensures StepPassed(EndStep(s, stepId, outcome, code, artifacts, error, now), other) <==> StepPassed(s, other)
  {
  }

  /** A new state has no passed step. */
  lemma NewStateNothingPassed(runId: string, campaignId: string, campaignRoot: string,
                              campaignDir: string, now: string, stepId: string)
    ensures !StepPassed(NewState(runId, campaignId, campaignRoot, campaignDir, now), stepId)
  {
  }
}

=== FILE: text.dfy ===
/** String helpers shared by the model.  Python's `str.lower`, `str.upper`,
    `str.isalnum` and `str.strip` are Unicode-aware; the model restricts them
    to ASCII, which is what every literal uavtre compares against
    consists of. */
module Text {

  function LowerChar(c: char): char
  {
    if 'A' <= c <= 'Z' then (c as int + 32) as char else c
  }

  function UpperChar(c: char): char
  {
    if 'a' <= c <= 'z' then (c as int - 32) as char else c
  }

  function Lower(s: string): (r: string)
    ensures |r| == |s|
    ensures forall i :: 0 <= i < |s| ==> r[i] == LowerChar(s[i])
  {
    seq(|s|, i requires 0 <= i < |s| => LowerChar(s[i]))
  }

  function Upper(s: string): (r: string)
    ensures |r| == |s|
    ensures forall i :: 0 <= i < |s| ==> r[i] == UpperChar(s[i])
  {
    seq(|s|, i requires 0 <= i < |s| => UpperChar(s[i]))
  }

  /** Lower-casing distributes over concatenation. */
  lemma LowerAppend(a: string, b: string)
    ensures Lower(a + b) == Lower(a) + Lower(b)
  {
    assert forall i :: 0 <= i < |a| ==> (a + b)[i] == a[i];
    assert forall i :: |a| <= i < |a| + |b| ==> (a + b)[i] == b[i - |a|];
  }

  /** Lower-casing twice is lower-casing once. */
  lemma LowerIdempotent(s: string)
    ensures Lower(Lower(s)) == Lower(s)
  {
  }

  predicate StartsWith(s: string, p: string)
  {
    |p| <= |s| && s[..|p|] == p
  }

  /** Python `sub in s`. */
  predicate Contains(s: string, sub: string)
    decreases |s|
  {
    StartsWith(s, sub) || (|s| > 0 && Contains(s[1..], sub))
  }

  /** Every character of a contained substring occurs in the string. */
  lemma {:induction false} ContainsChar(s: string, sub: string, c: char)
    requires Contains(s, sub) && c in sub
    ensures c in s
    decreases |s|
  {
    if StartsWith(s, sub) {
      var k :| 0 <= k < |sub| && sub[k] == c;
      assert s[k] == c;
    } else {
      ContainsChar(s[1..], sub, c);
      var k :| 0 <= k < |s[1..]| && s[1..][k] == c;
      assert s[k + 1] == c;
    }
  }

  /** A string contains itself (Dafny cannot see the first disjunct alone). */
  lemma ContainsSelfPrefix(s: string, t: string)
    ensures Contains(s + t, s)
  {
    assert (s + t)[..|s|] == s;
  }

  /** A substring of a suffix is a substring of the whole. */
  lemma {:induction false} ContainsAfter(p: string, s: string, sub: string)
    requires Contains(s, sub)
    ensures Contains(p + s, sub)
    decreases |p|
  {
    if p == [] {
      assert p + s == s;
    } else {
      ContainsAfter(p[1..], s, sub);
      assert (p + s)[1..] == p[1..] + s;
    }
  }

  function DigitChar(d: nat): char
    requires d < 10
  {
    ('0' as int + d) as char
  }

  /** Decimal rendering of a natural number, as Python `str(n)`. */
  function NatToString(n: nat): (r: string)
    ensures |r| >= 1
    ensures forall i :: 0 <= i < |r| ==> '0' <= r[i] <= '9'
    decreases n
  {
    if n < 10 then [DigitChar(n)] else NatToString(n / 10) + [DigitChar(n % 10)]
  }

  /** Decimal rendering of an integer, as Python `str(i)`. */
  function IntToString(i: int): (r: string)
    ensures |r| >= 1
    ensures forall k :: 0 <= k < |r| ==> r[k] == '-' || '0' <= r[k] <= '9'
  {
    if i < 0 then "-" + NatToString(-i) else NatToString(i)
  }

  /** Different numbers are rendered differently. */
  lemma {:induction false} NatToStringInjective(a: nat, b: nat)
    requires NatToString(a) == NatToString(b)
    ensures a == b
    decreases a
  {
    OneDigit(a);
    OneDigit(b);
    if a < 10 {
      assert NatToString(a)[0] == DigitChar(a);
    } else {
      var ra := NatToString(a / 10);
      var rb := NatToString(b / 10);
      assert NatToString(a) == ra + [DigitChar(a % 10)];
      assert NatToString(b) == rb + [DigitChar(b % 10)];
      assert ra == NatToString(a)[..|ra|] == NatToString(b)[..|rb|] == rb;
      assert DigitChar(a % 10) == NatToString(a)[|ra|] == DigitChar(b % 10);
      NatToStringInjective(a / 10, b / 10);
    }
  }

  /** Exactly the numbers below ten are rendered with one digit. */
  lemma OneDigit(n: nat)
    ensures |NatToString(n)| == 1 <==> n < 10
  {
    if n >= 10 {
      assert |NatToString(n)| == |NatToString(n / 10)| + 1;
    }
  }

  /** Python `str` of an integer determines the integer. */
  lemma IntToStringInjective(i: int, j: int)
    requires IntToString(i) == IntToString(j)
    ensures i == j
  {
    SignChar(i);
    SignChar(j);
    if i < 0 {
      assert NatToString(-i) == IntToString(i)[1..] == IntToString(j)[1..] == NatToString(-j);
      NatToStringInjective(-i, -j);
    } else {
      NatToStringInjective(i, j);
    }
  }

  /** A rendered integer starts with `-` exactly when it is negative. */
  lemma SignChar(i: int)
    ensures IntToString(i)[0] == '-' <==> i < 0
  {
    if i >= 0 {
      assert IntToString(i)[0] == NatToString(i)[0];
    }
  }

  /** The character `c` does not occur in `s`. */
  predicate NoChar(s: string, c: char)
  {
    forall k :: 0 <= k < |s| ==> s[k] != c
  }

  /** Position of the first `c` in `s`, or `|s|` when there is none. */
  function IndexOf(s: string, c: char): nat
  {
    if s == [] then 0 else if s[0] == c then 0 else 1 + IndexOf(s[1..], c)
  }

  /** The first `c` of `a + x` is the first character of `x` when `a`
      holds no `c` and `x` starts with one. */
  lemma {:induction false} IndexOfSplit(a: string, x: string, c: char)
    requires NoChar(a, c) && |x| > 0 && x[0] == c
    ensures IndexOf(a + x, c) == |a|
  {
    if a == [] {
      assert a + x == x;
    } else {
      assert (a + x)[1..] == a[1..] + x;
      IndexOfSplit(a[1..], x, c);
    }
  }

  /** Two texts that each begin with a `c`-free part followed by `c` split
      the same way. */
  lemma SplitAtChar(a: string, x: string, b: string, y: string, c: char)
    requires NoChar(a, c) && NoChar(b, c)
    requires |x| > 0 && x[0] == c && |y| > 0 && y[0] == c
    requires a + x == b + y
    ensures a == b && x == y
  {
    IndexOfSplit(a, x, c);
    IndexOfSplit(b, y, c);
    assert a == (a + x)[..|a|] == (b + y)[..|b|] == b;
    assert x == (a + x)[|a|..] == (b + y)[|b|..] == y;
  }

  /** Joining with a separator character loses nothing when only the last
      part may contain that character. */
  lemma {:induction false} JoinInjective(ps: seq<string>, qs: seq<string>, c: char)
    requires |ps| == |qs| >= 1
    requires forall k :: 0 <= k < |ps| - 1 ==> NoChar(ps[k], c) && NoChar(qs[k], c)
    requires Join(ps, [c]) == Join(qs, [c])
    ensures ps == qs
  {
    if |ps| > 1 {
      var jp := Join(ps[1..], [c]);
      var jq := Join(qs[1..], [c]);
      assert Join(ps, [c]) == ps[0] + ([c] + jp);
      assert Join(qs, [c]) == qs[0] + ([c] + jq);
      SplitAtChar(ps[0], [c] + jp, qs[0], [c] + jq, c);
      assert jp == ([c] + jp)[1..] == ([c] + jq)[1..] == jq;
      JoinInjective(ps[1..], qs[1..], c);
      assert ps == [ps[0]] + ps[1..] == [qs[0]] + qs[1..] == qs;
    }
  }

  /** The first part of a join of at least two parts, then the separator. */
  lemma JoinHead(parts: seq<string>, sep: string)
    requires |parts| >= 2
    ensures Join(parts, sep) == parts[0] + sep + Join(parts[1..], sep)
  {
  }

  /** A common prefix can be dropped. */
  lemma DropPrefix(p: string, x: string, y: string)
    requires p + x == p + y
    ensures x == y
  {
    assert x == (p + x)[|p|..] == (p + y)[|p|..] == y;
  }

  /** Python `sep.join(parts)`. */
  function Join(parts: seq<string>, sep: string): string
  {
    if |parts| == 0 then ""
    else if |parts| == 1 then parts[0]
    else parts[0] + sep + Join(parts[1..], sep)
  }

  /** Python `c * n` for a one-character string and `n >= 0`. */
  function Repeat(c: char, n: nat): (r: string)
    ensures |r| == n
    ensures forall i :: 0 <= i < n ==> r[i] == c
  {
    if n == 0 then "" else [c] + Repeat(c, n - 1)
  }

  /** Python `s.replace(c, r)` for a one-character pattern. */
  function Replace(s: string, c: char, r: string): string
  {
    if s == [] then "" else (if s[0] == c then r else [s[0]]) + Replace(s[1..], c, r)
  }

  lemma {:induction false} ReplaceAppend(a: string, b: string, c: char, r: string)
    ensures Replace(a + b, c, r) == Replace(a, c, r) + Replace(b, c, r)
  {
    if a == [] {
      assert a + b == b;
    } else {
      assert (a + b)[1..] == a[1..] + b;
      ReplaceAppend(a[1..], b, c, r);
    }
  }

  /** Replacing a character that does not occur is the identity. */
  lemma {:induction false} ReplaceAbsent(s: string, c: char, r: string)
    requires c !in s
    ensures Replace(s, c, r) == s
  {
    if s != [] {
      ReplaceAbsent(s[1..], c, r);
    }
  }

  /** Code-point lexicographic order: Python's `<` on `str`. */
  predicate LexLess(a: string, b: string)
    decreases |a|
  {
    if |a| == 0 then |b| > 0
    else if |b| == 0 then false
    else if a[0] != b[0] then a[0] < b[0]
    else LexLess(a[1..], b[1..])
  }

  predicate LexLeq(a: string, b: string)
  {
    a == b || LexLess(a, b)
  }

  lemma {:induction false} LexLessIrreflexive(a: string)
    ensures !LexLess(a, a)
    decreases |a|
  {
    if |a| > 0 {
      LexLessIrreflexive(a[1..]);
    }
  }

  lemma {:induction false} LexLessTotal(a: string, b: string)
    ensures a == b || LexLess(a, b) || LexLess(b, a)
    decreases |a|
  {
    if |a| > 0 && |b| > 0 && a[0] == b[0] {
      LexLessTotal(a[1..], b[1..]);
      if a[1..] == b[1..] {
        assert a == [a[0]] + a[1..] && b == [b[0]] + b[1..];
      }
    }
  }

  lemma {:induction false} LexLessTransitive(a: string, b: string, c: string)
    requires LexLess(a, b) && LexLess(b, c)
    ensures LexLess(a, c)
    decreases |a|
  {
    if |a| > 0 && a[0] == b[0] && b[0] == c[0] {
      LexLessTransitive(a[1..], b[1..], c[1..]);
    }
  }

  lemma LexLessAsymmetric(a: string, b: string)
    requires LexLess(a, b)
    ensures !LexLess(b, a)
  {
    if LexLess(b, a) {
      LexLessTransitive(a, b, a);
      LexLessIrreflexive(a);
    }
  }

  /** Python's `str.isspace`: the ASCII whitespace \t to \r, the separators
      0x1C to 0x1F, the space, and the Unicode spaces and line breaks. */
  predicate IsSpace(c: char)
  {
    var n := c as int;
    (9 <= n <= 13) || (28 <= n <= 32) || n == 0x85 || n == 0xA0 || n == 0x1680
    || (0x2000 <= n <= 0x200A) || n == 0x2028 || n == 0x2029 || n == 0x202F
    || n == 0x205F || n == 0x3000
  }

  function StripLeft(s: string): string
  {
    if s != [] && IsSpace(s[0]) then StripLeft(s[1..]) else s
  }

  function StripRight(s: string): string
  {
    if s != [] && IsSpace(s[|s| - 1]) then StripRight(s[..|s| - 1]) else s
  }

  /** Python `s.strip()`: whitespace removed at both ends. */
  function Strip(s: string): string
  {
    StripRight(StripLeft(s))
  }
}

=== FILE: time_windows.dfy ===
/** Client time windows around a baseline arrival time.

    Family "A" centres a window of half-width Δ minutes on the baseline time
    and clips its start at zero.  Family "B" (the comparison is
    case-insensitive) shrinks the width, moves the centre by a Gaussian draw
    and keeps at least one minute of width.  The draws are an input: `jitter[i]`
    is the deviation already drawn for client `i`. */
module TimeWindows {
  import opened Numeric
  import opened Text

  /** Width factor of family B: the configured shrink clamped to [0.2, 1]. */
  function ShrinkFactor(shrink: real): (f: real)
    ensures 0.2 <= f <= 1.0
    ensures 0.2 <= shrink <= 1.0 ==> f == shrink
  {
    Max(0.2, Min(1.0, shrink))
  }

  predicate IsFamilyB(family: string)
  {
    Upper(family) == "B"
  }

  /** One family-A window. */
  function WindowA(b: real, deltaMin: int): (w: (real, real))
    ensures w.0 >= 0.0
  {
    var deltaS := deltaMin as real * 60.0;
    (Max(0.0, b - deltaS), b + deltaS)
  }

  /** One family-B window, built from the family-A window of the same client. */
  function WindowB(b: real, deltaMin: int, jitter: real, shrink: real): (w: (real, real))
    ensures w.0 >= 0.0
    ensures w.1 >= w.0 + 60.0
  {
    var a := WindowA(b, deltaMin);
    var width := (a.1 - a.0) * ShrinkFactor(shrink);
    var center := b + jitter;
    var early := Max(0.0, center - width / 2.0);
    (early, Max(early + 60.0, center + width / 2.0))
  }

  /** `build_time_windows`: the early and late bounds of every client. */
  function BuildTimeWindows(baseline: seq<real>, deltaMin: int, family: string,
                            jitter: seq<real>, shrink: real): (w: (seq<real>, seq<real>))
    requires IsFamilyB(family) ==> |jitter| == |baseline|
    ensures |w.0| == |baseline| && |w.1| == |baseline|
    ensures forall i :: 0 <= i < |baseline| ==> w.0[i] >= 0.0
    ensures !IsFamilyB(family) ==>
      forall i :: 0 <= i < |baseline| ==> (w.0[i], w.1[i]) == WindowA(baseline[i], deltaMin)
    ensures IsFamilyB(family) ==>
      forall i :: 0 <= i < |baseline| ==>
        (w.0[i], w.1[i]) == WindowB(baseline[i], deltaMin, jitter[i], shrink)
  {
    if !IsFamilyB(family) then
      (seq(|baseline|, i requires 0 <= i < |baseline| => WindowA(baseline[i], deltaMin).0),
       seq(|baseline|, i requires 0 <= i < |baseline| => WindowA(baseline[i], deltaMin).1))
    else
      (seq(|baseline|, i requires 0 <= i < |baseline| => WindowB(baseline[i], deltaMin, jitter[i], shrink).0),
       seq(|baseline|, i requires 0 <= i < |baseline| => WindowB(baseline[i], deltaMin, jitter[i], shrink).1))
  }

  /** A family-A window contains its baseline time whenever Δ ≥ 0 and the
      baseline is not negative, and it is non-empty once Δ > 0. */
  lemma WindowAContainsBaseline(b: real, deltaMin: int)
    requires deltaMin >= 0 && b >= 0.0
    ensures WindowA(b, deltaMin).0 <= b <= WindowA(b, deltaMin).1
    ensures deltaMin > 0 ==> WindowA(b, deltaMin).1 > WindowA(b, deltaMin).0
  {
  }

  /** Unless clipped at zero, a family-A window is exactly 2Δ minutes wide. */
  lemma WindowAWidth(b: real, deltaMin: int)
    requires b >= deltaMin as real * 60.0
    ensures WindowA(b, deltaMin).1 - WindowA(b, deltaMin).0 == 2.0 * (deltaMin as real * 60.0)
  {
  }

  /** A family-B window away from zero is never narrower than a minute and
      never wider than the family-A window, unless that minute is what
      widens it. */
  lemma WindowBWidth(b: real, deltaMin: int, jitter: real, shrink: real)
    requires deltaMin >= 0 && b >= deltaMin as real * 60.0
    requires b + jitter >= deltaMin as real * 60.0
    ensures var wb := WindowB(b, deltaMin, jitter, shrink);
      var wa := WindowA(b, deltaMin);
      wb.1 - wb.0 == Max(60.0, (wa.1 - wa.0) * ShrinkFactor(shrink))
      && wb.1 - wb.0 <= Max(60.0, wa.1 - wa.0)
  {
    var wa := WindowA(b, deltaMin);
    var f := ShrinkFactor(shrink);
    var width := (wa.1 - wa.0) * f;
    assert wa.1 - wa.0 == 2.0 * (deltaMin as real * 60.0);
    assert width <= wa.1 - wa.0 by {
      ScaleAtMost(wa.1 - wa.0, f);
    }
    assert b + jitter - width / 2.0 >= 0.0;
  }

  lemma ScaleAtMost(x: real, f: real)
    requires x >= 0.0 && 0.0 <= f <= 1.0
    ensures x * f <= x
  {
  }

  /** Every window of either family ends after it starts. */
  lemma WindowsNonEmpty(baseline: seq<real>, deltaMin: int, family: string,
                        jitter: seq<real>, shrink: real, i: nat)
    requires IsFamilyB(family) ==> |jitter| == |baseline|
    requires i < |baseline|
    requires !IsFamilyB(family) ==> deltaMin > 0 && baseline[i] >= 0.0
    ensures var w := BuildTimeWindows(baseline, deltaMin, family, jitter, shrink);
      w.1[i] > w.0[i]
  {
    if !IsFamilyB(family) {
      WindowAContainsBaseline(baseline[i], deltaMin);
    }
  }

  /** The family is matched without regard to case. */
  lemma FamilyCaseInsensitive(baseline: seq<real>, deltaMin: int, jitter: seq<real>, shrink: real)
    requires |jitter| == |baseline|
    ensures BuildTimeWindows(baseline, deltaMin, "b", jitter, shrink)
         == BuildTimeWindows(baseline, deltaMin, "B", jitter, shrink)
  {
    assert Upper("b") == "B";
    assert Upper("B") == "B";
  }

  /** Baselines 300, 600 and 900 s with Δ = 5 min in family A give the
      window [300, 900] to the middle client. */
  lemma FamilyAExample()
    ensures !IsFamilyB("A")
    ensures var w := BuildTimeWindows([300.0, 600.0, 900.0], 5, "A", [], 0.8);
      w.0[1] == 300.0 && w.1[1] == 900.0 && w.0[0] == 0.0
      && forall i :: 0 <= i < 3 ==> w.1[i] > w.0[i]
  {
    assert Upper("A") == "A";
  }
}

=== FILE: travel_time.dfy ===
/** Distance and travel-time matrices (costs/travel_time.py).  The Euclidean
    norm of a coordinate difference is a parameter. */
module TravelTime {
  import opened Numeric
  import opened Schema
  import opened Matrices

  /** `np.linalg.norm(p - q)` for a given norm of difference vectors. */
  function Dist(norm: Point -> real): (Point, Point) -> real
  {
    (p: Point, q: Point) => norm((p.0 - q.0, p.1 - q.1))
  }

  /** The distance half of `compute_distance_and_time_matrices`: square over
      the depot and the clients, symmetric, zero on the diagonal, and the upper
      entry is the norm of the lower-index node minus the higher-index node. */
  function DistanceMatrix(sc: ScenarioData, norm: Point -> real): (d: Matrix)
    ensures Square(d, |sc.clientXy| + 1)
    ensures Symmetric(d, |sc.clientXy| + 1) && ZeroDiagonal(d, |sc.clientXy| + 1)
    ensures forall i, j :: 0 <= i < j < |sc.clientXy| + 1 ==>
      d[i][j] == norm((Coords(sc)[i].0 - Coords(sc)[j].0, Coords(sc)[i].1 - Coords(sc)[j].1))
  {
    PairMatrix(Coords(sc), Dist(norm))
  }

  /** The speed divisor, floored at `1e-9` so that it is never zero. */
  function SafeSpeed(sc: ScenarioData): (v: real)
    ensures v >= 1e-9 && v >= sc.speedMps
    ensures sc.speedMps >= 1e-9 ==> v == sc.speedMps
  {
    Max(1e-9, sc.speedMps)
  }

  /** The travel-time half: every distance over the floored speed; the
      matrix is symmetric with a zero diagonal like the distances. */
  function TravelTimeMatrix(sc: ScenarioData, norm: Point -> real): (t: Matrix)
    ensures Square(t, |sc.clientXy| + 1)
    ensures Symmetric(t, |sc.clientXy| + 1) && ZeroDiagonal(t, |sc.clientXy| + 1)
    ensures forall i, j :: 0 <= i < |sc.clientXy| + 1 && 0 <= j < |sc.clientXy| + 1 ==>
      t[i][j] == DistanceMatrix(sc, norm)[i][j] / SafeSpeed(sc)
  {
    DivideAll(DistanceMatrix(sc, norm), |sc.clientXy| + 1, SafeSpeed(sc))
  }

  lemma QuotientNonNegative(x: real, v: real)
    requires x >= 0.0 && v > 0.0
    ensures x / v >= 0.0
  {
  }

  /** A norm never goes negative, so neither do distances ... */
  lemma DistanceNonNegative(sc: ScenarioData, norm: Point -> real)
    requires forall v: Point :: norm(v) >= 0.0
    ensures var k := |sc.clientXy| + 1;
      var d := DistanceMatrix(sc, norm);
      forall i, j :: 0 <= i < k && 0 <= j < k ==> d[i][j] >= 0.0
  {
    var k := |sc.clientXy| + 1;
    var d := DistanceMatrix(sc, norm);
    var c := Coords(sc);
    forall i, j | 0 <= i < k && 0 <= j < k
      ensures d[i][j] >= 0.0
    {
      if i < j {
        assert d[i][j] == norm((c[i].0 - c[j].0, c[i].1 - c[j].1));
      } else if i > j {
        assert d[j][i] == norm((c[j].0 - c[i].0, c[j].1 - c[i].1));
        assert d[i][j] == d[j][i];
      }
    }
  }

  /** ... or travel times. */
  lemma TravelTimeNonNegative(sc: ScenarioData, norm: Point -> real)
    requires forall v: Point :: norm(v) >= 0.0
    ensures var k := |sc.clientXy| + 1;
      var t := TravelTimeMatrix(sc, norm);
      forall i, j :: 0 <= i < k && 0 <= j < k ==> t[i][j] >= 0.0
  {
    var k := |sc.clientXy| + 1;
    var d := DistanceMatrix(sc, norm);
    var t := TravelTimeMatrix(sc, norm);
    DistanceNonNegative(sc, norm);
    forall i, j | 0 <= i < k && 0 <= j < k
      ensures t[i][j] >= 0.0
    {
      QuotientNonNegative(d[i][j], SafeSpeed(sc));
    }
  }
}
